=== FILE: README.md ===
# twitterx in Dafny

A model of the decision logic of twitterx, a Telegram bot that relays
tweets. It fetches tweets through FxTwitter or a Nitter RSS feed, assembles
them into threads and sends them to chats with length limits and
translations. It also answers inline queries, turns long texts into
Telegraph articles and routes updates to command executors. A background
job follows one account and sends its new tweets to subscribed chats
at most once.

Everything is modelled as immutable datatypes and pure functions over
`seq<char>` strings:

- Each HTTP call, database table, translator, localiser, clock and
  external process is a parameter:
  - a function value;
  - an in-memory map;
  - an outcome datatype.
- Exceptions become `Result` failures or `Option` values.
- Kotlin standard-library text operations are written out in `KText`:
  - `trim`, `split`, `replace`, `replaceFirst`;
  - `take`, `removePrefix`, `substringAfterLast`;
  - `lowercase`, `uppercase`, `toLong`.
- Regular expressions are written as the sets of strings they find.

Modules follow the source's components:

| module | models |
|---|---|
| `TextToDom`, `TelegraphModels` | text to Telegraph nodes, node serialisation |
| `RssParser`, `Patterns`, `NitterService` | the Nitter RSS scanner, id and user name extraction, status mapping |
| `FxConverter`, `FxService` | FxTwitter payload conversion and error mapping |
| `TwitterModels`, `TwitterService` | tweet properties and thread classification with the reply-chain walk |
| `Monitoring` | the tracked-account loop with its sent-tweet table |
| `TweetSender`, `InlineQuery` | message text, limits, send order, inline results |
| `Translation`, `Qwen`, `Localization`, `Dictionary` | language codes, reply parsing, message lookup and substitution |
| `YtDlpModels`, `YtDlpService`, `Instagram` | platform detection, size limits, command lines, the basE91 decoder and padding |
| `LegacyTwitter` | the older bot's tweet content and limits |
| `TelegramApi`, `UpdateConverter`, `ElonMuskCommand` | executor routing, update conversion, command parsing, the subscription toggle |
| `AIModels` | AI model names and record defaults |

## Model

| member | source | states |
|---|---|---|
| TextToDom.ValidateContent | article/telegraph/src/main/kotlin/twitterx/article/telegraph/TextToDomConverter.kt:35-44 | content longer than 65536 chars is too long, checked before blankness; blank content within the limit is invalid; anything else passes |
| TextToDom.Paragraphs | article/telegraph/src/main/kotlin/twitterx/article/telegraph/TextToDomConverter.kt:21-23 | the kept paragraphs are at most as many as the chunks, and none is blank |
| TextToDom.ParagraphsAppend | article/telegraph/src/main/kotlin/twitterx/article/telegraph/TextToDomConverter.kt:21-23 | the paragraphs of two chunk lists one after the other are the paragraphs of each, in order: the filter and map work chunk by chunk |
| TextToDom.ParagraphsOne | article/telegraph/src/main/kotlin/twitterx/article/telegraph/TextToDomConverter.kt:21-23 | one chunk gives no paragraph when blank and its trimmed text otherwise |
| TextToDom.TrimAll | article/telegraph/src/main/kotlin/twitterx/article/telegraph/TextToDomConverter.kt:51-53 | every line is trimmed, and there are as many lines as before |
| TextToDom.ParagraphNodes | article/telegraph/src/main/kotlin/twitterx/article/telegraph/TextToDomConverter.kt:29-32 | one node per paragraph |
| TextToDom.ParagraphNodesAt | article/telegraph/src/main/kotlin/twitterx/article/telegraph/TextToDomConverter.kt:29-32 | the i-th node is the "p" node of the i-th paragraph's processed content |
| TextToDom.ConvertTextToNodes | article/telegraph/src/main/kotlin/twitterx/article/telegraph/TextToDomConverter.kt:16-33 | too-long and blank content fail exactly as validation says, and conversion succeeds exactly for the other texts; on success the nodes are the paragraph nodes of the non-blank trimmed "\n\n" chunks in order, at least one, each a "p" element with children |
| TextToDom.NonBlankHasParagraph | article/telegraph/src/main/kotlin/twitterx/article/telegraph/TextToDomConverter.kt:21-27 | text that is not blank has a non-blank "\n\n" chunk, so the "no valid paragraphs" failure cannot follow successful validation |
| TextToDom.NoParagraphsAllBlank | article/telegraph/src/main/kotlin/twitterx/article/telegraph/TextToDomConverter.kt:21-25 | an empty paragraph list means every chunk was blank |
| TextToDom.ValidateTitle | article/telegraph/src/main/kotlin/twitterx/article/telegraph/TextToDomConverter.kt:106-116 | a blank title is invalid; a non-blank title over 256 chars is too long; otherwise the result is the trimmed title, non-empty and within 256 chars |
| TextToDom.FindAllValid | article/telegraph/src/main/kotlin/twitterx/article/telegraph/TextToDomConverter.kt:70 | the URL matches of a line are in range and each starts no earlier than the previous one ended |
| TextToDom.SegmentsText | article/telegraph/src/main/kotlin/twitterx/article/telegraph/TextToDomConverter.kt:76-100 | the text and link nodes built from the remaining matches read back as exactly the rest of the line |
| TextToDom.LineContentText | article/telegraph/src/main/kotlin/twitterx/article/telegraph/TextToDomConverter.kt:66-104 | the text and link children of a line concatenate back to the line itself |
| TextToDom.SegmentsShape | article/telegraph/src/main/kotlin/twitterx/article/telegraph/TextToDomConverter.kt:80-98 | every node built for the remaining matches is plain text or a link to a URL matched in the line |
| TextToDom.LineContentShape | article/telegraph/src/main/kotlin/twitterx/article/telegraph/TextToDomConverter.kt:72-101 | every node of a line is plain text or a link whose href is a URL matched in that line and whose one child is a text node with that URL |
| TextToDom.LineContentHasNoBreak | article/telegraph/src/main/kotlin/twitterx/article/telegraph/TextToDomConverter.kt:66-104 | the content of a line holds no "br" node |
| TextToDom.LineNodesFacts | article/telegraph/src/main/kotlin/twitterx/article/telegraph/TextToDomConverter.kt:53-56 | one line contributes no line break, and its nodes read back as the trimmed line |
| TextToDom.LinesContentUnfold | article/telegraph/src/main/kotlin/twitterx/article/telegraph/TextToDomConverter.kt:52-61 | each line's nodes are followed by a line break exactly when another line follows |
| TextToDom.LinesContentBreaks | article/telegraph/src/main/kotlin/twitterx/article/telegraph/TextToDomConverter.kt:52-61 | k lines yield exactly k-1 "br" nodes |
| TextToDom.LinesContentText | article/telegraph/src/main/kotlin/twitterx/article/telegraph/TextToDomConverter.kt:51-63 | the nodes of the lines read back as the trimmed lines joined by newlines |
| TextToDom.ParagraphContentShape | article/telegraph/src/main/kotlin/twitterx/article/telegraph/TextToDomConverter.kt:46-64 | a paragraph of k lines holds exactly k-1 "br" nodes and reads back as its trimmed lines joined by newlines |
| TextToDom.LineNodeWellFormed | article/telegraph/src/main/kotlin/twitterx/article/telegraph/TextToDomConverter.kt:83-89 | every node a line can produce is well formed |
| TextToDom.LineNodesWellFormed | article/telegraph/src/main/kotlin/twitterx/article/telegraph/TextToDomConverter.kt:53-56 | all nodes of one line are well formed |
| TextToDom.LinesContentWellFormed | article/telegraph/src/main/kotlin/twitterx/article/telegraph/TextToDomConverter.kt:52-61 | all nodes of a paragraph are well formed |
| TextToDom.ConvertedWellFormed | article/telegraph/src/main/kotlin/twitterx/article/telegraph/TextToDomConverter.kt:29-32 | every converted paragraph is well formed and survives serialisation to JSON and back unchanged |
| TelegraphModels.AttrsToJson | article/telegraph/src/main/kotlin/twitterx/article/telegraph/TelegraphModels.kt:89-96 | one JSON string field per attribute, with the same key, in order |
| TelegraphModels.ToJsonList | article/telegraph/src/main/kotlin/twitterx/article/telegraph/TelegraphModels.kt:97-99 | children serialise one by one and keep their order |
| TelegraphModels.ToJsonShape | article/telegraph/src/main/kotlin/twitterx/article/telegraph/TelegraphModels.kt:83-101 | a node serialises to a bare JSON string exactly when it has text, and that string is its text |
| TelegraphModels.AttrsFromJson | article/telegraph/src/main/kotlin/twitterx/article/telegraph/TelegraphModels.kt:89-96 | an attribute object decodes exactly when all its values are strings |
| TelegraphModels.AttrsRoundTrip | article/telegraph/src/main/kotlin/twitterx/article/telegraph/TelegraphModels.kt:89-96 | attributes survive serialisation and decoding unchanged |
| TelegraphModels.FromList | article/telegraph/src/main/kotlin/twitterx/article/telegraph/TelegraphModels.kt:97-99 | a decoded child list has one node per JSON item |
| TelegraphModels.JsonRoundTrip | article/telegraph/src/main/kotlin/twitterx/article/telegraph/TelegraphModels.kt:83-102 | a well-formed node decodes back from its JSON unchanged: the object holds only its non-null tag, attrs and children |
| TelegraphModels.DecodeFields | article/telegraph/src/main/kotlin/twitterx/article/telegraph/TelegraphModels.kt:87-100 | the tag, attrs and children fields of an element decode back to that element |
| TelegraphModels.DecodeAttrsChildren | article/telegraph/src/main/kotlin/twitterx/article/telegraph/TelegraphModels.kt:89-99 | the attrs and children fields decode back onto an element whose tag is set |
| TelegraphModels.DecodeChildren | article/telegraph/src/main/kotlin/twitterx/article/telegraph/TelegraphModels.kt:97-99 | the children field decodes back onto an element whose tag and attrs are set |
| TelegraphModels.ListRoundTrip | article/telegraph/src/main/kotlin/twitterx/article/telegraph/TelegraphModels.kt:97-99 | a list of well-formed nodes decodes back from its JSON array unchanged |
| TelegraphModels.ToJson | article/telegraph/src/main/kotlin/twitterx/article/telegraph/TelegraphModels.kt:83-101 | a node serialises to a JSON string exactly when it has text, and otherwise to an object |
| TelegraphModels.FromJson | article/telegraph/src/main/kotlin/twitterx/article/telegraph/TelegraphModels.kt:52-58 | a decoded node has text exactly when it came from a JSON string |
| TelegraphModels.FromJsonWellFormed | article/telegraph/src/main/kotlin/twitterx/article/telegraph/TelegraphModels.kt:52-58 | every decoded node is well formed: text nodes have no tag, attrs or children |
| TelegraphModels.FromListWellFormed | article/telegraph/src/main/kotlin/twitterx/article/telegraph/TelegraphModels.kt:97-99 | every node of a decoded child list is well formed |
| TelegraphModels.Link | article/telegraph/src/main/kotlin/twitterx/article/telegraph/TelegraphModels.kt:79-80 | a link over well-formed children is well formed |
| TelegraphModels.LinkRoundTrip | article/telegraph/src/main/kotlin/twitterx/article/telegraph/TelegraphModels.kt:79-101 | a link over well-formed children decodes back from its JSON unchanged |
| RssParser.IndexOfMeaning | twitter/nitter/src/main/kotlin/twitterx/twitter/nitter/RSSParser.kt:55-56 | a found index is the first occurrence at or after the start; a miss means there is none |
| RssParser.CloseNotInsideOpen | twitter/nitter/src/main/kotlin/twitterx/twitter/nitter/RSSParser.kt:53-56 | the closing tag cannot start inside the opening tag it follows, so the text between them is well defined |
| RssParser.Between | twitter/nitter/src/main/kotlin/twitterx/twitter/nitter/RSSParser.kt:52-59 | the span between the tags starts after the opening tag and lies within the document |
| RssParser.BetweenMeaning | twitter/nitter/src/main/kotlin/twitterx/twitter/nitter/RSSParser.kt:52-62 | the span runs from the end of the first opening tag to the first closing tag after it; there is none exactly when the opening tag is missing or no closing tag follows it |
| RssParser.BetweenOfElement | twitter/nitter/src/main/kotlin/twitterx/twitter/nitter/RSSParser.kt:52-59 | for a document pre + open + body + close + post with no earlier tags, the span is exactly the body |
| RssParser.ExtractValue | twitter/nitter/src/main/kotlin/twitterx/twitter/nitter/RSSParser.kt:52-63 | a missing tag gives ""; the result is always trimmed |
| RssParser.ExtractValueOfElement | twitter/nitter/src/main/kotlin/twitterx/twitter/nitter/RSSParser.kt:52-63 | the value of an element is its body, trimmed |
| RssParser.ValueBetween | twitter/nitter/src/main/kotlin/twitterx/twitter/nitter/RSSParser.kt:52-63 | no span gives ""; the result is trimmed |
| RssParser.ValueOfElement | twitter/nitter/src/main/kotlin/twitterx/twitter/nitter/RSSParser.kt:101-119 | the value of an element is its body, unwrapped from CDATA when asked, then trimmed |
| RssParser.ExtractCData | twitter/nitter/src/main/kotlin/twitterx/twitter/nitter/RSSParser.kt:101-119 | a missing tag gives ""; the result is always trimmed |
| RssParser.Uncdata | twitter/nitter/src/main/kotlin/twitterx/twitter/nitter/RSSParser.kt:114-118 | content that starts with "<![CDATA[" and ends with "]]>" loses exactly those two wrappers; other content is unchanged |
| RssParser.UncdataOfWrapped | twitter/nitter/src/main/kotlin/twitterx/twitter/nitter/RSSParser.kt:114-115 | unwrapping a wrapped value gives the value back |
| RssParser.CDataLength | twitter/nitter/src/main/kotlin/twitterx/twitter/nitter/RSSParser.kt:114-115 | content with both wrappers is at least 12 chars long, so the cut is in range |
| RssParser.ExtractCDataOfElement | twitter/nitter/src/main/kotlin/twitterx/twitter/nitter/RSSParser.kt:101-119 | the value of an element whose body is one CDATA section is that section's text, trimmed |
| RssParser.ElementTags | twitter/nitter/src/main/kotlin/twitterx/twitter/nitter/RSSParser.kt:53-54 | an element's opening and closing tags never clash |
| RssParser.ItemSpansStep | twitter/nitter/src/main/kotlin/twitterx/twitter/nitter/RSSParser.kt:65-88 | the scan stops exactly when no "<item>" or no "</item>" after it is left; otherwise it records that block and resumes strictly later, after its "</item>" |
| RssParser.ItemSpansShape | twitter/nitter/src/main/kotlin/twitterx/twitter/nitter/RSSParser.kt:65-88 | the item blocks are complete "<item>…</item>" blocks in document order, each the first one after the previous, and the scan stops at the first unmatched one |
| RssParser.ItemSpans | twitter/nitter/src/main/kotlin/twitterx/twitter/nitter/RSSParser.kt:65-88 | the first block found starts at or after the scan start and ends within the document |
| RssParser.ItemSpansWithin | twitter/nitter/src/main/kotlin/twitterx/twitter/nitter/RSSParser.kt:65-88 | every block lies within the scanned part of the document |
| RssParser.ItemSpansBlocks | twitter/nitter/src/main/kotlin/twitterx/twitter/nitter/RSSParser.kt:69-84 | each block is the first "<item>" after the previous block, up to the first "</item>" after it |
| RssParser.ItemSpansStops | twitter/nitter/src/main/kotlin/twitterx/twitter/nitter/RSSParser.kt:69-78 | the scan stops only where no "<item>", or no "</item>" after it, is left |
| RssParser.ParseItem | twitter/nitter/src/main/kotlin/twitterx/twitter/nitter/RSSParser.kt:40-49 | an item keeps the description, link and guid it was parsed from, and its content is trimmed and no longer than the description |
| RssParser.ItemBlockText | twitter/nitter/src/main/kotlin/twitterx/twitter/nitter/RSSParser.kt:80 | each block starts with "<item>" and ends with "</item>" |
| RssParser.DecodeEntities | twitter/nitter/src/main/kotlin/twitterx/twitter/nitter/RSSParser.kt:135-139 | decoding entities never lengthens the text |
| RssParser.DecodeWithoutAmpersand | twitter/nitter/src/main/kotlin/twitterx/twitter/nitter/RSSParser.kt:135-139 | text without '&' is left as it is |
| RssParser.DecodeEntity | twitter/nitter/src/main/kotlin/twitterx/twitter/nitter/RSSParser.kt:135-139 | an entity other than "&amp;" between ampersand-free texts decodes to its character; "&amp;" becomes "&" and the later replacements then run on the result |
| RssParser.DecodeAlone | twitter/nitter/src/main/kotlin/twitterx/twitter/nitter/RSSParser.kt:136-139 | each of "&lt;", "&gt;", "&quot;" and "&apos;" decodes to its character |
| RssParser.DecodeDoubleEscaped | twitter/nitter/src/main/kotlin/twitterx/twitter/nitter/RSSParser.kt:135-139 | a double-escaped entity such as "&amp;lt;" decodes all the way to its character, because "&amp;" is replaced first |
| RssParser.OnlyThisEntity | twitter/nitter/src/main/kotlin/twitterx/twitter/nitter/RSSParser.kt:135-139 | between ampersand-free texts one entity never contains another |
| RssParser.ReplaceOnlyEntity | twitter/nitter/src/main/kotlin/twitterx/twitter/nitter/RSSParser.kt:135-139 | replacing an entity in text whose only ampersand is that entity changes exactly that entity |
| RssParser.CleanDescription | twitter/nitter/src/main/kotlin/twitterx/twitter/nitter/RSSParser.kt:132-141 | the cleaned text is no longer than the description and is trimmed |
| RssParser.Unmarked | twitter/nitter/src/main/kotlin/twitterx/twitter/nitter/RSSParser.kt:133-139 | removing tags and decoding entities never lengthens the text |
| RssParser.CleanEntity | twitter/nitter/src/main/kotlin/twitterx/twitter/nitter/RSSParser.kt:132-141 | a description with one entity other than "&amp;" and no tags is cleaned to that text with the entity decoded, trimmed |
| RssParser.CleanPlainText | twitter/nitter/src/main/kotlin/twitterx/twitter/nitter/RSSParser.kt:132-141 | a description without markup or entities is only trimmed |
| RssParser.ParseFeed | twitter/nitter/src/main/kotlin/twitterx/twitter/nitter/RSSParser.kt:11-21 | one item per extracted block, in the same order, and each item's content is its cleaned description |
| Patterns.RunEnd | twitter/nitter/src/main/kotlin/twitterx/twitter/nitter/NitterService.kt:82-83 | a character-class run ends at the first character outside the class |
| Patterns.MatchAt | article/telegraph/src/main/kotlin/twitterx/article/telegraph/TextToDomConverter.kt:13 | a match starting at a position is non-empty and within the text |
| Patterns.UrlMatchShape | article/telegraph/src/main/kotlin/twitterx/article/telegraph/TextToDomConverter.kt:13 | a URL match is "http://" or "https://" followed by at least one non-space, extended greedily up to the next whitespace |
| Patterns.TagMatchShape | twitter/fx/src/main/kotlin/twitterx/twitter/fx/FXTwitterConverter.kt:86-93 | a hashtag or mention match is its marker followed by the longest non-empty run of [A-Za-z0-9_] |
| Patterns.StatusMatchShape | twitter/nitter/src/main/kotlin/twitterx/twitter/nitter/NitterService.kt:66 | a status match is "/status/" followed by the longest non-empty digit run |
| Patterns.MarkupMatchShape | twitter/nitter/src/main/kotlin/twitterx/twitter/nitter/RSSParser.kt:134 | "<" starts a markup match exactly when a ">" follows, and the match ends at the first one |
| Patterns.FindFrom | twitter/nitter/src/main/kotlin/twitterx/twitter/nitter/RSSParser.kt:134 | the next match is the leftmost one at or after the start |
| Patterns.FindAll | article/telegraph/src/main/kotlin/twitterx/article/telegraph/TextToDomConverter.kt:70 | all matches, each a real match, in order and not overlapping |
| Patterns.RemoveAll | twitter/nitter/src/main/kotlin/twitterx/twitter/nitter/RSSParser.kt:134 | removing matches never lengthens the text |
| Patterns.RemoveMarkupLeavesNone | twitter/nitter/src/main/kotlin/twitterx/twitter/nitter/RSSParser.kt:134 | after markup removal no "<…>" match is left |
| Patterns.RemoveMarkupWithoutAngle | twitter/nitter/src/main/kotlin/twitterx/twitter/nitter/RSSParser.kt:134 | text without '<' is left as it is |
| NitterService.StatusFailure | twitter/nitter/src/main/kotlin/twitterx/twitter/nitter/NitterService.kt:34-49 | only a status outside 2xx fails |
| NitterService.StatusFailureCases | twitter/nitter/src/main/kotlin/twitterx/twitter/nitter/NitterService.kt:34-49 | 404 maps to AccountNotFound, 429 to RateLimitExceeded and every other status outside 2xx to ServiceUnavailable |
| NitterService.GetTweetId | twitter/nitter/src/main/kotlin/twitterx/twitter/nitter/NitterService.kt:65-78 | the result is the first non-empty digit run after "/status/"; it fails with TweetNotFound exactly when no such match exists |
| NitterService.GetTweetIdOfTweetUrl | twitter/nitter/src/main/kotlin/twitterx/twitter/nitter/NitterService.kt:65-78 | the id is read back from a tweet's own URL |
| NitterService.StatusOfTweetUrl | twitter/nitter/src/main/kotlin/twitterx/twitter/nitter/NitterService.kt:66 | the status match in a tweet URL covers the whole id |
| NitterService.NoStatusBefore | twitter/nitter/src/main/kotlin/twitterx/twitter/nitter/NitterService.kt:66 | no status match starts before the user name ends in a tweet URL |
| NitterService.GetUsername | twitter/nitter/src/main/kotlin/twitterx/twitter/nitter/NitterService.kt:80-95 | a found user name is a non-empty [A-Za-z0-9_] run; a miss fails with AccountNotFound and the message naming the URL |
| NitterService.StatusPathImpliesProfile | twitter/nitter/src/main/kotlin/twitterx/twitter/nitter/NitterService.kt:81-84 | wherever the status pattern matches, the profile pattern matches with the same group, so the second pattern never decides |
| NitterService.GetUsernameIsProfile | twitter/nitter/src/main/kotlin/twitterx/twitter/nitter/NitterService.kt:86-94 | the user name is the first pattern's group, and fails exactly when that pattern never matches |
| NitterService.GetUsernameOfAccountUrl | twitter/nitter/src/main/kotlin/twitterx/twitter/nitter/NitterService.kt:80-95 | the user name is read back from an account's own URL |
| NitterService.GetUsernameOfTweetUrl | twitter/nitter/src/main/kotlin/twitterx/twitter/nitter/NitterService.kt:80-95 | the user name is read back from a tweet's own URL |
| NitterService.NameAfterHost | twitter/nitter/src/main/kotlin/twitterx/twitter/nitter/NitterService.kt:82 | a URL of the form https://x.com/ + name + rest gives that name when the rest does not continue it |
| NitterService.LinkIds | twitter/nitter/src/main/kotlin/twitterx/twitter/nitter/NitterService.kt:56-59 | all links parse, then the ids come in item order; otherwise the first failing link's error is reported |
| NitterService.GetRecentTweetIds | twitter/nitter/src/main/kotlin/twitterx/twitter/nitter/NitterService.kt:27-63 | a failed request fails; on success there are at most `limit` ids |
| NitterService.RecentTweetIdsOfFeed | twitter/nitter/src/main/kotlin/twitterx/twitter/nitter/NitterService.kt:34-59 | status failures come first; a successful feed gives the ids of the first `limit` items |
| NitterService.RecentTweetIdsInOrder | twitter/nitter/src/main/kotlin/twitterx/twitter/nitter/NitterService.kt:54-59 | the ids are those of the first min(limit, items) links, one per item and in feed order, each link holding a tweet id |
| NitterService.IsAccountExists | twitter/nitter/src/main/kotlin/twitterx/twitter/nitter/NitterService.kt:97-105 | a failed request is a failure; otherwise the account exists exactly when the feed answers with a 2xx status |
| NitterService.GetAccount | twitter/nitter/src/main/kotlin/twitterx/twitter/nitter/NitterService.kt:107-140 | the account carries the requested user name |
| NitterService.ExistsIffAccountFetched | twitter/nitter/src/main/kotlin/twitterx/twitter/nitter/NitterService.kt:97-140 | the account is reported existing exactly when fetching it succeeds |
| NitterService.ParseNameOfTitle | twitter/nitter/src/main/kotlin/twitterx/twitter/nitter/NitterService.kt:147-151 | "name / @user" with link ending "/user" gives "name" |
| NitterService.ParseName | twitter/nitter/src/main/kotlin/twitterx/twitter/nitter/NitterService.kt:147-151 | the name is no longer than the title, and a title without " / @user" is the name as it is |
| FxConverter.HashCode | twitter/fx/src/main/kotlin/twitterx/twitter/fx/FXTwitterConverter.kt:40 | `String.hashCode` stays within the 32-bit signed range |
| FxConverter.HashCodeIsPolynomial | twitter/fx/src/main/kotlin/twitterx/twitter/fx/FXTwitterConverter.kt:40 | the wrapped hash agrees modulo 2^32 with the polynomial sum of s[i]·31^(n-1-i) |
| FxConverter.ExtractTweetIdFromUrl | twitter/fx/src/main/kotlin/twitterx/twitter/fx/FXTwitterConverter.kt:31-42 | without "/status/" the result is the decimal hash of the URL; with it, the result holds no '?' |
| FxConverter.ExtractTweetIdOfTweetUrl | twitter/fx/src/main/kotlin/twitterx/twitter/fx/FXTwitterConverter.kt:31-42 | the id is read back from a tweet's own URL: the text after the last "/status/" up to '?' or the end |
| FxConverter.MediaUrls | twitter/fx/src/main/kotlin/twitterx/twitter/fx/FXTwitterConverter.kt:55-67 | the photo URLs in order, then the mosaic jpeg when present, and nothing without media |
| FxConverter.VideoUrls | twitter/fx/src/main/kotlin/twitterx/twitter/fx/FXTwitterConverter.kt:69-83 | the video URLs in order, then the external URL only when its type is "video" |
| FxConverter.TagGroups | twitter/fx/src/main/kotlin/twitterx/twitter/fx/FXTwitterConverter.kt:85-97 | one capture per match, in order, each the match without its marker |
| FxConverter.TagGroupsShape | twitter/fx/src/main/kotlin/twitterx/twitter/fx/FXTwitterConverter.kt:85-97 | each capture follows its '#' or '@', is a non-empty [A-Za-z0-9_] run and is not followed by another such char |
| FxConverter.TagGroupsOfTag | twitter/fx/src/main/kotlin/twitterx/twitter/fx/FXTwitterConverter.kt:85-97 | a single tag reads back as its word |
| FxConverter.UrlMatches | twitter/fx/src/main/kotlin/twitterx/twitter/fx/FXTwitterConverter.kt:99-104 | one URL per match, in order, each the matched text |
| FxConverter.Convert | twitter/fx/src/main/kotlin/twitterx/twitter/fx/FXTwitterConverter.kt:11-29 | the id is the requested id, not the payload's; user name, full name and content come from the payload |
| FxConverter.ConvertRelations | twitter/fx/src/main/kotlin/twitterx/twitter/fx/FXTwitterConverter.kt:20-22 | a reply exactly when the payload replies, to the same id; a quote exactly when it quotes; never a retweet |
| FxConverter.ConvertQuoteId | twitter/fx/src/main/kotlin/twitterx/twitter/fx/FXTwitterConverter.kt:22 | the quote id is the id in the quoted tweet's URL |
| FxService.GetFxTweet | twitter/fx/src/main/kotlin/twitterx/twitter/fx/FxTwitterService.kt:32-96 | success needs a 2xx status, body code 200 and a tweet, which is the result |
| FxService.GetTweet | twitter/fx/src/main/kotlin/twitterx/twitter/fx/FxTwitterService.kt:24-30 | a converted tweet carries the requested id; a failed request fails |
| FxService.StatusBeforeBody | twitter/fx/src/main/kotlin/twitterx/twitter/fx/FxTwitterService.kt:35-57 | a non-2xx status fails whatever the body holds |
| FxService.HttpFailureCases | twitter/fx/src/main/kotlin/twitterx/twitter/fx/FxTwitterService.kt:37-56 | 404 maps to TweetNotFound, 401 to PrivateTweet, 429 to RateLimitExceeded and any other to ServiceUnavailable, each both ways |
| FxService.CodeFailureCases | twitter/fx/src/main/kotlin/twitterx/twitter/fx/FxTwitterService.kt:61-88 | body code other than 200: NOT_FOUND and PRIVATE_TWEET map to their failures, every other message to ServiceUnavailable |
| FxService.SuccessCases | twitter/fx/src/main/kotlin/twitterx/twitter/fx/FxTwitterService.kt:90-95 | code 200 without a tweet fails with TweetNotFound; with one, the result is the converted tweet under the requested id |
| TwitterModels.AccountOf | twitter/api/src/main/kotlin/twitterx/twitter/api/TwitterModels.kt:30 | the account carries the tweet's user name and full name |
| TwitterModels.TweetUrlExtendsAccountUrl | twitter/api/src/main/kotlin/twitterx/twitter/api/TwitterModels.kt:22-37 | a tweet URL is its account URL followed by "/status/" and the id |
| TwitterModels.TweetUrl | twitter/api/src/main/kotlin/twitterx/twitter/api/TwitterModels.kt:22 | the tweet URL starts with the x.com base and ends with "/status/" and the id |
| TwitterModels.AccountUrl | twitter/api/src/main/kotlin/twitterx/twitter/api/TwitterModels.kt:37 | the account URL is the x.com base followed by exactly the username |
| TwitterService.ReplyChain | twitter/impl/src/main/kotlin/twitterx/twitter/impl/TwitterServiceImpl.kt:168-175 | a chain has at least one tweet and at most `fuel` |
| TwitterService.ReplyChainLinked | twitter/impl/src/main/kotlin/twitterx/twitter/impl/TwitterServiceImpl.kt:168-175 | replies[0] is the direct parent, each next entry is the previous one's parent, and the last replies to nothing |
| TwitterService.ReplyChainFailure | twitter/impl/src/main/kotlin/twitterx/twitter/impl/TwitterServiceImpl.kt:171-172 | a failed chain reports the error of the first failed parent fetch, or ran out of fuel |
| TwitterService.ReplyChainFuel | twitter/impl/src/main/kotlin/twitterx/twitter/impl/TwitterServiceImpl.kt:171-175 | a chain that completes with some fuel completes the same with more |
| TwitterService.RootQuote | twitter/impl/src/main/kotlin/twitterx/twitter/impl/TwitterServiceImpl.kt:177-178 | the quoted tweet is present exactly when the root of the chain has a quote id and fetching it succeeds, and then it is the fetched tweet; a failed fetch gives no quoted tweet rather than a failure |
| TwitterService.GetTweetThread | twitter/impl/src/main/kotlin/twitterx/twitter/impl/TwitterServiceImpl.kt:143-201 | the thread's tweet is the requested tweet; a failed fetch of it fails the thread with the same error |
| TwitterService.ThreadKind | twitter/impl/src/main/kotlin/twitterx/twitter/impl/TwitterServiceImpl.kt:150-199 | another author gives RetweetThread, checked first; then a reply id gives Reply, else a quote id QuoteThread, else Single |
| TwitterService.ThreadParts | twitter/impl/src/main/kotlin/twitterx/twitter/impl/TwitterServiceImpl.kt:157-194 | a retweet carries the requester's account; a reply the linked chain and the root's quote; a quote thread the quoted original |
| TwitterService.ThreadFailures | twitter/impl/src/main/kotlin/twitterx/twitter/impl/TwitterServiceImpl.kt:149-199 | the thread fails exactly when the account fetch, a parent fetch or the original fetch of its kind fails; a failed root-quote fetch does not fail it, and Single never fails |
| Monitoring.LoadTweets | app/src/main/kotlin/twitter/app/features/twitter/ElonMuskMonitoringService.kt:81-83 | no more tweets than ids |
| Monitoring.LoadTweetsFetched | app/src/main/kotlin/twitter/app/features/twitter/ElonMuskMonitoringService.kt:81-83 | every loaded tweet is what fetching one of the ids returned |
| Monitoring.LoadTweetsAllLoaded | app/src/main/kotlin/twitter/app/features/twitter/ElonMuskMonitoringService.kt:81-83 | when every fetch succeeds, one tweet per id, in id order |
| Monitoring.PrefixBefore | app/src/main/kotlin/twitter/app/features/twitter/ElonMuskMonitoringService.kt:93 | the longest prefix without the given id: none of it has the id, and it stops at the first tweet that does |
| Monitoring.NewTweets | app/src/main/kotlin/twitter/app/features/twitter/ElonMuskMonitoringService.kt:90-94 | the first loaded tweet when the marker is empty, else the longest prefix without the marker id |
| Monitoring.NewTweetsBeforeMarker | app/src/main/kotlin/twitter/app/features/twitter/ElonMuskMonitoringService.kt:93 | with the marker at position i and nowhere before, the new tweets are exactly the first i |
| Monitoring.ReplyTarget | app/src/main/kotlin/twitter/app/features/twitter/ElonMuskMonitoringService.kt:155-171 | a reply answers the parent's recorded message exactly when the thread is a reply and the parent was sent to that chat |
| Monitoring.SendToSubscriber | app/src/main/kotlin/twitter/app/features/twitter/ElonMuskMonitoringService.kt:134-200 | at most one send per (tweet, subscriber) |
| Monitoring.SendToSubscriberCases | app/src/main/kotlin/twitter/app/features/twitter/ElonMuskMonitoringService.kt:136-190 | nothing is sent when the thread fetch fails or the pair was already sent; the pair is recorded exactly when a message id came back; the send replies to the reply target |
| Monitoring.Check | app/src/main/kotlin/twitter/app/features/twitter/ElonMuskMonitoringService.kt:47-132 | a run always leaves a tracking record and never changes whether tracking is active |
| Monitoring.CheckInactive | app/src/main/kotlin/twitter/app/features/twitter/ElonMuskMonitoringService.kt:59-62 | inactive tracking changes nothing and calls no collaborator |
| Monitoring.CheckNoSubscribers | app/src/main/kotlin/twitter/app/features/twitter/ElonMuskMonitoringService.kt:103-108 | without subscribers nothing is sent, nothing recorded and the marker stays |
| Monitoring.CheckMarker | app/src/main/kotlin/twitter/app/features/twitter/ElonMuskMonitoringService.kt:90-126 | the marker either stays or becomes the id of the newest loaded tweet, which a later run does not count as new; it does move to the first new tweet whenever tracking is active, the ids are fetched, something is new and a subscriber exists |
| Monitoring.CheckFirstRun | app/src/main/kotlin/twitter/app/features/twitter/ElonMuskMonitoringService.kt:90-91 | on the first run only the newest tweet is delivered, and it becomes the marker |
| Monitoring.SendTweetsOfOne | app/src/main/kotlin/twitter/app/features/twitter/ElonMuskMonitoringService.kt:112-120 | sending one tweet is sending it to each subscriber in turn |
| Monitoring.SendTweets | app/src/main/kotlin/twitter/app/features/twitter/ElonMuskMonitoringService.kt:112-120 | at most one delivery per tweet and chat, and every earlier record is kept |
| Monitoring.SendToAll | app/src/main/kotlin/twitter/app/features/twitter/ElonMuskMonitoringService.kt:113-119 | at most one delivery per chat, and every earlier record is kept |
| Monitoring.SendToAllOfTweet | app/src/main/kotlin/twitter/app/features/twitter/ElonMuskMonitoringService.kt:113-119 | every delivery of one tweet is for that tweet |
| Monitoring.ReplyRecordedExtends | app/src/main/kotlin/twitter/app/features/twitter/ElonMuskMonitoringService.kt:155-171 | a reply target recorded before stays recorded as the table grows |
| Monitoring.NewRecordAppend | app/src/main/kotlin/twitter/app/features/twitter/ElonMuskMonitoringService.kt:180-190 | a record backed by a delivery stays backed when more deliveries follow |
| Monitoring.NewRecordPrepend | app/src/main/kotlin/twitter/app/features/twitter/ElonMuskMonitoringService.kt:180-190 | a record backed by a delivery stays backed when deliveries precede it |
| Monitoring.KeepsCompose | app/src/main/kotlin/twitter/app/features/twitter/ElonMuskMonitoringService.kt:112-120 | two steps that each keep the table's invariant compose into one |
| Monitoring.SendToSubscriberKeeps | app/src/main/kotlin/twitter/app/features/twitter/ElonMuskMonitoringService.kt:134-200 | one send keeps old records, never resends a recorded pair, replies only to a recorded parent message, and records only main tweets of their own thread holding the returned message id |
| Monitoring.SendToAllKeeps | app/src/main/kotlin/twitter/app/features/twitter/ElonMuskMonitoringService.kt:113-119 | sending one tweet to all subscribers keeps that invariant |
| Monitoring.SendTweetsKeeps | app/src/main/kotlin/twitter/app/features/twitter/ElonMuskMonitoringService.kt:112-120 | sending all new tweets keeps that invariant |
| Monitoring.CheckKeepsSent | app/src/main/kotlin/twitter/app/features/twitter/ElonMuskMonitoringService.kt:47-132 | a whole run keeps that invariant: no (tweet, chat) pair with a record is sent again |
| Monitoring.SendToAllReaches | app/src/main/kotlin/twitter/app/features/twitter/ElonMuskMonitoringService.kt:113-119 | every subscriber the tweet reaches ends up recorded for it, whatever failed for the others |
| Monitoring.SendTweetsReaches | app/src/main/kotlin/twitter/app/features/twitter/ElonMuskMonitoringService.kt:112-120 | every reached (tweet, subscriber) pair ends up recorded: one failure does not stop the others |
| Monitoring.CheckReachesSubscribers | app/src/main/kotlin/twitter/app/features/twitter/ElonMuskMonitoringService.kt:47-132 | in an active run, each new tweet that reaches a subscriber ends up recorded for that chat |
| TweetSender.LimitOf | app/src/main/kotlin/twitter/app/features/twitter/TweetSender.kt:26-27 | a tweet with photos or videos is held to the 1024-character caption limit, any other to the 4096-character message limit |
| TweetSender.Fit | app/src/main/kotlin/twitter/app/features/twitter/TweetSender.kt:42-67 | text within the limit is sent whole; longer text is replaced by header plus article link, or, when no article can be made, cut to limit-3 characters plus "..." so it is exactly the limit long |
| TweetSender.FitBounds | app/src/main/kotlin/twitter/app/features/twitter/TweetSender.kt:45-67 | the result never exceeds the limit unless an article link replaces the content, and it always begins with a header that fits |
| TweetSender.Dispatch | app/src/main/kotlin/twitter/app/features/twitter/TweetSender.kt:84-122 | the post goes to the chat, answers the given message and carries the text exactly |
| TweetSender.DispatchKeepsMedia | app/src/main/kotlin/twitter/app/features/twitter/TweetSender.kt:84-414 | the post carries all photos then all videos; plain text exactly when the tweet has no media; a single photo or a single video only when that is all it has |
| TweetSender.TranslateContent | app/src/main/kotlin/twitter/app/features/twitter/TweetSender.kt:238-253 | the result always ends with the original content |
| TweetSender.TranslateContentKept | app/src/main/kotlin/twitter/app/features/twitter/TweetSender.kt:238-253 | the content is left as is exactly when it is empty, translation fails or the source language already is the target |
| TweetSender.TranslateContentLeads | app/src/main/kotlin/twitter/app/features/twitter/TweetSender.kt:238-253 | a translation into another language gives exactly "[TO] translated\n\n[FROM] original", with both codes upper-cased, so it is longer than the original |
| TweetSender.FormatHeader | app/src/main/kotlin/twitter/app/features/twitter/TweetSender.kt:255-272 | the header opens with the localised tweet-from message built from the tweet's parameters and ends with " by " and the requester when there is one |
| TweetSender.RetweetHeader | app/src/main/kotlin/twitter/app/features/twitter/TweetSender.kt:211-227 | the retweet header opens with the localised retweet-by message and ends with " by " and the requester when there is one |
| TweetSender.HeaderWithRequester | app/src/main/kotlin/twitter/app/features/twitter/TweetSender.kt:225-272 | naming a requester appends exactly " by " and the name to the header without one |
| TweetSender.SinglePost | app/src/main/kotlin/twitter/app/features/twitter/TweetSender.kt:148-167 | one tweet becomes one post to that chat, answering the given message, with all its media |
| TweetSender.Chain | app/src/main/kotlin/twitter/app/features/twitter/TweetSender.kt:182-190 | one post per tweet; the id reported is the last post's message, or the given one when there are no tweets |
| TweetSender.ChainPosts | app/src/main/kotlin/twitter/app/features/twitter/TweetSender.kt:184-188 | the k-th post is made for the k-th tweet, answers the message the post before it produced (the first answers the given one) and only the last names the requester |
| TweetSender.Reversed | app/src/main/kotlin/twitter/app/features/twitter/TweetSender.kt:180 | the reversal has the same length and reads the sequence back to front |
| TweetSender.ReplyOrder | app/src/main/kotlin/twitter/app/features/twitter/TweetSender.kt:176-180 | the quoted tweet (if any), then the replies newest-last reversed, then the tweet itself, which comes last |
| TweetSender.ReplyOrderParents | app/src/main/kotlin/twitter/app/features/twitter/TweetSender.kt:177-180 | the quoted tweet comes first and the replies appear in reverse order right after it |
| TweetSender.SendThread | app/src/main/kotlin/twitter/app/features/twitter/TweetSender.kt:125-146 | every thread makes at least one post and reports the message id of its last post |
| TweetSender.RetweetPost | app/src/main/kotlin/twitter/app/features/twitter/TweetSender.kt:204-236 | a retweet is one post to the chat answering the given message with the retweeted tweet's media |
| TweetSender.SinglePosterKeeps | app/src/main/kotlin/twitter/app/features/twitter/TweetSender.kt:148-167 | the single-tweet poster sends to the chat given, answers the message given and attaches the tweet's media |
| TweetSender.InTurnFollows | app/src/main/kotlin/twitter/app/features/twitter/TweetSender.kt:184-190 | posts made in turn by such a poster follow one another: each answers the previous post's message |
| TweetSender.SendThreadInTurn | app/src/main/kotlin/twitter/app/features/twitter/TweetSender.kt:132-202 | single, reply and quote threads are sent as one chain of single-tweet posts over the thread's tweets |
| TweetSender.SendThreadPosts | app/src/main/kotlin/twitter/app/features/twitter/TweetSender.kt:125-202 | for every thread kind the posts go to the chat, follow one another in reply and carry each tweet's media |
| TweetSender.RetweetThreadPosts | app/src/main/kotlin/twitter/app/features/twitter/TweetSender.kt:204-236 | a retweet thread is one post answering the given message |
| TweetSender.OnePostFollows | app/src/main/kotlin/twitter/app/features/twitter/TweetSender.kt:148-236 | a delivery of one post for one tweet, to the chat, answering the given message with the tweet's media, follows in order |
| InlineQuery.ProcessMedia | app/src/main/kotlin/twitter/app/features/twitter/InlineMediaProcessor.kt:25-63 | a tweet has inline media exactly when it has a photo, and then the photo shown is its last one; videos alone give no media |
| InlineQuery.ProcessMediaIgnoresVideos | app/src/main/kotlin/twitter/app/features/twitter/InlineMediaProcessor.kt:25-63 | the photo shown is one of the tweet's photos, and changing the videos never changes the choice |
| InlineQuery.ResultIdsDistinct | app/src/main/kotlin/twitter/app/features/twitter/TwitterInlineQueryExecutor.kt:126 | a result id ends with its language's code, so the results for different languages never share an id |
| InlineQuery.Description | app/src/main/kotlin/twitter/app/features/twitter/TwitterInlineQueryExecutor.kt:128 | content of at most 100 characters is the description; longer content is cut to 100 characters plus "...", 103 in all |
| InlineQuery.ResultFor | app/src/main/kotlin/twitter/app/features/twitter/TwitterInlineQueryExecutor.kt:116-177 | the result carries the tweet-and-language id; it is a photo result exactly when the tweet has photos, with the last photo as picture and thumbnail |
| InlineQuery.ResultForText | app/src/main/kotlin/twitter/app/features/twitter/TwitterInlineQueryExecutor.kt:121-165 | the result text is header plus translated content fitted to the caption limit for a photo and the message limit otherwise, as for a sent tweet; a video-only tweet becomes an article result |
| InlineQuery.CreateResults | app/src/main/kotlin/twitter/app/features/twitter/TwitterInlineQueryExecutor.kt:95-114 | one result per language, in language order, all for the thread's main tweet |
| InlineQuery.CreateResultsCover | app/src/main/kotlin/twitter/app/features/twitter/TwitterInlineQueryExecutor.kt:95-114 | every language has a result and no two results share an id |
| InlineQuery.CreateResultsHas | app/src/main/kotlin/twitter/app/features/twitter/TwitterInlineQueryExecutor.kt:95-114 | the result for each language is among the results |
| InlineQuery.CreateResultsDistinct | app/src/main/kotlin/twitter/app/features/twitter/TwitterInlineQueryExecutor.kt:95-114 | no two results of one thread share an id |
| InlineQuery.ProcessQuery | app/src/main/kotlin/twitter/app/features/twitter/TwitterInlineQueryExecutor.kt:69-93 | a query without a tweet id or without a user name gives no results |
| InlineQuery.ProcessAnswers | app/src/main/kotlin/twitter/app/features/twitter/TwitterInlineQueryExecutor.kt:42-93 | the answer is empty or one result per language, and non-empty exactly when the trimmed query names a tweet id and user and that thread is fetched |
| InlineQuery.CannotProcessNoResults | app/src/main/kotlin/twitter/app/features/twitter/TwitterInlineQueryExecutor.kt:37-53 | a query the executor declines would also be answered with nothing |
| InlineQuery.CanProcess | app/src/main/kotlin/twitter/app/features/twitter/TwitterInlineQueryExecutor.kt:37-40 | a query is handled exactly when its trimmed text holds a tweet status id |
| InlineQuery.Process | app/src/main/kotlin/twitter/app/features/twitter/TwitterInlineQueryExecutor.kt:42-53 | a query that cannot be handled gives no results |
| Translation.Iso | translations/api/src/main/kotlin/twitterx/translation/api/Translation.kt:13-17 | every language code is two letters long |
| Translation.LanguageOfIso | translations/api/src/main/kotlin/twitterx/translation/api/Translation.kt:13-17 | a code is read back only as the language that has it |
| Translation.LanguagesListed | translations/api/src/main/kotlin/twitterx/translation/api/Translation.kt:13-17 | every language is listed and read back from its own code |
| Translation.IsoInjective | translations/api/src/main/kotlin/twitterx/translation/api/Translation.kt:13-17 | two languages share a code exactly when they are the same language |
| Translation.SameLanguageOfCode | translations/api/src/main/kotlin/twitterx/translation/api/Translation.kt:8-10 | a translation counts as same-language exactly when its source code is the target's code; the text plays no part, and one source code matches at most one target |
| Translation.IsSameLanguage | translations/api/src/main/kotlin/twitterx/translation/api/Translation.kt:8-10 | a translation is into the same language exactly when its source code is the ISO code of its target |
| Qwen.NormalizeSource | translations/qween/src/main/kotlin/twitter/translations/qween/QwenTranslationService.kt:109-114 | the reported source language always becomes one of "en", "uk", "ru" |
| Qwen.NormalizeSourceCases | translations/qween/src/main/kotlin/twitter/translations/qween/QwenTranslationService.kt:109-114 | "uk" exactly for uk or ukrainian and "ru" exactly for ru or russian in any letter case, "en" for everything else; case does not matter, normalising twice changes nothing and the code names a language |
| Qwen.CyrillicCount | translations/qween/src/main/kotlin/twitter/translations/qween/QwenTranslationService.kt:129 | no more Cyrillic letters than characters |
| Qwen.UkrainianCount | translations/qween/src/main/kotlin/twitter/translations/qween/QwenTranslationService.kt:130 | no more Ukrainian letters than characters |
| Qwen.UkrainianCountPositive | translations/qween/src/main/kotlin/twitter/translations/qween/QwenTranslationService.kt:130-135 | the Ukrainian count is positive exactly when some character is one of the Ukrainian letters |
| Qwen.CyrillicCountAll | translations/qween/src/main/kotlin/twitter/translations/qween/QwenTranslationService.kt:129 | a text of Cyrillic letters only counts every character |
| Qwen.DetectFallback | translations/qween/src/main/kotlin/twitter/translations/qween/QwenTranslationService.kt:127-139 | the guess is always one of "en", "uk", "ru" |
| Qwen.DetectFallbackCases | translations/qween/src/main/kotlin/twitter/translations/qween/QwenTranslationService.kt:127-139 | "en" exactly when at most half the characters are Cyrillic (the empty text included); otherwise "uk" exactly when a Ukrainian letter occurs and "ru" exactly when none does |
| Qwen.DetectFallbackRussian | translations/qween/src/main/kotlin/twitter/translations/qween/QwenTranslationService.kt:127-139 | a non-empty text of basic Cyrillic letters only is guessed Russian |
| Qwen.LastField | translations/qween/src/main/kotlin/twitter/translations/qween/QwenTranslationService.kt:105-106 | a field is found exactly when the object has that key, and its value is one the object holds under it |
| Qwen.DecodeResult | translations/qween/src/main/kotlin/twitter/translations/qween/QwenTranslationService.kt:105-106 | only a JSON object decodes into a translation result |
| Qwen.ParseResponse | translations/qween/src/main/kotlin/twitter/translations/qween/QwenTranslationService.kt:102-125 | the source language of a parsed reply is always one of "en", "uk", "ru" |
| Qwen.ParseResponseCases | translations/qween/src/main/kotlin/twitter/translations/qween/QwenTranslationService.kt:102-125 | a reply that is not JSON is kept as the text with the guessed language; a non-object keeps the reply as text; a decoded object gives its text with the source language normalised |
| Qwen.DecodeIgnoresUnknown | translations/qween/src/main/kotlin/twitter/translations/qween/QwenTranslationService.kt:105-106 | fields other than text and sourceLanguage after them do not change the decoded result |
| Qwen.LastFieldSkips | translations/qween/src/main/kotlin/twitter/translations/qween/QwenTranslationService.kt:105-106 | fields with other keys after the last match do not change the value found |
| Qwen.Translate | translations/qween/src/main/kotlin/twitter/translations/qween/QwenTranslationService.kt:27-74 | a successful translation has the requested target and a source code among "en", "uk", "ru" |
| Qwen.TranslateOutcome | translations/qween/src/main/kotlin/twitter/translations/qween/QwenTranslationService.kt:53-65 | it succeeds exactly when the reply has a choice (no choices is the empty-response failure); the source code names a language, and the result is same-language exactly when that is the target; unparsable content is kept trimmed; only the first choice matters |
| Localization.AvailableKeys | localization/impl/src/main/kotlin/twitterx/localization/impl/FileBasedLocalizationService.kt:50-52 | every message key is available |
| Localization.Qualify | localization/impl/src/main/kotlin/twitterx/localization/impl/FileBasedLocalizationService.kt:93 | at the top level the key stays as it is; nested, it starts with the prefix and a dot |
| Localization.Flatten | localization/impl/src/main/kotlin/twitterx/localization/impl/FileBasedLocalizationService.kt:89-109 | flattening only ever adds keys to what it has collected |
| Localization.FlattenFailsOnArray | localization/impl/src/main/kotlin/twitterx/localization/impl/FileBasedLocalizationService.kt:95-105 | flattening fails exactly when an array appears somewhere in the object, nested objects included |
| Localization.QualifyInjective | localization/impl/src/main/kotlin/twitterx/localization/impl/FileBasedLocalizationService.kt:93 | different keys under the same prefix never collide |
| Localization.FlattenStrings | localization/impl/src/main/kotlin/twitterx/localization/impl/FileBasedLocalizationService.kt:89-109 | an object whose values are strings, numbers, booleans or null always flattens, to the keys collected so far plus the qualified keys of its string entries only; earlier keys not named again keep their values, and a repeated string key holds the text of its last string entry |
| Localization.FlattenPrimitiveStep | localization/impl/src/main/kotlin/twitterx/localization/impl/FileBasedLocalizationService.kt:99-105 | a string entry is stored under its qualified key; a number, boolean or null entry leaves what was collected unchanged |
| Localization.FlattenPrimitiveKeys | localization/impl/src/main/kotlin/twitterx/localization/impl/FileBasedLocalizationService.kt:89-109 | an object of primitives flattens, onto the collected keys plus the qualified keys of its string entries |
| Localization.FlattenPrimitiveKeeps | localization/impl/src/main/kotlin/twitterx/localization/impl/FileBasedLocalizationService.kt:89-109 | collected keys that no later string entry names keep their values |
| Localization.FlattenPrimitiveLast | localization/impl/src/main/kotlin/twitterx/localization/impl/FileBasedLocalizationService.kt:89-109 | the key of each string entry that no later string entry repeats holds that entry's text |
| Localization.FlattenLastHere | localization/impl/src/main/kotlin/twitterx/localization/impl/FileBasedLocalizationService.kt:101-102 | the text a string entry stores survives the rest of the object when no later string entry has its key |
| Localization.FlattenNested | localization/impl/src/main/kotlin/twitterx/localization/impl/FileBasedLocalizationService.kt:93-98 | a nested object's entry is stored under "outer.inner" |
| Localization.LoadMessages | localization/impl/src/main/kotlin/twitterx/localization/impl/FileBasedLocalizationService.kt:64-87 | messages load only from a resource file that exists and whose root is an object |
| Localization.SubstituteUnused | localization/impl/src/main/kotlin/twitterx/localization/impl/FileBasedLocalizationService.kt:111-125 | a parameter whose placeholder is absent has no effect |
| Localization.SubstituteNoBraces | localization/impl/src/main/kotlin/twitterx/localization/impl/FileBasedLocalizationService.kt:111-125 | text without an opening brace comes back unchanged whatever the parameters |
| Localization.SubstituteOne | localization/impl/src/main/kotlin/twitterx/localization/impl/FileBasedLocalizationService.kt:118-120 | one parameter splits the text at its placeholder and joins the pieces with the value |
| Localization.Substitute | localization/impl/src/main/kotlin/twitterx/localization/impl/FileBasedLocalizationService.kt:111-125 | when every value is as long as its "{name}" placeholder, substitution keeps the length of the message |
| Localization.Lookup | localization/impl/src/main/kotlin/twitterx/localization/impl/FileBasedLocalizationService.kt:35-47 | when the requested language's resource fails to load the bare key path comes back |
| Localization.GetMessage | localization/impl/src/main/kotlin/twitterx/localization/impl/FileBasedLocalizationService.kt:30-48 | when the language's messages fail to load the answer is the key's own path |
| Localization.LookupFallback | localization/impl/src/main/kotlin/twitterx/localization/impl/FileBasedLocalizationService.kt:35-47 | the requested language's message first, then English's, then the key path itself, each with parameters substituted; a failing load gives the bare key path |
| Localization.LookupMissing | localization/impl/src/main/kotlin/twitterx/localization/impl/FileBasedLocalizationService.kt:37-41 | a key path without braces missing from both languages comes back as it is |
| Localization.HasMessage | localization/impl/src/main/kotlin/twitterx/localization/impl/FileBasedLocalizationService.kt:35-43 | a message exists only in loaded messages, and then the lookup is that message with the parameters substituted |
| Dictionary.IndentWidth | src/main/kotlin/com/programistich/twitterx/features/dict/DictionaryCache.kt:45-51 | the indent is the longest run of leading whitespace of the line |
| Dictionary.MinIndent | src/main/kotlin/com/programistich/twitterx/features/dict/DictionaryCache.kt:45-51 | no indent exactly when every line is blank; otherwise the smallest indent of a non-blank line, reached by one of them |
| Dictionary.Drop | src/main/kotlin/com/programistich/twitterx/features/dict/DictionaryCache.kt:45-51 | dropping n characters leaves the length less n, or nothing |
| Dictionary.TrimIndentOneLine | src/main/kotlin/com/programistich/twitterx/features/dict/DictionaryCache.kt:45 | a text without any line break loses its leading whitespace, and a blank one becomes empty |
| Dictionary.TrimIndentFlush | src/main/kotlin/com/programistich/twitterx/features/dict/DictionaryCache.kt:45-51 | text whose first line starts flush and whose last line is not blank comes out as its lines joined with "\n": unchanged when it holds no carriage return |
| Dictionary.TrimIndent | src/main/kotlin/com/programistich/twitterx/features/dict/DictionaryCache.kt:45-51 | the result never holds a carriage return: lines are joined with "\n" only |
| Dictionary.TrimIndentBreaks | src/main/kotlin/com/programistich/twitterx/features/dict/DictionaryCache.kt:45-51 | trimming a text is trimming its lines rejoined with "\n": "\r", "\n" and "\r\n" all end a line |
| Dictionary.TwoIndented | src/main/kotlin/com/programistich/twitterx/features/dict/DictionaryCache.kt:45-51 | two lines with the same run of spaces, ended by "\n", "\r\n" or "\r", lose the spaces and are joined by "\n" |
| Dictionary.Fill | src/main/kotlin/com/programistich/twitterx/features/dict/DictionaryCache.kt:47-50 | text without a placeholder is not changed by filling |
| Dictionary.ReindentFlush | src/main/kotlin/com/programistich/twitterx/features/dict/DictionaryCache.kt:45-51 | lines with no common indent and no blank first or last line are kept as they are |
| Dictionary.FillPlaceholders | src/main/kotlin/com/programistich/twitterx/features/dict/DictionaryCache.kt:47-50 | pieces without braces joined by placeholders are filled by interleaving the values in order |
| Dictionary.ReplaceFirstAfterFree | src/main/kotlin/com/programistich/twitterx/features/dict/DictionaryCache.kt:49 | the first placeholder after brace-free text is the one replaced |
| Dictionary.FillAbsent | src/main/kotlin/com/programistich/twitterx/features/dict/DictionaryCache.kt:47-50 | text without braces is not changed by filling |
| Dictionary.InterleaveMerge | src/main/kotlin/com/programistich/twitterx/features/dict/DictionaryCache.kt:47-50 | filling the first placeholder and then the rest is the same as interleaving all the values |
| Dictionary.GetRaw | src/main/kotlin/com/programistich/twitterx/features/dict/DictionaryCache.kt:42-52 | a text is found exactly when the table exists and has the entry |
| Dictionary.GetRawFilled | src/main/kotlin/com/programistich/twitterx/features/dict/DictionaryCache.kt:42-52 | the text found is the entry with its placeholders filled and its indent trimmed |
| Dictionary.GetByKey | src/main/kotlin/com/programistich/twitterx/features/dict/DictionaryCache.kt:54-56 | a text is found exactly when the key's table has an entry for the lower-cased language name |
| Dictionary.MissingTranslation | src/main/kotlin/com/programistich/twitterx/features/dict/DictionaryCache.kt:31-40 | the missing pair reported is a dictionary key and a language whose text is absent |
| Dictionary.FirstMissing | src/main/kotlin/com/programistich/twitterx/features/dict/DictionaryCache.kt:35-39 | a reported pair is among the keys and names checked and lacks a text |
| Dictionary.FirstMissingName | src/main/kotlin/com/programistich/twitterx/features/dict/DictionaryCache.kt:36-38 | a reported name is among the names checked and lacks a text for the key |
| Dictionary.FirstMissingComplete | src/main/kotlin/com/programistich/twitterx/features/dict/DictionaryCache.kt:35-39 | nothing is reported exactly when every key has a text for every name |
| Dictionary.FirstMissingNameComplete | src/main/kotlin/com/programistich/twitterx/features/dict/DictionaryCache.kt:36-38 | nothing is reported exactly when the key has a text for every name |
| Dictionary.MissingTranslationComplete | src/main/kotlin/com/programistich/twitterx/features/dict/DictionaryCache.kt:31-40 | the start-up check passes exactly when every key has a text for every language |
| LegacyTwitter.VideoUrls | src/main/kotlin/com/programistich/twitterx/core/twitter/TwitterModels.kt:48 | one URL per video, in order |
| LegacyTwitter.ContentOf | src/main/kotlin/com/programistich/twitterx/core/twitter/TwitterModels.kt:36-52 | a tweet with a poll becomes the poll with its labels, and only such a tweet does |
| LegacyTwitter.ContentKeepsMedia | src/main/kotlin/com/programistich/twitterx/core/twitter/TwitterModels.kt:36-52 | without a poll all photos then all videos are kept; text exactly when there is no media list; a single photo or single video only when the other kind is absent |
| LegacyTwitter.Limit | src/main/kotlin/com/programistich/twitterx/core/twitter/TwitterModels.kt:55-64 | the limit is either the caption limit or the message limit |
| LegacyTwitter.LimitOfTweet | src/main/kotlin/com/programistich/twitterx/core/twitter/TwitterModels.kt:36-64 | the caption limit applies exactly when the tweet has no poll but has photos or videos |
| LegacyTwitter.GetContent | src/main/kotlin/com/programistich/twitterx/core/twitter/TwitterModels.kt:13-19 | the content always ends with the original text |
| LegacyTwitter.GetContentCases | src/main/kotlin/com/programistich/twitterx/core/twitter/TwitterModels.kt:13-19 | the text is kept exactly when there is no translation or its two codes agree; otherwise the content is exactly "[TO] translated\n\n[FROM] text", with both codes upper-cased |
| LegacyTwitter.LegacyTweetUrl | src/main/kotlin/com/programistich/twitterx/core/twitter/TwitterModels.kt:11 | the tweet URL starts with the x.com base and the author, and ends with "/status/" and the id |
| YtDlpModels.FirstMatching | video/ytdlp/src/main/kotlin/twitterx/video/ytdlp/YtDlpModels.kt:58-63 | the first pattern, from the given one on, that matches anywhere in the URL; none before it matches |
| YtDlpModels.PatternPlatformsDistinct | video/ytdlp/src/main/kotlin/twitterx/video/ytdlp/YtDlpModels.kt:39-55 | each pattern names its own known platform |
| YtDlpModels.DetectPlatformFirst | video/ytdlp/src/main/kotlin/twitterx/video/ytdlp/YtDlpModels.kt:58-67 | unknown exactly when no pattern matches; Shorts exactly when its pattern matches; TikTok exactly when it matches and Shorts does not; Reels exactly when it alone of the three matches; supported exactly when some pattern matches |
| YtDlpModels.DefaultConfig | video/ytdlp/src/main/kotlin/twitterx/video/ytdlp/YtDlpModels.kt:8-16 | the two required values are kept; the defaults are output format "mp4", size limit "50M", download directory ".tmp/videos", a two-minute timeout and a five-minute clean-up delay |
| YtDlpModels.DetectPlatform | video/ytdlp/src/main/kotlin/twitterx/video/ytdlp/YtDlpModels.kt:58-63 | unknown exactly when no pattern matches; otherwise the platform of a matching pattern |
| YtDlpModels.IsSupported | video/ytdlp/src/main/kotlin/twitterx/video/ytdlp/YtDlpModels.kt:65-67 | a URL is supported exactly when some pattern matches it |
| YtDlpModels.ContainsMatch | video/ytdlp/src/main/kotlin/twitterx/video/ytdlp/YtDlpModels.kt:43-53 | a URL shorter than the shortest pattern match cannot match |
| YtDlpModels.MatchNeedsHttp | video/ytdlp/src/main/kotlin/twitterx/video/ytdlp/YtDlpModels.kt:43-53 | every match contains "http", in some case |
| YtDlpModels.FoldCharOnto | video/ytdlp/src/main/kotlin/twitterx/video/ytdlp/YtDlpModels.kt:43-53 | with case ignored, a character matches a small ASCII letter exactly when it is that letter, its capital, the Kelvin sign for k, dotted or dotless I for i, or long s for s |
| YtDlpModels.NoFoldOnto | video/ytdlp/src/main/kotlin/twitterx/video/ytdlp/YtDlpModels.kt:43-53 | a text holding no character that folds onto a letter has no position matching that letter |
| YtDlpModels.TikTokKelvinSign | video/ytdlp/src/main/kotlin/twitterx/video/ytdlp/YtDlpModels.kt:48 | a TikTok host written with the Kelvin sign for each k still matches the TikTok pattern |
| YtDlpModels.LiteralIn | video/ytdlp/src/main/kotlin/twitterx/video/ytdlp/YtDlpModels.kt:43-53 | a literal matches wherever it is written in the URL in any case, including the Unicode case variants that fold onto its letters |
| YtDlpModels.ShortsIn | video/ytdlp/src/main/kotlin/twitterx/video/ytdlp/YtDlpModels.kt:44 | any URL holding a Shorts prefix and a word character matches the Shorts pattern |
| YtDlpModels.TikTokIn | video/ytdlp/src/main/kotlin/twitterx/video/ytdlp/YtDlpModels.kt:48 | any URL holding "https://", a host without line breaks and ".tiktok.com/" matches the TikTok pattern |
| YtDlpModels.ReelsIn | video/ytdlp/src/main/kotlin/twitterx/video/ytdlp/YtDlpModels.kt:52 | any URL holding a Reels prefix and a word character matches the Reels pattern |
| YtDlpModels.NoMatchWithout | video/ytdlp/src/main/kotlin/twitterx/video/ytdlp/YtDlpModels.kt:43-53 | a URL with no y in either case cannot match Shorts; none with no k, K or Kelvin sign cannot match TikTok; none with no g in either case cannot match Reels |
| YtDlpModels.ShortsDetected | video/ytdlp/src/main/kotlin/twitterx/video/ytdlp/YtDlpModels.kt:58-63 | a Shorts link is detected as YouTube Shorts |
| YtDlpModels.ShortsUpperCase | video/ytdlp/src/main/kotlin/twitterx/video/ytdlp/YtDlpModels.kt:44 | the Shorts pattern ignores letter case |
| YtDlpModels.ShortsBeforeTikTok | video/ytdlp/src/main/kotlin/twitterx/video/ytdlp/YtDlpModels.kt:58-63 | a URL matching both Shorts and TikTok is detected as Shorts |
| YtDlpModels.TikTokDetected | video/ytdlp/src/main/kotlin/twitterx/video/ytdlp/YtDlpModels.kt:58-63 | a TikTok link without a y is detected as TikTok |
| YtDlpModels.ReelsDetected | video/ytdlp/src/main/kotlin/twitterx/video/ytdlp/YtDlpModels.kt:58-63 | a Reels link whose id has no y and no k, K or Kelvin sign is detected as Reels |
| YtDlpService.Scaled | video/ytdlp/src/main/kotlin/twitterx/video/ytdlp/YtDlpVideoService.kt:249-254 | a unit size parses exactly when its number does, and is the number times the unit, wrapped to 64 bits |
| YtDlpService.ToBytes | video/ytdlp/src/main/kotlin/twitterx/video/ytdlp/YtDlpVideoService.kt:249-254 | a parsed size is always a 64-bit value |
| YtDlpService.ToBytesOfNumber | video/ytdlp/src/main/kotlin/twitterx/video/ytdlp/YtDlpVideoService.kt:253 | a plain number parses to itself |
| YtDlpService.ToBytesOfUnit | video/ytdlp/src/main/kotlin/twitterx/video/ytdlp/YtDlpVideoService.kt:249-252 | a number with K, M or G in either case parses to the number times 1024, 1024² or 1024³, wrapped to 64 bits |
| YtDlpService.ToBytesWithSuffix | video/ytdlp/src/main/kotlin/twitterx/video/ytdlp/YtDlpVideoService.kt:249-253 | a number followed by G, M or K, in either case, is scaled by that unit |
| YtDlpService.ToBytesDefaults | video/ytdlp/src/main/kotlin/twitterx/video/ytdlp/YtDlpVideoService.kt:249-254 | the default "50M" is 52428800 bytes, and "5gG" loses both suffix letters |
| YtDlpService.Execute | video/ytdlp/src/main/kotlin/twitterx/video/ytdlp/YtDlpVideoService.kt:297-325 | a finished process gives its exit code, successful exactly when it is 0; a timeout is a failure |
| YtDlpService.FormatArguments | video/ytdlp/src/main/kotlin/twitterx/video/ytdlp/YtDlpVideoService.kt:262-277 | every known platform gets format arguments and an unknown one none |
| YtDlpService.DownloadCommand | video/ytdlp/src/main/kotlin/twitterx/video/ytdlp/YtDlpVideoService.kt:257-284 | the download command fails exactly for an unknown platform |
| YtDlpService.InfoCommand | video/ytdlp/src/main/kotlin/twitterx/video/ytdlp/YtDlpVideoService.kt:286-293 | the information command has six words, from the executable to the URL |
| YtDlpService.CommandShapes | video/ytdlp/src/main/kotlin/twitterx/video/ytdlp/YtDlpVideoService.kt:257-293 | the download command starts with executable, --output and the file and ends with the size limit, the cookies and the URL, and asks for a format exactly for Shorts; its only failure is the unsupported platform; the information command dumps JSON without downloading |
| YtDlpService.CheckInstallation | video/ytdlp/src/main/kotlin/twitterx/video/ytdlp/YtDlpVideoService.kt:129-166 | the check passes exactly when the version process finishes with exit code 0; any failure names the executable |
| YtDlpService.CheckInstallationReasons | video/ytdlp/src/main/kotlin/twitterx/video/ytdlp/YtDlpVideoService.kt:138-152 | a non-zero exit is "executable not found" exactly when the error says command not found or is not recognized or the code is 127, and a version-check failure with the error otherwise |
| YtDlpService.EnsureInstalled | video/ytdlp/src/main/kotlin/twitterx/video/ytdlp/YtDlpVideoService.kt:195-200 | once checked nothing runs; otherwise the version command runs and the flag is set exactly when it passes |
| YtDlpService.FallbackInfo | video/ytdlp/src/main/kotlin/twitterx/video/ytdlp/YtDlpVideoService.kt:240-247 | the fallback information is titled Unknown, has the configured format and the lower-case platform name as extractor, and no size or duration |
| YtDlpService.GetVideoInfo | video/ytdlp/src/main/kotlin/twitterx/video/ytdlp/YtDlpVideoService.kt:168-193 | the information is read when the process finishes; a failing exit or unreadable output gives the fallback |
| YtDlpService.ValidateFileSize | video/ytdlp/src/main/kotlin/twitterx/video/ytdlp/YtDlpVideoService.kt:216-225 | no size passes; a size is refused exactly when it exceeds the parsed limit |
| YtDlpService.ValidateDefaultSize | video/ytdlp/src/main/kotlin/twitterx/video/ytdlp/YtDlpVideoService.kt:216-225 | with the default configuration a file passes exactly when it is at most 50 MiB, and a larger one is refused with both numbers |
| YtDlpService.VideoFile | video/ytdlp/src/main/kotlin/twitterx/video/ytdlp/YtDlpVideoService.kt:210-214 | the video file carries the configured extension |
| YtDlpService.Fetch | video/ytdlp/src/main/kotlin/twitterx/video/ytdlp/YtDlpVideoService.kt:66-103 | a fetched video is the created file, and its platform is the URL's |
| YtDlpService.DownloadVideo | video/ytdlp/src/main/kotlin/twitterx/video/ytdlp/YtDlpVideoService.kt:47-51 | an unsupported URL fails at once, running nothing |
| YtDlpService.DownloadChecksFirst | video/ytdlp/src/main/kotlin/twitterx/video/ytdlp/YtDlpVideoService.kt:47-57 | an unsupported URL runs nothing; the first supported download runs the version check first; once checked it never runs again; a failed check ends the download |
| YtDlpService.DownloadCommandsAfterCheck | video/ytdlp/src/main/kotlin/twitterx/video/ytdlp/YtDlpVideoService.kt:56-66 | after the check every command run has more than two words |
| YtDlpService.FetchCommands | video/ytdlp/src/main/kotlin/twitterx/video/ytdlp/YtDlpVideoService.kt:66-80 | at most one download command runs, and it is the one built for the URL and file |
| YtDlpService.DownloadSucceeds | video/ytdlp/src/main/kotlin/twitterx/video/ytdlp/YtDlpVideoService.kt:47-108 | a successful download had a supported URL, cookies and a passed check; it reports the created file, its length, the URL's platform and the cleanup time, and ran the information command and then the download command |
| YtDlpService.DownloadTooLarge | video/ytdlp/src/main/kotlin/twitterx/video/ytdlp/YtDlpVideoService.kt:62-64 | a reported size above the limit ends the download after the information command, refused with both numbers |
| Instagram.SymbolValue | src/main/kotlin/com/programistich/twitterx/features/ytdlp/InstagramBuilderURL.kt:68-69 | a symbol's value is its position in the 91-symbol alphabet, and only alphabet symbols have one |
| Instagram.LastIndexIn | src/main/kotlin/com/programistich/twitterx/features/ytdlp/InstagramBuilderURL.kt:68-69 | the index found holds the character, and none is found only when it is absent |
| Instagram.FlushBytes | src/main/kotlin/com/programistich/twitterx/features/ytdlp/InstagramBuilderURL.kt:87-91 | flushing a buffer of 8 to 23 bits writes one or two bytes and leaves at most 7 bits |
| Instagram.StepValid | src/main/kotlin/com/programistich/twitterx/features/ytdlp/InstagramBuilderURL.kt:78-93 | the first symbol of a pair is held; the second completes it and writes one or two bytes |
| Instagram.PairFits | src/main/kotlin/com/programistich/twitterx/features/ytdlp/InstagramBuilderURL.kt:82-85 | a pair value shifted into the buffer stays within the 13 or 14 bits added |
| Instagram.RunFails | src/main/kotlin/com/programistich/twitterx/features/ytdlp/InstagramBuilderURL.kt:77-94 | decoding fails exactly when a character outside the alphabet appears |
| Instagram.RunAppend | src/main/kotlin/com/programistich/twitterx/features/ytdlp/InstagramBuilderURL.kt:77-94 | decoding a concatenation is decoding the first part and continuing with the second |
| Instagram.RunShape | src/main/kotlin/com/programistich/twitterx/features/ytdlp/InstagramBuilderURL.kt:77-94 | decoding keeps the decoder state valid and grows the output by one or two bytes per completed pair |
| Instagram.DcShape | src/main/kotlin/com/programistich/twitterx/features/ytdlp/InstagramBuilderURL.kt:65-103 | empty input gives empty output; decoding fails exactly on a character outside the alphabet; the output is bytes, between one and two per pair plus one for an odd symbol |
| Instagram.FinishByte | src/main/kotlin/com/programistich/twitterx/features/ytdlp/InstagramBuilderURL.kt:95-99 | an unpaired final symbol writes one last byte, and a completed input nothing |
| Instagram.DcAppend | src/main/kotlin/com/programistich/twitterx/features/ytdlp/InstagramBuilderURL.kt:77-99 | one more symbol adds exactly one byte and a full pair one or two, keeping what was decoded |
| Instagram.Dc | src/main/kotlin/com/programistich/twitterx/features/ytdlp/InstagramBuilderURL.kt:65-103 | decoding fails exactly when some character is outside the 91-symbol alphabet |
| Instagram.Run | src/main/kotlin/com/programistich/twitterx/features/ytdlp/InstagramBuilderURL.kt:77-94 | the decoding loop only appends to the output |
| Instagram.Step | src/main/kotlin/com/programistich/twitterx/features/ytdlp/InstagramBuilderURL.kt:78-93 | one symbol only appends to the output |
| Instagram.Complete | src/main/kotlin/com/programistich/twitterx/features/ytdlp/InstagramBuilderURL.kt:82-92 | completing a pair only appends to the output and leaves no pending value |
| Instagram.CompletePair | src/main/kotlin/com/programistich/twitterx/features/ytdlp/InstagramBuilderURL.kt:82-92 | completing a pair keeps the decoder valid and emits one or two bytes |
| Instagram.EmitValid | src/main/kotlin/com/programistich/twitterx/features/ytdlp/InstagramBuilderURL.kt:87-91 | flushing a 13 to 21 bit buffer emits one or two bytes and leaves fewer than 8 bits |
| Instagram.Finish | src/main/kotlin/com/programistich/twitterx/features/ytdlp/InstagramBuilderURL.kt:95-99 | a leftover value adds at most one character to the output |
| Instagram.Pad | src/main/kotlin/com/programistich/twitterx/features/ytdlp/InstagramBuilderURL.kt:32-41 | padding fills up to the next multiple of 16 with that many bytes of the pad length, always adding at least one |
| Instagram.Unpad | src/main/kotlin/com/programistich/twitterx/features/ytdlp/InstagramBuilderURL.kt:32-41 | removing padding keeps a prefix at most one block shorter |
| Instagram.UnpadPad | src/main/kotlin/com/programistich/twitterx/features/ytdlp/InstagramBuilderURL.kt:32-41 | removing the padding gives the data back |
| Instagram.DownloadIG | src/main/kotlin/com/programistich/twitterx/features/ytdlp/InstagramBuilderURL.kt:19-30 | the first video the service reports, or the original URL when the call fails or reports none |
| TelegramApi.FromValue | telegram/src/main/kotlin/twitterx/telegram/api/models/TelegramCommand.kt:14-16 | a command found has exactly that text, and none is found only when no command has it |
| TelegramApi.FindCommand | telegram/src/main/kotlin/twitterx/telegram/api/models/TelegramCommand.kt:15 | the first command from the given position on with that text; none after it has the text when nothing is found |
| TelegramApi.FromValueRoundTrip | telegram/src/main/kotlin/twitterx/telegram/api/models/TelegramCommand.kt:3-17 | every command is read back from its own text, and a text reads as a command exactly when it is that command's text |
| TelegramApi.FromValueOfValue | telegram/src/main/kotlin/twitterx/telegram/api/models/TelegramCommand.kt:3-17 | every command is read back from its own text |
| TelegramApi.CommandValuesDistinct | telegram/src/main/kotlin/twitterx/telegram/api/models/TelegramCommand.kt:3-11 | no two commands share a text |
| TelegramApi.CommandAccepts | telegram/src/main/kotlin/twitterx/telegram/api/executors/CommandExecutor.kt:13-15 | a command executor answers only for messages, and accepts exactly those carrying its command |
| TelegramApi.CallbackAccepts | telegram/src/main/kotlin/twitterx/telegram/api/executors/CallbackQueryExecutor.kt:14-21 | a callback executor always answers, since a failed cast is caught with the decoding; it accepts exactly the callback queries whose data decodes |
| TelegramApi.Accepts | telegram/src/main/kotlin/twitterx/telegram/api/TelegramService.kt:68-70 | an executor whose check throws does not accept the update; one that accepts answered its check |
| TelegramApi.WithPriority | telegram/src/main/kotlin/twitterx/telegram/api/TelegramService.kt:62 | the positions, in increasing order, of every executor of one priority from the given position on |
| TelegramApi.GroupSizes | telegram/src/main/kotlin/twitterx/telegram/api/TelegramService.kt:62 | the three priority groups together hold every executor once |
| TelegramApi.WithPriorityLength | telegram/src/main/kotlin/twitterx/telegram/api/TelegramService.kt:62 | a priority group has as many entries as there are executors of that priority |
| TelegramApi.CountsSum | telegram/src/main/kotlin/twitterx/telegram/api/TelegramService.kt:62 | the executors of the three priorities together are all the executors |
| TelegramApi.ConcatOrdered | telegram/src/main/kotlin/twitterx/telegram/api/TelegramService.kt:62 | two ordered runs, the first entirely before the second, make an ordered run |
| TelegramApi.SortedByPriority | telegram/src/main/kotlin/twitterx/telegram/api/TelegramService.kt:62 | the order is a list of executor positions, one per executor |
| TelegramApi.SortedIsStableSort | telegram/src/main/kotlin/twitterx/telegram/api/TelegramService.kt:62 | the order lists every executor once, by descending priority value, and keeps registration order among equals |
| TelegramApi.FindAccepting | telegram/src/main/kotlin/twitterx/telegram/api/TelegramService.kt:68-70 | the executor found is the first in the order that accepts; when none is found none accepts |
| TelegramApi.SelectExecutor | telegram/src/main/kotlin/twitterx/telegram/api/TelegramService.kt:61-72 | a chosen executor is one of those given and accepts the update |
| TelegramApi.SelectExecutorIsBest | telegram/src/main/kotlin/twitterx/telegram/api/TelegramService.kt:61-72 | the chosen executor accepts and every other accepting one has a lower priority or a later place; nothing is chosen exactly when none accepts |
| TelegramApi.BestIsUnique | telegram/src/main/kotlin/twitterx/telegram/api/TelegramService.kt:61-72 | at most one executor fits that description |
| TelegramApi.Process | telegram/src/main/kotlin/twitterx/telegram/api/TelegramService.kt:58-79 | a failure can happen only once an executor was chosen, and the one chosen is the selected one |
| TelegramApi.ProcessRouting | telegram/src/main/kotlin/twitterx/telegram/api/TelegramService.kt:58-79 | an update nobody accepts is dropped without failure; otherwise it goes to the best executor |
| UpdateConverter.Substring | app/src/main/kotlin/twitter/app/telegram/TelegramUpdateConverter.kt:64-67 | the substring exists exactly when 0 <= begin <= end <= length, and is then that slice |
| UpdateConverter.FirstCommandEntity | app/src/main/kotlin/twitter/app/telegram/TelegramUpdateConverter.kt:63 | the entity found is the first bot-command entity; none is found exactly when there is none |
| UpdateConverter.FirstCommandFrom | app/src/main/kotlin/twitter/app/telegram/TelegramUpdateConverter.kt:63 | the entity found is the first bot command from the position on; none exactly when no entity there is a bot command |
| UpdateConverter.ParseCommandText | app/src/main/kotlin/twitter/app/telegram/TelegramUpdateConverter.kt:70-78 | a command recognised is named by the part before the first "@", and the message text starts with it |
| UpdateConverter.ParseCommandTextCases | app/src/main/kotlin/twitter/app/telegram/TelegramUpdateConverter.kt:70-78 | without "@" the command is read when the text starts with it; with one "@" only when also addressed to this bot; with two or more, never |
| UpdateConverter.SplitWithoutAt | app/src/main/kotlin/twitter/app/telegram/TelegramUpdateConverter.kt:70 | text without "@" splits into itself alone |
| UpdateConverter.SplitOneAt | app/src/main/kotlin/twitter/app/telegram/TelegramUpdateConverter.kt:70 | x@y with neither part holding "@" splits into x and y |
| UpdateConverter.SplitTwoAts | app/src/main/kotlin/twitter/app/telegram/TelegramUpdateConverter.kt:70 | text with two "@" splits into at least three parts |
| UpdateConverter.GetCommand | app/src/main/kotlin/twitter/app/telegram/TelegramUpdateConverter.kt:58-79 | no entities or no text means no command; the only failure is an out-of-range entity; a command found is the text's beginning and came from a bot-command entity |
| UpdateConverter.GetCommandRecognises | app/src/main/kotlin/twitter/app/telegram/TelegramUpdateConverter.kt:58-79 | a message starting with a command's text marked by the first bot-command entity carries that command |
| UpdateConverter.GetCommandAddressed | app/src/main/kotlin/twitter/app/telegram/TelegramUpdateConverter.kt:70-78 | a command addressed with "@name" is kept exactly when the name is this bot's |
| UpdateConverter.GetCommandPrefix | app/src/main/kotlin/twitter/app/telegram/TelegramUpdateConverter.kt:58-70 | a message opening with its first command entity is parsed from exactly that entity's text |
| UpdateConverter.ParseAddressed | app/src/main/kotlin/twitter/app/telegram/TelegramUpdateConverter.kt:70-78 | a command addressed "@name" is recognised exactly when the name is this bot's |
| UpdateConverter.FirstCommandSkips | app/src/main/kotlin/twitter/app/telegram/TelegramUpdateConverter.kt:63 | entities of other kinds before the first bot command are skipped |
| UpdateConverter.CommandValueHasNoAt | telegram/src/main/kotlin/twitterx/telegram/api/models/TelegramCommand.kt:4-10 | no command text contains "@" |
| UpdateConverter.Convert | app/src/main/kotlin/twitter/app/telegram/TelegramUpdateConverter.kt:17-24 | a message wins over an inline query, which wins over a callback query, and an update with none of them converts to nothing |
| UpdateConverter.MessageUpdateOf | app/src/main/kotlin/twitter/app/telegram/TelegramUpdateConverter.kt:46-56 | a message converts exactly when it has a sender and its command is read; text defaults to empty and the other fields are copied |
| UpdateConverter.CallbackUpdateOf | app/src/main/kotlin/twitter/app/telegram/TelegramUpdateConverter.kt:35-44 | a callback converts exactly when it has its message; data defaults to empty; without the message it fails on the null reference |
| UpdateConverter.PlainMessageConverts | app/src/main/kotlin/twitter/app/telegram/TelegramUpdateConverter.kt:46-61 | a message with a sender and no entities converts, with no command |
| ElonMuskCommand.Subscribers | app/src/main/kotlin/twitter/app/repo/TelegramChatRepository.kt:14-15 | the subscribers are exactly the stored chats whose flag is set |
| ElonMuskCommand.UserLanguage | app/src/main/kotlin/twitter/app/features/elonmusk/ElonMuskCommandExecutor.kt:54-59 | the chat's stored language, English for an unknown chat |
| ElonMuskCommand.Toggle | app/src/main/kotlin/twitter/app/features/elonmusk/ElonMuskCommandExecutor.kt:24-52 | the chat's flag is negated (a new chat counts as unsubscribed), its language kept, every other chat unchanged; the message is the subscribed one exactly when the new flag is set, in the chat's language, sent to that chat |
| ElonMuskCommand.FirstCommandSubscribes | app/src/main/kotlin/twitter/app/features/elonmusk/ElonMuskCommandExecutor.kt:29-41 | the first command in a new chat stores it subscribed in English, and a failed send does not undo that |
| ElonMuskCommand.ToggleSubscribers | app/src/main/kotlin/twitter/app/features/elonmusk/ElonMuskCommandExecutor.kt:36-38 | the chat joins the subscribers exactly when it was not one; no other chat moves |
| ElonMuskCommand.ToggleTwice | app/src/main/kotlin/twitter/app/features/elonmusk/ElonMuskCommandExecutor.kt:29-38 | two commands restore the stored record, a new chat being left stored unsubscribed |
| AIModels.FromName | ai/api/src/main/kotlin/twitterx/ai/api/AIModels.kt:16-19 | a model found has that name; any other name fails with "Unknown model name: " and the name, and then no model has it |
| AIModels.FromNameRoundTrip | ai/api/src/main/kotlin/twitterx/ai/api/AIModels.kt:8-19 | every model is read back from its name, and a name is accepted exactly when some model has it |
| AIModels.FindModel | ai/api/src/main/kotlin/twitterx/ai/api/AIModels.kt:16-19 | a found model has the given name; otherwise the error is "Unknown model name: " and the name, and no model from the start position on has that name |
| AIModels.ModelNamePrefix | ai/api/src/main/kotlin/twitterx/ai/api/AIModels.kt:8-13 | a model name starts with "gemini-" exactly when the model is not the placeholder |
| AIModels.RequestOf | ai/api/src/main/kotlin/twitterx/ai/api/AIModels.kt:27-32 | a request with only a prompt has no model chosen (the one named "unspecified"), no files and no conversation |
| AIModels.ResponseOf | ai/api/src/main/kotlin/twitterx/ai/api/AIModels.kt:38-44 | a response with only text and model has no thoughts, conversation or images |
| AIModels.ImageOf | ai/api/src/main/kotlin/twitterx/ai/api/AIModels.kt:50-55 | an image with only a URL is titled "[Image]", has no alt text and is not generated |
| AIModels.SessionOf | ai/api/src/main/kotlin/twitterx/ai/api/AIModels.kt:61-65 | a session with only an id uses the "unspecified" model and has no metadata |
| KText.Trim | app/src/main/kotlin/twitter/app/features/twitter/TwitterInlineQueryExecutor.kt:38 | trimming gives the empty string exactly for blank text; otherwise a result starting and ending with non-whitespace, obtained by removing whitespace from both ends only |
| KText.TrimOfPadded | app/src/main/kotlin/twitter/app/features/twitter/TwitterInlineQueryExecutor.kt:38 | trimmed text wrapped in whitespace trims back to itself |
| KText.TrimIdempotent | app/src/main/kotlin/twitter/app/features/twitter/TwitterInlineQueryExecutor.kt:38 | trimming twice is trimming once |
| KText.SplitPiecesFree | app/src/main/kotlin/twitter/app/telegram/TelegramUpdateConverter.kt:70 | no piece of a split contains the separator |
| KText.JoinSplit | app/src/main/kotlin/twitter/app/telegram/TelegramUpdateConverter.kt:70 | joining the pieces with the separator gives the text back |
| KText.ReplaceAllIsSplitJoin | localization/impl/src/main/kotlin/twitterx/localization/impl/FileBasedLocalizationService.kt:119 | replacing every occurrence is splitting at the pattern and joining with the replacement |
| KText.ReplaceAllAbsent | localization/impl/src/main/kotlin/twitterx/localization/impl/FileBasedLocalizationService.kt:119 | replacing an absent pattern changes nothing |
| KText.ReplaceFirst | src/main/kotlin/com/programistich/twitterx/features/dict/DictionaryCache.kt:49 | text without the pattern is unchanged; otherwise the first occurrence alone is replaced and the length changes accordingly |
| KText.Take | app/src/main/kotlin/twitter/app/features/twitter/TweetSender.kt:53 | the first n characters, or the whole text when shorter |
| KText.RemovePrefix | app/src/main/kotlin/twitter/app/features/twitter/TweetSender.kt:261 | a present prefix is removed and the rest returned; otherwise the text is unchanged |
| KText.RemoveSuffix | video/ytdlp/src/main/kotlin/twitterx/video/ytdlp/YtDlpVideoService.kt:250 | a present suffix is removed; otherwise the text is unchanged |
| KText.SubstringAfterLast | twitter/nitter/src/main/kotlin/twitterx/twitter/nitter/NitterService.kt:149 | without the delimiter the whole text; otherwise exactly the text after the last occurrence of the delimiter, which holds no delimiter |
| KText.Lines | src/main/kotlin/com/programistich/twitterx/features/dict/DictionaryCache.kt:45 | a text splits into at least one line, none holding a line break |
| KText.LinesTerminators | src/main/kotlin/com/programistich/twitterx/features/dict/DictionaryCache.kt:45 | "\n", "\r\n" and a "\r" not followed by "\n" each end exactly one line |
| KText.LinesOfJoin | src/main/kotlin/com/programistich/twitterx/features/dict/DictionaryCache.kt:45 | lines without breaks joined with "\n" split back into the same lines |
| KText.JoinLines | src/main/kotlin/com/programistich/twitterx/features/dict/DictionaryCache.kt:45 | a text without carriage returns is its lines joined with "\n" |
| KText.ReplaceAll | localization/impl/src/main/kotlin/twitterx/localization/impl/FileBasedLocalizationService.kt:119 | a replacement as long as the pattern keeps the length; a shorter one never lengthens the text |
| KText.Split | app/src/main/kotlin/twitter/app/telegram/TelegramUpdateConverter.kt:70 | a split has at least one piece, and at least two exactly when the separator occurs |
| KText.Lower | translations/qween/src/main/kotlin/twitter/translations/qween/QwenTranslationService.kt:109 | lower-casing maps each character on its own, ASCII capitals to small letters |
| KText.Upper | app/src/main/kotlin/twitter/app/features/twitter/TweetSender.kt:247 | upper-casing maps each character on its own, ASCII small letters to capitals |
| KText.ParseLong | video/ytdlp/src/main/kotlin/twitterx/video/ytdlp/YtDlpVideoService.kt:253 | a parsed number always fits in 64 bits |
| KText.ParseLongRoundTrip | video/ytdlp/src/main/kotlin/twitterx/video/ytdlp/YtDlpVideoService.kt:253 | every 64-bit value parses back from its decimal text |
| KText.WrapLong | video/ytdlp/src/main/kotlin/twitterx/video/ytdlp/YtDlpVideoService.kt:250-252 | a product is wrapped to the 64-bit value congruent to it modulo 2^64 |

## Left out

- Transport and process I/O are parameters, not modelled. This covers the Telegram client, Telegraph, HTTP, the Google, Libre and Gemini services, yt-dlp and the Python process. Only their results enter the model.
- Concurrency is not modelled:
  - the per-chat channels and the consume loop of `TelegramService` (lines 24-56);
  - the coroutine launch in `checkForNewTweets`;
  - the scheduled file cleanup and `clearFolder`.
- Chat actions ("typing") and logging are left out. They change nothing the model returns.
- Clocks and dates are left out: `parseDate`, `parseCreatedAt`, `lastChecked` and the process timeout value.
- Repositories are maps or function values. Configuration loading, TOML parsing and JSON parsing are parameters. The decoded values are given.
- The Qwen prompt text (`buildTranslationPrompt`) is left out, because only the reply matters to the model.
- Qwen.DetectFallbackCases: the floating-point ratio test `cyrillic / length > 0.5` is stated as the integer test `2·cyrillic > length`. For the empty text this gives "en", as NaN does.
- Strings are sequences of Unicode scalar values, not UTF-16 units. Lengths, substring offsets and Telegram entity offsets therefore agree with the source only outside the supplementary planes.
- KText.Lower and KText.Upper fold ASCII letters only, plus the Kelvin sign that `lowercase` folds to `k`. Other case mappings are not modelled.
- KText.ParseLong accepts ASCII digits only; Java's `parseLong` also accepts other Unicode decimal digits.
- TweetSender.TranslateContent: its own contract says only that the original content ends the result. The exact "[TO] translated\n\n[FROM] original" format is stated by TweetSender.TranslateContentLeads, and when the content is kept by TweetSender.TranslateContentKept.
- RssParser.DecodeEntities: its own contract only bounds the length. What the decoding does is stated by RssParser.DecodeEntity, RssParser.DecodeAlone and RssParser.DecodeDoubleEscaped, for texts that hold one entity. A text with several entities is decoded by the same chain of replacements, but no lemma states it as one property.
- RssParser.CleanDescription: its own contract gives the length bound and the trimming. The cleaned text of a description with no tags and one entity is stated by RssParser.CleanEntity. What tag removal leaves of general markup is stated only as a length bound.
- YtDlpService.Fetch: the duration is kept as whole seconds. The file's absolute path is the path the model builds, and the file name is an input standing for the random UUID.
- YtDlpService.Execute: a process that times out is one failure kind; the exception it carries is not modelled.
- Exception messages and causes are modelled only where a caller reads them (`fromName`, the yt-dlp installation check).
- AES encryption, hex encoding and UTF-8 encoding in `encodeUrl` are library code. Only the padding step is modelled.
- TwitterService.ReplyChain walks the reply chain with a fuel bound, because the source does not guarantee that the walk terminates. Running out of fuel is reported as an `Unexpected` failure, where the source would keep fetching.
- The other methods of `TwitterServiceImpl` (lines 23-141) forward the provider's result unchanged and are not modelled.
- AIModels.ResponseOf and AIModels.ImageOf: their contracts are the record defaults themselves. There is no further behaviour to relate them to.
- Monitoring.Check: delivery is at most once, not exactly once. The marker moves to the newest tweet whatever happened to its sends, a failed thread fetch leaves no record, and a send with no returned message id is not recorded, so a tweet that reached no subscriber is never retried. The source behaves the same way; the model promises only `Monitoring.CheckKeepsSent` and `Monitoring.CheckReachesSubscribers`.
- TextToDom.Paragraphs: its own contract only bounds the count and rules out blank paragraphs. Which paragraphs appear, and in what order, is stated by TextToDom.ParagraphsAppend and TextToDom.ParagraphsOne, which together fix the result for every chunk list.
- TextToDom.ParagraphNodes: its own contract gives only the length. The content of each node is stated by TextToDom.ParagraphNodesAt.
- Localization.Flatten: its own contract says only that keys are added. What each kind of entry contributes is stated by Localization.FlattenPrimitiveStep, Localization.FlattenStrings, Localization.FlattenNested and Localization.FlattenFailsOnArray. An object that mixes nested objects with primitives is not stated as one lemma.
- The legacy update class at src/main/kotlin/com/programistich/twitterx/core/telegram/updates/TelegramInlineQuery.kt (the inline-query update itself is modelled as `TelegramApi.Update.InlineQueryUpdate`), the Google and Libre translators and the legacy duplicates of the Telegram senders and executors are not part of this model.
- Poll percentages and other display-only fields of the FxTwitter payload are not modelled.

=== FILE: ai_models.dfy ===
/** `AIModels`: the model names the AI service accepts and the defaults of
    its request, response, image and session records. */
module AIModels {
  import opened Wrappers
  import opened KText

  /** `AIModel`, in declaration order. */
  datatype AIModel = Unspecified | Gemini25Flash | Gemini25Pro | Gemini20Flash | Gemini20FlashThinking

  const Models: seq<AIModel> := [Unspecified, Gemini25Flash, Gemini25Pro, Gemini20Flash, Gemini20FlashThinking]

  /** `AIModel.modelName`: every model but the placeholder is a Gemini
      model, named `gemini-` and a version. */
  function ModelName(m: AIModel): (name: String) {
    match m
    case Unspecified => "unspecified"
    case Gemini25Flash => "gemini-2.5-flash"
    case Gemini25Pro => "gemini-2.5-pro"
    case Gemini20Flash => "gemini-2.0-flash"
    case Gemini20FlashThinking => "gemini-2.0-flash-thinking"
  }

  /** Exactly the Gemini models have names starting `gemini-`. */
  lemma {:induction false} ModelNamePrefix(m: AIModel)
    ensures StartsWith(ModelName(m), "gemini-") <==> m != Unspecified
  {
    match m
    case Unspecified => assert "unspecified"[..7][0] != "gemini-"[0];
    case Gemini25Flash => assert "gemini-2.5-flash"[..7] == "gemini-";
    case Gemini25Pro => assert "gemini-2.5-pro"[..7] == "gemini-";
    case Gemini20Flash => assert "gemini-2.0-flash"[..7] == "gemini-";
    case Gemini20FlashThinking => assert "gemini-2.0-flash-thinking"[..7] == "gemini-";
  }

  /** `fromName`: the first model with that name; any other name throws
      `IllegalArgumentException` with this message. */
  function FromName(name: String): (r: Result<AIModel, String>)
    ensures r.Success? ==> ModelName(r.value) == name
    ensures r.Failure? ==> r.error == "Unknown model name: " + name
    ensures r.Failure? ==> forall k | 0 <= k < |Models| :: ModelName(Models[k]) != name
  {
    FindModel(name, 0)
  }

  function FindModel(name: String, from: nat): (r: Result<AIModel, String>)
    requires from <= |Models|
    ensures r.Success? ==> ModelName(r.value) == name
    ensures r.Failure? ==> r.error == "Unknown model name: " + name
    ensures r.Failure? ==> forall k | from <= k < |Models| :: ModelName(Models[k]) != name
    decreases |Models| - from
  {
    if from == |Models| then Failure("Unknown model name: " + name)
    else if ModelName(Models[from]) == name then Success(Models[from])
    else FindModel(name, from + 1)
  }

  /** Every model is read back from its own name, and a name is accepted
      exactly when some model has it. */
  lemma {:induction false} FromNameRoundTrip(m: AIModel, name: String)
    ensures FromName(ModelName(m)) == Success(m)
    ensures FromName(name).Success? <==> exists k | 0 <= k < |Models| :: ModelName(Models[k]) == name
  {
    match m
    case Unspecified => assert ModelName(Unspecified) == "unspecified";
    case Gemini25Flash => assert ModelName(Gemini25Flash) == "gemini-2.5-flash";
    case Gemini25Pro => assert ModelName(Gemini25Pro) == "gemini-2.5-pro";
    case Gemini20Flash => assert ModelName(Gemini20Flash) == "gemini-2.0-flash";
    case Gemini20FlashThinking => assert ModelName(Gemini20FlashThinking) == "gemini-2.0-flash-thinking";
    if FromName(name).Success? {
      assert Models[0] == Unspecified;
      assert FromName(name).value in Models;
    }
  }

  /** `AIRequest`. */
  datatype AIRequest = AIRequest(prompt: String, model: AIModel, files: seq<String>, conversationId: Option<String>)

  /** `AIImage`. */
  datatype AIImage = AIImage(url: String, title: String, alt: String, isGenerated: bool)

  /** `AIResponse`. */
  datatype AIResponse = AIResponse(text: String, thoughts: Option<String>, conversationId: Option<String>,
                                   model: AIModel, images: seq<AIImage>)

  /** `ChatSession`. */
  datatype ChatSession = ChatSession(conversationId: String, model: AIModel, metadata: Option<seq<String>>)

  /** `AIRequest(prompt)` with every other argument defaulted: no model
      chosen, no files and a new conversation. */
  function RequestOf(prompt: String): (r: AIRequest)
    ensures r.prompt == prompt && r.files == [] && r.conversationId.None?
    ensures FromName(ModelName(r.model)) == Success(r.model) && ModelName(r.model) == "unspecified"
  {
    FromNameRoundTrip(Unspecified, "");
    AIRequest(prompt, Unspecified, [], None)
  }

  /** `AIResponse(text, model = m)` with the other arguments defaulted. */
  function ResponseOf(text: String, m: AIModel): (r: AIResponse)
    ensures r.text == text && r.model == m
    ensures r.thoughts.None? && r.conversationId.None? && r.images == []
  {
    AIResponse(text, None, None, m, [])
  }

  /** `AIImage(url)` with the other arguments defaulted. */
  function ImageOf(url: String): (r: AIImage)
    ensures r.url == url && r.title == "[Image]" && r.alt == "" && !r.isGenerated
  {
    AIImage(url, "[Image]", "", false)
  }

  /** `ChatSession(conversationId)` with the other arguments defaulted. */
  function SessionOf(conversationId: String): (r: ChatSession)
    ensures r.conversationId == conversationId && r.metadata.None?
    ensures FromName(ModelName(r.model)) == Success(r.model) && ModelName(r.model) == "unspecified"
  {
    FromNameRoundTrip(Unspecified, "");
    ChatSession(conversationId, Unspecified, None)
  }
}

=== FILE: dictionary.dfy ===
/** `DictionaryCache` (the older bot): texts read from a TOML dictionary,
    one table per `DictionaryKey` holding one entry per language name, with
    positional `{}` placeholders. The parsed tables are a parameter (the
    TOML reader is not modelled); `trimIndent` is written out with lines
    split as `lines()` splits them, at `\r\n`, `\n` and `\r`, and joined
    again with `\n`. */
module Dictionary {
  import opened Wrappers
  import opened KText

  /** `DictionaryKey`, in declaration order. */
  datatype DictionaryKey =
    | StartCommand | LangCommand | LangCommandButton | LangChanged
    | TweetFixUpx | TweetHeader | TweetInlineTitle | OpenAiError

  /** `DictionaryKey.value`: the name of the key's table. */
  function KeyValue(k: DictionaryKey): String {
    match k
    case StartCommand => "start-command-text"
    case LangCommand => "language-command-text"
    case LangCommandButton => "language-command-button"
    case LangChanged => "language-changed-text"
    case TweetFixUpx => "tweet-fixupx"
    case TweetHeader => "tweet-header"
    case TweetInlineTitle => "tweet-inline-title"
    case OpenAiError => "open-ai-error"
  }

  /** `DictionaryKey.entries`. */
  const DictionaryKeys: seq<DictionaryKey> :=
    [StartCommand, LangCommand, LangCommandButton, LangChanged,
     TweetFixUpx, TweetHeader, TweetInlineTitle, OpenAiError]

  /** The cache: table name to the table's entries. */
  type Cache = map<String, map<String, String>>

  // ---------------------------------------------------------------------
  // trimIndent

  /** `indentWidth`: the number of leading white-space characters. */
  function IndentWidth(line: String): (w: nat)
    ensures w <= |line|
    ensures forall k | 0 <= k < w :: IsWhitespace(line[k])
    ensures w == |line| || !IsWhitespace(line[w])
  {
    SkipForward(line, 0)
  }

  /** The smallest indent among the lines that are not blank; `None` when
      every line is blank. */
  function MinIndent(lines: seq<String>): (m: Option<nat>)
    ensures m.None? <==> forall i | 0 <= i < |lines| :: IsBlank(lines[i])
    ensures m.Some? ==>
      (exists i | 0 <= i < |lines| :: !IsBlank(lines[i]) && IndentWidth(lines[i]) == m.value)
      && forall i | 0 <= i < |lines| && !IsBlank(lines[i]) :: m.value <= IndentWidth(lines[i])
  {
    if lines == [] then None
    else
      var rest := MinIndent(lines[1..]);
      assert forall i | 1 <= i < |lines| :: lines[i] == lines[1..][i - 1];
      if IsBlank(lines[0]) then rest
      else if rest.None? || IndentWidth(lines[0]) <= rest.value then Some(IndentWidth(lines[0]))
      else
        assert forall i | 0 <= i < |lines[1..]| :: lines[1..][i] == lines[i + 1];
        rest
  }

  /** `drop(n)`. */
  function Drop(s: String, n: nat): (r: String)
    ensures |r| == if n < |s| then |s| - n else 0
  {
    if n < |s| then s[n..] else []
  }

  /** The lines from index `i` on, each with `indent` characters dropped,
      leaving out a blank first or last line. */
  function Reindent(lines: seq<String>, indent: nat, i: nat): seq<String>
    requires i <= |lines|
    decreases |lines| - i
  {
    if i == |lines| then []
    else if (i == 0 || i == |lines| - 1) && IsBlank(lines[i]) then Reindent(lines, indent, i + 1)
    else [Drop(lines[i], indent)] + Reindent(lines, indent, i + 1)
  }

  /** `trimIndent`: every line break of the result is `\n`. */
  function TrimIndent(s: String): (r: String)
    ensures forall j | 0 <= j < |r| :: r[j] != '\r'
  {
    var lines := Lines(s);
    var indent := MinIndent(lines).GetOr(0);
    ReindentNoBreak(lines, indent, 0);
    JoinWithoutCr(Reindent(lines, indent, 0));
    Join(Reindent(lines, indent, 0), "\n")
  }

  /** Reindenting lines without breaks gives lines without breaks. */
  lemma {:induction false} ReindentNoBreak(lines: seq<String>, indent: nat, i: nat)
    requires i <= |lines| && forall k | 0 <= k < |lines| :: NoLineBreak(lines[k])
    ensures forall k | 0 <= k < |Reindent(lines, indent, i)| :: NoLineBreak(Reindent(lines, indent, i)[k])
    decreases |lines| - i
  {
    if i < |lines| {
      ReindentNoBreak(lines, indent, i + 1);
      var d := Drop(lines[i], indent);
      assert NoLineBreak(d) by {
        forall j | 0 <= j < |d| ensures !IsLineBreak(d[j]) {
          assert d[j] == lines[i][j + indent];
        }
      }
    }
  }

  /** Lines without breaks joined with `\n` hold no `\r`. */
  lemma {:induction false} JoinWithoutCr(ls: seq<String>)
    requires forall k | 0 <= k < |ls| :: NoLineBreak(ls[k])
    ensures forall j | 0 <= j < |Join(ls, "\n")| :: Join(ls, "\n")[j] != '\r'
    decreases |ls|
  {
    if |ls| > 1 {
      JoinWithoutCr(ls[1..]);
      var head := ls[0];
      var rest := Join(ls[1..], "\n");
      var r := head + "\n" + rest;
      forall j | 0 <= j < |r| ensures r[j] != '\r' {
        if j < |head| {
          assert r[j] == head[j];
        } else if j > |head| {
          assert r[j] == rest[j - |head| - 1];
        }
      }
    }
  }

  /** A single line loses its leading white space, or everything if blank. */
  lemma {:induction false} TrimIndentOneLine(s: String)
    requires NoLineBreak(s)
    ensures TrimIndent(s) == if IsBlank(s) then [] else s[IndentWidth(s)..]
  {
    LinesOfOneLine(s);
    var lines := [s];
    if IsBlank(s) {
      assert Reindent(lines, 0, 0) == Reindent(lines, 0, 1) == [];
    } else {
      assert MinIndent(lines) == Some(IndentWidth(s)) by {
        assert lines[1..] == [];
      }
      assert Reindent(lines, IndentWidth(s), 0) == [Drop(s, IndentWidth(s))];
    }
  }

  /** Text whose first line starts with a visible character and whose last
      line is not blank keeps every line as it is; its line breaks all
      become `\n`, so text with `\n` breaks only comes back unchanged. */
  lemma {:induction false} TrimIndentFlush(s: String)
    requires var lines := Lines(s);
      |lines[0]| > 0 && !IsWhitespace(lines[0][0]) && !IsBlank(lines[|lines| - 1])
    ensures TrimIndent(s) == Join(Lines(s), "\n")
    ensures (forall j | 0 <= j < |s| :: s[j] != '\r') ==> TrimIndent(s) == s
  {
    var lines := Lines(s);
    assert !IsBlank(lines[0]);
    assert IndentWidth(lines[0]) == 0;
    assert MinIndent(lines) == Some(0);
    ReindentFlush(lines, 0);
    if forall j | 0 <= j < |s| :: s[j] != '\r' {
      JoinLines(s);
    }
  }

  /** Only the lines matter, not which terminators separate them: the text
      with every break turned into `\n` trims the same. */
  lemma {:induction false} TrimIndentBreaks(s: String)
    ensures TrimIndent(s) == TrimIndent(Join(Lines(s), "\n"))
  {
    LinesOfJoin(Lines(s));
  }

  /** Two one-letter lines under the same spaces, separated by any
      terminator, trim to the two letters joined by `\n`. */
  lemma {:induction false} TwoIndented(spaces: String, a: char, term: String, b: char)
    requires forall k | 0 <= k < |spaces| :: spaces[k] == ' '
    requires 'a' <= a <= 'z' && 'a' <= b <= 'z'
    requires term == "\n" || term == "\r\n" || term == "\r"
    ensures TrimIndent(spaces + [a] + term + spaces + [b]) == [a, '\n', b]
  {
    Indented(spaces, a);
    Indented(spaces, b);
    var x := spaces + [a];
    var y := spaces + [b];
    assert y[0] != '\n' by {
      if |spaces| > 0 { assert y[0] == spaces[0]; } else { assert y[0] == b; }
    }
    assert NoLineBreak(x) by {
      forall j | 0 <= j < |x| ensures !IsLineBreak(x[j]) {
        if j < |spaces| { assert x[j] == spaces[j]; } else { assert x[j] == a; }
      }
    }
    assert NoLineBreak(y) by {
      forall j | 0 <= j < |y| ensures !IsLineBreak(y[j]) {
        if j < |spaces| { assert y[j] == spaces[j]; } else { assert y[j] == b; }
      }
    }
    assert spaces + [a] + term + spaces + [b] == x + term + y;
    TwoLines(x, term, y, |spaces|);
  }

  /** A visible character after spaces: the line is not blank, and its
      indent is the spaces. */
  lemma {:induction false} Indented(spaces: String, c: char)
    requires forall k | 0 <= k < |spaces| :: spaces[k] == ' '
    requires 'a' <= c <= 'z'
    ensures var line := spaces + [c];
      !IsBlank(line) && IndentWidth(line) == |spaces| && line[|spaces|..] == [c]
  {
    var line := spaces + [c];
    assert line[|spaces|] == c;
    assert !IsWhitespace(c);
    assert forall k | 0 <= k < |spaces| :: IsWhitespace(line[k]);
  }

  /** Two visible lines of the same indent, separated by any terminator,
      lose the indent and are joined by `\n`. */
  lemma {:induction false} TwoLines(x: String, term: String, y: String, n: nat)
    requires term == "\n" || term == "\r\n" || (term == "\r" && (y == [] || y[0] != '\n'))
    requires NoLineBreak(x) && NoLineBreak(y)
    requires !IsBlank(x) && !IsBlank(y) && IndentWidth(x) == n && IndentWidth(y) == n
    ensures TrimIndent(x + term + y) == x[n..] + "\n" + y[n..]
  {
    LinesTerminators(x, y);
    LinesOfOneLine(y);
    assert Lines(x + term + y) == [x, y];
    TwoLinesTrimmed(x, y, n);
  }

  /** Two visible lines of the same indent lose it and are joined by `\n`. */
  lemma {:induction false} TwoLinesTrimmed(x: String, y: String, n: nat)
    requires !IsBlank(x) && !IsBlank(y) && IndentWidth(x) == n && IndentWidth(y) == n
    ensures Join(Reindent([x, y], MinIndent([x, y]).GetOr(0), 0), "\n") == x[n..] + "\n" + y[n..]
  {
    var ls := [x, y];
    assert MinIndent(ls) == Some(n) by {
      assert ls[1..] == [y];
      assert [y][1..] == [];
    }
    assert Reindent(ls, n, 2) == [];
    assert Reindent(ls, n, 1) == [y[n..]];
    assert Reindent(ls, n, 0) == [x[n..], y[n..]];
    assert [x[n..], y[n..]][1..] == [y[n..]];
  }

  /** With nothing to drop and no blank end line, every line is kept. */
  lemma {:induction false} ReindentFlush(lines: seq<String>, i: nat)
    requires i <= |lines|
    requires |lines| > 0 ==> !IsBlank(lines[0]) && !IsBlank(lines[|lines| - 1])
    ensures Reindent(lines, 0, i) == lines[i..]
    decreases |lines| - i
  {
    if i < |lines| {
      ReindentFlush(lines, i + 1);
      assert lines[i..] == [lines[i]] + lines[i + 1..];
    }
  }

  // ---------------------------------------------------------------------
  // Placeholders

  /** Each value replaces the first `{}` still present, left to right; a
      text without `{}` is left as it is. */
  function Fill(text: String, values: seq<String>): (r: String)
    ensures !Contains(text, "{}") ==> r == text
    decreases |values|
  {
    if values == [] then text else Fill(ReplaceFirst(text, "{}", values[0]), values[1..])
  }

  predicate NoBraces(s: String) {
    forall i | 0 <= i < |s| :: s[i] != '{' && s[i] != '}'
  }

  /** The pieces with the values between them; values beyond the gaps are
      unused. */
  function Interleave(pieces: seq<String>, values: seq<String>): String
    requires |pieces| >= 1 && |values| >= |pieces| - 1
    decreases |pieces|
  {
    if |pieces| == 1 then pieces[0]
    else pieces[0] + values[0] + Interleave(pieces[1..], values[1..])
  }

  /** A text made of brace-free pieces joined by `{}`, filled with
      brace-free values, puts the i-th value in the i-th gap; surplus values
      do nothing. */
  lemma {:induction false} FillPlaceholders(pieces: seq<String>, values: seq<String>)
    requires |pieces| >= 1 && |values| >= |pieces| - 1
    requires forall i | 0 <= i < |pieces| :: NoBraces(pieces[i])
    requires forall i | 0 <= i < |values| :: NoBraces(values[i])
    ensures Fill(Join(pieces, "{}"), values) == Interleave(pieces, values)
    decreases |pieces|
  {
    if |pieces| == 1 {
      FillAbsent(pieces[0], values);
    } else {
      var v := values[0];
      var merged := [pieces[0] + v + pieces[1]] + pieces[2..];
      var text := Join(pieces, "{}");
      assert text == pieces[0] + "{}" + Join(pieces[1..], "{}");
      ReplaceFirstAfterFree(pieces[0], Join(pieces[1..], "{}"), v);
      JoinMerge(pieces, v);
      assert NoBraces(pieces[0] + v + pieces[1]);
      forall i | 0 <= i < |merged| ensures NoBraces(merged[i]) {
        if i > 0 {
          assert merged[i] == pieces[i + 1];
        }
      }
      FillPlaceholders(merged, values[1..]);
      InterleaveMerge(pieces, values);
    }
  }

  /** Replacing the first `{}` of `free + "{}" + rest`, with `free` brace
      free, hits the one right after `free`. */
  lemma {:induction false} ReplaceFirstAfterFree(free: String, rest: String, v: String)
    requires NoBraces(free)
    ensures ReplaceFirst(free + "{}" + rest, "{}", v) == free + v + rest
  {
    var s := free + "{}" + rest;
    forall j | 0 <= j < |free| ensures !Occurs(s, "{}", j) {
      assert s[j] == free[j] != '{';
      assert s[j..j + 2][0] != '{';
    }
    assert s[|free|..|free| + 2] == "{}";
    IndexOfIs(s, "{}", 0, |free|);
    assert s[|free| + 2..] == rest;
  }

  /** Text without `{}` is left alone by any values. */
  lemma {:induction false} FillAbsent(text: String, values: seq<String>)
    requires NoBraces(text)
    ensures Fill(text, values) == text
    decreases |values|
  {
    if values != [] {
      assert !Contains(text, "{}") by {
        forall j | 0 <= j <= |text| - 2 ensures !Occurs(text, "{}", j) {
          assert text[j..j + 2][0] == text[j];
        }
      }
      FillAbsent(text, values[1..]);
    }
  }

  lemma {:induction false} JoinMerge(pieces: seq<String>, v: String)
    requires |pieces| >= 2
    ensures pieces[0] + v + Join(pieces[1..], "{}") == Join([pieces[0] + v + pieces[1]] + pieces[2..], "{}")
  {
    var merged := [pieces[0] + v + pieces[1]] + pieces[2..];
    assert merged[1..] == pieces[2..];
    if |pieces| > 2 {
      assert pieces[1..][1..] == pieces[2..];
    }
  }

  lemma {:induction false} InterleaveMerge(pieces: seq<String>, values: seq<String>)
    requires |pieces| >= 2 && |values| >= |pieces| - 1
    ensures Interleave([pieces[0] + values[0] + pieces[1]] + pieces[2..], values[1..]) == Interleave(pieces, values)
  {
    var tail := pieces[1..];
    assert [tail[0]] + tail[1..] == tail;
    assert tail[1..] == pieces[2..];
    InterleavePrefix(pieces[0] + values[0], tail, values[1..]);
  }

  /** Text glued to the front of the first piece comes out in front. */
  lemma {:induction false} InterleavePrefix(a: String, pieces: seq<String>, values: seq<String>)
    requires |pieces| >= 1 && |values| >= |pieces| - 1
    ensures Interleave([a + pieces[0]] + pieces[1..], values) == a + Interleave(pieces, values)
  {
    var glued := [a + pieces[0]] + pieces[1..];
    if |pieces| > 1 {
      var rest := Interleave(pieces[1..], values[1..]);
      assert Interleave(glued, values) == (a + pieces[0]) + values[0] + rest by {
        assert glued[1..] == pieces[1..];
      }
      assert (a + pieces[0]) + values[0] + rest == a + (pieces[0] + values[0] + rest);
    }
  }

  // ---------------------------------------------------------------------
  // Lookup

  /** `getRaw(table, key, values)`. */
  function GetRaw(cache: Cache, table: String, key: String, values: seq<String>): (r: Option<String>)
    ensures r.Some? <==> table in cache && key in cache[table]
  {
    if table !in cache then None
    else if key !in cache[table] then None
    else if values == [] then Some(TrimIndent(cache[table][key]))
    else Some(TrimIndent(Fill(cache[table][key], values)))
  }

  /** With or without values, the result is the filled text, trimmed. */
  lemma {:induction false} GetRawFilled(cache: Cache, table: String, key: String, values: seq<String>)
    requires table in cache && key in cache[table]
    ensures GetRaw(cache, table, key, values) == Some(TrimIndent(Fill(cache[table][key], values)))
  {
  }

  /** `getByKey`: the entry of the key's table for the lower-cased language
      name; `None` where `checkNotNull` throws. */
  function GetByKey(cache: Cache, key: DictionaryKey, languageName: String, values: seq<String>): (r: Option<String>)
    ensures r.Some? <==> KeyValue(key) in cache && Lower(languageName) in cache[KeyValue(key)]
  {
    GetRaw(cache, KeyValue(key), Lower(languageName), values)
  }

  /** `checkAllTranslate`: the first (key, language) pair, keys outermost,
      whose text is missing. */
  function MissingTranslation(cache: Cache, languageNames: seq<String>): (r: Option<(DictionaryKey, String)>)
    ensures r.Some? ==>
      r.value.0 in DictionaryKeys && r.value.1 in languageNames && GetByKey(cache, r.value.0, r.value.1, []).None?
  {
    FirstMissing(cache, DictionaryKeys, languageNames)
  }

  function FirstMissing(cache: Cache, keys: seq<DictionaryKey>, names: seq<String>): (r: Option<(DictionaryKey, String)>)
    ensures r.Some? ==> r.value.0 in keys && r.value.1 in names && GetByKey(cache, r.value.0, r.value.1, []).None?
  {
    if keys == [] then None
    else
      match FirstMissingName(cache, keys[0], names)
      case Some(n) => Some((keys[0], n))
      case None => FirstMissing(cache, keys[1..], names)
  }

  function FirstMissingName(cache: Cache, key: DictionaryKey, names: seq<String>): (r: Option<String>)
    ensures r.Some? ==> r.value in names && GetByKey(cache, key, r.value, []).None?
  {
    if names == [] then None
    else if GetByKey(cache, key, names[0], []).None? then Some(names[0])
    else FirstMissingName(cache, key, names[1..])
  }

  /** The startup check passes exactly when every key has a text for every
      language, and then every lookup succeeds. */
  lemma {:induction false} FirstMissingComplete(cache: Cache, keys: seq<DictionaryKey>, names: seq<String>)
    ensures FirstMissing(cache, keys, names).None? <==>
      forall k, n | k in keys && n in names :: GetByKey(cache, k, n, []).Some?
  {
    if keys != [] {
      FirstMissingNameComplete(cache, keys[0], names);
      FirstMissingComplete(cache, keys[1..], names);
      assert forall k | k in keys :: k == keys[0] || k in keys[1..];
    }
  }

  lemma {:induction false} FirstMissingNameComplete(cache: Cache, key: DictionaryKey, names: seq<String>)
    ensures FirstMissingName(cache, key, names).None? <==> forall n | n in names :: GetByKey(cache, key, n, []).Some?
  {
    if names != [] {
      FirstMissingNameComplete(cache, key, names[1..]);
      assert forall n | n in names :: n == names[0] || n in names[1..];
    }
  }

  lemma {:induction false} MissingTranslationComplete(cache: Cache, languageNames: seq<String>, values: seq<String>)
    ensures MissingTranslation(cache, languageNames).None? <==>
      forall k, n | k in DictionaryKeys && n in languageNames :: GetByKey(cache, k, n, values).Some?
  {
    FirstMissingComplete(cache, DictionaryKeys, languageNames);
    forall k, n | k in DictionaryKeys && n in languageNames
      ensures GetByKey(cache, k, n, values).Some? <==> GetByKey(cache, k, n, []).Some?
    {
    }
  }
}

=== FILE: elonmusk_command.dfy ===
/** `ElonMuskCommandExecutor`: the `/elonmusk` command toggles a chat's
    subscription to the tracked account and tells the chat which way it
    went. The chat table is an in-memory map standing for the repository;
    the localiser and the sender are parameters. */
module ElonMuskCommand {
  import opened Wrappers
  import opened KText
  import opened Translation
  import opened Localization

  /** `TelegramChat`. */
  datatype TelegramChat = TelegramChat(id: int, language: Language, isElonMusk: bool)

  /** The repository: chats by id; `save` replaces the record with the
      same id. */
  type Chats = map<int, TelegramChat>

  /** `findAllElonMuskSubscribers`, as ids. */
  function Subscribers(chats: Chats): (ids: set<int>)
    ensures forall id :: id in ids <==> id in chats && chats[id].isElonMusk
  {
    set id | id in chats && chats[id].isElonMusk
  }

  /** `getUserLanguage`: the stored language, English for an unknown chat. */
  function UserLanguage(chats: Chats, chatId: int): (l: Language)
    ensures chatId in chats ==> l == chats[chatId].language
    ensures chatId !in chats ==> l == English
  {
    if chatId in chats then chats[chatId].language else English
  }

  /** What one `/elonmusk` command did: the table after it, the message it
      sent and whether the send succeeded. */
  datatype Toggled = Toggled(chats: Chats, key: MessageKey, language: Language, message: String, delivered: bool)

  /** `process`: find or create (unsubscribed, saved) the chat, negate its
      flag, save it, then send the message for the new state. */
  function Toggle(chats: Chats, chatId: int,
                  localize: (MessageKey, Language) -> String,
                  send: (int, String) -> bool): (t: Toggled)
    ensures chatId in t.chats && t.chats[chatId].id == (if chatId in chats then chats[chatId].id else chatId)
    ensures t.chats[chatId].isElonMusk == !(chatId in chats && chats[chatId].isElonMusk)
    ensures t.chats[chatId].language == UserLanguage(chats, chatId) == t.language
    ensures forall id | id != chatId :: (id in t.chats <==> id in chats) && (id in chats ==> t.chats[id] == chats[id])
    ensures t.key == (if t.chats[chatId].isElonMusk then ElonMuskSubscribed else ElonMuskUnsubscribed)
    ensures t.message == localize(t.key, t.language)
    ensures t.delivered == send(chatId, t.message)
  {
    var language := UserLanguage(chats, chatId);
    var chat := if chatId in chats then chats[chatId] else TelegramChat(chatId, language, false);
    var created := chats[chatId := chat];
    var saved := created[chatId := chat.(isElonMusk := !chat.isElonMusk)];
    var key := if saved[chatId].isElonMusk then ElonMuskSubscribed else ElonMuskUnsubscribed;
    var message := localize(key, language);
    Toggled(saved, key, language, message, send(chatId, message))
  }

  /** The first command in a chat subscribes it; a send that fails leaves
      the saved state as it is. */
  lemma {:induction false} FirstCommandSubscribes(chats: Chats, chatId: int, localize: (MessageKey, Language) -> String,
                               send: (int, String) -> bool, failing: (int, String) -> bool)
    requires chatId !in chats
    ensures Toggle(chats, chatId, localize, send).chats[chatId] == TelegramChat(chatId, English, true)
    ensures Toggle(chats, chatId, localize, send).key == ElonMuskSubscribed
    ensures Toggle(chats, chatId, localize, failing).chats == Toggle(chats, chatId, localize, send).chats
  {
  }

  /** The command moves the chat into the subscribers exactly when it was
      not one, and leaves every other chat where it was. */
  lemma {:induction false} ToggleSubscribers(chats: Chats, chatId: int, localize: (MessageKey, Language) -> String,
                          send: (int, String) -> bool)
    ensures var after := Subscribers(Toggle(chats, chatId, localize, send).chats);
      && (chatId in after <==> chatId !in Subscribers(chats))
      && after - {chatId} == Subscribers(chats) - {chatId}
  {
    var t := Toggle(chats, chatId, localize, send);
    var after := Subscribers(t.chats);
    forall id ensures id in after - {chatId} <==> id in Subscribers(chats) - {chatId} {
      if id != chatId {
        assert id in t.chats <==> id in chats;
      }
    }
  }

  /** Two commands in a row restore the subscription and leave the record
      as it was, apart from creating it for a new chat. */
  lemma {:induction false} ToggleTwice(chats: Chats, chatId: int, localize: (MessageKey, Language) -> String,
                    send: (int, String) -> bool)
    ensures var twice := Toggle(Toggle(chats, chatId, localize, send).chats, chatId, localize, send).chats;
      && (chatId in chats ==> twice == chats)
      && (chatId !in chats ==> twice == chats[chatId := TelegramChat(chatId, English, false)])
  {
    var once := Toggle(chats, chatId, localize, send).chats;
    var twice := Toggle(once, chatId, localize, send).chats;
    if chatId in chats {
      assert twice[chatId] == chats[chatId];
      assert twice.Keys == chats.Keys;
    } else {
      assert twice.Keys == chats.Keys + {chatId};
    }
  }
}

=== FILE: fx_converter.dfy ===
/** `FXTwitterConverter`: an FxTwitter API tweet turned into the
    provider-independent `Tweet`. The API models (`FxTwitterModels`) keep
    only the fields the converter reads. */
module FxConverter {
  import opened Wrappers
  import opened KText
  import opened Patterns
  import opened TwitterModels

  datatype FxAuthor = FxAuthor(name: String, screenName: String, avatarUrl: Option<String>)

  /** An external media item; `kind` is its `type`. */
  datatype FxExternal = FxExternal(kind: String, url: String)

  /** Photos and videos by URL; the mosaic by its JPEG URL. */
  datatype FxMedia = FxMedia(
    external: Option<FxExternal>,
    photos: Option<seq<String>>,
    videos: Option<seq<String>>,
    mosaicJpeg: Option<String>)

  /** `FxTweet`. The creation date, counters and poll are not part of this
      model. */
  datatype FxTweet = FxTweet(
    url: String,
    text: String,
    author: FxAuthor,
    lang: Option<String>,
    replyingToStatus: Option<String>,
    media: Option<FxMedia>,
    quote: Option<FxTweet>)

  // ---------------------------------------------------------------------
  // String.hashCode

  const IntModulus: int := 0x1_0000_0000

  /** `String.hashCode()`: `h = 31 * h + c` over the characters, in 32-bit
      arithmetic. */
  function HashCode(s: String): (h: int)
    ensures -0x8000_0000 <= h <= 0x7FFF_FFFF
  {
    if s == [] then 0 else WrapInt(31 * HashCode(s[..|s| - 1]) + s[|s| - 1] as int)
  }

  /** The polynomial `hashCode` is documented as: `s[0]·31^(n-1) + … + s[n-1]`. */
  function HashPolynomial(s: String): int {
    if s == [] then 0 else 31 * HashPolynomial(s[..|s| - 1]) + s[|s| - 1] as int
  }

  /** `hashCode` is the documented polynomial, reduced to 32 bits. */
  lemma {:induction false} HashCodeIsPolynomial(s: String)
    ensures (HashCode(s) - HashPolynomial(s)) % IntModulus == 0
  {
    if s != [] {
      var p := s[..|s| - 1];
      var c := s[|s| - 1] as int;
      HashCodeIsPolynomial(p);
      var x := 31 * HashCode(p) + c;
      CongruentStep(HashCode(p), HashPolynomial(p), c, WrapInt(x));
    }
  }

  /** One step of the hash keeps the two sides congruent modulo 2^32. */
  lemma {:induction false} CongruentStep(a: int, b: int, c: int, w: int)
    requires (a - b) % IntModulus == 0
    requires (w - (31 * a + c)) % IntModulus == 0
    ensures (w - (31 * b + c)) % IntModulus == 0
  {
    var q := (a - b) / IntModulus;
    var q2 := (w - (31 * a + c)) / IntModulus;
    assert a - b == IntModulus * q;
    assert w - (31 * a + c) == IntModulus * q2;
    assert w - (31 * b + c) == IntModulus * (q2 + 31 * q);
  }

  // ---------------------------------------------------------------------
  // Tweet ids from URLs

  /** `extractTweetIdFromUrl`: the text after the last `/status/`, up to the
      next `?` or the end; without `/status/`, the decimal `hashCode` of the
      URL. */
  function ExtractTweetIdFromUrl(url: String): (r: String)
    ensures !Contains(url, "/status/") ==> r == IntToString(HashCode(url))
    ensures Contains(url, "/status/") ==> forall k | 0 <= k < |r| :: r[k] != '?'
  {
    var statusIndex := LastIndexOf(url, "/status/");
    if statusIndex != -1 then
      var idStart := statusIndex + 8;
      var q := IndexOf(url, "?", idStart);
      var idEnd := if q != -1 then q else |url|;
      assert forall k | idStart <= k < idEnd :: url[k] != '?' by {
        forall k | idStart <= k < idEnd ensures url[k] != '?' {
          assert !Occurs(url, "?", k);
          assert url[k..k + 1][0] == url[k];
        }
      }
      url[idStart..idEnd]
    else
      assert !Contains(url, "/status/");
      IntToString(HashCode(url))
  }

  /** A tweet's own address gives back its id, when the id holds neither
      `/` nor `?` (a numeric id holds neither). */
  lemma {:induction false} ExtractTweetIdOfTweetUrl(t: Tweet)
    requires forall k | 0 <= k < |t.id| :: t.id[k] != '/' && t.id[k] != '?'
    ensures ExtractTweetIdFromUrl(TweetUrl(t)) == t.id
  {
    var pre := XBase + t.username;
    var s := pre + "/status/" + t.id;
    var p := |pre|;
    assert s == TweetUrl(t);
    LastStatusAt(pre, t.id);
    forall k | p + 8 <= k < |s| ensures s[k] != '?' {
      assert s[k] == t.id[k - p - 8];
    }
    NoQueryAfter(s, p + 8);
    assert s[p + 8..] == t.id;
  }

  /** With no `/` after it, the `/status/` in front of the id is the last. */
  lemma {:induction false} LastStatusAt(pre: String, id: String)
    requires forall k | 0 <= k < |id| :: id[k] != '/'
    ensures LastIndexOf(pre + "/status/" + id, "/status/") == |pre|
  {
    var s := pre + "/status/" + id;
    var p := |pre|;
    assert Occurs(s, "/status/", p) by {
      assert s[p..p + 8] == "/status/";
    }
    forall j | p < j <= |s| ensures !Occurs(s, "/status/", j) {
      if j + 8 <= |s| {
        var tail := "/status/" + id;
        assert s == pre + tail;
        assert s[j + 7] == s[j..j + 8][7];
        assert s[j + 7] == tail[j + 7 - p] == id[j + 7 - p - 8];
        assert s[j..j + 8][7] != "/status/"[7];
      }
    }
  }

  /** No `?` at or after `from`: `indexOf("?", from)` finds nothing. */
  lemma {:induction false} NoQueryAfter(s: String, from: nat)
    requires from <= |s| && forall k | from <= k < |s| :: s[k] != '?'
    ensures IndexOf(s, "?", from) == -1
  {
    forall k | from <= k < |s| ensures !Occurs(s, "?", k) {
      assert s[k..k + 1][0] == s[k];
    }
  }

  // ---------------------------------------------------------------------
  // Media

  function OrEmpty(xs: Option<seq<String>>): seq<String> {
    if xs.Some? then xs.value else []
  }

  /** `extractMediaUrls`: the photos' URLs in order, then the mosaic's JPEG. */
  function MediaUrls(fx: FxTweet): (urls: seq<String>)
    ensures fx.media.None? ==> urls == []
    ensures fx.media.Some? ==>
      var m := fx.media.value;
      |urls| == |OrEmpty(m.photos)| + (if m.mosaicJpeg.Some? then 1 else 0)
      && urls[..|OrEmpty(m.photos)|] == OrEmpty(m.photos)
      && (m.mosaicJpeg.Some? ==> urls[|urls| - 1] == m.mosaicJpeg.value)
  {
    if fx.media.None? then []
    else
      var m := fx.media.value;
      OrEmpty(m.photos) + (if m.mosaicJpeg.Some? then [m.mosaicJpeg.value] else [])
  }

  /** `extractVideoUrls`: the videos' URLs in order, then the external
      media's URL when its type is `video`. */
  function VideoUrls(fx: FxTweet): (urls: seq<String>)
    ensures fx.media.None? ==> urls == []
    ensures fx.media.Some? ==>
      var m := fx.media.value;
      var external := m.external.Some? && m.external.value.kind == "video";
      |urls| == |OrEmpty(m.videos)| + (if external then 1 else 0)
      && urls[..|OrEmpty(m.videos)|] == OrEmpty(m.videos)
      && (external ==> urls[|urls| - 1] == m.external.value.url)
  {
    if fx.media.None? then []
    else
      var m := fx.media.value;
      OrEmpty(m.videos)
        + (if m.external.Some? && m.external.value.kind == "video" then [m.external.value.url] else [])
  }

  // ---------------------------------------------------------------------
  // Hashtags, mentions, links

  /** Group 1 of every match of `#(…)` or `@(…)`, in order. */
  function TagGroups(marker: char, text: String): (tags: seq<String>)
    ensures var spans := FindAll(Tag(marker), text, 0);
      |tags| == |spans|
      && forall k | 0 <= k < |spans| :: tags[k] == text[spans[k].0 + 1..spans[k].1]
  {
    var spans := FindAll(Tag(marker), text, 0);
    seq(|spans|, k requires 0 <= k < |spans| => text[spans[k].0 + 1..spans[k].1])
  }

  /** Every group is a non-empty run of word characters right after the
      marker, and the longest such run there. */
  lemma {:induction false} TagGroupsShape(marker: char, text: String, k: nat)
    requires k < |TagGroups(marker, text)|
    ensures var span := FindAll(Tag(marker), text, 0)[k];
      var tag := TagGroups(marker, text)[k];
      text[span.0] == marker && |tag| > 0
      && (forall i | 0 <= i < |tag| :: IsWordChar(tag[i]))
      && (span.1 == |text| || !IsWordChar(text[span.1]))
  {
    var span := FindAll(Tag(marker), text, 0)[k];
    TagMatchShape(marker, text, span.0);
  }

  /** A lone tag is read back whole. */
  lemma {:induction false} TagGroupsOfTag(marker: char, word: String)
    requires |word| > 0 && forall i | 0 <= i < |word| :: IsWordChar(word[i])
    ensures TagGroups(marker, [marker] + word) == [word]
  {
    var text := [marker] + word;
    forall i | 1 <= i < |text| ensures InClass(Word, text[i]) {
      assert text[i] == word[i - 1];
    }
    RunEndIs(Word, text, 1, |text|);
    assert MatchAt(Tag(marker), text, 0) == Some(|text|);
    assert FindFrom(Tag(marker), text, 0) == Some((0, |text|));
    assert FindAll(Tag(marker), text, |text|) == [];
    assert FindAll(Tag(marker), text, 0) == [(0, |text|)];
    assert text[1..|text|] == word;
  }

  /** `extractUrls`: the whole text of every `https?://\S+` match, in order. */
  function UrlMatches(text: String): (urls: seq<String>)
    ensures var spans := FindAll(Url, text, 0);
      |urls| == |spans| && forall k | 0 <= k < |spans| :: urls[k] == text[spans[k].0..spans[k].1]
  {
    var spans := FindAll(Url, text, 0);
    seq(|spans|, k requires 0 <= k < |spans| => text[spans[k].0..spans[k].1])
  }

  // ---------------------------------------------------------------------
  // convert

  /** `convert`: the tweet under the id it was requested by. */
  function Convert(fx: FxTweet, tweetId: String): (t: Tweet)
    ensures t.id == tweetId
    ensures t.username == fx.author.screenName && t.fullName == fx.author.name
    ensures t.content == fx.text
  {
    Tweet(
      tweetId,
      fx.author.screenName,
      fx.author.name,
      fx.text,
      MediaUrls(fx),
      VideoUrls(fx),
      fx.replyingToStatus,
      None,
      if fx.quote.Some? then Some(ExtractTweetIdFromUrl(fx.quote.value.url)) else None,
      fx.author.avatarUrl,
      fx.lang,
      TagGroups('#', fx.text),
      TagGroups('@', fx.text),
      UrlMatches(fx.text))
  }

  /** A converted tweet is a reply exactly when the payload names the
      status it replies to, is a quote exactly when it embeds a quoted
      tweet, and is never marked as a retweet. */
  lemma {:induction false} ConvertRelations(fx: FxTweet, tweetId: String)
    ensures IsReply(Convert(fx, tweetId)) <==> fx.replyingToStatus.Some?
    ensures IsReply(Convert(fx, tweetId)) ==> Convert(fx, tweetId).replyToTweetId == fx.replyingToStatus
    ensures IsQuote(Convert(fx, tweetId)) <==> fx.quote.Some?
    ensures !IsRetweet(Convert(fx, tweetId))
  {
  }

  /** The quoted tweet's id is read from the quoted tweet's address. */
  lemma {:induction false} ConvertQuoteId(fx: FxTweet, tweetId: String, quoted: Tweet)
    requires fx.quote.Some? && fx.quote.value.url == TweetUrl(quoted)
    requires forall k | 0 <= k < |quoted.id| :: quoted.id[k] != '/' && quoted.id[k] != '?'
    ensures Convert(fx, tweetId).quoteTweetId == Some(quoted.id)
  {
    ExtractTweetIdOfTweetUrl(quoted);
  }
}

=== FILE: fx_service.dfy ===
/** `FxTwitterService`: fetching one tweet from the FxTwitter API. The HTTP
    client is a parameter: `fetch` maps a URL to the reply, or to `None`
    when the request itself throws. A reply whose body does not decode
    carries `None` as its payload. */
module FxService {
  import opened Wrappers
  import opened KText
  import opened TwitterModels
  import opened FxConverter

  /** `FxTwitterResponse`. */
  datatype FxResponse = FxResponse(code: int, message: String, tweet: Option<FxTweet>)

  datatype FxReply = FxReply(status: int, payload: Option<FxResponse>)

  const SuccessCode: int := 200

  function StatusUrl(baseUrl: String, tweetId: String): String {
    baseUrl + "/status/" + tweetId
  }

  /** The error for an HTTP status outside 2xx. */
  function HttpFailure(status: int, tweetId: String): TwitterError {
    if status == NotFound then TweetNotFound(tweetId)
    else if status == Unauthorized then PrivateTweet(tweetId)
    else if status == TooManyRequests then RateLimitExceeded
    else ServiceUnavailable
  }

  /** The error for a response code other than 200. */
  function CodeFailure(message: String, tweetId: String): TwitterError {
    if message == "NOT_FOUND" then TweetNotFound(tweetId)
    else if message == "PRIVATE_TWEET" then PrivateTweet(tweetId)
    else ServiceUnavailable
  }

  /** `getFXTweet`: the HTTP status is judged first, then the decoded body's
      code, then the presence of the tweet. */
  function GetFxTweet(reply: FxReply, tweetId: String): (r: Result<FxTweet, TwitterError>)
    ensures r.Success? ==>
      IsSuccess(reply.status) && reply.payload.Some?
      && reply.payload.value.code == SuccessCode && reply.payload.value.tweet == Some(r.value)
  {
    if !IsSuccess(reply.status) then Failure(HttpFailure(reply.status, tweetId))
    else if reply.payload.None? then Failure(Unexpected)
    else
      var response := reply.payload.value;
      if response.code != SuccessCode then Failure(CodeFailure(response.message, tweetId))
      else if response.tweet.None? then Failure(TweetNotFound(tweetId))
      else Success(response.tweet.value)
  }

  /** `getTweet`: the fetched tweet, converted under the requested id. */
  function GetTweet(baseUrl: String, tweetId: String,
                    fetch: String -> Option<FxReply>): (r: Result<Tweet, TwitterError>)
    ensures r.Success? ==> r.value.id == tweetId
    ensures fetch(StatusUrl(baseUrl, tweetId)).None? ==> r == Failure(Unexpected)
  {
    match fetch(StatusUrl(baseUrl, tweetId))
    case None => Failure(Unexpected)
    case Some(reply) =>
      match GetFxTweet(reply, tweetId)
      case Failure(e) => Failure(e)
      case Success(fx) => Success(Convert(fx, tweetId))
  }

  /** A failing HTTP status decides the outcome whatever the body holds. */
  lemma {:induction false} StatusBeforeBody(status: int, a: Option<FxResponse>, b: Option<FxResponse>, tweetId: String)
    requires !IsSuccess(status)
    ensures GetFxTweet(FxReply(status, a), tweetId) == GetFxTweet(FxReply(status, b), tweetId)
    ensures GetFxTweet(FxReply(status, a), tweetId).Failure?
  {
  }

  /** The HTTP statuses outside 2xx, each to its error. */
  lemma {:induction false} HttpFailureCases(status: int, payload: Option<FxResponse>, tweetId: String)
    requires !IsSuccess(status)
    ensures var r := GetFxTweet(FxReply(status, payload), tweetId);
      && (status == 404 <==> r == Failure(TweetNotFound(tweetId)))
      && (status == 401 <==> r == Failure(PrivateTweet(tweetId)))
      && (status == 429 <==> r == Failure(RateLimitExceeded))
      && (status != 404 && status != 401 && status != 429 <==> r == Failure(ServiceUnavailable))
  {
  }

  /** With a 2xx status and a decoded body whose code is not 200, the
      message names the error: `NOT_FOUND`, `PRIVATE_TWEET`, and anything
      else (`API_FAIL` included) is the service being unavailable. */
  lemma {:induction false} CodeFailureCases(status: int, response: FxResponse, tweetId: String)
    requires IsSuccess(status) && response.code != SuccessCode
    ensures var r := GetFxTweet(FxReply(status, Some(response)), tweetId);
      && (response.message == "NOT_FOUND" <==> r == Failure(TweetNotFound(tweetId)))
      && (response.message == "PRIVATE_TWEET" <==> r == Failure(PrivateTweet(tweetId)))
      && (response.message == "API_FAIL" ==> r == Failure(ServiceUnavailable))
      && (response.message != "NOT_FOUND" && response.message != "PRIVATE_TWEET"
          <==> r == Failure(ServiceUnavailable))
  {
  }

  /** A successful reply without a tweet is a missing tweet; with one, it is
      the converted tweet. */
  lemma {:induction false} SuccessCases(baseUrl: String, tweetId: String, fetch: String -> Option<FxReply>, response: FxResponse)
    requires fetch(StatusUrl(baseUrl, tweetId)).Some?
    requires var reply := fetch(StatusUrl(baseUrl, tweetId)).value;
      IsSuccess(reply.status) && reply.payload == Some(response) && response.code == SuccessCode
    ensures response.tweet.None? ==> GetTweet(baseUrl, tweetId, fetch) == Failure(TweetNotFound(tweetId))
    ensures response.tweet.Some? ==>
      GetTweet(baseUrl, tweetId, fetch) == Success(Convert(response.tweet.value, tweetId))
  {
  }
}

=== FILE: inline_query.dfy ===
/** `InlineMediaProcessor` and `TwitterInlineQueryExecutor`: the answers
    to an inline query naming a tweet, one per supported language. The
    collaborators are those of `TweetSender` (its `Env`), plus the thread
    provider `getThread`; the tweet id and user name are read from the query
    as `NitterService` reads them. */
module InlineQuery {
  import opened Wrappers
  import opened KText
  import opened Translation
  import opened TwitterModels
  import NitterService
  import Patterns
  import opened TweetSender

  // ---------------------------------------------------------------------
  // InlineMediaProcessor

  /** `InlineMediaResult`. */
  datatype InlineMedia = InlineMedia(photoUrl: Option<String>, hasMedia: bool)

  /** `processMediaForInline`: the last photo when there is one, whether or
      not there are videos; videos alone give no media. */
  function ProcessMedia(t: Tweet): (m: InlineMedia)
    ensures m.hasMedia <==> |t.mediaUrls| > 0
    ensures m.photoUrl.Some? <==> m.hasMedia
    ensures m.photoUrl.Some? ==> m.photoUrl.value == t.mediaUrls[|t.mediaUrls| - 1]
  {
    var hasPhotos := |t.mediaUrls| > 0;
    var hasVideos := |t.videoUrls| > 0;
    if hasPhotos && !hasVideos then InlineMedia(Some(t.mediaUrls[|t.mediaUrls| - 1]), true)
    else if hasPhotos && hasVideos then InlineMedia(Some(t.mediaUrls[|t.mediaUrls| - 1]), true)
    else if !hasPhotos && hasVideos then InlineMedia(None, false)
    else InlineMedia(None, false)
  }

  /** The photo chosen is one of the tweet's photos, and videos never
      change the choice. */
  lemma {:induction false} ProcessMediaIgnoresVideos(t: Tweet, videos: seq<String>)
    ensures ProcessMedia(t).photoUrl.Some? ==> ProcessMedia(t).photoUrl.value in t.mediaUrls
    ensures ProcessMedia(t.(videoUrls := videos)) == ProcessMedia(t)
  {
  }

  // ---------------------------------------------------------------------
  // Results

  /** An inline query result: a photo with a caption, or an article whose
      message is text. */
  datatype InlineResult =
    | PhotoResult(id: String, photoUrl: String, thumbUrl: String, title: String, description: String, caption: String)
    | ArticleResult(id: String, title: String, description: String, messageText: String)

  /** The flag shown before each language. */
  function LanguageEmoji(l: Language): String {
    match l
    case English => "\U{1F1EC}\U{1F1E7}"
    case Ukrainian => "\U{1F1FA}\U{1F1E6}"
    case Russian => "\U{1F1F7}\U{1F1FA}"
  }

  /** `Language.name`. */
  function LanguageName(l: Language): String {
    match l
    case English => "ENGLISH"
    case Ukrainian => "UKRAINIAN"
    case Russian => "RUSSIAN"
  }

  /** The result id: the tweet id, `_` and the language code. */
  function ResultId(t: Tweet, l: Language): String {
    t.id + "_" + Iso(l)
  }

  /** Results for different languages have different ids, and each id
      ends with its language's code. */
  lemma {:induction false} ResultIdsDistinct(t: Tweet, a: Language, b: Language)
    ensures EndsWith(ResultId(t, a), Iso(a))
    ensures a != b ==> ResultId(t, a) != ResultId(t, b)
  {
    var ia := ResultId(t, a);
    var ib := ResultId(t, b);
    assert ia[|ia| - 2..] == Iso(a);
    assert ib[|ib| - 2..] == Iso(b);
    IsoInjective(a, b);
  }

  /** The description: the first 100 characters of the tweet, with an
      ellipsis when it is longer. */
  function Description(content: String): (r: String)
    ensures |content| <= 100 ==> r == content
    ensures |content| > 100 ==> |r| == 103 && r == content[..100] + "..."
  {
    Take(content, 100) + if |content| > 100 then "..." else ""
  }

  /** `createInlineResultForLanguage`: a photo result, captioned within the
      caption limit, when the tweet has a photo; otherwise an article whose
      text keeps to the message limit. */
  function ResultFor(env: Env, t: Tweet, l: Language): (r: InlineResult)
    ensures r.id == ResultId(t, l)
    ensures r.PhotoResult? <==> |t.mediaUrls| > 0
    ensures r.PhotoResult? ==> r.photoUrl == r.thumbUrl == t.mediaUrls[|t.mediaUrls| - 1]
  {
    var translated := TranslateContent(env, t.content, l);
    var header := FormatHeader(env, t, l, None);
    var media := ProcessMedia(t);
    var id := ResultId(t, l);
    var title := LanguageEmoji(l) + " " + t.username + " - " + LanguageName(l);
    var description := Description(t.content);
    if media.hasMedia && media.photoUrl.Some? then
      PhotoResult(id, media.photoUrl.value, media.photoUrl.value, title, description,
                  Fit(env, CaptionMaxLength, header, translated))
    else
      ArticleResult(id, title, description, Fit(env, MessageMaxLength, header, translated))
  }

  /** The text a result would send. */
  function ResultText(r: InlineResult): String {
    match r
    case PhotoResult(_, _, _, _, _, caption) => caption
    case ArticleResult(_, _, _, text) => text
  }

  /** A result's text is the header and translated content made to fit
      the limit of its kind; a tweet whose only media are videos is
      offered as text. */
  lemma {:induction false} ResultForText(env: Env, t: Tweet, l: Language)
    ensures var r := ResultFor(env, t, l);
      ResultText(r) == Fit(env, if r.PhotoResult? then CaptionMaxLength else MessageMaxLength,
                           FormatHeader(env, t, l, None), TranslateContent(env, t.content, l))
    ensures |t.mediaUrls| == 0 && |t.videoUrls| > 0 ==> ResultFor(env, t, l).ArticleResult?
  {
  }

  /** `getMainTweet`: the tweet the thread was fetched for. */
  function MainTweet(thread: TweetsThread): Tweet {
    match thread
    case Single(t) => t
    case Reply(t, _, _) => t
    case QuoteThread(t, _) => t
    case RetweetThread(t, _) => t
  }

  /** `createInlineResults`: one result per language, in `Language` order. */
  function CreateResults(env: Env, thread: TweetsThread): (rs: seq<InlineResult>)
    ensures |rs| == |Languages|
    ensures forall i | 0 <= i < |rs| :: rs[i] == ResultFor(env, MainTweet(thread), Languages[i])
  {
    var t := MainTweet(thread);
    [ResultFor(env, t, English), ResultFor(env, t, Ukrainian), ResultFor(env, t, Russian)]
  }

  /** Every language gets exactly one result, and no two results share an
      id. */
  lemma CreateResultsCover(env: Env, thread: TweetsThread, l: Language)
    ensures var rs := CreateResults(env, thread);
      exists i | 0 <= i < |rs| :: rs[i] == ResultFor(env, MainTweet(thread), l)
    ensures var rs := CreateResults(env, thread);
      forall i, j | 0 <= i < j < |rs| :: rs[i].id != rs[j].id
  {
    CreateResultsHas(env, thread, l);
    CreateResultsDistinct(env, thread);
  }

  /** The result of language `l` sits at the index of `l` in `Languages`. */
  lemma {:induction false} CreateResultsHas(env: Env, thread: TweetsThread, l: Language)
    ensures var rs := CreateResults(env, thread);
      exists i | 0 <= i < |rs| :: rs[i] == ResultFor(env, MainTweet(thread), l)
  {
    var rs := CreateResults(env, thread);
    LanguagesListed(l);
    var i :| 0 <= i < |Languages| && Languages[i] == l;
    assert rs[i] == ResultFor(env, MainTweet(thread), l);
  }

  /** The results of one thread have pairwise different ids. */
  lemma {:induction false} CreateResultsDistinct(env: Env, thread: TweetsThread)
    ensures var rs := CreateResults(env, thread);
      forall i, j | 0 <= i < j < |rs| :: rs[i].id != rs[j].id
  {
    var rs := CreateResults(env, thread);
    var t := MainTweet(thread);
    forall k | 0 <= k < |rs| ensures rs[k].id == ResultId(t, Languages[k]) {
      assert rs[k] == ResultFor(env, t, Languages[k]);
    }
    DistinctIds(rs, t);
  }

  /** Results whose ids follow `Languages` have pairwise different ids. */
  lemma {:induction false} DistinctIds(rs: seq<InlineResult>, t: Tweet)
    requires |rs| == |Languages| && forall k | 0 <= k < |rs| :: rs[k].id == ResultId(t, Languages[k])
    ensures forall i, j | 0 <= i < j < |rs| :: rs[i].id != rs[j].id
  {
    forall i, j | 0 <= i < j < |rs| ensures rs[i].id != rs[j].id {
      assert Languages[i] != Languages[j];
      ResultIdsDistinct(t, Languages[i], Languages[j]);
    }
  }

  // ---------------------------------------------------------------------
  // Queries

  type ThreadSource = (String, String) -> Result<TweetsThread, TwitterError>

  /** `canProcess`: the trimmed query is not empty and holds a tweet id,
      that is, `/status/` and a digit somewhere. */
  predicate CanProcess(query: String): (b: bool)
    ensures b <==> exists j | 0 <= j <= |Trim(query)| :: Patterns.MatchAt(Patterns.StatusId, Trim(query), j).Some?
  {
    Trim(query) != [] && NitterService.GetTweetId(Trim(query)).Success?
  }

  /** `processTwitterQuery`: no results when the query holds no tweet id or
      no user name, or the thread cannot be fetched; otherwise the results
      for the thread's main tweet. */
  function ProcessQuery(env: Env, getThread: ThreadSource, query: String): (rs: seq<InlineResult>)
    ensures NitterService.GetTweetId(query).Failure? ==> rs == []
    ensures NitterService.GetUsername(query).Failure? ==> rs == []
  {
    match NitterService.GetTweetId(query)
    case Failure(_) => []
    case Success(tweetId) =>
      match NitterService.GetUsername(query)
      case Failure(_) => []
      case Success(username) =>
        match getThread(username, tweetId)
        case Failure(_) => []
        case Success(thread) => CreateResults(env, thread)
  }

  /** `process`: the query is trimmed first. */
  function Process(env: Env, getThread: ThreadSource, query: String): (rs: seq<InlineResult>)
    ensures !CanProcess(query) ==> rs == []
  {
    ProcessQuery(env, getThread, Trim(query))
  }

  /** A query is answered with no results or with one per language, and
      with results exactly when its id and user name are read and the
      thread named by them is fetched. */
  lemma {:induction false} ProcessAnswers(env: Env, getThread: ThreadSource, query: String)
    ensures var rs := Process(env, getThread, query);
      |rs| == 0 || |rs| == |Languages|
    ensures var q := Trim(query);
      |Process(env, getThread, query)| > 0 <==>
        && NitterService.GetTweetId(q).Success?
        && NitterService.GetUsername(q).Success?
        && getThread(NitterService.GetUsername(q).value, NitterService.GetTweetId(q).value).Success?
  {
  }

  /** A query that cannot be processed gets no results. */
  lemma {:induction false} CannotProcessNoResults(env: Env, getThread: ThreadSource, query: String)
    requires !CanProcess(query)
    ensures Process(env, getThread, query) == []
  {
    if Trim(query) == [] {
      assert NitterService.GetTweetId(Trim(query)).Failure? by {
        assert forall j | 0 <= j <= 0 :: Patterns.MatchAt(Patterns.StatusId, [], j).None?;
      }
    }
  }
}

=== FILE: instagram.dfy ===
/** `InstagramBuilderURL`: the link to an Instagram video is asked of a
    third-party service whose address and headers are kept in the source
    as basE91 text (`C.dc` decodes it), and the link sent to it is padded
    to whole 16-byte blocks before it is encrypted.

    The decoder works on 32-bit `Int`s with `or`, `and`, `shl` and `shr`.
    Its bit buffer `b` never holds more than `s` bits and `s` stays below
    8 between steps (`DecoderValid`), so no value comes near 32 bits and
    the bit operations are the arithmetic used here: `b or (v shl s)` is
    `b + v * 2^s`, `b and 255` is `b % 256`, `b shr 8` is `b / 256` and
    `v and 8191` is `v % 8192`. */
module Instagram {
  import opened Wrappers
  import opened KText

  // ---------------------------------------------------------------------
  // basE91 decoding

  /** The 91 symbols, each standing for its index. */
  const Alphabet: String :=
    "ABCDEFGHIJKLMNOPQRSTUVWXYZabcdefghijklmnopqrstuvwxyz0123456789!#$%&()*+,./:;<=>?@[]^_`{|}~\""

  function Pow2(n: nat): (p: nat)
    ensures p >= 1
  {
    if n == 0 then 1 else 2 * Pow2(n - 1)
  }

  lemma {:induction false} Pow2Add(a: nat, b: nat)
    ensures Pow2(a + b) == Pow2(a) * Pow2(b)
  {
    if b > 0 {
      Pow2Add(a, b - 1);
      assert Pow2(a + b) == 2 * Pow2(a + b - 1);
    }
  }

  /** The value of a symbol: its index in the alphabet (the last one, as
      the map built from it keeps), or `None` for a character outside it. */
  function SymbolValue(c: char): (n: Option<nat>)
    ensures n.Some? ==> n.value < |Alphabet| && Alphabet[n.value] == c
    ensures n.None? <==> c !in Alphabet
  {
    LastIndexIn(Alphabet, c)
  }

  function LastIndexIn(s: String, c: char): (n: Option<nat>)
    ensures n.Some? ==> n.value < |s| && s[n.value] == c
    ensures n.None? <==> c !in s
  {
    if s == [] then None
    else if s[|s| - 1] == c then Some(|s| - 1)
    else
      var r := LastIndexIn(s[..|s| - 1], c);
      assert c in s[..|s| - 1] ==> c in s;
      assert c in s && s[|s| - 1] != c ==> c in s[..|s| - 1] by {
        if c in s && s[|s| - 1] != c {
          var k :| 0 <= k < |s| && s[k] == c;
          assert s[..|s| - 1][k] == c;
        }
      }
      r
  }

  /** The decoder's variables between symbols: the text so far, the bit
      buffer and its width, and the first symbol of a pair (`-1` when no
      pair is open). */
  datatype Decoder = Decoder(out: String, b: nat, s: nat, v: int)

  const Start: Decoder := Decoder("", 0, 0, -1)

  /** Every character is a byte value. */
  predicate IsBytes(s: String) {
    forall k | 0 <= k < |s| :: s[k] as int < 256
  }

  predicate DecoderValid(d: Decoder) {
    d.s <= 7 && d.b < Pow2(d.s) && -1 <= d.v < 91 && IsBytes(d.out)
  }

  /** The `do … while (s > 7)` loop: emit the low byte and shift it out,
      at least once. */
  function Flush(out: String, b: nat, s: nat): (r: (String, nat, nat))
    requires s >= 8
    ensures out < r.0
    decreases s
  {
    var out' := out + [(b % 256) as char];
    var b' := b / 256;
    var s' := s - 8;
    if s' > 7 then Flush(out', b', s') else (out', b', s')
  }

  /** The loop leaves fewer than 8 bits, keeps the buffer within its width,
      and emits one byte for each 8 bits it drops: one byte from 13 to 15
      bits, two from 16 to 21. */
  lemma {:induction false} FlushBytes(out: String, b: nat, s: nat)
    requires 8 <= s <= 23 && b < Pow2(s) && IsBytes(out)
    ensures var (out', b', s') := Flush(out, b, s);
      s' <= 7 && b' < Pow2(s') && IsBytes(out')
      && |out'| == |out| + (if s <= 15 then 1 else 2)
    decreases s
  {
    var out' := out + [(b % 256) as char];
    ByteAppend(out, (b % 256) as char);
    ShiftOutByte(b, s);
    if s - 8 > 7 {
      FlushBytes(out', b / 256, s - 8);
    }
  }

  lemma {:induction false} ByteAppend(out: String, c: char)
    requires IsBytes(out) && c as int < 256
    ensures IsBytes(out + [c])
  {
    forall k | 0 <= k < |out + [c]| ensures (out + [c])[k] as int < 256 {
      if k < |out| {
        assert (out + [c])[k] == out[k];
      }
    }
  }

  /** Dropping the low byte of an `s`-bit buffer leaves `s - 8` bits. */
  lemma {:induction false} ShiftOutByte(b: nat, s: nat)
    requires s >= 8 && b < Pow2(s)
    ensures b / 256 < Pow2(s - 8)
  {
    Pow2Add(8, s - 8);
    assert Pow2(8) == 256;
  }

  /** One symbol of value `n`: it opens a pair, or completes one and then
      emits the bytes the pair's 13 or 14 bits fill. */
  function Step(d: Decoder, n: nat): (e: Decoder)
    ensures d.out <= e.out
  {
    if d.v < 0 then d.(v := n) else Complete(d, d.v + n * 91)
  }

  /** Completing a pair of value `v`: shift its 13 or 14 bits into the
      buffer above the `s` held there, then flush whole bytes. */
  function Complete(d: Decoder, v: nat): (e: Decoder)
    ensures d.out <= e.out && e.v == -1
  {
    Emit(d.out, Shifted(d, v), d.s + Width(v))
  }

  /** `b or (v shl s)`: the buffer with the pair's value shifted in above
      the bits it holds. */
  function Shifted(d: Decoder, v: nat): (b: nat)
    ensures b >= d.b
  {
    d.b + v * Pow2(d.s)
  }

  /** The decoder once the buffer `b` of `s` bits is flushed. */
  function Emit(out: String, b: nat, s: nat): (e: Decoder)
    requires s >= 8
    ensures out < e.out && e.v == -1
  {
    var f := Flush(out, b, s);
    Decoder(f.0, f.1, f.2, -1)
  }

  /** Flushing a buffer that fits its width leaves a valid decoder, one
      or two bytes longer. */
  lemma {:induction false} EmitValid(out: String, b: nat, s: nat)
    requires 13 <= s <= 21 && b < Pow2(s) && IsBytes(out)
    ensures DecoderValid(Emit(out, b, s))
    ensures |out| + 1 <= |Emit(out, b, s).out| <= |out| + 2
  {
    FlushBytes(out, b, s);
  }

  /** A pair takes 13 bits when its low 13 bits exceed 88, else 14. */
  function Width(v: nat): (w: nat)
    ensures 13 <= w <= 14
  {
    if v % 8192 > 88 then 13 else 14
  }

  /** A step keeps the decoder valid. Opening a pair emits nothing;
      completing one emits one or two bytes after the text so far. */
  lemma {:induction false} StepValid(d: Decoder, n: nat)
    requires DecoderValid(d) && n < 91
    ensures DecoderValid(Step(d, n))
    ensures d.v < 0 ==> Step(d, n).out == d.out && Step(d, n).v == n
    ensures d.v >= 0 ==> Step(d, n).v == -1 && |d.out| + 1 <= |Step(d, n).out| <= |d.out| + 2
  {
    if d.v >= 0 {
      CompletePair(d, d.v + n * 91);
    }
  }

  /** Completing a pair emits one or two bytes and leaves a valid decoder. */
  lemma {:induction false} CompletePair(d: Decoder, v: nat)
    requires DecoderValid(d) && v <= 90 + 90 * 91
    ensures var e := Complete(d, v);
      DecoderValid(e) && |d.out| + 1 <= |e.out| <= |d.out| + 2
  {
    PairFits(d.b, d.s, v, Width(v));
    EmitValid(d.out, Shifted(d, v), d.s + Width(v));
  }

  /** A completed pair's value fits the width chosen for it (13 bits when
      its low 13 bits exceed 88, else 14), so the buffer with it shifted in
      fits `s` plus that width. */
  lemma {:induction false} PairFits(b: nat, s: nat, v: nat, width: nat)
    requires b < Pow2(s) && v <= 90 + 90 * 91
    requires width == Width(v)
    ensures b + v * Pow2(s) < Pow2(s + width)
  {
    assert Pow2(13) == 8192 && Pow2(14) == 16384;
    assert v < Pow2(width);
    Pow2Add(s, width);
    MulLess(v, Pow2(width), Pow2(s));
  }

  lemma {:induction false} MulLess(v: nat, w: nat, p: nat)
    requires v < w
    ensures v * p + p <= w * p
  {
    if p > 0 {
      MulLess(v, w, p - 1);
      assert v * p == v * (p - 1) + v;
      assert w * p == w * (p - 1) + w;
    }
  }

  /** The decoder after every symbol of `input`, or `None` at the first
      character outside the alphabet (`nV!!` throws). */
  function Run(d: Decoder, input: String): (r: Option<Decoder>)
    ensures r.Some? ==> d.out <= r.value.out
    decreases input
  {
    if input == [] then Some(d)
    else
      match SymbolValue(input[0])
      case None => None
      case Some(n) => Run(Step(d, n), input[1..])
  }

  /** The last, unpaired symbol: the low byte of the buffer with it
      shifted in. */
  function Finish(d: Decoder): (r: String)
    ensures d.out <= r && |r| <= |d.out| + 1
  {
    if d.v + 1 > 0 then d.out + [((d.b + d.v * Pow2(d.s)) % 256) as char] else d.out
  }

  /** `C.dc`: the decoded text, or `None` when a character is not one of
      the 91 symbols. */
  function Dc(input: String): (r: Option<String>)
    ensures r.None? <==> exists k | 0 <= k < |input| :: input[k] !in Alphabet
  {
    RunFails(Start, input);
    if input == "" then Some("")
    else
      match Run(Start, input)
      case None => None
      case Some(d) => Some(Finish(d))
  }

  /** Decoding fails exactly when some character is outside the alphabet. */
  lemma {:induction false} RunFails(d: Decoder, input: String)
    ensures Run(d, input).None? <==> exists k | 0 <= k < |input| :: input[k] !in Alphabet
    decreases input
  {
    if input != [] {
      if input[0] in Alphabet {
        RunFails(Step(d, SymbolValue(input[0]).value), input[1..]);
        OutsideInTail(input);
      }
    }
  }

  /** When the first character is a symbol, a non-symbol is in the text
      exactly when it is in the rest. */
  lemma {:induction false} OutsideInTail(input: String)
    requires input != [] && input[0] in Alphabet
    ensures (exists k | 0 <= k < |input| :: input[k] !in Alphabet)
        <==> (exists k | 0 <= k < |input[1..]| :: input[1..][k] !in Alphabet)
  {
    var tail := input[1..];
    if exists k | 0 <= k < |input| :: input[k] !in Alphabet {
      var k :| 0 <= k < |input| && input[k] !in Alphabet;
      assert tail[k - 1] == input[k];
    }
    if exists k | 0 <= k < |tail| :: tail[k] !in Alphabet {
      var k :| 0 <= k < |tail| && tail[k] !in Alphabet;
      assert input[k + 1] == tail[k];
    }
  }

  /** Running over two parts is running over the first, then the second. */
  lemma {:induction false} RunAppend(d: Decoder, a: String, b: String)
    ensures Run(d, a + b) == (if Run(d, a).None? then None else Run(Run(d, a).value, b))
    decreases a
  {
    if a != [] {
      assert (a + b)[0] == a[0] && (a + b)[1..] == a[1..] + b;
      if SymbolValue(a[0]).Some? {
        RunAppend(Step(d, SymbolValue(a[0]).value), a[1..], b);
      }
    } else {
      assert a + b == b;
    }
  }

  /** 1 while a pair is open, else 0. */
  function Open(d: Decoder): nat {
    if d.v >= 0 then 1 else 0
  }

  /** From `d` to `e` over `m` symbols (an open pair counted): the text
      grew at its end by one or two bytes for each of the `(m - Open(e)) / 2`
      pairs completed, written here doubled to avoid the halving. */
  predicate Grew(d: Decoder, e: Decoder, m: nat) {
    && Open(e) <= m && (m - Open(e)) % 2 == 0 && d.out <= e.out
    && 2 * |d.out| + (m - Open(e)) <= 2 * |e.out| <= 2 * |d.out| + 2 * (m - Open(e))
  }

  /** Over symbols only, running keeps the decoder valid, and its text
      grows as `Grew` says. */
  lemma {:induction false} RunShape(d: Decoder, input: String)
    requires DecoderValid(d)
    requires Run(d, input).Some?
    ensures DecoderValid(Run(d, input).value)
    ensures Grew(d, Run(d, input).value, |input| + Open(d))
    decreases input
  {
    if input != [] {
      var n := SymbolValue(input[0]).value;
      StepValid(d, n);
      var d' := Step(d, n);
      RunShape(d', input[1..]);
      assert Run(d, input) == Run(d', input[1..]);
      GrewStep(d, d', Run(d, input).value, |input| - 1);
    }
  }

  /** One step followed by growth over `k` symbols is growth over `k + 1`. */
  lemma {:induction false} GrewStep(d: Decoder, d': Decoder, e: Decoder, k: nat)
    requires d.out <= d'.out
    requires d.v < 0 ==> d'.out == d.out && d'.v >= 0
    requires d.v >= 0 ==> d'.v == -1 && |d.out| + 1 <= |d'.out| <= |d.out| + 2
    requires Grew(d', e, k + Open(d'))
    ensures Grew(d, e, k + 1 + Open(d))
  {
    assert e.out[..|d.out|] == e.out[..|d'.out|][..|d.out|];
  }

  /** `dc("")` is empty; every decoded character is a byte value; and a
      text of `l` symbols decodes to at least `l / 2` and at most
      `2 * (l / 2) + l % 2` characters. */
  lemma {:induction false} DcShape(input: String)
    ensures Dc("") == Some("")
    ensures Dc(input).None? <==> exists k | 0 <= k < |input| :: input[k] !in Alphabet
    ensures Dc(input).Some? ==> IsBytes(Dc(input).value)
    ensures Dc(input).Some? ==>
      |input| / 2 <= |Dc(input).value| <= 2 * (|input| / 2) + |input| % 2
  {
    RunFails(Start, input);
    if input != "" && Run(Start, input).Some? {
      RunShape(Start, input);
      FinishByte(Run(Start, input).value);
    }
  }

  /** The final byte is a byte value and is appended after the text. */
  lemma {:induction false} FinishByte(d: Decoder)
    requires DecoderValid(d)
    ensures IsBytes(Finish(d)) && d.out <= Finish(d)
    ensures |Finish(d)| == |d.out| + (if d.v >= 0 then 1 else 0)
  {
  }

  /** Running over one symbol is one step. */
  lemma {:induction false} RunOne(d: Decoder, c: char)
    requires c in Alphabet
    ensures Run(d, [c]) == Some(Step(d, SymbolValue(c).value))
  {
    assert [c][0] == c && [c][1..] == [];
  }

  /** After an even number of symbols, a further pair adds one or two
      characters and a single further symbol adds exactly one. */
  lemma {:induction false} DcAppend(input: String, c1: char, c2: char)
    requires |input| % 2 == 0 && Dc(input).Some?
    requires c1 in Alphabet && c2 in Alphabet
    ensures Dc(input + [c1]).Some? && Dc(input + [c1, c2]).Some?
    ensures var base := Dc(input).value; var one := Dc(input + [c1]).value;
      |one| == |base| + 1 && base <= one
    ensures var base := Dc(input).value; var two := Dc(input + [c1, c2]).value;
      |base| + 1 <= |two| <= |base| + 2 && base <= two
  {
    var d := DcState(input);
    var d1 := DcAfter(input, d, c1);
    FinishByte(d1);
    assert input + [c1] + [c2] == input + [c1, c2];
    var d2 := DcAfter(input + [c1], d1, c2);
    assert d2.out[..|d.out|] == d2.out[..|d1.out|][..|d.out|];
  }

  /** The decoder after an even, decodable input: valid, with no pair open
      and the decoded text as its output. */
  lemma {:induction false} DcState(input: String) returns (d: Decoder)
    requires |input| % 2 == 0 && Dc(input).Some?
    ensures Run(Start, input) == Some(d) && DecoderValid(d) && d.v < 0 && Dc(input) == Some(d.out)
  {
    if input != "" {
      d := Run(Start, input).value;
      RunShape(Start, input);
      assert Open(Start) == 0;
      EvenClosed(|input|, Open(d));
    } else {
      d := Start;
      assert Run(Start, input) == Some(Start);
    }
  }

  lemma {:induction false} EvenClosed(m: nat, open: nat)
    requires m % 2 == 0 && open <= 1 && open <= m && (m - open) % 2 == 0
    ensures open == 0
  {
  }

  /** One more symbol after a run is one more step, and `dc` finishes it. */
  lemma {:induction false} DcAfter(input: String, d: Decoder, c: char) returns (e: Decoder)
    requires Run(Start, input) == Some(d) && DecoderValid(d) && c in Alphabet
    ensures e == Step(d, SymbolValue(c).value) && DecoderValid(e)
    ensures Run(Start, input + [c]) == Some(e) && Dc(input + [c]) == Some(Finish(e))
    ensures d.v < 0 ==> e.out == d.out && e.v >= 0
    ensures d.v >= 0 ==> e.v == -1 && |d.out| + 1 <= |e.out| <= |d.out| + 2
  {
    RunAppend(Start, input, [c]);
    RunOne(d, c);
    StepValid(d, SymbolValue(c).value);
    e := Step(d, SymbolValue(c).value);
    assert input + [c] != "";
  }

  // ---------------------------------------------------------------------
  // padding

  newtype uint8 = x: int | 0 <= x < 256

  const BlockSize: nat := 16

  /** The padding step of `encodeUrl`: the bytes, then as many copies of
      the pad size as make the length a multiple of 16, always at least
      one (PKCS #7 padding, section 6.3 of RFC 5652). */
  function Pad(data: seq<uint8>): (r: seq<uint8>)
    ensures |r| % BlockSize == 0 && |data| < |r| <= |data| + BlockSize
    ensures r[..|data|] == data
    ensures forall k | |data| <= k < |r| :: r[k] as int == |r| - |data|
  {
    var size := BlockSize - |data| % BlockSize;
    data + seq(size, _ => size as uint8)
  }

  /** Removing PKCS #7 padding: the last byte says how many bytes to drop,
      and each of them must hold that count. */
  function Unpad(padded: seq<uint8>): (r: Option<seq<uint8>>)
    ensures r.Some? ==> |padded| - BlockSize <= |r.value| < |padded| && r.value == padded[..|r.value|]
  {
    if |padded| == 0 || |padded| % BlockSize != 0 then None
    else
      var n := padded[|padded| - 1] as int;
      if n == 0 || n > BlockSize then None
      else if forall k | |padded| - n <= k < |padded| :: padded[k] as int == n then Some(padded[..|padded| - n])
      else None
  }

  /** Unpadding gives back the bytes padded. */
  lemma {:induction false} UnpadPad(data: seq<uint8>)
    ensures Unpad(Pad(data)) == Some(data)
  {
    var p := Pad(data);
    assert p[|p| - 1] as int == |p| - |data|;
  }

  // ---------------------------------------------------------------------
  // downloadIG

  /** `downloadIG`: the first video link the service answers with, or the
      original link when the request fails or no video comes back. */
  function DownloadIG(url: String, answer: Option<seq<String>>): (r: String)
    ensures answer.None? || answer.value == [] ==> r == url
    ensures answer.Some? && answer.value != [] ==> r == answer.value[0]
  {
    match answer
    case Some(videos) => if |videos| > 0 then videos[0] else url
    case None => url
  }
}

=== FILE: json.dfy ===
/** JSON values as kotlinx.serialization represents them: a `JsonObject` is
    an insertion-ordered map, written here as its entries in order. */
module Json {
  import opened Wrappers
  import opened KText

  datatype Json =
    | JString(str: String)
    | JNumber(literal: String)
    | JBool(b: bool)
    | JNull
    | JArray(items: seq<Json>)
    | JObject(fields: seq<(String, Json)>)

  /** Every value is a JSON string. */
  predicate AllStrings(fields: seq<(String, Json)>) {
    forall i | 0 <= i < |fields| :: fields[i].1.JString?
  }

  /** A string, a number, a boolean or null: a value that is neither an
      object nor an array. */
  predicate IsPrimitive(v: Json) {
    !v.JObject? && !v.JArray?
  }

  /** Every value is primitive. */
  predicate AllPrimitive(fields: seq<(String, Json)>) {
    forall i | 0 <= i < |fields| :: IsPrimitive(fields[i].1)
  }
}

=== FILE: ktext.dfy ===
/** The Kotlin/JVM string operations the bot relies on, written out over
    `seq<char>`: `isWhitespace`, `isBlank`, `trim`, `indexOf`,
    `lastIndexOf`, `split`, `lines`, `replace`, `replaceFirst`, `take`, `startsWith`,
    `removePrefix`, `substringAfterLast`, `lowercase`, `uppercase`, decimal
    `toString` and `toLong`.
 */
module KText {
  import opened Wrappers

  type String = seq<char>

  /** `Char.isWhitespace()`: the Unicode white-space characters plus the
      ASCII control separators U+001C..U+001F. */
  predicate IsWhitespace(c: char) {
    c == ' ' || c == '\t' || c == '\n' || c == '\U{000B}' || c == '\U{000C}' || c == '\r'
    || ('\U{001C}' <= c <= '\U{001F}')
    || c == '\U{00A0}' || c == '\U{1680}'
    || ('\U{2000}' <= c <= '\U{200A}')
    || c == '\U{2028}' || c == '\U{2029}' || c == '\U{202F}' || c == '\U{205F}' || c == '\U{3000}'
  }

  /** `CharSequence.isBlank()`. */
  predicate IsBlank(s: String) {
    forall i | 0 <= i < |s| :: IsWhitespace(s[i])
  }

  predicate IsDigit(c: char) {
    '0' <= c <= '9'
  }

  // ---------------------------------------------------------------------
  // trim

  /** First index at or after `i` that holds a non-white-space character. */
  function SkipForward(s: String, i: nat): (j: nat)
    requires i <= |s|
    ensures i <= j <= |s|
    ensures forall k | i <= k < j :: IsWhitespace(s[k])
    ensures j == |s| || !IsWhitespace(s[j])
    decreases |s| - i
  {
    if i == |s| || !IsWhitespace(s[i]) then i else SkipForward(s, i + 1)
  }

  /** Smallest index `i <= j` such that `s[i..j]` is all white space. */
  function SkipBackward(s: String, j: nat): (i: nat)
    requires j <= |s|
    ensures i <= j
    ensures forall k | i <= k < j :: IsWhitespace(s[k])
    ensures i == 0 || !IsWhitespace(s[i - 1])
  {
    if j == 0 || !IsWhitespace(s[j - 1]) then j else SkipBackward(s, j - 1)
  }

  /** `s` is `r` padded on both sides by white space only. */
  predicate PaddedBy(s: String, r: String, i: nat)
  {
    i + |r| <= |s| && s[i..i + |r|] == r && IsBlank(s[..i]) && IsBlank(s[i + |r|..])
  }

  /** `String.trim()`: strips leading and trailing white space. */
  function Trim(s: String): (r: String)
    ensures r == [] <==> IsBlank(s)
    ensures r != [] ==> !IsWhitespace(r[0]) && !IsWhitespace(r[|r| - 1])
    ensures exists i: nat :: PaddedBy(s, r, i)
    ensures |r| <= |s|
  {
    var i := SkipForward(s, 0);
    var j := SkipBackward(s, |s|);
    if i < j then
      assert PaddedBy(s, s[i..j], i);
      s[i..j]
    else
      assert i == |s|;
      assert PaddedBy(s, [], 0);
      []
  }

  /** A string with no white space at either end. */
  predicate IsTrimmed(r: String) {
    r == [] || (!IsWhitespace(r[0]) && !IsWhitespace(r[|r| - 1]))
  }

  /** Trimming `a + r + b` with blank `a`, `b` and trimmed `r` gives back `r`:
      the padding `trim` removes is exactly the white space at the ends. */
  lemma {:induction false} TrimOfPadded(a: String, r: String, b: String)
    requires IsBlank(a) && IsBlank(b) && IsTrimmed(r)
    ensures Trim(a + r + b) == r
  {
    var s := a + r + b;
    assert forall k | 0 <= k < |a| :: s[k] == a[k];
    assert forall k | 0 <= k < |b| :: s[|a| + |r| + k] == b[k];
    if r == [] {
      assert IsBlank(s);
    } else {
      assert s[|a|] == r[0] && s[|a| + |r| - 1] == r[|r| - 1];
      TrimOfNonBlank(s, |a|, |a| + |r|);
      assert s[|a|..|a| + |r|] == r;
    }
  }

  /** `trim` keeps exactly the stretch between the first and the last
      non-white-space characters. */
  lemma {:induction false} TrimOfNonBlank(s: String, i: nat, e: nat)
    requires i < e <= |s|
    requires forall k | 0 <= k < i :: IsWhitespace(s[k])
    requires forall k | e <= k < |s| :: IsWhitespace(s[k])
    requires !IsWhitespace(s[i]) && !IsWhitespace(s[e - 1])
    ensures Trim(s) == s[i..e]
  {
    assert SkipForward(s, 0) == i by {
      SkipForwardStops(s, 0, i);
    }
    assert SkipBackward(s, |s|) == e by {
      SkipBackwardStops(s, |s|, e);
    }
  }

  lemma {:induction false} SkipForwardStops(s: String, from: nat, i: nat)
    requires from <= i < |s|
    requires forall k | from <= k < i :: IsWhitespace(s[k])
    requires !IsWhitespace(s[i])
    ensures SkipForward(s, from) == i
    decreases i - from
  {
    if from < i {
      SkipForwardStops(s, from + 1, i);
    }
  }

  lemma {:induction false} SkipBackwardStops(s: String, from: nat, e: nat)
    requires 0 < e <= from <= |s|
    requires forall k | e <= k < from :: IsWhitespace(s[k])
    requires !IsWhitespace(s[e - 1])
    ensures SkipBackward(s, from) == e
    decreases from - e
  {
    if e < from {
      SkipBackwardStops(s, from - 1, e);
    }
  }

  /** `trim` is idempotent. */
  lemma {:induction false} TrimIdempotent(s: String)
    ensures Trim(Trim(s)) == Trim(s)
  {
    var r := Trim(s);
    assert r == [] + r + [];
    TrimOfPadded([], r, []);
  }

  // ---------------------------------------------------------------------
  // searching

  /** `p` occurs in `s` starting at index `k`. */
  predicate Occurs(s: String, p: String, k: int) {
    0 <= k && k + |p| <= |s| && s[k..k + |p|] == p
  }

  /** `CharSequence.contains(p)`. */
  predicate Contains(s: String, p: String) {
    exists k | 0 <= k <= |s| - |p| :: Occurs(s, p, k)
  }

  /** `String.indexOf(p, from)` (a negative `from` searches from 0). */
  function IndexOf(s: String, p: String, from: int): (k: int)
    requires |p| > 0
    ensures k == -1 || (k >= from && Occurs(s, p, k))
    ensures forall j | from <= j < (if k == -1 then |s| else k) :: !Occurs(s, p, j)
    decreases |s| - from
  {
    if from < 0 then IndexOf(s, p, 0)
    else if from + |p| > |s| then -1
    else if s[from..from + |p|] == p then from
    else IndexOf(s, p, from + 1)
  }

  /** `indexOf` reports the absence of `p` exactly when `s` does not contain it. */
  lemma {:induction false} IndexOfAbsent(s: String, p: String)
    requires |p| > 0
    ensures IndexOf(s, p, 0) == -1 <==> !Contains(s, p)
  {
    if IndexOf(s, p, 0) != -1 {
      assert Occurs(s, p, IndexOf(s, p, 0));
    }
  }

  /** `indexOf` finds exactly the first occurrence at or after `from`. */
  lemma {:induction false} IndexOfIs(s: String, p: String, from: nat, k: nat)
    requires |p| > 0 && from <= k && Occurs(s, p, k)
    requires forall j | from <= j < k :: !Occurs(s, p, j)
    ensures IndexOf(s, p, from) == k
    decreases k - from
  {
    if from < k {
      assert !Occurs(s, p, from);
      IndexOfIs(s, p, from + 1, k);
    }
  }

  /** An occurrence that fits in the left part of a concatenation is one of
      the left part. */
  lemma {:induction false} OccursLeft(a: String, b: String, p: String, j: int)
    requires 0 <= j && j + |p| <= |a|
    ensures Occurs(a + b, p, j) <==> Occurs(a, p, j)
  {
    assert (a + b)[j..j + |p|] == a[j..j + |p|];
  }

  /** An occurrence in the right part of a concatenation, shifted. */
  lemma {:induction false} OccursRight(a: String, b: String, p: String, j: int)
    requires |a| <= j
    ensures Occurs(a + b, p, j) <==> Occurs(b, p, j - |a|)
  {
    if j + |p| <= |a + b| {
      assert (a + b)[j..j + |p|] == b[j - |a|..j - |a| + |p|];
    }
  }

  /** `String.lastIndexOf(p)`, searching backwards from index `before - 1`. */
  function LastIndexBefore(s: String, p: String, before: int): (k: int)
    requires |p| > 0
    ensures k == -1 || (0 <= k < before && Occurs(s, p, k))
    ensures forall j | k < j < before :: !Occurs(s, p, j)
    decreases before
  {
    if before <= 0 then -1
    else if Occurs(s, p, before - 1) then before - 1
    else LastIndexBefore(s, p, before - 1)
  }

  /** `String.lastIndexOf(p)`. */
  function LastIndexOf(s: String, p: String): (k: int)
    requires |p| > 0
    ensures k == -1 || Occurs(s, p, k)
    ensures forall j | k < j <= |s| :: !Occurs(s, p, j)
  {
    LastIndexBefore(s, p, |s| + 1)
  }

  // ---------------------------------------------------------------------
  // split / join / replace

  /** `joinToString(sep)`. */
  function Join(parts: seq<String>, sep: String): String
  {
    if |parts| == 0 then []
    else if |parts| == 1 then parts[0]
    else parts[0] + sep + Join(parts[1..], sep)
  }

  /** `String.split(sep)` with a literal delimiter: every piece, including
      empty leading and trailing ones. */
  function Split(s: String, sep: String): (parts: seq<String>)
    requires |sep| > 0
    ensures |parts| >= 1
    ensures |parts| >= 2 <==> Contains(s, sep)
    decreases |s|
  {
    var k := IndexOf(s, sep, 0);
    IndexOfAbsent(s, sep);
    if k < 0 then [s] else [s[..k]] + Split(s[k + |sep|..], sep)
  }

  /** No piece of a split contains the delimiter. */
  lemma {:induction false} SplitPiecesFree(s: String, sep: String)
    requires |sep| > 0
    ensures forall i | 0 <= i < |Split(s, sep)| :: !Contains(Split(s, sep)[i], sep)
    decreases |s|
  {
    var k := IndexOf(s, sep, 0);
    if k < 0 {
      IndexOfAbsent(s, sep);
    } else {
      SplitPiecesFree(s[k + |sep|..], sep);
      PrefixBeforeFirstIsFree(s, sep, k);
      SplitUnfold(s, sep, k);
    }
  }

  /** The text before the first occurrence does not contain the delimiter. */
  lemma {:induction false} PrefixBeforeFirstIsFree(s: String, sep: String, k: int)
    requires |sep| > 0 && k == IndexOf(s, sep, 0) && k >= 0
    ensures !Contains(s[..k], sep)
  {
    var t := s[..k];
    forall j | 0 <= j <= |t| - |sep| ensures !Occurs(t, sep, j) {
      OccursInPrefix(s, sep, k, j);
    }
  }

  lemma {:induction false} OccursInPrefix(s: String, p: String, n: nat, j: int)
    requires n <= |s|
    ensures Occurs(s[..n], p, j) ==> Occurs(s, p, j)
  {
    if Occurs(s[..n], p, j) {
      assert s[..n][j..j + |p|] == s[j..j + |p|];
    }
  }

  /** Joining the pieces of a split with the same delimiter restores the text. */
  lemma {:induction false} JoinSplit(s: String, sep: String)
    requires |sep| > 0
    ensures Join(Split(s, sep), sep) == s
    decreases |s|
  {
    var k := IndexOf(s, sep, 0);
    if k >= 0 {
      var rest := s[k + |sep|..];
      JoinSplit(rest, sep);
      SplitUnfold(s, sep, k);
      JoinCons(s[..k], Split(rest, sep), sep);
    }
  }

  lemma {:induction false} SplitUnfold(s: String, sep: String, k: int)
    requires |sep| > 0 && k == IndexOf(s, sep, 0) && k >= 0
    ensures Split(s, sep) == [s[..k]] + Split(s[k + |sep|..], sep)
    ensures s == s[..k] + sep + s[k + |sep|..]
  {
    assert Occurs(s, sep, k);
    assert s[k..k + |sep|] == sep;
    assert s == s[..k] + s[k..k + |sep|] + s[k + |sep|..];
  }

  lemma {:induction false} JoinCons(x: String, ys: seq<String>, sep: String)
    requires |ys| >= 1
    ensures Join([x] + ys, sep) == x + sep + Join(ys, sep)
  {
    assert ([x] + ys)[1..] == ys;
  }

  // ---------------------------------------------------------------------
  // lines

  /** A character that ends a line for `lines()`. */
  predicate IsLineBreak(c: char) {
    c == '\n' || c == '\r'
  }

  predicate NoLineBreak(s: String) {
    forall j | 0 <= j < |s| :: !IsLineBreak(s[j])
  }

  /** The first line break at or after `i`, or `|s|` when there is none. */
  function FirstBreak(s: String, i: nat): (k: nat)
    requires i <= |s|
    ensures i <= k <= |s|
    ensures forall j | i <= j < k :: !IsLineBreak(s[j])
    ensures k < |s| ==> IsLineBreak(s[k])
    decreases |s| - i
  {
    if i == |s| || IsLineBreak(s[i]) then i else FirstBreak(s, i + 1)
  }

  /** `CharSequence.lines()`: the text split at `\r\n`, `\n` and `\r`, a
      `\r\n` pair counting as one terminator; a trailing terminator leaves
      an empty last line. */
  function Lines(s: String): (ls: seq<String>)
    ensures |ls| >= 1
    ensures forall i | 0 <= i < |ls| :: NoLineBreak(ls[i])
    decreases |s|
  {
    var k := FirstBreak(s, 0);
    if k == |s| then [s]
    else
      var w := if s[k] == '\r' && k + 1 < |s| && s[k + 1] == '\n' then 2 else 1;
      [s[..k]] + Lines(s[k + w..])
  }

  /** Each of the three terminators after a line ends that line. */
  lemma {:induction false} LinesTerminators(line: String, t: String)
    requires NoLineBreak(line)
    ensures Lines(line + "\n" + t) == [line] + Lines(t)
    ensures Lines(line + "\r\n" + t) == [line] + Lines(t)
    ensures (t == [] || t[0] != '\n') ==> Lines(line + "\r" + t) == [line] + Lines(t)
  {
    BreakAfter(line, "\n", t);
    BreakAfter(line, "\r\n", t);
    BreakAfter(line, "\r", t);
  }

  lemma {:induction false} BreakAfter(line: String, term: String, t: String)
    requires NoLineBreak(line) && 1 <= |term| <= 2 && IsLineBreak(term[0])
    requires |term| == 2 ==> term == "\r\n"
    ensures var s := line + term + t;
      FirstBreak(s, 0) == |line| && s[..|line|] == line && s[|line| + |term|..] == t
  {
    var s := line + term + t;
    FirstBreakAt(s, 0, |line|);
    assert s[..|line|] == line;
    assert s[|line| + |term|..] == t;
  }

  lemma {:induction false} FirstBreakAt(s: String, i: nat, k: nat)
    requires i <= k < |s| && IsLineBreak(s[k])
    requires forall j | i <= j < k :: !IsLineBreak(s[j])
    ensures FirstBreak(s, i) == k
    decreases k - i
  {
    if i < k {
      FirstBreakAt(s, i + 1, k);
    }
  }

  /** Text without line breaks is one line. */
  lemma {:induction false} LinesOfOneLine(s: String)
    requires NoLineBreak(s)
    ensures Lines(s) == [s]
  {
    assert FirstBreak(s, 0) == |s|;
  }

  /** Splitting lines joined with `\n` gives the lines back. */
  lemma {:induction false} LinesOfJoin(ls: seq<String>)
    requires |ls| >= 1 && forall i | 0 <= i < |ls| :: NoLineBreak(ls[i])
    ensures Lines(Join(ls, "\n")) == ls
    decreases |ls|
  {
    if |ls| == 1 {
      LinesOfOneLine(ls[0]);
    } else {
      var rest := ls[1..];
      assert Join(ls, "\n") == ls[0] + "\n" + Join(rest, "\n");
      LinesTerminators(ls[0], Join(rest, "\n"));
      LinesOfJoin(rest);
      assert ls == [ls[0]] + rest;
    }
  }

  /** Rejoining the lines of a text with only `\n` breaks with `\n`
      restores it. */
  lemma {:induction false} JoinLines(s: String)
    requires forall j | 0 <= j < |s| :: s[j] != '\r'
    ensures Join(Lines(s), "\n") == s
    decreases |s|
  {
    var k := FirstBreak(s, 0);
    if k < |s| {
      var rest := s[k + 1..];
      assert s[k] == '\n';
      assert Lines(s) == [s[..k]] + Lines(rest);
      JoinLines(rest);
      JoinCons(s[..k], Lines(rest), "\n");
      assert s == s[..k] + "\n" + rest;
    } else {
      LinesOfOneLine(s);
    }
  }

  /** `String.replace(pat, rep)`: every non-overlapping occurrence, scanning
      left to right. A replacement of the pattern's length keeps the length
      of the text, and one no longer never lengthens it. */
  function ReplaceAll(s: String, pat: String, rep: String): (r: String)
    requires |pat| > 0
    ensures |rep| == |pat| ==> |r| == |s|
    ensures |rep| <= |pat| ==> |r| <= |s|
    decreases |s|
  {
    var k := IndexOf(s, pat, 0);
    if k < 0 then s else s[..k] + rep + ReplaceAll(s[k + |pat|..], pat, rep)
  }

  /** Text that does not contain the pattern is left as it is. */
  lemma {:induction false} ReplaceAllAbsent(s: String, pat: String, rep: String)
    requires |pat| > 0 && !Contains(s, pat)
    ensures ReplaceAll(s, pat, rep) == s
  {
    IndexOfAbsent(s, pat);
  }

  /** `replace` is split-then-join: the replacement lands exactly between
      the pieces `split` would produce. */
  lemma {:induction false} ReplaceAllIsSplitJoin(s: String, pat: String, rep: String)
    requires |pat| > 0
    ensures ReplaceAll(s, pat, rep) == Join(Split(s, pat), rep)
    decreases |s|
  {
    var k := IndexOf(s, pat, 0);
    if k >= 0 {
      var rest := s[k + |pat|..];
      ReplaceAllIsSplitJoin(rest, pat, rep);
      SplitUnfold(s, pat, k);
      JoinCons(s[..k], Split(rest, pat), rep);
      assert ReplaceAll(s, pat, rep) == s[..k] + rep + ReplaceAll(rest, pat, rep);
    }
  }

  /** `String.replaceFirst(pat, rep)`. */
  function ReplaceFirst(s: String, pat: String, rep: String): (r: String)
    requires |pat| > 0
    ensures !Contains(s, pat) ==> r == s
    ensures Contains(s, pat) ==> |r| == |s| - |pat| + |rep|
    ensures Contains(s, pat) ==>
      exists k | 0 <= k <= |s| - |pat| :: Occurs(s, pat, k) && r == s[..k] + rep + s[k + |pat|..]
  {
    var k := IndexOf(s, pat, 0);
    IndexOfAbsent(s, pat);
    if k < 0 then s else s[..k] + rep + s[k + |pat|..]
  }

  // ---------------------------------------------------------------------
  // prefixes and slices

  /** `take(n)`. */
  function Take(s: String, n: nat): (r: String)
    ensures |r| == if n < |s| then n else |s|
    ensures r == s[..|r|]
  {
    if n < |s| then s[..n] else s
  }

  predicate StartsWith(s: String, p: String) {
    |p| <= |s| && s[..|p|] == p
  }

  predicate EndsWith(s: String, p: String) {
    |p| <= |s| && s[|s| - |p|..] == p
  }

  /** `removePrefix(p)`. */
  function RemovePrefix(s: String, p: String): (r: String)
    ensures StartsWith(s, p) ==> p + r == s
    ensures !StartsWith(s, p) ==> r == s
  {
    if StartsWith(s, p) then
      assert s == s[..|p|] + s[|p|..];
      s[|p|..]
    else s
  }

  /** `removeSuffix(p)`. */
  function RemoveSuffix(s: String, p: String): (r: String)
    ensures EndsWith(s, p) ==> r + p == s
    ensures !EndsWith(s, p) ==> r == s
  {
    if EndsWith(s, p) then
      assert s == s[..|s| - |p|] + s[|s| - |p|..];
      s[..|s| - |p|]
    else s
  }

  /** `substringAfterLast(delimiter)`: the whole string when the delimiter
      does not occur. */
  function SubstringAfterLast(s: String, delimiter: String): (r: String)
    requires |delimiter| > 0
    ensures !Contains(s, delimiter) ==> r == s
    ensures Contains(s, delimiter) ==> EndsWith(s, r) && !Contains(r, delimiter)
    ensures Contains(s, delimiter) ==>
      var k := LastIndexOf(s, delimiter);
      0 <= k && Occurs(s, delimiter, k) && r == s[k + |delimiter|..]
  {
    var k := LastIndexOf(s, delimiter);
    if k < 0 then
      assert !Contains(s, delimiter);
      s
    else
      var r := s[k + |delimiter|..];
      assert !Contains(r, delimiter) by {
        forall j | 0 <= j <= |r| - |delimiter| ensures !Occurs(r, delimiter, j) {
          assert r[j..j + |delimiter|] == s[k + |delimiter| + j..k + |delimiter| + j + |delimiter|];
          assert !Occurs(s, delimiter, k + |delimiter| + j);
        }
      }
      r
  }

  // ---------------------------------------------------------------------
  // case

  /** `Char.lowercaseChar()` restricted to the characters whose lower case is
      an ASCII letter: `A`..`Z` and the Kelvin sign U+212A. */
  function LowerChar(c: char): (d: char)
    ensures 'A' <= c <= 'Z' ==> 'a' <= d <= 'z'
    ensures !('A' <= c <= 'Z') && c != '\U{212A}' ==> d == c
  {
    if 'A' <= c <= 'Z' then (c as int + 32) as char
    else if c == '\U{212A}' then 'k'
    else c
  }

  /** `String.lowercase()` (see `LowerChar`). */
  function Lower(s: String): (r: String)
    ensures |r| == |s|
    ensures forall i | 0 <= i < |s| :: r[i] == LowerChar(s[i])
  {
    if s == [] then [] else [LowerChar(s[0])] + Lower(s[1..])
  }

  /** `Char.uppercaseChar()` on ASCII letters. */
  function UpperChar(c: char): (d: char)
    ensures 'a' <= c <= 'z' ==> 'A' <= d <= 'Z'
    ensures !('a' <= c <= 'z') ==> d == c
  {
    if 'a' <= c <= 'z' then (c as int - 32) as char else c
  }

  /** `String.uppercase()` on ASCII letters. */
  function Upper(s: String): (r: String)
    ensures |r| == |s|
    ensures forall i | 0 <= i < |s| :: r[i] == UpperChar(s[i])
  {
    if s == [] then [] else [UpperChar(s[0])] + Upper(s[1..])
  }

  // ---------------------------------------------------------------------
  // decimal numbers

  function DigitChar(d: nat): (c: char)
    requires d < 10
    ensures IsDigit(c)
  {
    ('0' as int + d) as char
  }

  function DigitValue(c: char): (d: nat)
    requires IsDigit(c)
    ensures d < 10
  {
    c as int - '0' as int
  }

  predicate AllDigits(s: String) {
    forall i | 0 <= i < |s| :: IsDigit(s[i])
  }

  /** The value of a run of decimal digits. */
  function DigitsValue(s: String): (n: nat)
    requires AllDigits(s)
  {
    if s == [] then 0 else DigitsValue(s[..|s| - 1]) * 10 + DigitValue(s[|s| - 1])
  }

  /** `Long.toString()` of a non-negative number: its decimal digits, with
      no leading zeros. */
  function NatToString(n: nat): (s: String)
    ensures |s| >= 1 && AllDigits(s)
    ensures |s| > 1 ==> s[0] != '0'
  {
    if n < 10 then [DigitChar(n)] else NatToString(n / 10) + [DigitChar(n % 10)]
  }

  /** `toString()` of a (possibly negative) integer. */
  function IntToString(n: int): (s: String)
    ensures |s| >= 1
    ensures n < 0 <==> s[0] == '-'
  {
    if n < 0 then "-" + NatToString(-n) else NatToString(n)
  }

  /** Reading back the digits `toString` writes gives the number. */
  lemma {:induction false} NatToStringRoundTrip(n: nat)
    ensures DigitsValue(NatToString(n)) == n
  {
    if n >= 10 {
      NatToStringRoundTrip(n / 10);
      var s := NatToString(n);
      assert s[..|s| - 1] == NatToString(n / 10);
    }
  }

  const LongMin: int := -0x8000_0000_0000_0000
  const LongMax: int := 0x7FFF_FFFF_FFFF_FFFF

  /** `String.toLong()` (radix 10, ASCII digits): an optional sign followed by
      at least one digit, within the range of a 64-bit `Long`; anything else
      is a `NumberFormatException`, written as `None`. */
  function ParseLong(s: String): (r: Option<int>)
    ensures r.Some? ==> LongMin <= r.value <= LongMax
  {
    var negative := |s| > 0 && s[0] == '-';
    var digits := if |s| > 0 && (s[0] == '-' || s[0] == '+') then s[1..] else s;
    if digits == [] || !AllDigits(digits) then None
    else
      var magnitude: int := DigitsValue(digits);
      var v := if negative then -magnitude else magnitude;
      if LongMin <= v <= LongMax then Some(v) else None
  }

  /** `toLong` reads back what `toString` writes, for every `Long`. */
  lemma {:induction false} ParseLongRoundTrip(n: int)
    requires LongMin <= n <= LongMax
    ensures ParseLong(IntToString(n)) == Some(n)
  {
    var m: nat := if n < 0 then -n else n;
    var d := NatToString(m);
    NatToStringRoundTrip(m);
    var s := IntToString(n);
    if n < 0 {
      assert s == ['-'] + d;
      assert s[1..] == d;
    } else {
      assert s == d && s[0] != '-' && s[0] != '+';
    }
  }

  /** Two's-complement wrap-around of an integer into a 64-bit `Long`. */
  function WrapLong(x: int): (r: int)
    ensures LongMin <= r <= LongMax
    ensures (r - x) % 0x1_0000_0000_0000_0000 == 0
  {
    (x - LongMin) % 0x1_0000_0000_0000_0000 + LongMin
  }

  /** Two's-complement wrap-around of an integer into a 32-bit `Int`. */
  function WrapInt(x: int): (r: int)
    ensures -0x8000_0000 <= r <= 0x7FFF_FFFF
    ensures (r - x) % 0x1_0000_0000 == 0
  {
    (x + 0x8000_0000) % 0x1_0000_0000 - 0x8000_0000
  }
}

=== FILE: legacy_models.dfy ===
/** The tweet model of the older bot (`com.programistich.twitterx.core.twitter`):
    how the content kind is chosen from the API's media, the length limit
    of each kind, and the text with its translation. */
module LegacyTwitter {
  import opened Wrappers
  import opened KText

  /** The parts of an API tweet the content kind is chosen from; photos
      are their urls, videos their url and thumbnail, and the mosaic its
      jpeg format. */
  datatype ApiVideo = ApiVideo(url: String, thumbnailUrl: String)
  datatype ApiMedia = ApiMedia(photos: Option<seq<String>>, videos: Option<seq<ApiVideo>>, mosaicJpeg: Option<String>)
  datatype ApiTweet = ApiTweet(pollLabels: Option<seq<String>>, media: Option<ApiMedia>)

  /** `TweetContent`. */
  datatype TweetContent =
    | Text
    | Photo(url: String)
    | Video(url: String, thumbnailUrl: String)
    | Poll(options: seq<String>)
    | ManyMedia(urls: seq<String>, mosaic: Option<String>)

  const CaptionLimit: nat := 1024
  const MessageLimit: nat := 4096

  function VideoUrls(videos: seq<ApiVideo>): (r: seq<String>)
    ensures |r| == |videos|
    ensures forall i | 0 <= i < |videos| :: r[i] == videos[i].url
  {
    if videos == [] then [] else [videos[0].url] + VideoUrls(videos[1..])
  }

  /** `TweetContent.from`. A missing media block counts as neither photos
      nor videos; an empty but present list is not null. */
  function ContentOf(t: ApiTweet): (c: TweetContent)
    ensures t.pollLabels.Some? <==> c.Poll?
    ensures c.Poll? ==> c.options == t.pollLabels.value
  {
    if t.pollLabels.Some? then Poll(t.pollLabels.value)
    else if t.media.None? || (t.media.value.videos.None? && t.media.value.photos.None?) then Text
    else
      var m := t.media.value;
      if m.videos.None? && |m.photos.value| == 1 then Photo(m.photos.value[0])
      else if m.photos.None? && |m.videos.value| == 1 then Video(m.videos.value[0].url, m.videos.value[0].thumbnailUrl)
      else
        ManyMedia(m.photos.GetOr([]) + VideoUrls(m.videos.GetOr([])), m.mosaicJpeg)
  }

  /** The urls of every photo and then every video of an API tweet. */
  function AllMediaUrls(t: ApiTweet): seq<String> {
    if t.media.None? then []
    else t.media.value.photos.GetOr([]) + VideoUrls(t.media.value.videos.GetOr([]))
  }

  /** The urls a content kind shows. */
  function ContentUrls(c: TweetContent): seq<String> {
    match c
    case Text => []
    case Photo(u) => [u]
    case Video(u, _) => [u]
    case Poll(_) => []
    case ManyMedia(us, _) => us
  }

  /** Without a poll, the chosen content shows exactly the tweet's photos
      and then its videos, and it is text only when the tweet has no media
      list at all; a lone photo or lone video (with no list of the other
      kind) gets its own kind. */
  lemma {:induction false} ContentKeepsMedia(t: ApiTweet)
    requires t.pollLabels.None?
    ensures ContentUrls(ContentOf(t)) == AllMediaUrls(t)
    ensures ContentOf(t).Text? <==> t.media.None? || (t.media.value.photos.None? && t.media.value.videos.None?)
    ensures ContentOf(t).Photo? <==>
      t.media.Some? && t.media.value.videos.None? && t.media.value.photos.Some? && |t.media.value.photos.value| == 1
    ensures ContentOf(t).Video? <==>
      t.media.Some? && t.media.value.photos.None? && t.media.value.videos.Some? && |t.media.value.videos.value| == 1
  {
    if t.media.Some? {
      var m := t.media.value;
      if m.photos.None? && m.videos.Some? && |m.videos.value| == 1 {
        assert VideoUrls(m.videos.value) == [m.videos.value[0].url];
      }
      if m.photos.Some? && m.videos.None? {
        assert m.photos.value + VideoUrls([]) == m.photos.value;
      }
    }
  }

  /** `TweetContent.getLimit`. */
  function Limit(c: TweetContent): (n: nat)
    ensures n == CaptionLimit || n == MessageLimit
  {
    match c
    case ManyMedia(_, _) => 1024
    case Photo(_) => 1024
    case Poll(_) => 4096
    case Text => 4096
    case Video(_, _) => 1024
  }

  /** A tweet gets the short caption limit exactly when it has no poll and
      some media list. */
  lemma {:induction false} LimitOfTweet(t: ApiTweet)
    ensures Limit(ContentOf(t)) == CaptionLimit <==>
      t.pollLabels.None? && t.media.Some? && (t.media.value.photos.Some? || t.media.value.videos.Some?)
  {
  }

  /** The older `Translation`: the translated text and both language codes. */
  datatype LegacyTranslation = LegacyTranslation(text: String, from: String, to: String)

  datatype Author = Author(username: String, name: String)

  /** The older `Tweet`. */
  datatype LegacyTweet = LegacyTweet(
    id: String, text: String, author: Author, content: TweetContent,
    note: Option<String>, translation: Option<LegacyTranslation>)

  /** `Tweet.url`: the author's x.com profile, then `/status/` and the id. */
  function LegacyTweetUrl(t: LegacyTweet): (url: String)
    ensures StartsWith(url, "https://x.com/" + t.author.username) && EndsWith(url, "/status/" + t.id)
  {
    "https://x.com/" + t.author.username + "/status/" + t.id
  }

  /** `Tweet.getContent`: the translation above the original, each after
      its upper-cased language code, when the translation is into another
      language; otherwise the original. */
  function GetContent(t: LegacyTweet): (r: String)
    ensures EndsWith(r, t.text)
  {
    if t.translation.Some? && t.translation.value.to != t.translation.value.from then
      var tr := t.translation.value;
      var r := "[" + Upper(tr.to) + "] " + tr.text + "\n\n[" + Upper(tr.from) + "] " + t.text;
      assert r == ("[" + Upper(tr.to) + "] " + tr.text + "\n\n[" + Upper(tr.from) + "] ") + t.text;
      r
    else t.text
  }

  /** The original text is shown alone exactly when there is no
      translation or it is into the same language; otherwise the
      translation comes first, tagged with its target code. */
  lemma {:induction false} GetContentCases(t: LegacyTweet)
    ensures GetContent(t) == t.text <==> t.translation.None? || t.translation.value.to == t.translation.value.from
    ensures GetContent(t) != t.text ==>
      StartsWith(GetContent(t), "[" + Upper(t.translation.value.to) + "] " + t.translation.value.text)
    ensures GetContent(t) != t.text ==>
      var tr := t.translation.value;
      GetContent(t) == "[" + Upper(tr.to) + "] " + tr.text + "\n\n[" + Upper(tr.from) + "] " + t.text
  {
    if t.translation.Some? && t.translation.value.to != t.translation.value.from {
      var tr := t.translation.value;
      var head := "[" + Upper(tr.to) + "] " + tr.text;
      assert GetContent(t) == head + ("\n\n[" + Upper(tr.from) + "] " + t.text);
      assert |GetContent(t)| > |t.text|;
    }
  }
}

=== FILE: localization.dfy ===
/** `FileBasedLocalizationService`: user-facing messages looked up by key in
    per-language JSON resources, with an English fallback and `{name}`
    parameters. Reading a resource is a parameter (`resources` maps a file
    name to its parsed root, or `None` when it is missing or does not
    parse); the cache and its lock are not modelled, as they change nothing
    a caller sees. */
module Localization {
  import opened Wrappers
  import opened KText
  import opened Json
  import opened Translation

  /** `MessageKey`, in declaration order. */
  datatype MessageKey =
    | StartWelcome | StartInstructions
    | AddSuccess | AddAlreadyExists | AddUserNotFound | AddInvalidUsername | AddError
    | RemoveSuccess | RemoveNotFound | RemoveError
    | ListTitle | ListEmpty | ListError
    | LangTitle | LangSelected | LangError
    | AiResponse | AiError | AiUnavailable | AiProcessing
    | TweetFrom | TweetRetweetBy | TweetOriginal | TweetTranslated | TweetError
    | VideoDownloading | VideoSuccess | VideoError | VideoUnsupported | VideoTooLarge
    | VideoProcessing | VideoDownloadError | VideoFileTooLarge | VideoProcessingTimeout
    | VideoUnsupportedUrl | VideoCaption
    | InlineNoResults | InlineError
    | LinkProcessing | LinkSubscribePrompt | LinkError
    | ErrorUnknown | ErrorApiFail | ErrorNetwork | ErrorRateLimit
    | ButtonYes | ButtonNo | ButtonSubscribe | ButtonCancel
    | LangEnglish | LangUkrainian | LangRussian
    | ValidationRequired | ValidationInvalidFormat | ValidationTooLong
    | ServiceUnavailable | ServiceMaintenance
    | ElonMuskSubscribed | ElonMuskUnsubscribed

  /** `MessageKey.key`: the dotted path of the message in the resources. */
  function KeyText(k: MessageKey): String {
    match k
    case StartWelcome => "start.welcome"
    case StartInstructions => "start.instructions"
    case AddSuccess => "add.success"
    case AddAlreadyExists => "add.already_exists"
    case AddUserNotFound => "add.user_not_found"
    case AddInvalidUsername => "add.invalid_username"
    case AddError => "add.error"
    case RemoveSuccess => "remove.success"
    case RemoveNotFound => "remove.not_found"
    case RemoveError => "remove.error"
    case ListTitle => "list.title"
    case ListEmpty => "list.empty"
    case ListError => "list.error"
    case LangTitle => "lang.title"
    case LangSelected => "lang.selected"
    case LangError => "lang.error"
    case AiResponse => "ai.response"
    case AiError => "ai.error"
    case AiUnavailable => "ai.unavailable"
    case AiProcessing => "ai.processing"
    case TweetFrom => "tweet.from"
    case TweetRetweetBy => "tweet.retweet_by"
    case TweetOriginal => "tweet.original"
    case TweetTranslated => "tweet.translated"
    case TweetError => "tweet.error"
    case VideoDownloading => "video.downloading"
    case VideoSuccess => "video.success"
    case VideoError => "video.error"
    case VideoUnsupported => "video.unsupported"
    case VideoTooLarge => "video.too_large"
    case VideoProcessing => "video.processing"
    case VideoDownloadError => "video.download_error"
    case VideoFileTooLarge => "video.file_too_large"
    case VideoProcessingTimeout => "video.processing_timeout"
    case VideoUnsupportedUrl => "video.unsupported_url"
    case VideoCaption => "video.caption"
    case InlineNoResults => "inline.no_results"
    case InlineError => "inline.error"
    case LinkProcessing => "link.processing"
    case LinkSubscribePrompt => "link.subscribe_prompt"
    case LinkError => "link.error"
    case ErrorUnknown => "error.unknown"
    case ErrorApiFail => "error.api_fail"
    case ErrorNetwork => "error.network"
    case ErrorRateLimit => "error.rate_limit"
    case ButtonYes => "button.yes"
    case ButtonNo => "button.no"
    case ButtonSubscribe => "button.subscribe"
    case ButtonCancel => "button.cancel"
    case LangEnglish => "lang.english"
    case LangUkrainian => "lang.ukrainian"
    case LangRussian => "lang.russian"
    case ValidationRequired => "validation.required"
    case ValidationInvalidFormat => "validation.invalid_format"
    case ValidationTooLong => "validation.too_long"
    case ServiceUnavailable => "service.unavailable"
    case ServiceMaintenance => "service.maintenance"
    case ElonMuskSubscribed => "elonmusk.subscribed"
    case ElonMuskUnsubscribed => "elonmusk.unsubscribed"
  }

  const KeyCount: nat := 59

  /** `MessageKey.ordinal`: the position in declaration order. */
  function Ordinal(k: MessageKey): (n: nat)
    ensures n < KeyCount
  {
    match k
    case StartWelcome => 0
    case StartInstructions => 1
    case AddSuccess => 2
    case AddAlreadyExists => 3
    case AddUserNotFound => 4
    case AddInvalidUsername => 5
    case AddError => 6
    case RemoveSuccess => 7
    case RemoveNotFound => 8
    case RemoveError => 9
    case ListTitle => 10
    case ListEmpty => 11
    case ListError => 12
    case LangTitle => 13
    case LangSelected => 14
    case LangError => 15
    case AiResponse => 16
    case AiError => 17
    case AiUnavailable => 18
    case AiProcessing => 19
    case TweetFrom => 20
    case TweetRetweetBy => 21
    case TweetOriginal => 22
    case TweetTranslated => 23
    case TweetError => 24
    case VideoDownloading => 25
    case VideoSuccess => 26
    case VideoError => 27
    case VideoUnsupported => 28
    case VideoTooLarge => 29
    case VideoProcessing => 30
    case VideoDownloadError => 31
    case VideoFileTooLarge => 32
    case VideoProcessingTimeout => 33
    case VideoUnsupportedUrl => 34
    case VideoCaption => 35
    case InlineNoResults => 36
    case InlineError => 37
    case LinkProcessing => 38
    case LinkSubscribePrompt => 39
    case LinkError => 40
    case ErrorUnknown => 41
    case ErrorApiFail => 42
    case ErrorNetwork => 43
    case ErrorRateLimit => 44
    case ButtonYes => 45
    case ButtonNo => 46
    case ButtonSubscribe => 47
    case ButtonCancel => 48
    case LangEnglish => 49
    case LangUkrainian => 50
    case LangRussian => 51
    case ValidationRequired => 52
    case ValidationInvalidFormat => 53
    case ValidationTooLong => 54
    case ServiceUnavailable => 55
    case ServiceMaintenance => 56
    case ElonMuskSubscribed => 57
    case ElonMuskUnsubscribed => 58
  }

  /** `getAvailableKeys`: `MessageKey.entries` as a set. */
  function AvailableKeys(): (keys: set<MessageKey>)
    ensures forall k: MessageKey :: k in keys
  {
    set k: MessageKey | Ordinal(k) < KeyCount
  }

  // ---------------------------------------------------------------------
  // flattenJsonObject

  /** The key of an entry under `prefix`. */
  function Qualify(prefix: String, key: String): (full: String)
    ensures prefix == "" ==> full == key
    ensures prefix != "" ==> StartsWith(full, prefix + ".")
  {
    if prefix == "" then key
    else
      assert (prefix + "." + key)[..|prefix + "."|] == prefix + ".";
      prefix + "." + key
  }

  /** `flattenJsonObject(jsonObject, prefix)` from entry `i` of the object
      `obj` on, added onto `acc` entry by entry: a nested object contributes
      its own flattening under the longer prefix, a string its text, and
      any other primitive nothing. An array makes `jsonPrimitive` throw,
      which fails the whole load (`None`). */
  function Flatten(obj: Json, i: nat, prefix: String, acc: map<String, String>): (r: Option<map<String, String>>)
    requires obj.JObject? && i <= |obj.fields|
    ensures r.Some? ==> acc.Keys <= r.value.Keys
    decreases obj, |obj.fields| - i
  {
    if i == |obj.fields| then Some(acc)
    else
      var key := obj.fields[i].0;
      var value := obj.fields[i].1;
      var full := Qualify(prefix, key);
      var next :=
        match value
        case JObject(_) =>
          (match Flatten(value, 0, full, map[])
           case None => None
           case Some(sub) => Some(acc + sub))
        case JString(text) => Some(acc[full := text])
        case JArray(_) => None
        case _ => Some(acc);
      match next
      case None => None
      case Some(m) => Flatten(obj, i + 1, prefix, m)
  }

  /** Entry `j` of `obj` is an array, or an object holding one at any depth. */
  predicate ArrayAt(obj: Json, j: int)
    requires obj.JObject? && 0 <= j < |obj.fields|
    decreases obj, 0
  {
    var value := obj.fields[j].1;
    value.JArray? || (value.JObject? && HasArray(value, 0))
  }

  /** Some entry of `obj` from `i` on holds an array at some depth. */
  predicate HasArray(obj: Json, i: nat)
    requires obj.JObject?
    decreases obj, 1
  {
    exists j | i <= j < |obj.fields| :: ArrayAt(obj, j)
  }

  /** Flattening fails exactly when an array appears somewhere. */
  lemma {:induction false} FlattenFailsOnArray(obj: Json, i: nat, prefix: String, acc: map<String, String>)
    requires obj.JObject? && i <= |obj.fields|
    ensures Flatten(obj, i, prefix, acc).None? <==> HasArray(obj, i)
    decreases obj, |obj.fields| - i
  {
    if i < |obj.fields| {
      var value := obj.fields[i].1;
      var full := Qualify(prefix, obj.fields[i].0);
      assert HasArray(obj, i) <==> ArrayAt(obj, i) || HasArray(obj, i + 1);
      match value {
        case JObject(_) =>
          FlattenFailsOnArray(value, 0, full, map[]);
          var sub := Flatten(value, 0, full, map[]);
          if sub.Some? {
            FlattenFailsOnArray(obj, i + 1, prefix, acc + sub.value);
          }
        case JString(text) =>
          FlattenFailsOnArray(obj, i + 1, prefix, acc[full := text]);
        case JArray(_) =>
        case JNumber(_) =>
          FlattenFailsOnArray(obj, i + 1, prefix, acc);
        case JBool(_) =>
          FlattenFailsOnArray(obj, i + 1, prefix, acc);
        case JNull =>
          FlattenFailsOnArray(obj, i + 1, prefix, acc);
      }
    }
  }

  /** The keys of the string entries of `fields` from `i` on, qualified by
      `prefix`. */
  function StringKeys(fields: seq<(String, Json)>, i: nat, prefix: String): set<String> {
    set j | i <= j < |fields| && fields[j].1.JString? :: Qualify(prefix, fields[j].0)
  }

  /** No later string entry has the key of entry `i`. */
  predicate LastStringOfKey(fields: seq<(String, Json)>, i: int)
    requires 0 <= i < |fields|
  {
    forall j | i < j < |fields| && fields[j].1.JString? :: fields[j].0 != fields[i].0
  }

  lemma {:induction false} QualifyInjective(prefix: String, a: String, b: String)
    ensures Qualify(prefix, a) == Qualify(prefix, b) ==> a == b
  {
    if prefix != "" && Qualify(prefix, a) == Qualify(prefix, b) {
      var n := |prefix + "."|;
      assert a == Qualify(prefix, a)[n..];
      assert b == Qualify(prefix, b)[n..];
    }
  }

  /** One primitive entry: a string is stored under its qualified key; a
      number, a boolean or null leaves the accumulator as it was. */
  lemma FlattenPrimitiveStep(obj: Json, i: nat, prefix: String, acc: map<String, String>)
    requires obj.JObject? && i < |obj.fields| && IsPrimitive(obj.fields[i].1)
    ensures obj.fields[i].1.JString? ==>
      Flatten(obj, i, prefix, acc)
      == Flatten(obj, i + 1, prefix, acc[Qualify(prefix, obj.fields[i].0) := obj.fields[i].1.str])
    ensures !obj.fields[i].1.JString? ==> Flatten(obj, i, prefix, acc) == Flatten(obj, i + 1, prefix, acc)
  {
  }

  /** The accumulator after entry `i` of an object of primitives. */
  function NextAcc(fields: seq<(String, Json)>, i: nat, prefix: String, acc: map<String, String>): (m: map<String, String>)
    requires i < |fields|
    ensures fields[i].1.JString? ==> m == acc[Qualify(prefix, fields[i].0) := fields[i].1.str]
    ensures !fields[i].1.JString? ==> m == acc
  {
    if fields[i].1.JString? then acc[Qualify(prefix, fields[i].0) := fields[i].1.str] else acc
  }

  /** An object of primitives always flattens, onto the keys collected so
      far plus the qualified keys of its string entries. */
  lemma {:induction false} FlattenPrimitiveKeys(obj: Json, i: nat, prefix: String, acc: map<String, String>)
    requires obj.JObject? && i <= |obj.fields| && AllPrimitive(obj.fields)
    ensures Flatten(obj, i, prefix, acc).Some?
    ensures Flatten(obj, i, prefix, acc).value.Keys == acc.Keys + StringKeys(obj.fields, i, prefix)
    decreases |obj.fields| - i
  {
    var fields := obj.fields;
    if i < |fields| {
      var full := Qualify(prefix, fields[i].0);
      FlattenPrimitiveStep(obj, i, prefix, acc);
      FlattenPrimitiveKeys(obj, i + 1, prefix, NextAcc(fields, i, prefix, acc));
      if fields[i].1.JString? {
        assert StringKeys(fields, i, prefix) == {full} + StringKeys(fields, i + 1, prefix);
      } else {
        assert StringKeys(fields, i, prefix) == StringKeys(fields, i + 1, prefix);
      }
    } else {
      assert StringKeys(fields, i, prefix) == {};
    }
  }

  /** Keys collected earlier that no later string entry names keep their
      values. */
  lemma {:induction false} FlattenPrimitiveKeeps(obj: Json, i: nat, prefix: String, acc: map<String, String>)
    requires obj.JObject? && i <= |obj.fields| && AllPrimitive(obj.fields)
    ensures Flatten(obj, i, prefix, acc).Some?
    ensures forall x | x in acc && x !in StringKeys(obj.fields, i, prefix) ::
      x in Flatten(obj, i, prefix, acc).value && Flatten(obj, i, prefix, acc).value[x] == acc[x]
    decreases |obj.fields| - i
  {
    var fields := obj.fields;
    if i < |fields| {
      FlattenPrimitiveStep(obj, i, prefix, acc);
      var next := NextAcc(fields, i, prefix, acc);
      FlattenPrimitiveKeeps(obj, i + 1, prefix, next);
      assert StringKeys(fields, i + 1, prefix) <= StringKeys(fields, i, prefix);
      if fields[i].1.JString? {
        assert Qualify(prefix, fields[i].0) in StringKeys(fields, i, prefix);
      }
    }
  }

  /** A string entry `j` that no later string entry overrides gives its
      key its text. */
  lemma {:induction false} FlattenPrimitiveLast(obj: Json, i: nat, prefix: String, acc: map<String, String>, j: nat)
    requires obj.JObject? && i <= j < |obj.fields| && AllPrimitive(obj.fields)
    requires obj.fields[j].1.JString? && LastStringOfKey(obj.fields, j)
    ensures Flatten(obj, i, prefix, acc).Some?
    ensures Qualify(prefix, obj.fields[j].0) in Flatten(obj, i, prefix, acc).value
    ensures Flatten(obj, i, prefix, acc).value[Qualify(prefix, obj.fields[j].0)] == obj.fields[j].1.str
    decreases j - i
  {
    if i == j {
      FlattenLastHere(obj, i, prefix, acc);
    } else {
      FlattenPrimitiveStep(obj, i, prefix, acc);
      FlattenPrimitiveLast(obj, i + 1, prefix, NextAcc(obj.fields, i, prefix, acc), j);
    }
  }

  /** The last string entry of a key at `i` itself: no later entry touches
      the text it stores. */
  lemma {:induction false} FlattenLastHere(obj: Json, i: nat, prefix: String, acc: map<String, String>)
    requires obj.JObject? && i < |obj.fields| && AllPrimitive(obj.fields)
    requires obj.fields[i].1.JString? && LastStringOfKey(obj.fields, i)
    ensures Flatten(obj, i, prefix, acc).Some?
    ensures Qualify(prefix, obj.fields[i].0) in Flatten(obj, i, prefix, acc).value
    ensures Flatten(obj, i, prefix, acc).value[Qualify(prefix, obj.fields[i].0)] == obj.fields[i].1.str
  {
    var fields := obj.fields;
    var full := Qualify(prefix, fields[i].0);
    forall k | i + 1 <= k < |fields| && fields[k].1.JString? ensures Qualify(prefix, fields[k].0) != full {
      QualifyInjective(prefix, fields[k].0, fields[i].0);
    }
    assert full !in StringKeys(fields, i + 1, prefix);
    FlattenPrimitiveStep(obj, i, prefix, acc);
    FlattenPrimitiveKeeps(obj, i + 1, prefix, acc[full := fields[i].1.str]);
  }

  /** An object whose values are strings, numbers, booleans or null
      flattens to the keys collected so far plus the qualified keys of its
      string entries: the other primitives are dropped, earlier keys not
      named again keep their values, and where a string key repeats the
      later text wins. */
  lemma FlattenStrings(obj: Json, i: nat, prefix: String, acc: map<String, String>)
    requires obj.JObject? && i <= |obj.fields| && AllPrimitive(obj.fields)
    ensures Flatten(obj, i, prefix, acc).Some?
    ensures Flatten(obj, i, prefix, acc).value.Keys == acc.Keys + StringKeys(obj.fields, i, prefix)
    ensures forall x | x in acc && x !in StringKeys(obj.fields, i, prefix) ::
      Flatten(obj, i, prefix, acc).value[x] == acc[x]
    ensures forall j | i <= j < |obj.fields| && obj.fields[j].1.JString? && LastStringOfKey(obj.fields, j) ::
      Flatten(obj, i, prefix, acc).value[Qualify(prefix, obj.fields[j].0)] == obj.fields[j].1.str
  {
    FlattenPrimitiveKeys(obj, i, prefix, acc);
    FlattenPrimitiveKeeps(obj, i, prefix, acc);
    forall j | i <= j < |obj.fields| && obj.fields[j].1.JString? && LastStringOfKey(obj.fields, j)
      ensures Flatten(obj, i, prefix, acc).value[Qualify(prefix, obj.fields[j].0)] == obj.fields[j].1.str
    {
      FlattenPrimitiveLast(obj, i, prefix, acc, j);
    }
  }

  /** A nested object's entries appear under the outer key and a dot. */
  lemma {:induction false} FlattenNested(key: String, innerKey: String, text: String)
    requires key != ""
    ensures Flatten(JObject([(key, JObject([(innerKey, JString(text))]))]), 0, "", map[])
      == Some(map[key + "." + innerKey := text])
  {
    var inner := JObject([(innerKey, JString(text))]);
    assert Flatten(inner, 1, key, map[Qualify(key, innerKey) := text]) == Some(map[Qualify(key, innerKey) := text]);
    assert Flatten(inner, 0, key, map[]) == Some(map[key + "." + innerKey := text]);
    var outer := JObject([(key, inner)]);
    var m := map[key + "." + innerKey := text];
    var empty: map<String, String> := map[];
    assert empty + m == m;
    assert Flatten(outer, 1, "", m) == Some(m);
    assert Flatten(outer, 0, "", empty) == Flatten(outer, 1, "", empty + m);
  }

  // ---------------------------------------------------------------------
  // loadMessages / getMessage / hasMessage

  type Resources = String -> Option<Json>

  /** The resource of a language: `messages_<iso>.json`. */
  function FileName(l: Language): String {
    "messages_" + Iso(l) + ".json"
  }

  /** `loadMessages`: the flattened root object, or `None` when the
      resource is missing, its root is not an object, or it holds an array. */
  function LoadMessages(resources: Resources, l: Language): (r: Option<map<String, String>>)
    ensures r.Some? ==> resources(FileName(l)).Some? && resources(FileName(l)).value.JObject?
  {
    match resources(FileName(l))
    case Some(JObject(fields)) => Flatten(JObject(fields), 0, "", map[])
    case _ => None
  }

  /** `substituteParameters`: each `{name}` replaced by its value, one
      parameter after another in the map's order; values as long as their
      placeholders keep the length of the text. */
  function Substitute(message: String, parameters: seq<(String, String)>): (r: String)
    ensures (forall k | 0 <= k < |parameters| :: |parameters[k].1| == |parameters[k].0| + 2) ==> |r| == |message|
    decreases |parameters|
  {
    if parameters == [] then message
    else
      var placeholder := "{" + parameters[0].0 + "}";
      Substitute(ReplaceAll(message, placeholder, parameters[0].1), parameters[1..])
  }

  /** A parameter whose placeholder is absent from the text has no effect. */
  lemma {:induction false} SubstituteUnused(message: String, name: String, value: String, rest: seq<(String, String)>)
    requires !Contains(message, "{" + name + "}")
    ensures Substitute(message, [(name, value)] + rest) == Substitute(message, rest)
  {
    ReplaceAllAbsent(message, "{" + name + "}", value);
    assert ([(name, value)] + rest)[1..] == rest;
  }

  /** Text without an opening brace is never changed by substitution. */
  lemma {:induction false} SubstituteNoBraces(message: String, parameters: seq<(String, String)>)
    requires forall i | 0 <= i < |message| :: message[i] != '{'
    ensures Substitute(message, parameters) == message
    decreases |parameters|
  {
    if parameters != [] {
      var placeholder := "{" + parameters[0].0 + "}";
      assert !Contains(message, placeholder) by {
        forall j | 0 <= j <= |message| - |placeholder| ensures !Occurs(message, placeholder, j) {
          assert message[j..j + |placeholder|][0] == message[j];
        }
      }
      ReplaceAllAbsent(message, placeholder, parameters[0].1);
      SubstituteNoBraces(message, parameters[1..]);
    }
  }

  /** One parameter splits the text at its placeholders and joins the
      pieces with the value. */
  lemma {:induction false} SubstituteOne(message: String, name: String, value: String)
    ensures Substitute(message, [(name, value)]) == Join(Split(message, "{" + name + "}"), value)
  {
    ReplaceAllIsSplitJoin(message, "{" + name + "}", value);
  }

  /** The message under the key path `path`: the requested language's,
      else English's, else the path itself, then with its parameters
      substituted; a resource that fails to load ends the lookup with the
      bare path (the exception is caught). */
  function Lookup(resources: Resources, path: String, l: Language, parameters: seq<(String, String)>): (r: String)
    ensures LoadMessages(resources, l).None? ==> r == path
  {
    match LoadMessages(resources, l)
    case None => path
    case Some(messages) =>
      if path in messages then Substitute(messages[path], parameters)
      else
        match LoadMessages(resources, English)
        case None => path
        case Some(english) =>
          Substitute(if path in english then english[path] else path, parameters)
  }

  /** `getMessage(key, language, parameters)`. */
  function GetMessage(resources: Resources, key: MessageKey, l: Language, parameters: seq<(String, String)>): (r: String)
    ensures LoadMessages(resources, l).None? ==> r == KeyText(key)
  {
    Lookup(resources, KeyText(key), l, parameters)
  }

  /** `hasMessage`: a message the lookup for that language uses as it is,
      whatever the parameters; a file that fails to load has none. */
  predicate HasMessage(resources: Resources, path: String, l: Language): (b: bool)
    ensures LoadMessages(resources, l).None? ==> !b
    ensures b ==>
      && LoadMessages(resources, l).Some? && path in LoadMessages(resources, l).value
      && forall ps :: Lookup(resources, path, l, ps) == Substitute(LoadMessages(resources, l).value[path], ps)
  {
    LoadMessages(resources, l).Some? && path in LoadMessages(resources, l).value
  }

  /** The lookup order: the requested language, then English, then the key
      path itself; a resource that fails to load gives the bare key path. */
  lemma {:induction false} LookupFallback(resources: Resources, path: String, l: Language, parameters: seq<(String, String)>)
    ensures HasMessage(resources, path, l) ==>
      Lookup(resources, path, l, parameters) == Substitute(LoadMessages(resources, l).value[path], parameters)
    ensures LoadMessages(resources, l).Some? && !HasMessage(resources, path, l) && HasMessage(resources, path, English)
      ==> Lookup(resources, path, l, parameters) == Substitute(LoadMessages(resources, English).value[path], parameters)
    ensures LoadMessages(resources, l).Some? && !HasMessage(resources, path, l)
      && LoadMessages(resources, English).Some? && !HasMessage(resources, path, English)
      ==> Lookup(resources, path, l, parameters) == Substitute(path, parameters)
    ensures LoadMessages(resources, l).None? || (!HasMessage(resources, path, l) && LoadMessages(resources, English).None?)
      ==> Lookup(resources, path, l, parameters) == path
  {
  }

  /** A key path without `{` comes back unchanged when no language has it. */
  lemma {:induction false} LookupMissing(resources: Resources, path: String, l: Language, parameters: seq<(String, String)>)
    requires forall i | 0 <= i < |path| :: path[i] != '{'
    requires !HasMessage(resources, path, l) && !HasMessage(resources, path, English)
    ensures Lookup(resources, path, l, parameters) == path
  {
    SubstituteNoBraces(path, parameters);
  }
}

=== FILE: monitoring.dfy ===
/** `ElonMuskMonitoringService`: one run of the periodic check for new tweets
    of a tracked account, delivered to every subscribed chat at most once.
    The tracking record and the sent-tweet table are in-memory state; the
    tweet providers, the subscriber query and the sender are parameters.
    The `lastChecked` timestamps are not part of this model. */
module Monitoring {
  import opened Wrappers
  import opened KText
  import opened TwitterModels
  import opened Translation

  const TrackedUser: String := "elonmusk"
  const RecentLimit: int := 10

  /** `TweetTracking`, without its timestamp. */
  datatype Tracking = Tracking(lastTweetId: String, isActive: bool)

  /** `TelegramChat`, as the subscriber query returns it. */
  datatype Chat = Chat(id: int, language: Language)

  /** `SentTweet`. */
  datatype SentTweet = SentTweet(
    tweetId: String,
    chatId: int,
    messageId: int,
    parentTweetId: Option<String>,
    threadId: String,
    isMainTweet: bool)

  /** The sent-tweet table, keyed by (tweet id, chat id). */
  type SentTable = map<(String, int), SentTweet>

  datatype State = State(tracking: Option<Tracking>, sent: SentTable)

  /** The collaborators of one run: `recentIds` and `getThread` take the
      username first; `send` stands for `sendTweetThread` and gives the
      message id, or `None` when none came back or the send threw. */
  datatype Env = Env(
    recentIds: (String, int) -> Result<seq<String>, TwitterError>,
    getTweet: String -> Result<Tweet, TwitterError>,
    getThread: (String, String) -> Result<TweetsThread, TwitterError>,
    subscribers: seq<Chat>,
    send: (TweetsThread, int, Language, Option<int>) -> Option<int>)

  /** One call of the sender: for which tweet and chat, replying to which
      message, and what came back. */
  datatype Delivery = Delivery(tweetId: String, chatId: int, parentTweetId: Option<String>,
                               replyTo: Option<int>, messageId: Option<int>)

  datatype Outcome = Outcome(state: State, deliveries: seq<Delivery>)

  // ---------------------------------------------------------------------
  // Selecting new tweets

  /** `mapNotNull { getTweet(it).getOrNull() }`: the tweets that could be
      loaded, in the order of their ids. */
  function LoadTweets(ids: seq<String>, getTweet: String -> Result<Tweet, TwitterError>): (ts: seq<Tweet>)
    ensures |ts| <= |ids|
  {
    if ids == [] then []
    else
      var rest := LoadTweets(ids[1..], getTweet);
      match getTweet(ids[0])
      case Success(t) => [t] + rest
      case Failure(_) => rest
  }

  /** Every loaded tweet is the result of fetching one of the ids. */
  lemma {:induction false} LoadTweetsFetched(ids: seq<String>, getTweet: String -> Result<Tweet, TwitterError>, t: Tweet)
    requires t in LoadTweets(ids, getTweet)
    ensures exists k | 0 <= k < |ids| :: getTweet(ids[k]) == Success(t)
  {
    var rest := LoadTweets(ids[1..], getTweet);
    if t in rest {
      LoadTweetsFetched(ids[1..], getTweet, t);
      var k :| 0 <= k < |ids[1..]| && getTweet(ids[1..][k]) == Success(t);
      assert getTweet(ids[k + 1]) == Success(t);
    } else {
      assert getTweet(ids[0]) == Success(t);
    }
  }

  /** When every fetch succeeds, the tweets are exactly the fetched ones. */
  lemma {:induction false} LoadTweetsAllLoaded(ids: seq<String>, getTweet: String -> Result<Tweet, TwitterError>)
    requires forall k | 0 <= k < |ids| :: getTweet(ids[k]).Success?
    ensures |LoadTweets(ids, getTweet)| == |ids|
    ensures forall k | 0 <= k < |ids| :: LoadTweets(ids, getTweet)[k] == getTweet(ids[k]).value
  {
    if ids != [] {
      assert getTweet(ids[0]).Success?;
      forall k | 0 <= k < |ids[1..]| ensures getTweet(ids[1..][k]).Success? {
        assert ids[1..][k] == ids[k + 1];
      }
      LoadTweetsAllLoaded(ids[1..], getTweet);
    }
  }

  /** `takeWhile { it.id != id }`. */
  function PrefixBefore(ts: seq<Tweet>, id: String): (p: seq<Tweet>)
    ensures |p| <= |ts| && p == ts[..|p|]
    ensures forall k | 0 <= k < |p| :: p[k].id != id
    ensures |p| == |ts| || ts[|p|].id == id
  {
    if ts == [] || ts[0].id == id then []
    else [ts[0]] + PrefixBefore(ts[1..], id)
  }

  /** The tweets newer than the marker: on the first run only the newest;
      afterwards every tweet before the marked one. */
  function NewTweets(all: seq<Tweet>, lastTweetId: String): (newer: seq<Tweet>)
    ensures |newer| <= |all| && newer == all[..|newer|]
    ensures lastTweetId == "" ==> |newer| == (if all == [] then 0 else 1)
    ensures lastTweetId != "" ==>
      (forall k | 0 <= k < |newer| :: newer[k].id != lastTweetId)
      && (|newer| == |all| || all[|newer|].id == lastTweetId)
  {
    if lastTweetId == "" then all[..if all == [] then 0 else 1]
    else PrefixBefore(all, lastTweetId)
  }

  /** When the marked tweet was loaded, the new tweets are exactly those
      before its first occurrence. */
  lemma {:induction false} NewTweetsBeforeMarker(all: seq<Tweet>, lastTweetId: String, i: nat)
    requires lastTweetId != "" && i < |all| && all[i].id == lastTweetId
    requires forall k | 0 <= k < i :: all[k].id != lastTweetId
    ensures NewTweets(all, lastTweetId) == all[..i]
  {
    var newer := NewTweets(all, lastTweetId);
    assert |newer| == i;
  }

  // ---------------------------------------------------------------------
  // Sending one tweet to one subscriber

  /** The message a reply is sent in reply to: the recorded message of its
      parent in the same chat, for a reply thread whose parent was sent
      there. */
  function ReplyTarget(thread: TweetsThread, tweet: Tweet, chatId: int, sent: SentTable): (m: Option<int>)
    ensures m.Some? <==>
      thread.Reply? && tweet.replyToTweetId.Some? && (tweet.replyToTweetId.value, chatId) in sent
    ensures m.Some? ==> m.value == sent[(tweet.replyToTweetId.value, chatId)].messageId
  {
    if thread.Reply? && tweet.replyToTweetId.Some? && (tweet.replyToTweetId.value, chatId) in sent
    then Some(sent[(tweet.replyToTweetId.value, chatId)].messageId)
    else None
  }

  datatype Step = Step(sent: SentTable, deliveries: seq<Delivery>)

  /** `sendTweetThreadToSubscriber`. */
  function SendToSubscriber(env: Env, tweet: Tweet, chat: Chat, sent: SentTable): (r: Step)
    ensures |r.deliveries| <= 1
    ensures forall key | key in sent :: key in r.sent && r.sent[key] == sent[key]
  {
    match env.getThread(TrackedUser, tweet.id)
    case Failure(_) => Step(sent, [])
    case Success(thread) =>
      var key := (tweet.id, chat.id);
      if key in sent then Step(sent, [])
      else
        var replyTo := ReplyTarget(thread, tweet, chat.id, sent);
        var messageId := env.send(thread, chat.id, chat.language, replyTo);
        var d := Delivery(tweet.id, chat.id, tweet.replyToTweetId, replyTo, messageId);
        if messageId.Some? then
          Step(sent[key := SentTweet(tweet.id, chat.id, messageId.value, tweet.replyToTweetId, tweet.id, true)], [d])
        else Step(sent, [d])
  }

  /** Nothing is sent when the thread does not load or the pair was already
      recorded; otherwise one send, replying to the parent's message, and
      a record exactly when a message id came back. */
  lemma {:induction false} SendToSubscriberCases(env: Env, tweet: Tweet, chat: Chat, sent: SentTable)
    ensures var r := SendToSubscriber(env, tweet, chat, sent);
      var thread := env.getThread(TrackedUser, tweet.id);
      var key := (tweet.id, chat.id);
      && (r.deliveries == [] <==> thread.Failure? || key in sent)
      && (key in r.sent <==> key in sent || (r.deliveries != [] && r.deliveries[0].messageId.Some?))
      && (r.deliveries != [] ==>
            r.deliveries[0].replyTo == ReplyTarget(thread.value, tweet, chat.id, sent)
            && r.deliveries[0].messageId == env.send(thread.value, chat.id, chat.language, r.deliveries[0].replyTo))
  {
  }

  /** `subscribers.forEach { … }` for one tweet: at most one send per
      chat, and no earlier record is dropped or changed. */
  function SendToAll(env: Env, tweet: Tweet, chats: seq<Chat>, sent: SentTable): (r: Step)
    ensures |r.deliveries| <= |chats|
    ensures forall key | key in sent :: key in r.sent && r.sent[key] == sent[key]
  {
    if chats == [] then Step(sent, [])
    else
      var first := SendToSubscriber(env, tweet, chats[0], sent);
      var rest := SendToAll(env, tweet, chats[1..], first.sent);
      Step(rest.sent, first.deliveries + rest.deliveries)
  }

  /** `newTweets.forEach { tweet -> subscribers.forEach { … } }`: at most
      one send per tweet and chat, and no earlier record is dropped or
      changed. */
  function SendTweets(env: Env, tweets: seq<Tweet>, chats: seq<Chat>, sent: SentTable): (r: Step)
    ensures |r.deliveries| <= |tweets| * |chats|
    ensures forall key | key in sent :: key in r.sent && r.sent[key] == sent[key]
  {
    if tweets == [] then Step(sent, [])
    else
      var first := SendToAll(env, tweets[0], chats, sent);
      var rest := SendTweets(env, tweets[1..], chats, first.sent);
      assert |tweets[1..]| * |chats| + |chats| == |tweets| * |chats|;
      Step(rest.sent, first.deliveries + rest.deliveries)
  }

  // ---------------------------------------------------------------------
  // The run

  /** `checkForNewTweetsInternal`. A missing tracking record is created
      active with an empty marker before anything else. */
  function Check(env: Env, s: State): (r: Outcome)
    ensures r.state.tracking.Some?
    ensures s.tracking.Some? ==> r.state.tracking.value.isActive == s.tracking.value.isActive
  {
    var tracking := if s.tracking.Some? then s.tracking.value else Tracking("", true);
    var idle := Outcome(State(Some(tracking), s.sent), []);
    if !tracking.isActive then idle
    else
      match env.recentIds(TrackedUser, RecentLimit)
      case Failure(_) => idle
      case Success(ids) =>
        var all := LoadTweets(ids, env.getTweet);
        var newer := NewTweets(all, tracking.lastTweetId);
        if ids == [] || all == [] || newer == [] || env.subscribers == [] then idle
        else
          var step := SendTweets(env, newer, env.subscribers, s.sent);
          Outcome(State(Some(tracking.(lastTweetId := newer[0].id)), step.sent), step.deliveries)
  }

  /** An inactive tracking record ends the run before anything is fetched:
      the outcome is the same whatever the collaborators answer, and
      nothing changes. */
  lemma {:induction false} CheckInactive(env: Env, other: Env, s: State)
    requires s.tracking.Some? && !s.tracking.value.isActive
    ensures Check(env, s) == Check(other, s)
    ensures Check(env, s) == Outcome(s, [])
  {
  }

  /** Without subscribers nothing is sent and the marker stays where it was. */
  lemma {:induction false} CheckNoSubscribers(env: Env, s: State)
    requires env.subscribers == []
    ensures Check(env, s).deliveries == []
    ensures Check(env, s).state.sent == s.sent
    ensures s.tracking.Some? ==> Check(env, s).state.tracking == s.tracking
  {
  }

  /** The marker either stays, or moves to the newest loaded tweet, which
      a later run that loads it first does not count as new (unless its id
      is empty, which reads as a first run). It does move, to the newest
      new tweet, whenever tracking is active, the fetch succeeds, there is
      something new and someone to send it to. */
  lemma {:induction false} CheckMarker(env: Env, s: State)
    ensures var before := if s.tracking.Some? then s.tracking.value.lastTweetId else "";
      var after := Check(env, s).state.tracking.value.lastTweetId;
      after == before
      || (env.recentIds(TrackedUser, RecentLimit).Success?
          && var all := LoadTweets(env.recentIds(TrackedUser, RecentLimit).value, env.getTweet);
          all != [] && after == all[0].id && (after == "" || NewTweets(all, after) == []))
    ensures var before := if s.tracking.Some? then s.tracking.value.lastTweetId else "";
      var active := s.tracking.None? || s.tracking.value.isActive;
      var ids := env.recentIds(TrackedUser, RecentLimit);
      active && ids.Success? && env.subscribers != []
      && NewTweets(LoadTweets(ids.value, env.getTweet), before) != [] ==>
        Check(env, s).state.tracking.value.lastTweetId == NewTweets(LoadTweets(ids.value, env.getTweet), before)[0].id
  {
    var tracking := if s.tracking.Some? then s.tracking.value else Tracking("", true);
    var after := Check(env, s).state.tracking.value.lastTweetId;
    if after != tracking.lastTweetId {
      var all := LoadTweets(env.recentIds(TrackedUser, RecentLimit).value, env.getTweet);
      var newer := NewTweets(all, tracking.lastTweetId);
      assert after == newer[0].id;
      assert newer[0] == all[0];
      if after != "" {
        NewTweetsBeforeMarker(all, after, 0);
      }
    }
  }

  /** On the first run only the newest loaded tweet is delivered. */
  lemma {:induction false} CheckFirstRun(env: Env, s: State)
    requires s.tracking.None? || s.tracking.value.lastTweetId == ""
    ensures forall k | 0 <= k < |Check(env, s).deliveries| ::
      Check(env, s).deliveries[k].tweetId == Check(env, s).state.tracking.value.lastTweetId
  {
    var r := Check(env, s);
    if r.deliveries != [] {
      var all := LoadTweets(env.recentIds(TrackedUser, RecentLimit).value, env.getTweet);
      var newer := NewTweets(all, "");
      assert newer == [newer[0]];
      SendTweetsOfOne(env, newer[0], env.subscribers, s.sent);
    }
  }

  /** Sending a single tweet is sending it to every chat. */
  lemma {:induction false} SendTweetsOfOne(env: Env, tweet: Tweet, chats: seq<Chat>, sent: SentTable)
    ensures SendTweets(env, [tweet], chats, sent) == SendToAll(env, tweet, chats, sent)
    ensures forall k | 0 <= k < |SendToAll(env, tweet, chats, sent).deliveries| ::
      SendToAll(env, tweet, chats, sent).deliveries[k].tweetId == tweet.id
  {
    assert [tweet][1..] == [];
    SendToAllOfTweet(env, tweet, chats, sent);
  }

  lemma {:induction false} SendToAllOfTweet(env: Env, tweet: Tweet, chats: seq<Chat>, sent: SentTable)
    ensures forall k | 0 <= k < |SendToAll(env, tweet, chats, sent).deliveries| ::
      SendToAll(env, tweet, chats, sent).deliveries[k].tweetId == tweet.id
  {
    if chats != [] {
      var first := SendToSubscriber(env, tweet, chats[0], sent);
      SendToAllOfTweet(env, tweet, chats[1..], first.sent);
    }
  }

  // ---------------------------------------------------------------------
  // The sent-tweet table

  /** `later` keeps every record of `earlier` unchanged. */
  predicate Extends(earlier: SentTable, later: SentTable) {
    forall key | key in earlier :: key in later && later[key] == earlier[key]
  }

  /** What the table and the deliveries of a step promise about the table
      `sent` it started from:
      - old records are kept unchanged;
      - no delivery is for a (tweet, chat) pair already recorded;
      - a delivery replies to a message only when the tweet's parent was
        recorded in that chat with that message;
      - every new record is a main tweet, its own thread, and holds the
        message id that one of the deliveries got back. */
  predicate Keeps(sent: SentTable, r: Step) {
    && Extends(sent, r.sent)
    && (forall k | 0 <= k < |r.deliveries| :: (r.deliveries[k].tweetId, r.deliveries[k].chatId) !in sent)
    && (forall k | 0 <= k < |r.deliveries| :: ReplyRecorded(r.deliveries[k], r.sent))
    && (forall key | key in r.sent && key !in sent :: NewRecord(key, r.sent[key], r.deliveries))
  }

  predicate ReplyRecorded(d: Delivery, sent: SentTable) {
    d.replyTo.Some? ==>
      d.parentTweetId.Some? && (d.parentTweetId.value, d.chatId) in sent
      && sent[(d.parentTweetId.value, d.chatId)].messageId == d.replyTo.value
  }

  predicate NewRecord(key: (String, int), record: SentTweet, deliveries: seq<Delivery>) {
    && record.tweetId == key.0 && record.chatId == key.1
    && record.isMainTweet && record.threadId == key.0
    && exists k | 0 <= k < |deliveries| ::
         deliveries[k].tweetId == key.0 && deliveries[k].chatId == key.1
         && deliveries[k].messageId == Some(record.messageId)
         && deliveries[k].parentTweetId == record.parentTweetId
  }

  lemma {:induction false} ReplyRecordedExtends(d: Delivery, a: SentTable, b: SentTable)
    requires ReplyRecorded(d, a) && Extends(a, b)
    ensures ReplyRecorded(d, b)
  {
  }

  lemma {:induction false} NewRecordAppend(key: (String, int), record: SentTweet, ds: seq<Delivery>, more: seq<Delivery>)
    requires NewRecord(key, record, ds)
    ensures NewRecord(key, record, ds + more)
  {
    var k :| 0 <= k < |ds| && ds[k].tweetId == key.0 && ds[k].chatId == key.1
      && ds[k].messageId == Some(record.messageId) && ds[k].parentTweetId == record.parentTweetId;
    assert (ds + more)[k] == ds[k];
  }

  lemma {:induction false} NewRecordPrepend(key: (String, int), record: SentTweet, ds: seq<Delivery>, more: seq<Delivery>)
    requires NewRecord(key, record, more)
    ensures NewRecord(key, record, ds + more)
  {
    var k :| 0 <= k < |more| && more[k].tweetId == key.0 && more[k].chatId == key.1
      && more[k].messageId == Some(record.messageId) && more[k].parentTweetId == record.parentTweetId;
    assert (ds + more)[|ds| + k] == more[k];
  }

  /** Two steps in a row keep what each keeps. */
  lemma {:induction false} KeepsCompose(sent: SentTable, first: Step, rest: Step)
    requires Keeps(sent, first) && Keeps(first.sent, rest)
    ensures Keeps(sent, Step(rest.sent, first.deliveries + rest.deliveries))
  {
    var r := Step(rest.sent, first.deliveries + rest.deliveries);
    forall k | 0 <= k < |r.deliveries|
      ensures (r.deliveries[k].tweetId, r.deliveries[k].chatId) !in sent
      ensures ReplyRecorded(r.deliveries[k], r.sent)
    {
      if k < |first.deliveries| {
        assert r.deliveries[k] == first.deliveries[k];
        ReplyRecordedExtends(first.deliveries[k], first.sent, rest.sent);
      } else {
        assert r.deliveries[k] == rest.deliveries[k - |first.deliveries|];
      }
    }
    forall key | key in r.sent && key !in sent
      ensures NewRecord(key, r.sent[key], r.deliveries)
    {
      if key in first.sent {
        assert r.sent[key] == first.sent[key];
        NewRecordAppend(key, first.sent[key], first.deliveries, rest.deliveries);
      } else {
        NewRecordPrepend(key, r.sent[key], first.deliveries, rest.deliveries);
      }
    }
  }

  lemma {:induction false} SendToSubscriberKeeps(env: Env, tweet: Tweet, chat: Chat, sent: SentTable)
    ensures Keeps(sent, SendToSubscriber(env, tweet, chat, sent))
  {
    var r := SendToSubscriber(env, tweet, chat, sent);
    if r.deliveries != [] {
      var d := r.deliveries[0];
      var key := (tweet.id, chat.id);
      if d.messageId.Some? {
        assert r.sent == sent[key := r.sent[key]];
        forall k | key in r.sent && k != key && k in r.sent ensures k in sent {
        }
        assert NewRecord(key, r.sent[key], r.deliveries) by {
          assert r.deliveries[0].messageId == Some(r.sent[key].messageId);
        }
      }
    }
  }

  lemma {:induction false} SendToAllKeeps(env: Env, tweet: Tweet, chats: seq<Chat>, sent: SentTable)
    ensures Keeps(sent, SendToAll(env, tweet, chats, sent))
  {
    if chats != [] {
      var first := SendToSubscriber(env, tweet, chats[0], sent);
      SendToSubscriberKeeps(env, tweet, chats[0], sent);
      SendToAllKeeps(env, tweet, chats[1..], first.sent);
      KeepsCompose(sent, first, SendToAll(env, tweet, chats[1..], first.sent));
    }
  }

  lemma {:induction false} SendTweetsKeeps(env: Env, tweets: seq<Tweet>, chats: seq<Chat>, sent: SentTable)
    ensures Keeps(sent, SendTweets(env, tweets, chats, sent))
  {
    if tweets != [] {
      var first := SendToAll(env, tweets[0], chats, sent);
      SendToAllKeeps(env, tweets[0], chats, sent);
      SendTweetsKeeps(env, tweets[1..], chats, first.sent);
      KeepsCompose(sent, first, SendTweets(env, tweets[1..], chats, first.sent));
    }
  }

  /** A run never sends a tweet again to a chat it was recorded for, never
      changes an old record, replies only to recorded parent messages, and
      records a tweet only with the message id its delivery got back. */
  lemma {:induction false} CheckKeepsSent(env: Env, s: State)
    ensures Keeps(s.sent, Step(Check(env, s).state.sent, Check(env, s).deliveries))
  {
    var r := Check(env, s);
    if r.deliveries != [] || r.state.sent != s.sent {
      var tracking := if s.tracking.Some? then s.tracking.value else Tracking("", true);
      var all := LoadTweets(env.recentIds(TrackedUser, RecentLimit).value, env.getTweet);
      SendTweetsKeeps(env, NewTweets(all, tracking.lastTweetId), env.subscribers, s.sent);
    }
  }

  // ---------------------------------------------------------------------
  // Failures stay with their pair

  /** The sender gives a message id for this thread and chat whatever
      message it replies to. */
  ghost predicate Delivers(env: Env, thread: TweetsThread, chat: Chat) {
    forall replyTo: Option<int> :: env.send(thread, chat.id, chat.language, replyTo).Some?
  }

  /** A pair whose thread loads and whose send succeeds ends up recorded,
      whatever happened to the pairs before and after it. */
  ghost predicate Reaches(env: Env, tweet: Tweet, chat: Chat) {
    env.getThread(TrackedUser, tweet.id).Success?
    && Delivers(env, env.getThread(TrackedUser, tweet.id).value, chat)
  }

  lemma {:induction false} SendToAllReaches(env: Env, tweet: Tweet, chats: seq<Chat>, sent: SentTable)
    ensures forall c | c in chats && Reaches(env, tweet, c) :: (tweet.id, c.id) in SendToAll(env, tweet, chats, sent).sent
  {
    if chats != [] {
      var first := SendToSubscriber(env, tweet, chats[0], sent);
      var rest := SendToAll(env, tweet, chats[1..], first.sent);
      SendToAllReaches(env, tweet, chats[1..], first.sent);
      SendToAllKeeps(env, tweet, chats[1..], first.sent);
      if Reaches(env, tweet, chats[0]) {
        var thread := env.getThread(TrackedUser, tweet.id).value;
        var replyTo := ReplyTarget(thread, tweet, chats[0].id, sent);
        assert env.send(thread, chats[0].id, chats[0].language, replyTo).Some?;
        assert (tweet.id, chats[0].id) in first.sent;
      }
    }
  }

  lemma {:induction false} SendTweetsReaches(env: Env, tweets: seq<Tweet>, chats: seq<Chat>, sent: SentTable)
    ensures forall t, c | t in tweets && c in chats && Reaches(env, t, c) ::
      (t.id, c.id) in SendTweets(env, tweets, chats, sent).sent
  {
    if tweets != [] {
      var first := SendToAll(env, tweets[0], chats, sent);
      SendToAllReaches(env, tweets[0], chats, sent);
      SendTweetsReaches(env, tweets[1..], chats, first.sent);
      SendTweetsKeeps(env, tweets[1..], chats, first.sent);
    }
  }

  /** Every new tweet reaches every subscriber whose thread loads and whose
      send succeeds, however the other pairs fail. */
  lemma {:induction false} CheckReachesSubscribers(env: Env, s: State, t: Tweet, c: Chat)
    requires s.tracking.None? || s.tracking.value.isActive
    requires env.recentIds(TrackedUser, RecentLimit).Success?
    requires var tracking := if s.tracking.Some? then s.tracking.value else Tracking("", true);
      t in NewTweets(LoadTweets(env.recentIds(TrackedUser, RecentLimit).value, env.getTweet), tracking.lastTweetId)
    requires c in env.subscribers && Reaches(env, t, c)
    ensures (t.id, c.id) in Check(env, s).state.sent
  {
    var tracking := if s.tracking.Some? then s.tracking.value else Tracking("", true);
    var all := LoadTweets(env.recentIds(TrackedUser, RecentLimit).value, env.getTweet);
    SendTweetsReaches(env, NewTweets(all, tracking.lastTweetId), env.subscribers, s.sent);
  }
}

=== FILE: nitter_service.dfy ===
/** `NitterService`: tweet ids, user names and account data read from a
    Nitter instance's RSS feed. The HTTP client is a parameter: `fetch`
    maps a URL to the response, or to `None` when the request itself
    throws. */
module NitterService {
  import opened Wrappers
  import opened KText
  import opened Patterns
  import opened RssParser
  import opened TwitterModels

  datatype Response = Response(status: int, body: String)

  /** The feed every operation reads. */
  function FeedUrl(baseUrl: String, username: String): String {
    baseUrl + "/" + username + "/with_replies/rss"
  }

  /** The status checks shared by `getRecentTweetIds` and `getAccount`:
      404, then 429, then any other status outside 2xx. */
  function StatusFailure(username: String, status: int): (r: Option<TwitterError>)
    ensures r.None? <==> IsSuccess(status)
  {
    if status == NotFound then Some(AccountNotFound(username))
    else if status == TooManyRequests then Some(RateLimitExceeded)
    else if !IsSuccess(status) then Some(ServiceUnavailable)
    else None
  }

  /** Each failing status maps to exactly one error. */
  lemma {:induction false} StatusFailureCases(username: String, status: int)
    ensures StatusFailure(username, status) == Some(AccountNotFound(username)) <==> status == 404
    ensures StatusFailure(username, status) == Some(RateLimitExceeded) <==> status == 429
    ensures StatusFailure(username, status) == Some(ServiceUnavailable)
      <==> !IsSuccess(status) && status != 404 && status != 429
  {
  }

  // ---------------------------------------------------------------------
  // getTweetId

  /** `getTweetId`: the digits of the first `/status/<digits>` in the URL. */
  function GetTweetId(url: String): (r: Result<String, TwitterError>)
    ensures r.Success? ==> |r.value| > 0 && AllDigits(r.value)
    ensures r.Failure? <==> forall j | 0 <= j <= |url| :: MatchAt(StatusId, url, j).None?
    ensures r.Failure? ==> r.error == TweetNotFound(url)
  {
    match FindFrom(StatusId, url, 0)
    case None => Failure(TweetNotFound(url))
    case Some((a, b)) =>
      StatusMatchShape(url, a);
      Success(Group(StatusId, url, a, b))
  }

  /** `GetTweetId` finds the id of a tweet's own address, provided the user
      name is made of word characters, as Twitter names are, and the id is
      a number. */
  lemma {:induction false} GetTweetIdOfTweetUrl(t: Tweet)
    requires forall k | 0 <= k < |t.username| :: IsWordChar(t.username[k])
    requires |t.id| > 0 && AllDigits(t.id)
    ensures GetTweetId(TweetUrl(t)) == Success(t.id)
  {
    var s := TweetUrl(t);
    var p := |XBase| + |t.username|;
    StatusOfTweetUrl(t);
    forall j | 0 <= j < p ensures MatchAt(StatusId, s, j).None? {
      NoStatusBefore(t, j);
    }
    var r := FindFrom(StatusId, s, 0);
    assert r.Some? && r.value.0 == p && r.value.1 == |s|;
    assert Group(StatusId, s, p, |s|) == t.id;
  }

  /** The `/status/<id>` part of a tweet's address is a match. */
  lemma {:induction false} StatusOfTweetUrl(t: Tweet)
    requires |t.id| > 0 && AllDigits(t.id)
    ensures var p := |XBase| + |t.username|;
      p + 8 <= |TweetUrl(t)| && TweetUrl(t)[p + 8..] == t.id
      && MatchAt(StatusId, TweetUrl(t), p) == Some(|TweetUrl(t)|)
  {
    var s := TweetUrl(t);
    var p := |XBase| + |t.username|;
    assert s == (XBase + t.username) + ("/status/" + t.id);
    assert s[p..] == "/status/" + t.id;
    assert s[p..][..8] == "/status/";
    assert s[p + 8..] == t.id;
    forall k | p + 8 <= k < |s| ensures InClass(Digit, s[k]) {
      assert s[k] == t.id[k - p - 8];
    }
    RunEndIs(Digit, s, p + 8, |s|);
  }

  /** No `/status/<digits>` match starts inside `https://x.com/<username>`. */
  lemma {:induction false} NoStatusBefore(t: Tweet, j: nat)
    requires forall k | 0 <= k < |t.username| :: IsWordChar(t.username[k])
    requires j < |XBase| + |t.username|
    ensures MatchAt(StatusId, TweetUrl(t), j).None?
  {
    if j >= |XBase| {
      NoStatusInName(t, j);
    } else if j == 13 {
      NoStatusAtHostSlash(t);
    } else {
      NoStatusInBase(t, j);
    }
  }

  /** The name holds no `/`. */
  lemma {:induction false} NoStatusInName(t: Tweet, j: nat)
    requires forall k | 0 <= k < |t.username| :: IsWordChar(t.username[k])
    requires |XBase| <= j < |XBase| + |t.username|
    ensures MatchAt(StatusId, TweetUrl(t), j).None?
  {
    var s := TweetUrl(t);
    assert s == XBase + t.username + ("/status/" + t.id);
    assert s[j] == t.username[j - |XBase|];
    NotStatusWhere(s, j, 0);
  }

  /** `https://x.com` has no `/s`. */
  lemma {:induction false} NoStatusInBase(t: Tweet, j: nat)
    requires j < 13
    ensures MatchAt(StatusId, TweetUrl(t), j).None?
  {
    var s := TweetUrl(t);
    assert s == XBase + (t.username + "/status/" + t.id);
    assert s[j] == XBase[j] && s[j + 1] == XBase[j + 1];
    if XBase[j] != '/' {
      NotStatusWhere(s, j, 0);
    } else {
      NotStatusWhere(s, j, 1);
    }
  }

  /** At the `/` after the host a match would need the name to be
      `status` followed by a digit, but `/status/` follows it. */
  lemma {:induction false} NoStatusAtHostSlash(t: Tweet)
    requires forall k | 0 <= k < |t.username| :: IsWordChar(t.username[k])
    ensures MatchAt(StatusId, TweetUrl(t), 13).None?
  {
    var s := TweetUrl(t);
    var u := t.username;
    var rest := "/status/" + t.id;
    assert s == XBase + u + rest;
    if |u| == 6 {
      assert s[21] == rest[1];
      NotStatusNumber(s, 13);
    } else if |u| > 6 {
      assert s[20] == u[6];
      NotStatusWhere(s, 13, 7);
    } else {
      assert s[20] == rest[6 - |u|];
      NotStatusWhere(s, 13, 7);
    }
  }

  /** No status match starts where a character of `/status/` is missing. */
  lemma {:induction false} NotStatusWhere(s: String, j: nat, i: nat)
    requires i < 8 && j + i < |s| && s[j + i] != "/status/"[i]
    ensures MatchAt(StatusId, s, j).None?
  {
    if j + 8 <= |s| {
      assert s[j..][..8][i] == s[j + i];
    }
    assert !StartsWith(s[j..], "/status/");
  }

  /** No status match starts where `/status/` is not followed by a digit. */
  lemma {:induction false} NotStatusNumber(s: String, j: nat)
    requires j + 8 < |s| && !IsDigit(s[j + 8])
    ensures MatchAt(StatusId, s, j).None?
  {
  }

  // ---------------------------------------------------------------------
  // getUsername

  /** The two user-name expressions, tried in this order:
      `https?://(?:www\.|mobile\.)?(?:twitter\.com|x\.com)/@?([a-zA-Z0-9_]+)`
      and the same address followed by `/([a-zA-Z0-9_]+)/status/`. Both
      are deterministic: a sub-domain that does not lead to a host cannot
      be skipped (neither host starts with `w` or `m`), a `@` not followed
      by a word character cannot be skipped either, and a shorter name
      would have to be followed by `/` inside a run of word characters. */
  datatype UserPattern = Profile | StatusPath

  /** Where `https?://(?:www\.|mobile\.)?(?:twitter\.com|x\.com)/` starting
      at `i` ends. */
  function HostEnd(s: String, i: nat): (r: Option<nat>)
    requires i <= |s|
    ensures r.Some? ==> i < r.value <= |s|
  {
    var k := SchemeEnd(s, i);
    if k == 0 then None
    else
      var h := if StartsWith(s[k..], "www.") then k + 4
        else if StartsWith(s[k..], "mobile.") then k + 7
        else k;
      if StartsWith(s[h..], "twitter.com/") then Some(h + 12)
      else if StartsWith(s[h..], "x.com/") then Some(h + 6)
      else None
  }

  /** The span of group 1 of a match starting at `i`, if there is one. */
  function UserMatchAt(p: UserPattern, s: String, i: nat): (r: Option<(nat, nat)>)
    requires i <= |s|
    ensures r.Some? ==> i < r.value.0 < r.value.1 <= |s|
    ensures r.Some? ==> forall k | r.value.0 <= k < r.value.1 :: IsWordChar(s[k])
  {
    match HostEnd(s, i)
    case None => None
    case Some(h) =>
      match p
      case Profile =>
        var g := if h < |s| && s[h] == '@' then h + 1 else h;
        var e := RunEnd(Word, s, g);
        if e > g then Some((g, e)) else None
      case StatusPath =>
        var e := RunEnd(Word, s, h);
        if e > h && StartsWith(s[e..], "/status/") then Some((h, e)) else None
  }

  /** `Regex.find`: where the leftmost match at or after `from` starts. */
  function FindUser(p: UserPattern, s: String, from: nat): (r: Option<nat>)
    requires from <= |s|
    ensures r.Some? ==> from <= r.value <= |s| && UserMatchAt(p, s, r.value).Some?
    ensures forall j | from <= j <= (if r.Some? then r.value - 1 else |s|) :: UserMatchAt(p, s, j).None?
    decreases |s| - from
  {
    var matches := (j: nat) => j <= |s| && UserMatchAt(p, s, j).Some?;
    var first := FirstWhere(from, |s|, matches);
    var stop := if first.Some? then first.value - 1 else |s|;
    assert forall j | from <= j <= stop :: UserMatchAt(p, s, j).None? by {
      forall j | from <= j <= stop ensures UserMatchAt(p, s, j).None? {
        assert !matches(j);
      }
    }
    if first.Some? then
      assert matches(first.value);
      first
    else first
  }

  /** Group 1 of the leftmost match of `p`, if any. */
  function FindGroup(p: UserPattern, s: String): (r: Option<String>)
    ensures r.Some? ==> |r.value| > 0 && forall k | 0 <= k < |r.value| :: IsWordChar(r.value[k])
  {
    match FindUser(p, s, 0)
    case None => None
    case Some(i) =>
      var (g, e) := UserMatchAt(p, s, i).value;
      Some(s[g..e])
  }

  /** `getUsername`: group 1 of the first pattern that matches anywhere. */
  function GetUsername(url: String): (r: Result<String, TwitterError>)
    ensures r.Success? ==>
      |r.value| > 0 && forall k | 0 <= k < |r.value| :: IsWordChar(r.value[k])
    ensures r.Failure? ==>
      r.error == AccountNotFound("Failed to extract username from URL: " + url)
  {
    match FindGroup(Profile, url)
    case Some(name) => Success(name)
    case None =>
      match FindGroup(StatusPath, url)
      case Some(name) => Success(name)
      case None => Failure(AccountNotFound("Failed to extract username from URL: " + url))
  }

  /** Wherever the second pattern matches, the first matches too. */
  lemma {:induction false} StatusPathImpliesProfile(s: String, i: nat)
    requires i <= |s| && UserMatchAt(StatusPath, s, i).Some?
    ensures UserMatchAt(Profile, s, i) == UserMatchAt(StatusPath, s, i)
  {
    var h := HostEnd(s, i).value;
    assert IsWordChar(s[h]);
  }

  /** The second pattern is never the one that answers: `getUsername`
      is group 1 of the first pattern, and fails exactly when that pattern
      matches nowhere. */
  lemma {:induction false} GetUsernameIsProfile(url: String)
    ensures FindGroup(Profile, url).Some? ==> GetUsername(url) == Success(FindGroup(Profile, url).value)
    ensures FindGroup(Profile, url).None? <==> GetUsername(url).Failure?
  {
    var r := FindUser(StatusPath, url, 0);
    if r.Some? {
      StatusPathImpliesProfile(url, r.value);
    }
  }

  /** A name is read back from a profile address. */
  lemma {:induction false} GetUsernameOfAccountUrl(a: Account)
    requires |a.username| > 0
    requires forall k | 0 <= k < |a.username| :: IsWordChar(a.username[k])
    ensures GetUsername(AccountUrl(a)) == Success(a.username)
  {
    var s := AccountUrl(a);
    assert s == XBase + a.username + [];
    NameAfterHost(s, a.username, []);
  }

  /** The author is read back from a tweet's address. */
  lemma {:induction false} GetUsernameOfTweetUrl(t: Tweet)
    requires |t.username| > 0
    requires forall k | 0 <= k < |t.username| :: IsWordChar(t.username[k])
    ensures GetUsername(TweetUrl(t)) == Success(t.username)
  {
    var s := TweetUrl(t);
    assert s == XBase + t.username + ("/status/" + t.id);
    NameAfterHost(s, t.username, "/status/" + t.id);
  }

  /** In `https://x.com/<u><rest>`, with `rest` not starting with a word
      character, the first pattern matches at once and its group is `u`. */
  lemma {:induction false} NameAfterHost(s: String, u: String, rest: String)
    requires |u| > 0 && forall k | 0 <= k < |u| :: IsWordChar(u[k])
    requires rest == [] || !IsWordChar(rest[0])
    requires s == XBase + u + rest
    ensures GetUsername(s) == Success(u)
  {
    var p := |XBase| + |u|;
    HostOfXUrl(s, u, rest);
    forall k | |XBase| <= k < p ensures InClass(Word, s[k]) {
      assert s[k] == u[k - |XBase|];
    }
    if rest != [] {
      assert s[p] == rest[0];
    }
    RunEndIs(Word, s, |XBase|, p);
    assert s[|XBase|..p] == u;
  }

  lemma {:induction false} HostOfXUrl(s: String, u: String, rest: String)
    requires |u| > 0 && IsWordChar(u[0])
    requires s == XBase + u + rest
    ensures HostEnd(s, 0) == Some(|XBase|)
    ensures UserMatchAt(Profile, s, 0).Some? && UserMatchAt(Profile, s, 0).value.0 == |XBase|
    ensures UserMatchAt(Profile, s, 0).value.1 == RunEnd(Word, s, |XBase|)
  {
    assert s[0..][..8] == "https://";
    assert s[8..][0] == 'x';
    assert !StartsWith(s[8..], "www.") && !StartsWith(s[8..], "mobile.");
    assert !StartsWith(s[8..], "twitter.com/");
    assert s[8..][..6] == "x.com/";
    assert s[|XBase|] == u[0];
  }

  // ---------------------------------------------------------------------
  // getRecentTweetIds

  /** The ids of the links, in order; the first link without one fails. */
  function LinkIds(items: seq<Item>): (r: Result<seq<String>, TwitterError>)
    ensures r.Success? <==> forall k | 0 <= k < |items| :: GetTweetId(items[k].link).Success?
    ensures r.Success? ==>
      |r.value| == |items| && forall k | 0 <= k < |items| :: r.value[k] == GetTweetId(items[k].link).value
    ensures r.Failure? ==> exists k | 0 <= k < |items| ::
      GetTweetId(items[k].link).Failure? && r.error == TweetNotFound(items[k].link)
      && forall j | 0 <= j < k :: GetTweetId(items[j].link).Success?
  {
    var r := LinkIdsWith(items, GetTweetId);
    if r.Failure? then
      var k :| 0 <= k < |items| && GetTweetId(items[k].link).Failure? && r.error == GetTweetId(items[k].link).error
               && forall j | 0 <= j < k :: GetTweetId(items[j].link).Success?;
      assert GetTweetId(items[k].link).error == TweetNotFound(items[k].link);
      r
    else r
  }

  /** `LinkIds` with the id reader as a parameter. */
  function LinkIdsWith(items: seq<Item>, id: String -> Result<String, TwitterError>): (r: Result<seq<String>, TwitterError>)
    ensures r.Success? <==> forall k | 0 <= k < |items| :: id(items[k].link).Success?
    ensures r.Success? ==>
      |r.value| == |items| && forall k | 0 <= k < |items| :: r.value[k] == id(items[k].link).value
    ensures r.Failure? ==> exists k | 0 <= k < |items| ::
      id(items[k].link).Failure? && r.error == id(items[k].link).error
      && forall j | 0 <= j < k :: id(items[j].link).Success?
  {
    if items == [] then Success([])
    else
      var first := id(items[0].link);
      if first.Failure? then Failure(first.error)
      else
        match LinkIdsWith(items[1..], id)
        case Failure(e) => Failure(e)
        case Success(rest) => Success([first.value] + rest)
  }

  /** `getRecentTweetIds`: the ids of the feed's first `limit` items. A
      negative limit makes `take` throw. */
  function GetRecentTweetIds(baseUrl: String, username: String, limit: int,
                             fetch: String -> Option<Response>): (r: Result<seq<String>, TwitterError>)
    ensures fetch(FeedUrl(baseUrl, username)).None? ==> r == Failure(Unexpected)
    ensures r.Success? ==> |r.value| <= limit
  {
    match fetch(FeedUrl(baseUrl, username))
    case None => Failure(Unexpected)
    case Some(response) =>
      match StatusFailure(username, response.status)
      case Some(e) => Failure(e)
      case None =>
        var items := ParseFeed(response.body).items;
        if limit < 0 then Failure(Unexpected)
        else LinkIds(items[..if limit < |items| then limit else |items|])
  }

  /** On a successful fetch: a failing status fails with its error; a
      negative limit fails; otherwise the ids are those of the first
      `min(limit, items)` feed items, in feed order. */
  lemma {:induction false} RecentTweetIdsOfFeed(baseUrl: String, username: String, limit: int,
                             fetch: String -> Option<Response>, response: Response)
    requires fetch(FeedUrl(baseUrl, username)) == Some(response)
    ensures !IsSuccess(response.status) ==>
      GetRecentTweetIds(baseUrl, username, limit, fetch) == Failure(StatusFailure(username, response.status).value)
    ensures IsSuccess(response.status) && limit < 0 ==>
      GetRecentTweetIds(baseUrl, username, limit, fetch) == Failure(Unexpected)
    ensures IsSuccess(response.status) && limit >= 0 ==>
      var items := ParseFeed(response.body).items;
      GetRecentTweetIds(baseUrl, username, limit, fetch)
        == LinkIds(items[..if limit < |items| then limit else |items|])
  {
  }

  /** The ids, when they all resolve, are the feed's first `limit` links'
      ids in feed order. */
  lemma {:induction false} RecentTweetIdsInOrder(items: seq<Item>, limit: nat)
    requires LinkIds(items[..if limit < |items| then limit else |items|]).Success?
    ensures var n := if limit < |items| then limit else |items|;
      var ids := LinkIds(items[..n]).value;
      |ids| == n && forall k | 0 <= k < n :: GetTweetId(items[k].link).Success? && ids[k] == GetTweetId(items[k].link).value
  {
    var n := if limit < |items| then limit else |items|;
    forall k | 0 <= k < n ensures items[..n][k] == items[k] {
    }
  }

  // ---------------------------------------------------------------------
  // isAccountExists, getAccount, parseName

  /** `isAccountExists`: whether the feed answers with a 2xx status. */
  function IsAccountExists(baseUrl: String, username: String,
                           fetch: String -> Option<Response>): (r: Result<bool, TwitterError>)
    ensures r.Failure? <==> fetch(FeedUrl(baseUrl, username)).None?
    ensures r.Success? ==> (r.value <==> 200 <= fetch(FeedUrl(baseUrl, username)).value.status < 300)
  {
    match fetch(FeedUrl(baseUrl, username))
    case None => Failure(Unexpected)
    case Some(response) => Success(IsSuccess(response.status))
  }

  /** `parseName`: the feed title without ` / @<last segment of the link>`;
      it never grows the title, and a title without that suffix is kept
      whole. */
  function ParseName(feed: Feed): (name: String)
    ensures |name| <= |feed.title|
    ensures !Contains(feed.title, " / @" + SubstringAfterLast(feed.link, "/")) ==> name == feed.title
  {
    IndexOfAbsent(feed.title, " / @" + SubstringAfterLast(feed.link, "/"));
    ReplaceAll(feed.title, " / @" + SubstringAfterLast(feed.link, "/"), "")
  }

  /** `getAccount`: the account named after the feed's title. */
  function GetAccount(baseUrl: String, username: String,
                      fetch: String -> Option<Response>): (r: Result<Account, TwitterError>)
    ensures r.Success? ==> r.value.username == username
  {
    match fetch(FeedUrl(baseUrl, username))
    case None => Failure(Unexpected)
    case Some(response) =>
      match StatusFailure(username, response.status)
      case Some(e) => Failure(e)
      case None => Success(Account(username, ParseName(ParseFeed(response.body))))
  }

  /** An account exists exactly when fetching it succeeds, and both fail
      together when the request throws. */
  lemma {:induction false} ExistsIffAccountFetched(baseUrl: String, username: String,
                                fetch: String -> Option<Response>)
    ensures IsAccountExists(baseUrl, username, fetch).Success? ==>
      (IsAccountExists(baseUrl, username, fetch).value <==> GetAccount(baseUrl, username, fetch).Success?)
    ensures IsAccountExists(baseUrl, username, fetch).Failure? <==>
      GetAccount(baseUrl, username, fetch) == Failure(Unexpected)
  {
  }

  /** The name part of a Nitter title `<name> / @<user>` for a feed whose
      link ends in `/<user>`. */
  lemma {:induction false} ParseNameOfTitle(name: String, user: String, base: String, feed: Feed)
    requires forall k | 0 <= k < |user| :: user[k] != '/'
    requires feed.title == name + (" / @" + user)
    requires feed.link == base + "/" + user
    requires forall j | 0 <= j < |name| :: !Occurs(feed.title, " / @" + user, j)
    ensures ParseName(feed) == name
  {
    var link := feed.link;
    var k := LastIndexOf(link, "/");
    assert Occurs(link, "/", |base|) by {
      assert link[|base|..|base| + 1] == "/";
    }
    forall j | |base| < j <= |link| ensures !Occurs(link, "/", j) {
      if j < |link| {
        assert link[j..j + 1][0] == user[j - |base| - 1];
      }
    }
    assert k == |base|;
    assert SubstringAfterLast(link, "/") == user by {
      assert link[|base| + 1..] == user;
    }
    var pat := " / @" + user;
    var title := feed.title;
    assert Occurs(title, pat, |name|) by {
      assert title[|name|..|name| + |pat|] == pat;
    }
    IndexOfIs(title, pat, 0, |name|);
    assert title[..|name|] == name;
    assert title[|name| + |pat|..] == [];
    assert ReplaceAll([], pat, "") == [];
    assert ReplaceAll(title, pat, "") == name + "" + ReplaceAll([], pat, "");
  }
}

=== FILE: patterns.dfy ===
/** The regular expressions the bot matches against tweet text, feed
    entries and article bodies, written as scanners.

    Each expression used here is deterministic once its backtracking is
    worked out, so a match at a position is a single end index:

    - `https?://\S+` (also written `https?://[^\s]+`): with `https://` the
      optional `s` is taken; falling back to `http` then needs `:` where the
      `s` is, so there is no second chance. `\S` is "not one of the six
      ASCII white-space characters" (`\s` without UNICODE_CHARACTER_CLASS).
    - `#([a-zA-Z0-9_]+)` and `@([a-zA-Z0-9_]+)`: the marker, then the
      longest run of word characters.
    - `/status/([0-9]+)`: the literal, then the longest run of digits.
    - `<[^>]*>`: a `<`, then everything up to the first later `>`.

    `find` takes the leftmost match; `findAll` and `replace` restart the
    search where the previous match ended (every match is non-empty).
 */
module Patterns {
  import opened Wrappers
  import opened KText

  /** `\s` of java.util.regex in its default (ASCII) mode. */
  predicate IsRegexSpace(c: char) {
    c == ' ' || c == '\t' || c == '\n' || c == '\U{000B}' || c == '\U{000C}' || c == '\r'
  }

  /** `[a-zA-Z0-9_]`. */
  predicate IsWordChar(c: char) {
    ('a' <= c <= 'z') || ('A' <= c <= 'Z') || IsDigit(c) || c == '_'
  }

  /** The character classes the patterns repeat. */
  datatype CharClass = NonSpace | Word | Digit | NotGreater

  predicate InClass(cc: CharClass, c: char) {
    match cc
    case NonSpace => !IsRegexSpace(c)
    case Word => IsWordChar(c)
    case Digit => IsDigit(c)
    case NotGreater => c != '>'
  }

  /** End of the longest run of `cc` characters starting at `i` (greedy `+`/`*`). */
  function RunEnd(cc: CharClass, s: String, i: nat): (e: nat)
    requires i <= |s|
    ensures i <= e <= |s|
    ensures forall k | i <= k < e :: InClass(cc, s[k])
    ensures e == |s| || !InClass(cc, s[e])
    decreases |s| - i
  {
    if i == |s| || !InClass(cc, s[i]) then i else RunEnd(cc, s, i + 1)
  }

  /** A run that ends at `e` is the longest run from `i`. */
  lemma {:induction false} RunEndIs(cc: CharClass, s: String, i: nat, e: nat)
    requires i <= e <= |s|
    requires forall k | i <= k < e :: InClass(cc, s[k])
    requires e == |s| || !InClass(cc, s[e])
    ensures RunEnd(cc, s, i) == e
    decreases e - i
  {
    if i < e {
      RunEndIs(cc, s, i + 1, e);
    }
  }

  datatype Pattern =
    | Url               // https?://\S+
    | Tag(marker: char) // #([a-zA-Z0-9_]+), @([a-zA-Z0-9_]+)
    | StatusId          // /status/([0-9]+)
    | Markup            // <[^>]*>

  /** Where the literal part of a URL match ends (0 when there is none). */
  function SchemeEnd(s: String, i: nat): nat
    requires i <= |s|
  {
    if StartsWith(s[i..], "https://") then i + 8
    else if StartsWith(s[i..], "http://") then i + 7
    else 0
  }

  /** End of the match of `p` starting exactly at `i`, if any. */
  function MatchAt(p: Pattern, s: String, i: nat): (r: Option<nat>)
    requires i <= |s|
    ensures r.Some? ==> i < r.value <= |s|
  {
    match p
    case Url =>
      var k := SchemeEnd(s, i);
      if k == 0 then None
      else
        var e := RunEnd(NonSpace, s, k);
        if e > k then Some(e) else None
    case Tag(m) =>
      if i < |s| && s[i] == m then
        var e := RunEnd(Word, s, i + 1);
        if e > i + 1 then Some(e) else None
      else None
    case StatusId =>
      if StartsWith(s[i..], "/status/") then
        var e := RunEnd(Digit, s, i + 8);
        if e > i + 8 then Some(e) else None
      else None
    case Markup =>
      if i < |s| && s[i] == '<' then
        var e := RunEnd(NotGreater, s, i + 1);
        if e < |s| then Some(e + 1) else None
      else None
  }

  /** Offset of the capturing group within a match. */
  function GroupStart(p: Pattern): nat {
    match p
    case Url => 0
    case Tag(_) => 1
    case StatusId => 8
    case Markup => 0
  }

  /** The capturing group (or the whole match when there is none). */
  function Group(p: Pattern, s: String, start: nat, end: nat): String
    requires start + GroupStart(p) <= end <= |s|
  {
    s[start + GroupStart(p)..end]
  }

  /** A URL match is `http://` or `https://` followed by the longest
      possible non-empty run of non-space characters. */
  lemma {:induction false} UrlMatchShape(s: String, i: nat)
    requires i <= |s| && MatchAt(Url, s, i).Some?
    ensures var e := MatchAt(Url, s, i).value;
      var m := s[i..e];
      (StartsWith(m, "https://") && |m| > 8) || (StartsWith(m, "http://") && |m| > 7)
    ensures var e := MatchAt(Url, s, i).value;
      (forall k | i + 7 <= k < e :: !IsRegexSpace(s[k])) && (e == |s| || IsRegexSpace(s[e]))
  {
    var e := MatchAt(Url, s, i).value;
    assert s[i..e][..8] == s[i..][..8] || e < i + 8;
    assert s[i..e][..7] == s[i..][..7];
    if StartsWith(s[i..], "https://") {
      assert s[i + 7] == '/';
    }
  }

  /** A tag match is the marker followed by the longest possible non-empty
      run of word characters; the group is that run. */
  lemma {:induction false} TagMatchShape(m: char, s: String, i: nat)
    requires i <= |s| && MatchAt(Tag(m), s, i).Some?
    ensures var e := MatchAt(Tag(m), s, i).value;
      s[i] == m && e > i + 1 && (forall k | i + 1 <= k < e :: IsWordChar(s[k]))
      && (e == |s| || !IsWordChar(s[e]))
  {
  }

  /** A status match is `/status/` followed by the longest possible
      non-empty run of digits; the group is that run. */
  lemma {:induction false} StatusMatchShape(s: String, i: nat)
    requires i <= |s| && MatchAt(StatusId, s, i).Some?
    ensures var e := MatchAt(StatusId, s, i).value;
      Occurs(s, "/status/", i) && e > i + 8 && AllDigits(s[i + 8..e])
      && (e == |s| || !IsDigit(s[e]))
  {
    var e := MatchAt(StatusId, s, i).value;
    assert s[i..][..8] == s[i..i + 8];
    var g := s[i + 8..e];
    forall k | 0 <= k < |g| ensures IsDigit(g[k]) {
      assert InClass(Digit, s[i + 8 + k]);
    }
  }

  /** There is a markup match at `i` exactly when `s[i]` is `<` and some `>`
      follows it; the match ends just after the first such `>`. */
  lemma {:induction false} MarkupMatchShape(s: String, i: nat)
    requires i < |s| && s[i] == '<'
    ensures MatchAt(Markup, s, i).Some? <==> (exists j | i < j < |s| :: s[j] == '>')
    ensures MatchAt(Markup, s, i).Some? ==>
      var e := MatchAt(Markup, s, i).value;
      s[e - 1] == '>' && forall k | i < k < e - 1 :: s[k] != '>'
  {
    var e := RunEnd(NotGreater, s, i + 1);
    if e < |s| {
      assert s[e] == '>';
    }
  }

  // ---------------------------------------------------------------------
  // find / findAll / replace

  /** `Regex.find(s, from)`: the leftmost match starting at or after `from`. */
  function FindFrom(p: Pattern, s: String, from: nat): (r: Option<(nat, nat)>)
    requires from <= |s|
    ensures r.Some? ==> from <= r.value.0 <= |s| && MatchAt(p, s, r.value.0) == Some(r.value.1)
    ensures forall j | from <= j <= (if r.Some? then r.value.0 - 1 else |s|) :: MatchAt(p, s, j).None?
    decreases |s| - from
  {
    var matches := (j: nat) => j <= |s| && MatchAt(p, s, j).Some?;
    var first := FirstWhere(from, |s|, matches);
    var stop := if first.Some? then first.value - 1 else |s|;
    assert forall j | from <= j <= stop :: MatchAt(p, s, j).None? by {
      forall j | from <= j <= stop ensures MatchAt(p, s, j).None? {
        assert !matches(j);
      }
    }
    match first
    case Some(a) =>
      assert matches(a);
      Some((a, MatchAt(p, s, a).value))
    case None => None
  }

  /** The least position from `from` to `last` that satisfies `f`. */
  function FirstWhere(from: nat, last: nat, f: nat -> bool): (r: Option<nat>)
    ensures r.Some? ==> from <= r.value <= last && f(r.value)
    ensures forall j: nat | from <= j <= (if r.Some? then r.value - 1 else last) :: !f(j)
    decreases last + 1 - from
  {
    if from > last then None
    else if f(from) then Some(from)
    else FirstWhere(from + 1, last, f)
  }

  /** `Regex.findAll(s)` from `from`: the successive leftmost matches, each
      search resuming where the previous match ended. */
  function FindAll(p: Pattern, s: String, from: nat): (spans: seq<(nat, nat)>)
    requires from <= |s|
    ensures forall k | 0 <= k < |spans| ::
      from <= spans[k].0 < spans[k].1 <= |s| && MatchAt(p, s, spans[k].0) == Some(spans[k].1)
    ensures forall k | 0 < k < |spans| :: spans[k - 1].1 <= spans[k].0
    decreases |s| - from
  {
    match FindFrom(p, s, from)
    case None => []
    case Some((a, b)) =>
      var rest := FindAll(p, s, b);
      var spans := [(a, b)] + rest;
      assert forall k | 0 < k < |spans| :: spans[k] == rest[k - 1];
      spans
  }

  /** `Regex.replace(s, "")` from `from`: the text with every match removed. */
  function RemoveAll(p: Pattern, s: String, from: nat): (r: String)
    requires from <= |s|
    ensures |r| <= |s| - from
    decreases |s| - from
  {
    match FindFrom(p, s, from)
    case None => s[from..]
    case Some((a, b)) => s[from..a] + RemoveAll(p, s, b)
  }

  /** No `<` is followed, anywhere later, by a `>`. */
  predicate NoMarkup(t: String) {
    forall i, j | 0 <= i < j < |t| :: t[i] == '<' ==> t[j] != '>'
  }

  /** Removing every `<[^>]*>` match leaves no `<` that a later `>` closes. */
  lemma {:induction false} RemoveMarkupLeavesNone(s: String, from: nat)
    requires from <= |s|
    ensures NoMarkup(RemoveAll(Markup, s, from))
    decreases |s| - from
  {
    match FindFrom(Markup, s, from)
    case None =>
      var t := s[from..];
      forall i, j | 0 <= i < j < |t| && t[i] == '<' ensures t[j] != '>' {
        assert MatchAt(Markup, s, from + i).None?;
        MarkupMatchShape(s, from + i);
        assert s[from + j] == t[j];
      }
    case Some((a, b)) =>
      RemoveMarkupLeavesNone(s, b);
      var g := s[from..a];
      // A `<` before the leftmost match would itself start a match, since
      // the match's closing `>` follows it.
      assert forall i | 0 <= i < |g| :: g[i] != '<' by {
        forall i | 0 <= i < |g| ensures g[i] != '<' {
          if g[i] == '<' {
            MarkupMatchShape(s, a);
            MarkupMatchShape(s, from + i);
            assert false;
          }
        }
      }
      var rest := RemoveAll(Markup, s, b);
      var t := g + rest;
      forall i, j | 0 <= i < j < |t| && t[i] == '<' ensures t[j] != '>' {
        assert i >= |g|;
        assert t[i] == rest[i - |g|] && t[j] == rest[j - |g|];
      }
  }

  /** Text without `<` is left unchanged by markup removal. */
  lemma {:induction false} RemoveMarkupWithoutAngle(s: String, from: nat)
    requires from <= |s|
    requires forall k | from <= k < |s| :: s[k] != '<'
    ensures RemoveAll(Markup, s, from) == s[from..]
    decreases |s| - from
  {
    assert FindFrom(Markup, s, from).None?;
  }
}

=== FILE: qwen.dfy ===
/** `QwenTranslationService`: a translation asked of a chat model, whose
    reply should be a JSON object holding the translated text and the
    detected source language. The HTTP exchange and the JSON parser are
    parameters: the exchange is given as its outcome, the parser as a
    function from the reply to a JSON value. */
module Qwen {
  import opened Wrappers
  import opened KText
  import opened Json
  import opened Translation

  /** The codes a reported source language is normalised to. */
  const SourceCodes: set<String> := {"en", "uk", "ru"}

  /** `parseTranslationResponse`'s validation of the reported source
      language: a code or English name in any case names its language, and
      anything else is English. */
  function NormalizeSource(reported: String): (code: String)
    ensures code in SourceCodes
  {
    var l := Lower(reported);
    if l == "en" || l == "english" then "en"
    else if l == "uk" || l == "ukrainian" then "uk"
    else if l == "ru" || l == "russian" then "ru"
    else "en"
  }

  /** Normalisation ignores case, maps each language's code and English
      name to its code, maps every other value to English, and leaves a
      normalised code as it is. */
  lemma {:induction false} NormalizeSourceCases(reported: String, other: String)
    ensures NormalizeSource(reported) == "uk" <==> Lower(reported) in {"uk", "ukrainian"}
    ensures NormalizeSource(reported) == "ru" <==> Lower(reported) in {"ru", "russian"}
    ensures NormalizeSource(reported) == "en" <==>
      Lower(reported) !in {"uk", "ukrainian", "ru", "russian"}
    ensures Lower(reported) == Lower(other) ==> NormalizeSource(reported) == NormalizeSource(other)
    ensures NormalizeSource(NormalizeSource(reported)) == NormalizeSource(reported)
    ensures LanguageOfIso(NormalizeSource(reported)).Some?
  {
    var c := NormalizeSource(reported);
    assert Lower(c) == c by {
      assert Lower(c)[0] == c[0] && Lower(c)[1] == c[1];
    }
  }

  // ---------------------------------------------------------------------
  // Fallback detection

  /** The letters the fallback counts as Cyrillic: `а`..`я` and `А`..`Я`
      (which leaves out `ё`, `і`, `ї`, `є` and `ґ`). */
  predicate IsCyrillic(c: char) {
    'а' <= c <= 'я' || 'А' <= c <= 'Я'
  }

  /** The letters only Ukrainian uses: `іїєґ` in either case. */
  predicate IsUkrainianLetter(c: char) {
    c in "іїєґІЇЄҐ"
  }

  /** How many characters of `s` satisfy `IsCyrillic`. */
  function CyrillicCount(s: String): (n: nat)
    ensures n <= |s|
  {
    if s == [] then 0 else (if IsCyrillic(s[0]) then 1 else 0) + CyrillicCount(s[1..])
  }

  /** How many characters of `s` satisfy `IsUkrainianLetter`. */
  function UkrainianCount(s: String): (n: nat)
    ensures n <= |s|
  {
    if s == [] then 0 else (if IsUkrainianLetter(s[0]) then 1 else 0) + UkrainianCount(s[1..])
  }

  /** Some character of `s` is a Ukrainian-only letter exactly when the
      count of them is positive. */
  lemma {:induction false} UkrainianCountPositive(s: String)
    ensures UkrainianCount(s) > 0 <==> exists i | 0 <= i < |s| :: IsUkrainianLetter(s[i])
  {
    if s != [] {
      UkrainianCountPositive(s[1..]);
      if IsUkrainianLetter(s[0]) {
        assert IsUkrainianLetter(s[0]);
      } else {
        if exists i | 0 <= i < |s| :: IsUkrainianLetter(s[i]) {
          var i :| 0 <= i < |s| && IsUkrainianLetter(s[i]);
          assert s[1..][i - 1] == s[i];
        }
        if exists i | 0 <= i < |s[1..]| :: IsUkrainianLetter(s[1..][i]) {
          var i :| 0 <= i < |s[1..]| && IsUkrainianLetter(s[1..][i]);
          assert s[i + 1] == s[1..][i];
        }
      }
    }
  }

  /** A text in which every character is Cyrillic counts all of them. */
  lemma {:induction false} CyrillicCountAll(s: String)
    requires forall i | 0 <= i < |s| :: IsCyrillic(s[i])
    ensures CyrillicCount(s) == |s|
  {
    if s != [] {
      assert forall i | 0 <= i < |s[1..]| :: IsCyrillic(s[1..][i]) by {
        forall i | 0 <= i < |s[1..]| ensures IsCyrillic(s[1..][i]) {
          assert s[1..][i] == s[i + 1];
        }
      }
      CyrillicCountAll(s[1..]);
    }
  }

  /** `detectSourceLanguageFallback`. The source compares the ratio of
      Cyrillic letters to the length as a double with 0.5; for lengths
      below 2^52 that is the integer comparison used here, and an empty
      text (whose ratio is not a number) is English. */
  function DetectFallback(text: String): (code: String)
    ensures code in SourceCodes
  {
    if 2 * CyrillicCount(text) > |text| then
      if UkrainianCount(text) > 0 then "uk" else "ru"
    else "en"
  }

  /** The fallback answers Ukrainian or Russian only when more than half
      the characters are Cyrillic, and then Ukrainian exactly when some
      Ukrainian-only letter appears. */
  lemma {:induction false} DetectFallbackCases(text: String)
    ensures DetectFallback(text) == "en" <==> 2 * CyrillicCount(text) <= |text|
    ensures DetectFallback(text) == "uk" <==>
      2 * CyrillicCount(text) > |text| && exists i | 0 <= i < |text| :: IsUkrainianLetter(text[i])
    ensures DetectFallback(text) == "ru" <==>
      2 * CyrillicCount(text) > |text| && forall i | 0 <= i < |text| :: !IsUkrainianLetter(text[i])
    ensures text == [] ==> DetectFallback(text) == "en"
  {
    UkrainianCountPositive(text);
  }

  /** A nonempty text written only in `а`..`я`/`А`..`Я` is Russian. */
  lemma {:induction false} DetectFallbackRussian(text: String)
    requires text != []
    requires forall i | 0 <= i < |text| :: IsCyrillic(text[i])
    ensures DetectFallback(text) == "ru"
  {
    CyrillicCountAll(text);
    assert forall i | 0 <= i < |text| :: !IsUkrainianLetter(text[i]) by {
      forall i | 0 <= i < |text| ensures !IsUkrainianLetter(text[i]) {
        assert IsCyrillic(text[i]);
      }
    }
    DetectFallbackCases(text);
  }

  // ---------------------------------------------------------------------
  // The reply

  /** `TranslationResult`: a text and a source-language code. */
  datatype TranslationResult = TranslationResult(text: String, sourceLanguage: String)

  /** The value of the last entry named `key`, as a decoder that reads
      entries in order and keeps the last one sees it. */
  function LastField(fields: seq<(String, Json)>, key: String): (v: Option<Json>)
    ensures v.Some? <==> exists i | 0 <= i < |fields| :: fields[i].0 == key
    ensures v.Some? ==> exists i | 0 <= i < |fields| :: fields[i] == (key, v.value)
  {
    if fields == [] then None
    else
      var last := fields[|fields| - 1];
      if last.0 == key then
        assert fields[|fields| - 1] == (key, last.1);
        Some(last.1)
      else
        var r := LastField(fields[..|fields| - 1], key);
        assert forall i | 0 <= i < |fields| - 1 :: fields[..|fields| - 1][i] == fields[i];
        r
  }

  /** Decoding a `TranslationResult` with unknown keys ignored: the value
      must be an object whose `text` and `sourceLanguage` are strings. */
  function DecodeResult(value: Json): (r: Option<TranslationResult>)
    ensures r.Some? ==> value.JObject?
  {
    match value
    case JObject(fields) =>
      (match (LastField(fields, "text"), LastField(fields, "sourceLanguage"))
       case (Some(JString(text)), Some(JString(source))) => Some(TranslationResult(text, source))
       case _ => None)
    case _ => None
  }

  /** `parseTranslationResponse`: a reply that decodes gives its text and
      its normalised source language; any other reply is itself the
      translation, its language found by the fallback. */
  function ParseResponse(parse: String -> Option<Json>, reply: String): (r: TranslationResult)
    ensures r.sourceLanguage in SourceCodes
  {
    var decoded := if parse(reply).Some? then DecodeResult(parse(reply).value) else None;
    match decoded
    case Some(result) => result.(sourceLanguage := NormalizeSource(result.sourceLanguage))
    case None => TranslationResult(reply, DetectFallback(reply))
  }

  /** A reply that is not JSON, or not an object with the two string
      fields, becomes the whole translated text; one that is keeps its
      `text` member unchanged. */
  lemma {:induction false} ParseResponseCases(parse: String -> Option<Json>, reply: String)
    ensures parse(reply).None? ==> ParseResponse(parse, reply) == TranslationResult(reply, DetectFallback(reply))
    ensures parse(reply).Some? && !parse(reply).value.JObject? ==> ParseResponse(parse, reply).text == reply
    ensures parse(reply).Some? && DecodeResult(parse(reply).value).Some? ==>
      var d := DecodeResult(parse(reply).value).value;
      ParseResponse(parse, reply) == TranslationResult(d.text, NormalizeSource(d.sourceLanguage))
  {
  }

  /** An object reply whose last `text` and `sourceLanguage` members are
      strings is decoded, whatever other members it has. */
  lemma {:induction false} DecodeIgnoresUnknown(fields: seq<(String, Json)>, text: String, source: String, extra: seq<(String, Json)>)
    requires forall i | 0 <= i < |extra| :: extra[i].0 != "text" && extra[i].0 != "sourceLanguage"
    ensures DecodeResult(JObject(fields + [("text", JString(text)), ("sourceLanguage", JString(source))] + extra))
         == Some(TranslationResult(text, source))
  {
    var all := fields + [("text", JString(text)), ("sourceLanguage", JString(source))] + extra;
    LastFieldSkips(fields + [("text", JString(text)), ("sourceLanguage", JString(source))], extra, "text");
    LastFieldSkips(fields + [("text", JString(text)), ("sourceLanguage", JString(source))], extra, "sourceLanguage");
    var front := fields + [("text", JString(text)), ("sourceLanguage", JString(source))];
    assert front[..|front| - 1] == fields + [("text", JString(text))];
  }

  /** Entries with other names after the last one named `key` do not
      change its value. */
  lemma {:induction false} LastFieldSkips(front: seq<(String, Json)>, extra: seq<(String, Json)>, key: String)
    requires forall i | 0 <= i < |extra| :: extra[i].0 != key
    ensures LastField(front + extra, key) == LastField(front, key)
  {
    if extra != [] {
      var all := front + extra;
      assert all[|all| - 1] == extra[|extra| - 1];
      assert all[..|all| - 1] == front + extra[..|extra| - 1];
      LastFieldSkips(front, extra[..|extra| - 1], key);
    } else {
      assert front + extra == front;
    }
  }

  // ---------------------------------------------------------------------
  // translate

  /** The outcome of the chat-completion request: no usable response (the
      request or its decoding failed), or the contents of the choices'
      messages in order. */
  datatype Completion = NoCompletion | Choices(contents: seq<String>)

  const EmptyResponse: String := "Empty response from OpenRouter"

  /** `translate`: a failure when the request fails or no choice comes
      back; otherwise the first choice, trimmed and parsed, as a
      translation into the requested language. */
  function Translate(parse: String -> Option<Json>, completion: Completion, to: Language): (r: Result<Translation, String>)
    ensures r.Success? ==> r.value.to == to && r.value.from in SourceCodes
  {
    match completion
    case NoCompletion => Failure("request failed")
    case Choices(contents) =>
      if contents == [] then Failure(EmptyResponse)
      else
        var result := ParseResponse(parse, Trim(contents[0]));
        Success(Translation(result.text, to, result.sourceLanguage))
  }

  /** A translation comes back exactly when some choice does; it is built
      from the first choice alone, its source names one of the languages,
      and a first choice that is not JSON is the translated text, trimmed. */
  lemma {:induction false} TranslateOutcome(parse: String -> Option<Json>, completion: Completion, to: Language)
    ensures Translate(parse, completion, to).Success? <==> completion.Choices? && |completion.contents| > 0
    ensures completion.Choices? && completion.contents == [] ==> Translate(parse, completion, to) == Failure(EmptyResponse)
    ensures Translate(parse, completion, to).Success? ==>
      var r := Translate(parse, completion, to).value;
      LanguageOfIso(r.from).Some? && (IsSameLanguage(r) <==> LanguageOfIso(r.from) == Some(to))
    ensures Translate(parse, completion, to).Success? && parse(Trim(completion.contents[0])).None? ==>
      Translate(parse, completion, to).value.text == Trim(completion.contents[0])
    ensures completion.Choices? && |completion.contents| > 0 ==>
      Translate(parse, Choices(completion.contents[..1]), to) == Translate(parse, completion, to)
  {
    if completion.Choices? && |completion.contents| > 0 {
      SameLanguageOfCode(Translate(parse, completion, to).value, Translate(parse, completion, to).value);
    }
  }
}

=== FILE: rss_parser.dfy ===
/** `RSSParser`: a string scanner for Nitter RSS feeds. It finds elements by
    searching for their literal open and close tags; it does not parse XML. */
module RssParser {
  import opened Wrappers
  import opened KText
  import opened Patterns

  // ---------------------------------------------------------------------
  // Searching for tags

  /** `p` occurs at `k`, and nowhere in `[from, k)`. */
  predicate FirstFrom(s: String, p: String, from: int, k: int) {
    from <= k && Occurs(s, p, k) && forall j | from <= j < k :: !Occurs(s, p, j)
  }

  /** `p` does not occur at or after `from`. */
  predicate NoneFrom(s: String, p: String, from: int) {
    forall j | from <= j <= |s| :: !Occurs(s, p, j)
  }

  /** `indexOf` in the terms above. */
  lemma {:induction false} IndexOfMeaning(s: String, p: String, from: nat)
    requires |p| > 0
    ensures IndexOf(s, p, from) >= 0 ==> FirstFrom(s, p, from, IndexOf(s, p, from))
    ensures IndexOf(s, p, from) < 0 ==> NoneFrom(s, p, from)
  {
  }

  /** `c` placed `k` characters into `o` disagrees with it somewhere. */
  predicate Clash(o: String, c: String, k: nat) {
    exists i | 0 <= i < |c| && k + i < |o| :: o[k + i] != c[i]
  }

  /** An open/close tag pair: the close tag cannot start inside the open
      tag, so the text between them is well defined. */
  predicate TagPair(o: String, c: String) {
    |o| > 0 && |c| > 0 && forall k | 0 <= k < |o| :: Clash(o, c, k)
  }

  lemma {:induction false} CloseNotInsideOpen(xml: String, o: String, c: String, s: nat)
    requires TagPair(o, c) && Occurs(xml, o, s)
    ensures forall j | s <= j < s + |o| :: !Occurs(xml, c, j)
  {
    forall j | s <= j < s + |o| ensures !Occurs(xml, c, j) {
      var k := j - s;
      assert Clash(o, c, k);
      var i :| 0 <= i < |c| && k + i < |o| && o[k + i] != c[i];
      assert xml[j + i] == xml[s..s + |o|][k + i];
      if j + |c| <= |xml| {
        assert xml[j..j + |c|][i] == xml[j + i];
      }
    }
  }

  /** Where the text between the first `o` and the next `c` lies. */
  function Between(xml: String, o: String, c: String): (r: Option<(nat, nat)>)
    requires TagPair(o, c)
    ensures r.Some? ==> |o| <= r.value.0 <= r.value.1 <= |xml|
  {
    var s := IndexOf(xml, o, 0);
    if s < 0 then None
    else
      var t := IndexOf(xml, c, s);
      if t < 0 then None
      else
        CloseNotInsideOpen(xml, o, c, s);
        assert !(s <= t < s + |o|);
        Some((s + |o|, t))
  }

  /** The text lies between the first open tag and the first close tag
      after it; there is none exactly when the document has no open tag, or
      no close tag after its first one. */
  lemma {:induction false} BetweenMeaning(xml: String, o: String, c: String)
    requires TagPair(o, c)
    ensures var r := Between(xml, o, c);
      r.Some? ==> FirstFrom(xml, o, 0, r.value.0 - |o|) && FirstFrom(xml, c, r.value.0 - |o|, r.value.1)
    ensures var r := Between(xml, o, c);
      r.None? <==>
        NoneFrom(xml, o, 0)
        || exists s | 0 <= s <= |xml| :: FirstFrom(xml, o, 0, s) && NoneFrom(xml, c, s)
  {
    var s := IndexOf(xml, o, 0);
    IndexOfMeaning(xml, o, 0);
    if s >= 0 {
      IndexOfMeaning(xml, c, s);
      if Between(xml, o, c).Some? {
        FirstUnique(xml, o, 0, s);
      }
    }
  }

  /** There is only one first occurrence. */
  lemma {:induction false} FirstUnique(xml: String, p: String, from: int, k: int)
    requires FirstFrom(xml, p, from, k)
    ensures forall k' | FirstFrom(xml, p, from, k') :: k' == k
    ensures !NoneFrom(xml, p, from)
  {
  }

  /** `open + body + close`, after text where the open tag does not occur
      earlier and with no close tag inside the body, is found exactly. */
  lemma {:induction false} BetweenOfElement(pre: String, o: String, body: String, c: String, post: String)
    requires TagPair(o, c)
    requires FirstFrom(pre + o, o, 0, |pre|)
    requires FirstFrom(body + c, c, 0, |body|)
    ensures var xml := pre + o + body + c + post;
      Between(xml, o, c).Some?
      && Between(xml, o, c).value.0 == |pre| + |o|
      && Between(xml, o, c).value.1 == |pre| + |o| + |body|
      && xml[|pre| + |o|..|pre| + |o| + |body|] == body
  {
    var xml := pre + o + body + c + post;
    OpenFound(pre, o, body, c, post);
    CloseFound(pre, o, body, c, post);
    BetweenAt(xml, o, c, |pre|, |pre| + |o| + |body|);
    assert xml[|pre| + |o|..|pre| + |o| + |body|] == body;
  }

  lemma {:induction false} OpenFound(pre: String, o: String, body: String, c: String, post: String)
    requires |o| > 0 && FirstFrom(pre + o, o, 0, |pre|)
    ensures IndexOf(pre + o + body + c + post, o, 0) == |pre|
  {
    assert pre + o + body + c + post == pre + o + (body + c + post);
    FirstOpen(pre, o, body + c + post);
  }

  lemma {:induction false} CloseFound(pre: String, o: String, body: String, c: String, post: String)
    requires TagPair(o, c)
    requires FirstFrom(pre + o, o, 0, |pre|)
    requires FirstFrom(body + c, c, 0, |body|)
    ensures IndexOf(pre + o + body + c + post, c, |pre|) == |pre| + |o| + |body|
  {
    var lead := pre + o;
    var xml := pre + o + body + c + post;
    assert xml == lead + (body + c + post);
    OpenFound(pre, o, body, c, post);
    IndexOfMeaning(xml, o, 0);
    FirstClose(lead, body, c, post);
    CloseNotInsideOpen(xml, o, c, |pre|);
    IndexOfIs(xml, c, |pre|, |lead| + |body|);
  }

  lemma {:induction false} BetweenAt(xml: String, o: String, c: String, s: nat, t: nat)
    requires TagPair(o, c) && IndexOf(xml, o, 0) == s && IndexOf(xml, c, s) == t
    ensures Between(xml, o, c).Some?
    ensures Between(xml, o, c).value.0 == s + |o| && Between(xml, o, c).value.1 == t
  {
  }

  lemma {:induction false} FirstOpen(pre: String, o: String, rest: String)
    requires |o| > 0 && FirstFrom(pre + o, o, 0, |pre|)
    ensures IndexOf(pre + o + rest, o, 0) == |pre|
  {
    var lead := pre + o;
    OccursLeft(lead, rest, o, |pre|);
    forall j | 0 <= j < |pre| ensures !Occurs(lead + rest, o, j) {
      OccursLeft(lead, rest, o, j);
    }
    IndexOfIs(lead + rest, o, 0, |pre|);
  }

  lemma {:induction false} FirstClose(lead: String, body: String, c: String, post: String)
    requires |c| > 0 && FirstFrom(body + c, c, 0, |body|)
    ensures var xml := lead + (body + c + post);
      Occurs(xml, c, |lead| + |body|)
      && forall j | |lead| <= j < |lead| + |body| :: !Occurs(xml, c, j)
  {
    var tail := body + c;
    OccursRight(lead, tail + post, c, |lead| + |body|);
    OccursLeft(tail, post, c, |body|);
    forall j | |lead| <= j < |lead| + |body| ensures !Occurs(lead + (tail + post), c, j) {
      OccursRight(lead, tail + post, c, j);
      OccursLeft(tail, post, c, j - |lead|);
    }
  }

  // ---------------------------------------------------------------------
  // Elements

  /** The elements the parser reads. */
  datatype Element = Title | Description | Link | LastBuildDate | PubDate | Guid | Creator

  function Name(e: Element): String {
    match e
    case Title => "title"
    case Description => "description"
    case Link => "link"
    case LastBuildDate => "lastBuildDate"
    case PubDate => "pubDate"
    case Guid => "guid"
    case Creator => "dc:creator"
  }

  function OpenTag(e: Element): String { "<" + Name(e) + ">" }

  function CloseTag(e: Element): String { "</" + Name(e) + ">" }

  /** No element name holds `<` or starts with `/`, which makes every
      element's tags a pair. */
  lemma {:induction false} ElementTags(e: Element)
    ensures TagPair(OpenTag(e), CloseTag(e))
  {
    var n := Name(e);
    var o := OpenTag(e);
    var c := CloseTag(e);
    assert n[0] != '/' && forall i | 0 <= i < |n| :: n[i] != '<';
    forall k | 0 <= k < |o| ensures Clash(o, c, k) {
      if k == 0 {
        assert o[1] != c[1];
      } else {
        assert o[k] != c[0];
      }
    }
  }

  /** The content of the first `e` element. */
  function Enclosed(xml: String, e: Element): (r: Option<(nat, nat)>)
    ensures r.Some? ==> r.value.0 <= r.value.1 <= |xml|
  {
    ElementTags(e);
    Between(xml, OpenTag(e), CloseTag(e))
  }

  /** The trimmed text between the first `o` and the next `c`, or "". */
  function ValueBetween(xml: String, o: String, c: String, cdata: bool): (r: String)
    requires TagPair(o, c)
    ensures Between(xml, o, c).None? ==> r == []
    ensures IsTrimmed(r)
  {
    var span := Between(xml, o, c);
    if span.None? then []
    else
      var content := xml[span.value.0..span.value.1];
      Trim(if cdata then Uncdata(content) else content)
  }

  /** `extractValue`: the trimmed content of the first `e` element, or ""
      when either tag is missing. */
  function ExtractValue(xml: String, e: Element): (r: String)
    ensures Enclosed(xml, e).None? ==> r == []
    ensures IsTrimmed(r)
  {
    ElementTags(e);
    ValueBetween(xml, OpenTag(e), CloseTag(e), false)
  }

  /** `extractCDATA`: like `extractValue`, but one CDATA wrapper around the
      content is removed before trimming. */
  function ExtractCData(xml: String, e: Element): (r: String)
    ensures Enclosed(xml, e).None? ==> r == []
    ensures IsTrimmed(r)
  {
    ElementTags(e);
    ValueBetween(xml, OpenTag(e), CloseTag(e), true)
  }

  /** `"<![CDATA[" + v + "]]>"` has at least the 12 characters of the markers,
      so `substring(9, length - 3)` is always in range. */
  lemma {:induction false} CDataLength(content: String)
    requires StartsWith(content, "<![CDATA[") && EndsWith(content, "]]>")
    ensures |content| >= 12
  {
    var k := |content| - 3;
    assert content[k] == ']';
    assert forall i | 0 <= i < 9 :: content[i] != ']' by {
      assert content[..9] == "<![CDATA[";
      forall i | 0 <= i < 9 ensures content[i] != ']' {
        assert content[i] == content[..9][i];
      }
    }
  }

  /** One enclosing CDATA section removed, if there is one. */
  function Uncdata(content: String): (r: String)
    ensures StartsWith(content, "<![CDATA[") && EndsWith(content, "]]>") ==>
      content == "<![CDATA[" + r + "]]>"
    ensures !(StartsWith(content, "<![CDATA[") && EndsWith(content, "]]>")) ==> r == content
  {
    if StartsWith(content, "<![CDATA[") && EndsWith(content, "]]>") then
      CDataLength(content);
      assert content == content[..9] + content[9..|content| - 3] + content[|content| - 3..];
      content[9..|content| - 3]
    else content
  }

  /** Unwrapping a CDATA section gives back what it wraps. */
  lemma {:induction false} UncdataOfWrapped(v: String)
    ensures Uncdata("<![CDATA[" + v + "]]>") == v
  {
    var body := "<![CDATA[" + v + "]]>";
    assert body[..9] == "<![CDATA[" && body[|body| - 3..] == "]]>";
    assert body[9..|body| - 3] == v;
  }

  /** The value read between the tags of a rendered element is its
      trimmed (and, for CDATA, unwrapped) body. */
  lemma {:induction false} ValueOfElement(pre: String, o: String, body: String, c: String, post: String, cdata: bool)
    requires TagPair(o, c)
    requires FirstFrom(pre + o, o, 0, |pre|)
    requires FirstFrom(body + c, c, 0, |body|)
    ensures ValueBetween(pre + o + body + c + post, o, c, cdata)
      == Trim(if cdata then Uncdata(body) else body)
  {
    BetweenOfElement(pre, o, body, c, post);
    ValueBetweenAt(pre + o + body + c + post, o, c, cdata, |pre| + |o|, |pre| + |o| + |body|, body);
  }

  lemma {:induction false} ValueBetweenAt(xml: String, o: String, c: String, cdata: bool, a: nat, b: nat, v: String)
    requires TagPair(o, c)
    requires Between(xml, o, c).Some? && Between(xml, o, c).value.0 == a && Between(xml, o, c).value.1 == b
    requires a <= b <= |xml| && xml[a..b] == v
    ensures ValueBetween(xml, o, c, cdata) == Trim(if cdata then Uncdata(v) else v)
  {
  }

  /** Reading back a rendered element gives its trimmed text. */
  lemma {:induction false} ExtractValueOfElement(pre: String, body: String, post: String, e: Element)
    requires FirstFrom(pre + OpenTag(e), OpenTag(e), 0, |pre|)
    requires FirstFrom(body + CloseTag(e), CloseTag(e), 0, |body|)
    ensures ExtractValue(pre + OpenTag(e) + body + CloseTag(e) + post, e) == Trim(body)
  {
    ElementTags(e);
    ValueOfElement(pre, OpenTag(e), body, CloseTag(e), post, false);
  }

  /** Reading back a rendered CDATA element gives its trimmed text. */
  lemma {:induction false} ExtractCDataOfElement(pre: String, v: String, post: String, e: Element)
    requires FirstFrom(pre + OpenTag(e), OpenTag(e), 0, |pre|)
    requires FirstFrom("<![CDATA[" + v + "]]>" + CloseTag(e), CloseTag(e), 0, 12 + |v|)
    ensures ExtractCData(pre + OpenTag(e) + ("<![CDATA[" + v + "]]>") + CloseTag(e) + post, e) == Trim(v)
  {
    ElementTags(e);
    UncdataOfWrapped(v);
    ValueOfElement(pre, OpenTag(e), "<![CDATA[" + v + "]]>", CloseTag(e), post, true);
  }

  // ---------------------------------------------------------------------
  // Items

  const ItemOpen: String := "<item>"
  const ItemClose: String := "</item>"

  lemma {:induction false} ItemTags()
    ensures TagPair(ItemOpen, ItemClose)
  {
    forall k | 0 <= k < |ItemOpen| ensures Clash(ItemOpen, ItemClose, k) {
      if k == 0 {
        assert ItemOpen[1] != ItemClose[1];
      } else {
        assert ItemOpen[k] != ItemClose[0];
      }
    }
  }

  /** `extractItems` from `from`: each block runs from the next `<item>` to
      the end of the first `</item>` after it; the scan resumes after the
      block and stops at the first `<item>` without a closing tag. */
  function ItemSpans(xml: String, from: nat): (spans: seq<(nat, nat)>)
    requires from <= |xml|
    ensures spans != [] ==> from <= spans[0].0 < spans[0].1 <= |xml|
    decreases |xml| - from
  {
    var a := IndexOf(xml, ItemOpen, from);
    if a < 0 then []
    else
      var c := IndexOf(xml, ItemClose, a);
      if c < 0 then []
      else [(a, c + |ItemClose|)] + ItemSpans(xml, c + |ItemClose|)
  }

  /** The block `[a, b)` is the first `<item>` at or after `start` through
      the first `</item>` after it. */
  predicate ItemBlockAt(xml: String, start: int, a: int, b: int) {
    FirstFrom(xml, ItemOpen, start, a) && FirstFrom(xml, ItemClose, a, b - |ItemClose|)
  }

  /** The scan from `e` finds no complete block. */
  predicate ScanStops(xml: String, e: int) {
    NoneFrom(xml, ItemOpen, e)
    || exists a | e <= a <= |xml| :: FirstFrom(xml, ItemOpen, e, a) && NoneFrom(xml, ItemClose, a)
  }

  predicate SpansWithin(xml: String, spans: seq<(nat, nat)>) {
    forall k | 0 <= k < |spans| :: spans[k].0 < spans[k].1 <= |xml|
  }

  function ScanEnd(spans: seq<(nat, nat)>, from: nat): nat {
    if spans == [] then from else spans[|spans| - 1].1
  }

  /** One step of the scan. */
  lemma {:induction false} ItemSpansStep(xml: String, from: nat)
    requires from <= |xml|
    ensures var spans := ItemSpans(xml, from);
      spans == [] ==> ScanStops(xml, from)
    ensures var spans := ItemSpans(xml, from);
      spans != [] ==>
        ItemBlockAt(xml, from, spans[0].0, spans[0].1)
        && from < spans[0].1 <= |xml|
        && spans[1..] == ItemSpans(xml, spans[0].1)
  {
    var a := IndexOf(xml, ItemOpen, from);
    IndexOfMeaning(xml, ItemOpen, from);
    if a >= 0 {
      IndexOfMeaning(xml, ItemClose, a);
    }
  }

  /** The blocks are the successive leftmost complete `<item>…</item>`
      blocks, in document order, and the scan stopped because no further
      complete block starts after the last one. */
  lemma {:induction false} ItemSpansShape(xml: String, from: nat)
    requires from <= |xml|
    ensures SpansWithin(xml, ItemSpans(xml, from))
    ensures var spans := ItemSpans(xml, from);
      forall k | 0 <= k < |spans| ::
        ItemBlockAt(xml, if k == 0 then from else spans[k - 1].1, spans[k].0, spans[k].1)
    ensures ScanStops(xml, ScanEnd(ItemSpans(xml, from), from))
  {
    ItemSpansWithin(xml, from);
    ItemSpansBlocks(xml, from);
    ItemSpansStops(xml, from);
  }

  /** Every block lies after `from` and inside the text. */
  lemma {:induction false} ItemSpansWithin(xml: String, from: nat)
    requires from <= |xml|
    ensures forall k | 0 <= k < |ItemSpans(xml, from)| ::
      from <= ItemSpans(xml, from)[k].0 < ItemSpans(xml, from)[k].1 <= |xml|
    decreases |xml| - from
  {
    var spans := ItemSpans(xml, from);
    if spans != [] {
      var rest := spans[1..];
      ItemSpansWithin(xml, spans[0].1);
      assert rest == ItemSpans(xml, spans[0].1);
      forall k | 1 <= k < |spans| ensures from <= spans[k].0 < spans[k].1 <= |xml| {
        assert spans[k] == rest[k - 1];
      }
    }
  }

  /** Each block is the first complete one after the previous block. */
  lemma {:induction false} ItemSpansBlocks(xml: String, from: nat)
    requires from <= |xml|
    ensures var spans := ItemSpans(xml, from);
      forall k | 0 <= k < |spans| ::
        ItemBlockAt(xml, if k == 0 then from else spans[k - 1].1, spans[k].0, spans[k].1)
    decreases |xml| - from
  {
    var spans := ItemSpans(xml, from);
    ItemSpansStep(xml, from);
    if spans != [] {
      var b := spans[0].1;
      var rest := spans[1..];
      ItemSpansBlocks(xml, b);
      forall k | 1 <= k < |spans|
        ensures ItemBlockAt(xml, spans[k - 1].1, spans[k].0, spans[k].1)
      {
        assert spans[k] == rest[k - 1];
        if k >= 2 {
          assert spans[k - 1] == rest[k - 2];
        }
      }
    }
  }

  /** After the last block no further complete block starts. */
  lemma {:induction false} ItemSpansStops(xml: String, from: nat)
    requires from <= |xml|
    ensures ScanStops(xml, ScanEnd(ItemSpans(xml, from), from))
    decreases |xml| - from
  {
    var spans := ItemSpans(xml, from);
    ItemSpansStep(xml, from);
    if spans != [] {
      var b := spans[0].1;
      ItemSpansStops(xml, b);
      assert ScanEnd(spans, from) == ScanEnd(spans[1..], b);
    }
  }

  /** Every block is `<item>`, a body, and `</item>`, with no `</item>`
      before its end. */
  lemma {:induction false} ItemBlockText(xml: String, start: int, a: nat, b: nat)
    requires ItemBlockAt(xml, start, a, b) && b <= |xml|
    ensures b - a >= |ItemOpen| + |ItemClose|
    ensures StartsWith(xml[a..b], ItemOpen) && EndsWith(xml[a..b], ItemClose)
  {
    ItemTags();
    CloseNotInsideOpen(xml, ItemOpen, ItemClose, a);
    var c := b - |ItemClose|;
    assert c >= a + |ItemOpen|;
    assert xml[a..b][..|ItemOpen|] == xml[a..a + |ItemOpen|];
    assert xml[a..b][|xml[a..b]| - |ItemClose|..] == xml[c..b];
  }

  // ---------------------------------------------------------------------
  // Items and the feed

  /** `RSSItemXml`: the raw fields of one block. */
  datatype ItemXml = ItemXml(
    title: String, description: String, link: String,
    pubDate: String, guid: String, creator: String)

  /** `RSSItem`. The publication date is kept as text. */
  datatype Item = Item(
    title: String, description: String, link: String,
    pubDate: String, guid: String, creator: String, content: String)

  /** `RSSFeed`. */
  datatype Feed = Feed(
    title: String, description: String, link: String,
    lastBuildDate: String, items: seq<Item>)

  /** `parseItemXml`: the description may be wrapped in CDATA. */
  function ParseItemXml(block: String): ItemXml
  {
    ItemXml(
      ExtractValue(block, Title), ExtractCData(block, Description), ExtractValue(block, Link),
      ExtractValue(block, PubDate), ExtractValue(block, Guid), ExtractValue(block, Creator))
  }

  /** The HTML entities `cleanDescription` decodes, in the order it does. */
  const Entities: seq<(String, String)> :=
    [("&amp;", "&"), ("&lt;", "<"), ("&gt;", ">"), ("&quot;", "\""), ("&apos;", "'")]

  /** Applies the entity replacements from index `i` on, in order. */
  function DecodeEntities(s: String, i: nat): (r: String)
    requires i <= |Entities|
    ensures |r| <= |s|
    decreases |Entities| - i
  {
    if i == |Entities| then s
    else
      var (pat, rep) := Entities[i];
      DecodeEntities(ReplaceAll(s, pat, rep), i + 1)
  }

  /** `cleanDescription`: strip `<…>` markup, decode the five entities
      (`&amp;` first), then trim. */
  function CleanDescription(description: String): (r: String)
    ensures |r| <= |description|
    ensures IsTrimmed(r)
  {
    Trim(Unmarked(description))
  }

  /** The description with markup removed and entities decoded. */
  function Unmarked(description: String): (r: String)
    ensures |r| <= |description|
  {
    DecodeEntities(RemoveAll(Markup, description, 0), 0)
  }

  /** Text without `&` is left alone by entity decoding. */
  lemma {:induction false} DecodeWithoutAmpersand(s: String, i: nat)
    requires i <= |Entities|
    requires forall k | 0 <= k < |s| :: s[k] != '&'
    ensures DecodeEntities(s, i) == s
    decreases |Entities| - i
  {
    if i < |Entities| {
      var (pat, rep) := Entities[i];
      assert pat[0] == '&';
      assert !Contains(s, pat) by {
        forall j | 0 <= j <= |s| - |pat| ensures !Occurs(s, pat, j) {
          assert s[j..j + |pat|][0] == s[j];
        }
      }
      ReplaceAllAbsent(s, pat, rep);
      DecodeWithoutAmpersand(s, i + 1);
    }
  }

  /** Text with neither markup nor entities is only trimmed. */
  lemma {:induction false} CleanPlainText(description: String)
    requires forall k | 0 <= k < |description| :: description[k] != '<' && description[k] != '&'
    ensures CleanDescription(description) == Trim(description)
  {
    RemoveMarkupWithoutAngle(description, 0);
    assert description[0..] == description;
    DecodeWithoutAmpersand(description, 0);
  }

  predicate NoAmpersand(s: String) {
    forall k | 0 <= k < |s| :: s[k] != '&'
  }

  /** Where two entities first differ: `&amp;` and `&apos;` share their
      second character, every other pair differs there. */
  function FirstDifference(i: nat, k: nat): nat {
    if (i == 0 && k == 4) || (i == 4 && k == 0) then 2 else 1
  }

  /** Each entity starts with `&`, has no other `&`, and differs from every
      other entity early on. */
  lemma {:induction false} EntitiesShape(i: nat, k: nat)
    requires i < |Entities| && k < |Entities|
    ensures |Entities[i].0| >= 4 && Entities[i].0[0] == '&' && NoAmpersand(Entities[i].0[1..])
    ensures |Entities[i].1| == 1 && (i > 0 ==> NoAmpersand(Entities[i].1))
    ensures i != k ==> Entities[i].0[FirstDifference(i, k)] != Entities[k].0[FirstDifference(i, k)]
  {
  }

  /** In `x + pat + y`, with `x` and `y` free of `&`, no other entity
      occurs. */
  lemma {:induction false} OnlyThisEntity(x: String, i: nat, y: String, k: nat)
    requires i < |Entities| && k < |Entities| && i != k
    requires NoAmpersand(x) && NoAmpersand(y)
    ensures !Contains(x + Entities[k].0 + y, Entities[i].0)
  {
    EntitiesShape(k, i);
    EntitiesShape(i, k);
    var pat := Entities[k].0;
    var q := Entities[i].0;
    var s := x + pat + y;
    forall j | 0 <= j <= |s| - |q| ensures !Occurs(s, q, j) {
      assert s[j..j + |q|][0] == s[j];
      if j < |x| {
        assert s[j] == x[j];
      } else if j > |x| && j < |x| + |pat| {
        assert s[j] == pat[1..][j - |x| - 1];
      } else if j >= |x| + |pat| {
        assert s[j] == y[j - |x| - |pat|];
      } else {
        var m := FirstDifference(i, k);
        assert j == |x| && m < |pat| && m < |q|;
        assert s[j + m] == pat[m];
        assert s[j..j + |q|][m] == s[j + m];
      }
    }
  }

  /** Replacing the one entity of `x + pat + y`, with `x` and `y` free of
      `&`, puts its character in its place. */
  lemma {:induction false} ReplaceOnlyEntity(x: String, k: nat, y: String)
    requires k < |Entities| && NoAmpersand(x) && NoAmpersand(y)
    ensures ReplaceAll(x + Entities[k].0 + y, Entities[k].0, Entities[k].1) == x + Entities[k].1 + y
  {
    EntitiesShape(k, k);
    var (pat, rep) := Entities[k];
    var s := x + pat + y;
    forall j | 0 <= j < |x| ensures !Occurs(s, pat, j) {
      assert s[j..j + |pat|][0] == s[j] == x[j];
    }
    assert s[|x|..|x| + |pat|] == pat;
    IndexOfIs(s, pat, 0, |x|);
    assert s[..|x|] == x && s[|x| + |pat|..] == y;
    assert !Contains(y, pat) by {
      forall j | 0 <= j <= |y| - |pat| ensures !Occurs(y, pat, j) {
        assert y[j..j + |pat|][0] == y[j];
      }
    }
    ReplaceAllAbsent(y, pat, rep);
  }

  /** The replacements before entity `k` leave `x + pat + y` alone. */
  lemma {:induction false} DecodeBefore(x: String, k: nat, y: String, i: nat)
    requires i <= k < |Entities| && NoAmpersand(x) && NoAmpersand(y)
    ensures DecodeEntities(x + Entities[k].0 + y, i) == DecodeEntities(x + Entities[k].0 + y, k)
    decreases k - i
  {
    if i < k {
      var s := x + Entities[k].0 + y;
      OnlyThisEntity(x, i, y, k);
      ReplaceAllAbsent(s, Entities[i].0, Entities[i].1);
      DecodeBefore(x, k, y, i + 1);
    }
  }

  /** One entity between `&`-free text decodes to its character; `&amp;`
      decodes to `&` before the other four are looked for, so the `&` it
      leaves can start another entity. */
  lemma {:induction false} DecodeEntity(x: String, k: nat, y: String)
    requires k < |Entities| && NoAmpersand(x) && NoAmpersand(y)
    ensures k > 0 ==> DecodeEntities(x + Entities[k].0 + y, 0) == x + Entities[k].1 + y
    ensures k == 0 ==> DecodeEntities(x + "&amp;" + y, 0) == DecodeEntities(x + "&" + y, 1)
  {
    DecodeBefore(x, k, y, 0);
    ReplaceOnlyEntity(x, k, y);
    if k > 0 {
      EntitiesShape(k, k);
      var r := x + Entities[k].1 + y;
      assert NoAmpersand(r) by {
        forall j | 0 <= j < |r| ensures r[j] != '&' {
          if j < |x| {
            assert r[j] == x[j];
          } else if j == |x| {
            assert r[j] == Entities[k].1[0];
          } else {
            assert r[j] == y[j - |x| - 1];
          }
        }
      }
      DecodeWithoutAmpersand(r, k + 1);
    }
  }

  /** A double-escaped entity such as `&amp;lt;` comes out as its
      character (`<`), not as the entity (`&lt;`): the `&` that `&amp;`
      leaves starts the entity whose tail follows it. */
  lemma {:induction false} DecodeDoubleEscaped(k: nat)
    requires 0 < k < |Entities|
    ensures DecodeEntities("&amp;" + Entities[k].0[1..], 0) == Entities[k].1
  {
    var e := Entities[k].0;
    var t := e[1..];
    assert DecodeEntities("&amp;" + t, 0) == DecodeEntities(e, 1) by {
      EntitiesShape(k, k);
      DecodeEntity([], 0, t);
      assert [] + "&amp;" + t == "&amp;" + t;
      assert [] + "&" + t == e;
    }
    DecodeAlone(k);
  }

  /** An entity on its own decodes to its character from the second
      replacement on. */
  lemma {:induction false} DecodeAlone(k: nat)
    requires 0 < k < |Entities|
    ensures DecodeEntities(Entities[k].0, 1) == Entities[k].1
  {
    var e := Entities[k].0;
    assert [] + e + [] == e;
    assert [] + Entities[k].1 + [] == Entities[k].1;
    DecodeBefore([], k, [], 1);
    DecodeBefore([], k, [], 0);
    DecodeEntity([], k, []);
  }

  /** A description with one of the four non-`&` entities and neither
      markup nor `&` around it comes out with that entity decoded and
      trimmed. */
  lemma {:induction false} CleanEntity(x: String, k: nat, y: String)
    requires 0 < k < |Entities|
    requires forall j | 0 <= j < |x| :: x[j] != '<' && x[j] != '&'
    requires forall j | 0 <= j < |y| :: y[j] != '<' && y[j] != '&'
    ensures CleanDescription(x + Entities[k].0 + y) == Trim(x + Entities[k].1 + y)
  {
    var s := x + Entities[k].0 + y;
    assert forall j | 0 <= j < |Entities[k].0| :: Entities[k].0[j] != '<';
    forall j | 0 <= j < |s| ensures s[j] != '<' {
      if j < |x| {
        assert s[j] == x[j];
      } else if j < |x| + |Entities[k].0| {
        assert s[j] == Entities[k].0[j - |x|];
      } else {
        assert s[j] == y[j - |x| - |Entities[k].0|];
      }
    }
    RemoveMarkupWithoutAngle(s, 0);
    assert s[0..] == s;
    DecodeEntity(x, k, y);
  }

  /** `parseItem`: the raw fields carry over and the content is the
      description cleaned, so it is trimmed and no longer than it. */
  function ParseItem(x: ItemXml): (item: Item)
    ensures item.description == x.description && item.link == x.link && item.guid == x.guid
    ensures IsTrimmed(item.content) && |item.content| <= |x.description|
  {
    Item(x.title, x.description, x.link, x.pubDate, x.guid, x.creator, CleanDescription(x.description))
  }

  function ParseBlock(xml: String, span: (nat, nat)): Item
    requires span.0 <= span.1 <= |xml|
  {
    ParseItem(ParseItemXml(xml[span.0..span.1]))
  }

  /** `parseRSSFeed`: channel fields are the first such elements anywhere in
      the document; there is one item per complete block, in document
      order, and each item's content is its cleaned description. */
  function ParseFeed(xml: String): (feed: Feed)
    ensures var spans := ItemSpans(xml, 0);
      |feed.items| == |spans|
      && forall k | 0 <= k < |spans| ::
        spans[k].0 < spans[k].1 <= |xml|
        && feed.items[k] == ParseBlock(xml, spans[k])
        && feed.items[k].content == CleanDescription(feed.items[k].description)
  {
    var spans := ItemSpans(xml, 0);
    ItemSpansWithin(xml, 0);
    assert SpansWithin(xml, spans);
    Feed(
      ExtractValue(xml, Title), ExtractValue(xml, Description), ExtractValue(xml, Link),
      ExtractValue(xml, LastBuildDate),
      seq(|spans|, k requires 0 <= k < |spans| => ParseBlock(xml, spans[k])))
  }
}

=== FILE: telegram_api.dfy ===
/** The bot framework's updates, commands and executors, and how
    `TelegramService.process` picks the executor for an update: executors
    sorted by descending priority (a stable sort, so registration order
    breaks ties), then the first that accepts, where an acceptance check
    that throws counts as a refusal. */
module TelegramApi {
  import opened Wrappers
  import opened KText

  // ---------------------------------------------------------------------
  // commands

  /** `TelegramCommand`, in declaration order. */
  datatype Command = Start | Add | Remove | List | Lang | Ai | ElonMusk

  const Commands: seq<Command> := [Start, Add, Remove, List, Lang, Ai, ElonMusk]

  /** `TelegramCommand.value`. */
  function CommandValue(c: Command): String {
    match c
    case Start => "/start"
    case Add => "/add"
    case Remove => "/remove"
    case List => "/list"
    case Lang => "/lang"
    case Ai => "/ai"
    case ElonMusk => "/elonmusk"
  }

  /** `TelegramCommand.fromValue`: the first command whose value is `value`. */
  function FromValue(value: String): (c: Option<Command>)
    ensures c.Some? ==> CommandValue(c.value) == value
    ensures c.None? ==> forall k | 0 <= k < |Commands| :: CommandValue(Commands[k]) != value
  {
    FindCommand(value, 0)
  }

  function FindCommand(value: String, from: nat): (c: Option<Command>)
    requires from <= |Commands|
    ensures c.Some? ==> CommandValue(c.value) == value
    ensures c.None? ==> forall k | from <= k < |Commands| :: CommandValue(Commands[k]) != value
    decreases |Commands| - from
  {
    if from == |Commands| then None
    else if CommandValue(Commands[from]) == value then Some(Commands[from])
    else FindCommand(value, from + 1)
  }

  /** Every command is found from its own value, and only from it. */
  lemma {:induction false} FromValueRoundTrip(c: Command, value: String)
    ensures FromValue(CommandValue(c)) == Some(c)
    ensures FromValue(value) == Some(c) <==> value == CommandValue(c)
  {
    FromValueOfValue(c);
  }

  lemma {:induction false} FromValueOfValue(c: Command)
    ensures FromValue(CommandValue(c)) == Some(c)
  {
    match c
    case Start => assert CommandValue(Start) == "/start";
    case Add => assert CommandValue(Add) == "/add";
    case Remove => assert CommandValue(Remove) == "/remove";
    case List => assert CommandValue(List) == "/list";
    case Lang => assert CommandValue(Lang) == "/lang";
    case Ai => assert CommandValue(Ai) == "/ai";
    case ElonMusk => assert CommandValue(ElonMusk) == "/elonmusk";
  }

  /** No two commands share a value. */
  lemma {:induction false} CommandValuesDistinct(c: Command)
    ensures forall d: Command :: CommandValue(d) == CommandValue(c) ==> d == c
  {
    forall d: Command | CommandValue(d) == CommandValue(c) ensures d == c {
      FromValueOfValue(d);
      FromValueOfValue(c);
    }
  }

  // ---------------------------------------------------------------------
  // updates

  /** `TelegramMessageUpdate`, `TelegramCallbackQueryUpdate` and the inline
      query update. */
  datatype Update =
    | MessageUpdate(text: String, messageId: int, chatId: int, command: Option<Command>, name: String, updateId: int)
    | CallbackQueryUpdate(queryId: String, data: String, chatId: int, messageId: int, updateId: int)
    | InlineQueryUpdate(queryId: String, query: String, updateId: int)

  // ---------------------------------------------------------------------
  // executors

  /** `Executor.Priority`. */
  datatype Priority = Low | Medium | High

  /** `Priority.value`. */
  function PriorityValue(p: Priority): int {
    match p
    case Low => -1
    case Medium => 0
    case High => 1
  }

  /** An executor as routing sees it: its priority and its acceptance
      check, which answers or throws (`None`). */
  datatype Executor = Executor(priority: Priority, canProcess: Update -> Option<bool>)

  /** `CommandExecutor.canProcess`: a message carrying the command. Given
      any other update, reading its `command` fails the cast and throws. */
  function CommandAccepts(command: Command, u: Update): (r: Option<bool>)
    ensures r.Some? <==> u.MessageUpdate?
    ensures r == Some(true) <==> u.MessageUpdate? && u.command == Some(command)
  {
    match u
    case MessageUpdate(_, _, _, c, _, _) => Some(c == Some(command))
    case _ => None
  }

  /** `CallbackQueryExecutor.canProcess`: a callback whose data decodes as
      the executor's payload. Reading the data of any other update fails
      the cast inside `runCatching`, so the answer is `false`, not a throw. */
  function CallbackAccepts<T>(decode: String -> Option<T>, u: Update): (r: Option<bool>)
    ensures r.Some?
    ensures r == Some(true) <==> u.CallbackQueryUpdate? && decode(u.data).Some?
  {
    match u
    case CallbackQueryUpdate(_, data, _, _, _) => Some(decode(data).Some?)
    case _ => Some(false)
  }

  /** `runCatching { canProcess }.getOrDefault(false)`: a check that
      throws counts as a refusal. */
  predicate Accepts(e: Executor, u: Update): (b: bool)
    ensures e.canProcess(u).None? ==> !b
    ensures b ==> e.canProcess(u).Some?
  {
    e.canProcess(u) == Some(true)
  }

  // ---------------------------------------------------------------------
  // selection

  /** The indices from `from` on of the executors with priority `p`, in
      registration order. */
  function WithPriority(es: seq<Executor>, p: Priority, from: nat): (r: seq<nat>)
    requires from <= |es|
    ensures forall k | 0 <= k < |r| :: from <= r[k] < |es| && es[r[k]].priority == p
    ensures forall k, l | 0 <= k < l < |r| :: r[k] < r[l]
    ensures forall i | from <= i < |es| && es[i].priority == p :: i in r
    decreases |es| - from
  {
    if from == |es| then []
    else if es[from].priority == p then [from] + WithPriority(es, p, from + 1)
    else WithPriority(es, p, from + 1)
  }

  /** `executors.sortedByDescending { it.priority.value }`, as indices: a
      stable sort on a key of three values puts the high executors first,
      then the medium, then the low, each group in registration order. */
  function SortedByPriority(es: seq<Executor>): (order: seq<nat>)
    ensures |order| == |es|
    ensures forall k | 0 <= k < |order| :: order[k] < |es|
  {
    GroupSizes(es, 0);
    WithPriority(es, High, 0) + WithPriority(es, Medium, 0) + WithPriority(es, Low, 0)
  }

  /** Executor `a` comes before executor `b` in a stable sort by
      descending priority. */
  predicate Before(es: seq<Executor>, a: nat, b: nat)
    requires a < |es| && b < |es|
  {
    PriorityValue(es[a].priority) > PriorityValue(es[b].priority)
    || (es[a].priority == es[b].priority && a < b)
  }

  predicate Indices(es: seq<Executor>, order: seq<nat>) {
    forall k | 0 <= k < |order| :: order[k] < |es|
  }

  predicate Ordered(es: seq<Executor>, order: seq<nat>)
    requires Indices(es, order)
  {
    forall k, l | 0 <= k < l < |order| :: Before(es, order[k], order[l])
  }

  /** Each priority group has one entry per executor of that priority. */
  lemma GroupSizes(es: seq<Executor>, from: nat)
    requires from <= |es|
    ensures |WithPriority(es, High, from)| + |WithPriority(es, Medium, from)| + |WithPriority(es, Low, from)|
         == |es| - from
  {
    WithPriorityLength(es, High, from);
    WithPriorityLength(es, Medium, from);
    WithPriorityLength(es, Low, from);
    CountsSum(es, from);
  }

  /** The number of executors of priority `p` from `from` on. */
  function CountPriority(es: seq<Executor>, p: Priority, from: nat): nat
    requires from <= |es|
    decreases |es| - from
  {
    if from == |es| then 0
    else (if es[from].priority == p then 1 else 0) + CountPriority(es, p, from + 1)
  }

  /** A priority group has one entry per executor of that priority. */
  lemma {:induction false} WithPriorityLength(es: seq<Executor>, p: Priority, from: nat)
    requires from <= |es|
    ensures |WithPriority(es, p, from)| == CountPriority(es, p, from)
    decreases |es| - from
  {
    if from < |es| {
      WithPriorityLength(es, p, from + 1);
    }
  }

  /** Every executor has exactly one of the three priorities. */
  lemma {:induction false} CountsSum(es: seq<Executor>, from: nat)
    requires from <= |es|
    ensures CountPriority(es, High, from) + CountPriority(es, Medium, from) + CountPriority(es, Low, from)
         == |es| - from
    decreases |es| - from
  {
    if from < |es| {
      CountsSum(es, from + 1);
    }
  }

  /** Two ordered runs whose every pair across them is in order. */
  lemma {:induction false} ConcatOrdered(es: seq<Executor>, a: seq<nat>, b: seq<nat>)
    requires Indices(es, a) && Indices(es, b) && Ordered(es, a) && Ordered(es, b)
    requires forall k, l | 0 <= k < |a| && 0 <= l < |b| :: Before(es, a[k], b[l])
    ensures Indices(es, a + b) && Ordered(es, a + b)
  {
    var ab := a + b;
    forall k, l | 0 <= k < l < |ab| ensures Before(es, ab[k], ab[l]) {
      if l < |a| {
        assert ab[k] == a[k] && ab[l] == a[l];
      } else if k >= |a| {
        assert ab[k] == b[k - |a|] && ab[l] == b[l - |a|];
      } else {
        assert ab[k] == a[k] && ab[l] == b[l - |a|];
      }
    }
  }

  /** The sorted order lists every executor exactly once, by descending
      priority, and keeps registration order among equal priorities. */
  lemma {:induction false} SortedIsStableSort(es: seq<Executor>)
    ensures var order := SortedByPriority(es);
      && |order| == |es|
      && (forall i | 0 <= i < |es| :: i in order)
      && Indices(es, order)
      && Ordered(es, order)
  {
    var h := WithPriority(es, High, 0);
    var m := WithPriority(es, Medium, 0);
    var lo := WithPriority(es, Low, 0);
    GroupSizes(es, 0);
    ConcatOrdered(es, h, m);
    ConcatOrdered(es, h + m, lo);
    var order := h + m + lo;
    forall i | 0 <= i < |es| ensures i in order {
      if es[i].priority == High { assert i in h; }
      else if es[i].priority == Medium { assert i in m; }
      else { assert i in lo; }
    }
  }

  /** Position `k` of `order` holds an accepting executor and no position
      from `from` up to it does. */
  predicate FirstAcceptingAt(es: seq<Executor>, order: seq<nat>, u: Update, from: nat, k: nat)
    requires Indices(es, order) && k < |order|
  {
    Accepts(es[order[k]], u) && forall j | from <= j < k :: !Accepts(es[order[j]], u)
  }

  /** The first index in `order` from `from` on whose executor accepts. */
  function FindAccepting(es: seq<Executor>, order: seq<nat>, u: Update, from: nat): (r: Option<nat>)
    requires from <= |order|
    requires Indices(es, order)
    ensures r.Some? ==> exists k | from <= k < |order| :: FirstAcceptingAt(es, order, u, from, k) && order[k] == r.value
    ensures r.None? ==> forall k | from <= k < |order| :: !Accepts(es[order[k]], u)
    decreases |order| - from
  {
    if from == |order| then None
    else if Accepts(es[order[from]], u) then Some(order[from])
    else FindAccepting(es, order, u, from + 1)
  }

  /** The executor `process` picks for an update, as its registration
      index, or `None` when no executor accepts. */
  function SelectExecutor(es: seq<Executor>, u: Update): (r: Option<nat>)
    ensures r.Some? ==> r.value < |es| && Accepts(es[r.value], u)
  {
    var order := SortedByPriority(es);
    SortedIsStableSort(es);
    FindAccepting(es, order, u, 0)
  }

  /** `e` is the best accepting executor: it accepts, and every other that
      accepts has a lower priority, or the same one and a later place. */
  predicate IsBest(es: seq<Executor>, u: Update, i: nat) {
    && i < |es| && Accepts(es[i], u)
    && forall j | 0 <= j < |es| && Accepts(es[j], u) ::
         PriorityValue(es[j].priority) < PriorityValue(es[i].priority)
         || (es[j].priority == es[i].priority && i <= j)
  }

  /** The executor picked is the best accepting one, and none is picked
      only when none accepts. */
  lemma {:induction false} SelectExecutorIsBest(es: seq<Executor>, u: Update)
    ensures SelectExecutor(es, u).Some? ==> IsBest(es, u, SelectExecutor(es, u).value)
    ensures SelectExecutor(es, u).None? <==> forall j | 0 <= j < |es| :: !Accepts(es[j], u)
  {
    var order := SortedByPriority(es);
    SortedIsStableSort(es);
    var r := FindAccepting(es, order, u, 0);
    if r.Some? {
      var k :| 0 <= k < |order| && FirstAcceptingAt(es, order, u, 0, k) && order[k] == r.value;
      forall j | 0 <= j < |es| && Accepts(es[j], u)
        ensures PriorityValue(es[j].priority) < PriorityValue(es[r.value].priority)
             || (es[j].priority == es[r.value].priority && r.value <= j)
      {
        assert j in order;
        var l :| 0 <= l < |order| && order[l] == j;
        assert Accepts(es[order[l]], u);
        assert l >= k;
        if l > k {
          assert Before(es, order[k], order[l]);
        }
      }
    } else {
      forall j | 0 <= j < |es| ensures !Accepts(es[j], u) {
        assert j in order;
      }
    }
  }

  /** Only one executor is best, so the choice does not depend on how it
      is searched for. */
  lemma {:induction false} BestIsUnique(es: seq<Executor>, u: Update, i: nat, j: nat)
    requires IsBest(es, u, i) && IsBest(es, u, j)
    ensures i == j
  {
  }

  /** What `process` did with an update: the executor run, if any, and
      whether its `process` threw (the error is logged and goes no
      further). */
  datatype Processed = Processed(executor: Option<nat>, failed: bool)

  /** `TelegramService.process`, with the outcome of running each
      executor's `process` (`false` when it throws) as a parameter. */
  function Process(es: seq<Executor>, u: Update, succeeds: nat -> bool): (p: Processed)
    ensures p.failed ==> p.executor.Some?
    ensures p.executor == SelectExecutor(es, u)
  {
    match SelectExecutor(es, u)
    case None => Processed(None, false)
    case Some(i) => Processed(Some(i), !succeeds(i))
  }

  /** An update no executor accepts runs nothing and fails nothing; any
      other runs exactly the best accepting executor. */
  lemma {:induction false} ProcessRouting(es: seq<Executor>, u: Update, succeeds: nat -> bool)
    ensures (forall j | 0 <= j < |es| :: !Accepts(es[j], u)) ==> Process(es, u, succeeds) == Processed(None, false)
    ensures Process(es, u, succeeds).executor.Some? ==> IsBest(es, u, Process(es, u, succeeds).executor.value)
  {
    SelectExecutorIsBest(es, u);
  }
}

=== FILE: telegraph_models.dfy ===
/** Telegraph page content: the node tree sent to the Telegraph API and its
    JSON form (`TelegraphNode` and `toJsonElement`). */
module TelegraphModels {
  import opened Wrappers
  import opened KText
  import opened Json

  /** A Telegraph node. A text node carries only `text`; an element carries
      a tag, optional attributes (an insertion-ordered map, as entries) and
      optional children. Every field is nullable, as in the source. */
  datatype Node = Node(
    tag: Option<String>,
    attrs: Option<seq<(String, String)>>,
    children: Children,
    text: Option<String>)

  /** A nullable list of child nodes. */
  datatype Children = Absent | Present(nodes: seq<Node>)

  function Text(content: String): Node {
    Node(None, None, Absent, Some(content))
  }

  function Element(tag: String, attrs: Option<seq<(String, String)>>, children: Children): Node {
    Node(Some(tag), attrs, children, None)
  }

  function Paragraph(children: seq<Node>): Node {
    Element("p", None, Present(children))
  }

  function LineBreak(): Node {
    Element("br", None, Absent)
  }

  function Bold(children: seq<Node>): Node {
    Element("strong", None, Present(children))
  }

  function Italic(children: seq<Node>): Node {
    Element("em", None, Present(children))
  }

  /** A link over well-formed children is well-formed. */
  function Link(href: String, children: seq<Node>): (n: Node)
    ensures (forall i | 0 <= i < |children| :: WellFormed(children[i])) ==> WellFormed(n)
  {
    Element("a", Some([("href", href)]), Present(children))
  }

  /** A link over well-formed children reads back from its JSON form
      unchanged. */
  lemma {:induction false} LinkRoundTrip(href: String, children: seq<Node>)
    requires forall i | 0 <= i < |children| :: WellFormed(children[i])
    ensures FromJson(ToJson(Link(href, children))) == Some(Link(href, children))
  {
    JsonRoundTrip(Link(href, children));
  }

  /** The nodes the factories build: a text node has no other field, and so
      do all of its descendants' text nodes. */
  predicate WellFormed(n: Node)
    decreases n
  {
    (n.text.Some? ==> n.tag.None? && n.attrs.None? && n.children.Absent?)
    && (n.children.Present? ==> forall i | 0 <= i < |n.children.nodes| :: WellFormed(n.children.nodes[i]))
  }

  function AttrsToJson(attrs: seq<(String, String)>): (fields: seq<(String, Json)>)
    ensures |fields| == |attrs|
    ensures forall i | 0 <= i < |attrs| :: fields[i] == (attrs[i].0, JString(attrs[i].1))
  {
    if attrs == [] then [] else [(attrs[0].0, JString(attrs[0].1))] + AttrsToJson(attrs[1..])
  }

  /** `toJsonElement`: a text node becomes a JSON string; any other node an
      object holding its non-null `tag`, `attrs` and `children`, in that
      order. */
  function ToJson(n: Node): (j: Json)
    ensures j.JString? || j.JObject?
    ensures j.JString? <==> n.text.Some?
    decreases n, 1
  {
    if n.text.Some? then JString(n.text.value)
    else
      JObject(
        (if n.tag.Some? then [("tag", JString(n.tag.value))] else [])
        + (if n.attrs.Some? then [("attrs", JObject(AttrsToJson(n.attrs.value)))] else [])
        + (if n.children.Present? then [("children", JArray(ToJsonList(n.children.nodes)))] else []))
  }

  function ToJsonList(ns: seq<Node>): (js: seq<Json>)
    ensures |js| == |ns|
    ensures forall i | 0 <= i < |ns| :: js[i] == ToJson(ns[i])
    decreases ns, 0
  {
    if ns == [] then [] else [ToJson(ns[0])] + ToJsonList(ns[1..])
  }

  // ---------------------------------------------------------------------
  // Reading the JSON form back

  function AttrsFromJson(fields: seq<(String, Json)>): (r: Option<seq<(String, String)>>)
    ensures r.Some? <==> AllStrings(fields)
  {
    if fields == [] then Some([])
    else if !fields[0].1.JString? then None
    else
      match AttrsFromJson(fields[1..])
      case None => None
      case Some(rest) => Some([(fields[0].0, fields[0].1.str)] + rest)
  }

  /** The node a JSON value describes, if any: a string describes a text
      node, and an object a node without text. */
  function FromJson(j: Json): (r: Option<Node>)
    ensures r.Some? ==> (r.value.text.Some? <==> j.JString?)
    decreases j, 2
  {
    match j
    case JString(s) => Some(Text(s))
    case JObject(fields) => FromFields(j, fields, Node(None, None, Absent, None))
    case _ => None
  }

  /** Fills `acc` from the entries `tag`, `attrs`, `children` of the object
      `parent`. */
  function FromFields(parent: Json, fields: seq<(String, Json)>, acc: Node): (r: Option<Node>)
    requires forall i | 0 <= i < |fields| :: fields[i].1 < parent
    ensures r.Some? ==> r.value.text == acc.text
    decreases parent, 1, |fields|
  {
    if fields == [] then Some(acc)
    else
      var (key, value) := fields[0];
      var rest := fields[1..];
      if key == "tag" && value.JString? then
        FromFields(parent, rest, acc.(tag := Some(value.str)))
      else if key == "attrs" && value.JObject? then
        match AttrsFromJson(value.fields)
        case None => None
        case Some(attrs) => FromFields(parent, rest, acc.(attrs := Some(attrs)))
      else if key == "children" && value.JArray? then
        match FromList(value, value.items)
        case None => None
        case Some(children) => FromFields(parent, rest, acc.(children := Present(children)))
      else None
  }

  /** The nodes the elements of the array `parent` describe. */
  function FromList(parent: Json, items: seq<Json>): (r: Option<seq<Node>>)
    requires forall i | 0 <= i < |items| :: items[i] < parent
    ensures r.Some? ==> |r.value| == |items|
    decreases parent, 0, |items|
  {
    if items == [] then Some([])
    else
      match FromJson(items[0])
      case None => None
      case Some(n) =>
        match FromList(parent, items[1..])
        case None => None
        case Some(ns) => Some([n] + ns)
  }

  /** Every node read back from JSON is well-formed: a text node has no
      other field, at any depth. */
  lemma {:induction false} FromJsonWellFormed(j: Json)
    ensures FromJson(j).Some? ==> WellFormed(FromJson(j).value)
    decreases j, 2
  {
    if j.JObject? {
      FromFieldsWellFormed(j, j.fields, Node(None, None, Absent, None));
    }
  }

  lemma {:induction false} FromFieldsWellFormed(parent: Json, fields: seq<(String, Json)>, acc: Node)
    requires forall i | 0 <= i < |fields| :: fields[i].1 < parent
    requires WellFormed(acc) && acc.text.None?
    ensures FromFields(parent, fields, acc).Some? ==> WellFormed(FromFields(parent, fields, acc).value)
    decreases parent, 1, |fields|
  {
    if fields != [] {
      var (key, value) := fields[0];
      var rest := fields[1..];
      if key == "tag" && value.JString? {
        FromFieldsWellFormed(parent, rest, acc.(tag := Some(value.str)));
      } else if key == "attrs" && value.JObject? {
        match AttrsFromJson(value.fields) {
          case None =>
          case Some(attrs) => FromFieldsWellFormed(parent, rest, acc.(attrs := Some(attrs)));
        }
      } else if key == "children" && value.JArray? {
        match FromList(value, value.items) {
          case None =>
          case Some(children) =>
            FromListWellFormed(value, value.items);
            FromFieldsWellFormed(parent, rest, acc.(children := Present(children)));
        }
      }
    }
  }

  lemma {:induction false} FromListWellFormed(parent: Json, items: seq<Json>)
    requires forall i | 0 <= i < |items| :: items[i] < parent
    ensures FromList(parent, items).Some? ==>
      forall i | 0 <= i < |FromList(parent, items).value| :: WellFormed(FromList(parent, items).value[i])
    decreases parent, 0, |items|
  {
    if items != [] {
      FromJsonWellFormed(items[0]);
      FromListWellFormed(parent, items[1..]);
    }
  }

  /** `FromFields` does not depend on the object it is told it reads. */
  lemma {:induction false} FromFieldsFrame(p: Json, q: Json, fields: seq<(String, Json)>, acc: Node)
    requires forall i | 0 <= i < |fields| :: fields[i].1 < p && fields[i].1 < q
    ensures FromFields(p, fields, acc) == FromFields(q, fields, acc)
    decreases |fields|
  {
    if fields != [] {
      var (key, value) := fields[0];
      var rest := fields[1..];
      FromFieldsFrame(p, q, rest, acc.(tag := if value.JString? then Some(value.str) else None));
      match AttrsFromJson(if value.JObject? then value.fields else []) {
        case None =>
        case Some(attrs) => FromFieldsFrame(p, q, rest, acc.(attrs := Some(attrs)));
      }
      if value.JArray? {
        match FromList(value, value.items) {
          case None =>
          case Some(children) => FromFieldsFrame(p, q, rest, acc.(children := Present(children)));
        }
      }
    }
  }

  /** `FromList` does not depend on the array it is told it reads. */
  lemma {:induction false} FromListFrame(p: Json, q: Json, items: seq<Json>)
    requires forall i | 0 <= i < |items| :: items[i] < p && items[i] < q
    ensures FromList(p, items) == FromList(q, items)
    decreases |items|
  {
    if items != [] {
      FromListFrame(p, q, items[1..]);
    }
  }

  lemma {:induction false} AttrsRoundTrip(attrs: seq<(String, String)>)
    ensures AttrsFromJson(AttrsToJson(attrs)) == Some(attrs)
  {
    if attrs != [] {
      AttrsRoundTrip(attrs[1..]);
      var fs := AttrsToJson(attrs);
      assert fs[1..] == AttrsToJson(attrs[1..]);
      assert [(attrs[0].0, attrs[0].1)] + attrs[1..] == attrs;
    }
  }

  function TagField(n: Node): seq<(String, Json)> {
    if n.tag.Some? then [("tag", JString(n.tag.value))] else []
  }

  function AttrsField(n: Node): seq<(String, Json)> {
    if n.attrs.Some? then [("attrs", JObject(AttrsToJson(n.attrs.value)))] else []
  }

  function ChildrenField(n: Node): seq<(String, Json)>
    decreases n, 0
  {
    if n.children.Present? then [("children", JArray(ToJsonList(n.children.nodes)))] else []
  }

  /** The JSON form of a well-formed node describes exactly that node: the
      serialisation loses nothing. */
  lemma {:induction false} JsonRoundTrip(n: Node)
    requires WellFormed(n)
    ensures FromJson(ToJson(n)) == Some(n)
    decreases n, 4
  {
    if n.text.None? {
      var j := ToJson(n);
      var all := TagField(n) + (AttrsField(n) + ChildrenField(n));
      assert j == JObject(all);
      assert forall i | 0 <= i < |all| :: all[i].1 < j by {
        forall i | 0 <= i < |all| ensures all[i].1 < j {
          assert all[i] in all;
        }
      }
      DecodeFields(j, n, all);
    }
  }

  lemma {:induction false} DecodeFields(j: Json, n: Node, all: seq<(String, Json)>)
    requires WellFormed(n) && n.text.None?
    requires all == TagField(n) + (AttrsField(n) + ChildrenField(n))
    requires forall i | 0 <= i < |all| :: all[i].1 < j
    ensures FromFields(j, all, Node(None, None, Absent, None)) == Some(n)
    decreases n, 3
  {
    var ac := AttrsField(n) + ChildrenField(n);
    assert ac == all[|TagField(n)|..];
    DecodeAttrsChildren(j, n, ac);
    if n.tag.Some? {
      assert all[1..] == ac;
    }
  }

  lemma {:induction false} DecodeAttrsChildren(j: Json, n: Node, ac: seq<(String, Json)>)
    requires WellFormed(n) && n.text.None?
    requires ac == AttrsField(n) + ChildrenField(n)
    requires forall i | 0 <= i < |ac| :: ac[i].1 < j
    ensures FromFields(j, ac, Node(n.tag, None, Absent, None)) == Some(n)
    decreases n, 2
  {
    var c := ChildrenField(n);
    assert c == ac[|AttrsField(n)|..];
    DecodeChildren(j, n, c);
    if n.attrs.Some? {
      AttrsRoundTrip(n.attrs.value);
      assert ac[1..] == c;
    }
  }

  lemma {:induction false} DecodeChildren(j: Json, n: Node, c: seq<(String, Json)>)
    requires WellFormed(n) && n.text.None?
    requires c == ChildrenField(n)
    requires forall i | 0 <= i < |c| :: c[i].1 < j
    ensures FromFields(j, c, Node(n.tag, n.attrs, Absent, None)) == Some(n)
    decreases n, 1
  {
    if n.children.Present? {
      ListRoundTrip(n.children.nodes);
      assert c[1..] == [];
    }
  }

  lemma {:induction false} ListRoundTrip(ns: seq<Node>)
    requires forall i | 0 <= i < |ns| :: WellFormed(ns[i])
    ensures FromList(JArray(ToJsonList(ns)), ToJsonList(ns)) == Some(ns)
    decreases ns, 0
  {
    if ns != [] {
      var js := ToJsonList(ns);
      var p := JArray(js);
      JsonRoundTrip(ns[0]);
      assert FromJson(js[0]) == Some(ns[0]);
      ListRoundTrip(ns[1..]);
      assert js[1..] == ToJsonList(ns[1..]);
      FromListFrame(p, JArray(js[1..]), js[1..]);
      assert FromList(p, js[1..]) == Some(ns[1..]);
      assert FromList(p, js) == Some([ns[0]] + ns[1..]);
      assert [ns[0]] + ns[1..] == ns;
    }
  }

  /** A text node serialises to nothing but its text, whatever else it
      holds; a node without text serialises to an object. */
  lemma {:induction false} ToJsonShape(n: Node)
    ensures n.text.Some? <==> ToJson(n).JString?
    ensures n.text.Some? ==> ToJson(n) == JString(n.text.value)
  {
  }
}

=== FILE: text_to_dom.dfy ===
/** `TextToDomConverter`: turns plain tweet text into Telegraph paragraph
    nodes, turning URLs into links, and checks article titles. */
module TextToDom {
  import opened Wrappers
  import opened KText
  import opened Patterns
  import opened TelegraphModels

  /** 64 KiB, the Telegraph content limit. */
  const MaxContentLength: nat := 64 * 1024
  const MaxTitleLength: nat := 256

  /** `ArticleContentTooLongException` and `ArticleInvalidContentException`. */
  datatype ArticleError = ContentTooLong | InvalidContent

  // ---------------------------------------------------------------------
  // Lines

  /** Successive URL matches of `line` from `last` on: each starts no
      earlier than the previous one ended. */
  predicate ValidSpans(line: String, spans: seq<(nat, nat)>, last: nat)
    decreases |spans|
  {
    spans == [] ||
      (last <= spans[0].0 < spans[0].1 <= |line|
       && MatchAt(Url, line, spans[0].0) == Some(spans[0].1)
       && ValidSpans(line, spans[1..], spans[0].1))
  }

  /** `findAll` yields such matches. */
  lemma {:induction false} FindAllValid(line: String, from: nat)
    requires from <= |line|
    ensures ValidSpans(line, FindAll(Url, line, from), from)
    decreases |line| - from
  {
    match FindFrom(Url, line, from)
    case None =>
    case Some((a, b)) =>
      FindAllValid(line, b);
      assert FindAll(Url, line, from) == [(a, b)] + FindAll(Url, line, b);
  }

  /** The nodes for the part of a line from `last` on, given the URL matches
      still to come: the text before each match when non-empty, then a link
      whose href and only child are the URL; after the last match, the rest
      of the line when non-empty. */
  function Segments(line: String, spans: seq<(nat, nat)>, last: nat): seq<Node>
    requires last <= |line| && ValidSpans(line, spans, last)
    decreases |spans|
  {
    if spans == [] then
      (if last < |line| then [Text(line[last..])] else [])
    else
      var a := spans[0].0;
      var b := spans[0].1;
      (if a > last then [Text(line[last..a])] else [])
      + [Link(line[a..b], [Text(line[a..b])])]
      + Segments(line, spans[1..], b)
  }

  /** `processLineContent`: a line without URLs is one text node. */
  function LineContent(line: String): seq<Node>
  {
    var spans := FindAll(Url, line, 0);
    FindAllValid(line, 0);
    if spans == [] then [Text(line)] else Segments(line, spans, 0)
  }

  /** `processParagraph` over the lines still to go: each non-empty trimmed
      line contributes its content, and every line but the last is followed
      by a line break. */
  function LinesContent(lines: seq<String>): seq<Node>
  {
    if lines == [] then []
    else
      LineNodes(lines[0])
      + (if |lines| > 1 then [LineBreak()] + LinesContent(lines[1..]) else [])
  }

  /** One line of a paragraph: trimmed, and dropped when that leaves it empty. */
  function LineNodes(raw: String): seq<Node>
  {
    var line := Trim(raw);
    if line != [] then LineContent(line) else []
  }

  /** `processParagraph`. */
  function ParagraphContent(paragraph: String): seq<Node>
  {
    LinesContent(Split(paragraph, "\n"))
  }

  // ---------------------------------------------------------------------
  // Paragraphs and the whole text

  /** The non-blank `\n\n` chunks, trimmed, in order. */
  function Paragraphs(chunks: seq<String>): (ps: seq<String>)
    ensures |ps| <= |chunks|
    ensures forall i | 0 <= i < |ps| :: !IsBlank(ps[i])
  {
    if chunks == [] then []
    else if IsBlank(chunks[0]) then Paragraphs(chunks[1..])
    else
      TrimIdempotent(chunks[0]);
      [Trim(chunks[0])] + Paragraphs(chunks[1..])
  }

  /** `validateContent`: length is checked before blankness. */
  function ValidateContent(text: String): (r: Option<ArticleError>)
    ensures r == Some(ContentTooLong) <==> |text| > MaxContentLength
    ensures r == Some(InvalidContent) <==> |text| <= MaxContentLength && IsBlank(text)
  {
    if |text| > MaxContentLength then Some(ContentTooLong)
    else if IsBlank(text) then Some(InvalidContent)
    else None
  }

  /** One "p" node per paragraph; `ParagraphNodesAt` states which. */
  function ParagraphNodes(ps: seq<String>): (ns: seq<Node>)
    ensures |ns| == |ps|
  {
    if ps == [] then [] else [Paragraph(ParagraphContent(ps[0]))] + ParagraphNodes(ps[1..])
  }

  /** The i-th node holds the content of the i-th paragraph. */
  lemma {:induction false} ParagraphNodesAt(ps: seq<String>)
    ensures forall i | 0 <= i < |ps| :: ParagraphNodes(ps)[i] == Paragraph(ParagraphContent(ps[i]))
  {
    if ps != [] {
      ParagraphNodesAt(ps[1..]);
      assert forall i | 1 <= i < |ps| :: ps[i] == ps[1..][i - 1];
    }
  }

  /** Paragraph selection distributes over concatenation of chunk lists. */
  lemma {:induction false} ParagraphsAppend(a: seq<String>, b: seq<String>)
    ensures Paragraphs(a + b) == Paragraphs(a) + Paragraphs(b)
  {
    if a != [] {
      assert (a + b)[0] == a[0];
      assert (a + b)[1..] == a[1..] + b;
      ParagraphsAppend(a[1..], b);
    } else {
      assert a + b == b;
    }
  }

  /** A single chunk gives nothing when blank, else itself trimmed. */
  lemma ParagraphsOne(c: String)
    ensures Paragraphs([c]) == if IsBlank(c) then [] else [Trim(c)]
  {
    assert [c][1..] == [];
  }

  /** `convertTextToNodes`. The "no valid paragraphs" failure cannot occur
      once validation has passed (see `NonBlankHasParagraph`). */
  function ConvertTextToNodes(text: String): (r: Result<seq<Node>, ArticleError>)
    ensures r == Failure(ContentTooLong) <==> |text| > MaxContentLength
    ensures r == Failure(InvalidContent) <==> |text| <= MaxContentLength && IsBlank(text)
    ensures r.Success? <==> |text| <= MaxContentLength && !IsBlank(text)
    ensures r.Success? ==> r.value == ParagraphNodes(Paragraphs(Split(text, "\n\n")))
    ensures r.Success? ==>
      |r.value| >= 1
      && forall i | 0 <= i < |r.value| :: r.value[i].tag == Some("p") && r.value[i].children.Present?
  {
    match ValidateContent(text)
    case Some(e) => Failure(e)
    case None =>
      var paragraphs := Paragraphs(Split(text, "\n\n"));
      NonBlankHasParagraph(text);
      ParagraphNodesAt(paragraphs);
      if paragraphs == [] then Failure(InvalidContent)
      else Success(ParagraphNodes(paragraphs))
  }

  /** Joining blank pieces with a blank delimiter gives blank text. */
  lemma {:induction false} JoinBlank(parts: seq<String>, sep: String)
    requires IsBlank(sep)
    requires forall i | 0 <= i < |parts| :: IsBlank(parts[i])
    ensures IsBlank(Join(parts, sep))
  {
    if |parts| > 1 {
      JoinBlank(parts[1..], sep);
      var rest := Join(parts[1..], sep);
      var j := parts[0] + sep + rest;
      forall k | 0 <= k < |j| ensures IsWhitespace(j[k]) {
        if k < |parts[0]| {
          assert j[k] == parts[0][k];
        } else if k < |parts[0]| + |sep| {
          assert j[k] == sep[k - |parts[0]|];
        } else {
          assert j[k] == rest[k - |parts[0]| - |sep|];
        }
      }
    }
  }

  /** A chunk list whose paragraph list is empty holds only blank chunks. */
  lemma {:induction false} NoParagraphsAllBlank(chunks: seq<String>)
    requires Paragraphs(chunks) == []
    ensures forall i | 0 <= i < |chunks| :: IsBlank(chunks[i])
  {
    if chunks != [] {
      NoParagraphsAllBlank(chunks[1..]);
      assert forall i | 1 <= i < |chunks| :: chunks[i] == chunks[1..][i - 1];
    }
  }

  /** Text that is not blank has at least one non-blank `\n\n` chunk. */
  lemma {:induction false} NonBlankHasParagraph(text: String)
    ensures !IsBlank(text) ==> Paragraphs(Split(text, "\n\n")) != []
  {
    var chunks := Split(text, "\n\n");
    if Paragraphs(chunks) == [] {
      NoParagraphsAllBlank(chunks);
      JoinBlank(chunks, "\n\n");
      JoinSplit(text, "\n\n");
    }
  }

  /** `validateTitle`: blankness is checked first, then the untrimmed
      length; the title comes back trimmed. */
  function ValidateTitle(title: String): (r: Result<String, ArticleError>)
    ensures r == Failure(InvalidContent) <==> IsBlank(title)
    ensures r == Failure(ContentTooLong) <==> !IsBlank(title) && |title| > MaxTitleLength
    ensures r.Success? ==> r.value == Trim(title) && r.value != [] && |r.value| <= MaxTitleLength
  {
    if IsBlank(title) then Failure(InvalidContent)
    else if |title| > MaxTitleLength then Failure(ContentTooLong)
    else Success(Trim(title))
  }

  // ---------------------------------------------------------------------
  // What the nodes say

  /** The text a reader sees: text nodes give their text, a line break
      gives a newline, any other element the text of its children. */
  function NodeText(n: Node): String
    decreases n, 1
  {
    if n.text.Some? then n.text.value
    else if n.tag == Some("br") then "\n"
    else if n.children.Present? then NodesText(n.children.nodes)
    else ""
  }

  function NodesText(ns: seq<Node>): String
    decreases ns, 0
  {
    if ns == [] then [] else NodeText(ns[0]) + NodesText(ns[1..])
  }

  lemma {:induction false} NodesTextAppend(xs: seq<Node>, ys: seq<Node>)
    ensures NodesText(xs + ys) == NodesText(xs) + NodesText(ys)
  {
    if xs != [] {
      NodesTextAppend(xs[1..], ys);
      assert (xs + ys)[0] == xs[0];
      assert (xs + ys)[1..] == xs[1..] + ys;
    } else {
      assert xs + ys == ys;
    }
  }

  /** The segments of a line, read back, are exactly the rest of the line. */
  lemma {:induction false} SegmentsText(line: String, spans: seq<(nat, nat)>, last: nat)
    requires last <= |line| && ValidSpans(line, spans, last)
    ensures NodesText(Segments(line, spans, last)) == line[last..]
    decreases |spans|
  {
    if spans == [] {
      if last < |line| {
        assert NodesText([Text(line[last..])]) == line[last..];
      }
    } else {
      var a := spans[0].0;
      var b := spans[0].1;
      SegmentsText(line, spans[1..], b);
      assert Segments(line, spans, last) ==
        (if a > last then [Text(line[last..a])] else [])
        + [Link(line[a..b], [Text(line[a..b])])]
        + Segments(line, spans[1..], b);
      StepText(line, last, a, b, Segments(line, spans[1..], b));
    }
  }

  lemma {:induction false} StepText(line: String, last: nat, a: nat, b: nat, rest: seq<Node>)
    requires last <= a < b <= |line| && NodesText(rest) == line[b..]
    ensures NodesText((if a > last then [Text(line[last..a])] else [])
      + [Link(line[a..b], [Text(line[a..b])])] + rest) == line[last..]
  {
    var url := line[a..b];
    var before: seq<Node> := if a > last then [Text(line[last..a])] else [];
    var link := [Link(url, [Text(url)])];
    NodesTextAppend(before, link);
    NodesTextAppend(before + link, rest);
    assert NodesText([Text(url)]) == url;
    assert NodesText(link) == url;
    assert NodesText(before) == line[last..a];
    assert line[last..] == line[last..a] + url + line[b..];
  }

  /** A line's nodes read back as the line itself: no character is lost,
      added or moved when URLs become links. */
  lemma {:induction false} LineContentText(line: String)
    ensures NodesText(LineContent(line)) == line
  {
    var spans := FindAll(Url, line, 0);
    FindAllValid(line, 0);
    if spans == [] {
      assert NodesText([Text(line)]) == line;
    } else {
      SegmentsText(line, spans, 0);
    }
  }

  /** A link whose only child is a text node showing its href. */
  predicate IsLinkToItself(n: Node) {
    n.tag == Some("a") && n.text.None? && n.attrs.Some? && |n.attrs.value| == 1
    && n.attrs.value[0].0 == "href"
    && n.children == Present([Text(n.attrs.value[0].1)])
  }

  /** `u` is the whole URL match starting at `a` in `line`. */
  predicate UrlAt(line: String, a: nat, u: String) {
    a <= |line| && MatchAt(Url, line, a) == Some(a + |u|) && line[a..a + |u|] == u
  }

  /** What a line may turn into: plain text nodes, and links to a URL
      matched in that line, shown as themselves. */
  predicate LineNode(line: String, n: Node) {
    (n.text.Some? && n == Text(n.text.value))
    || (IsLinkToItself(n) && exists a: nat | a <= |line| :: UrlAt(line, a, n.attrs.value[0].1))
  }

  lemma {:induction false} SegmentsShape(line: String, spans: seq<(nat, nat)>, last: nat)
    requires last <= |line| && ValidSpans(line, spans, last)
    ensures forall i | 0 <= i < |Segments(line, spans, last)| ::
      LineNode(line, Segments(line, spans, last)[i])
    decreases |spans|
  {
    if spans != [] {
      var a := spans[0].0;
      var b := spans[0].1;
      SegmentsShape(line, spans[1..], b);
      var url := line[a..b];
      var before: seq<Node> := if a > last then [Text(line[last..a])] else [];
      assert Segments(line, spans, last) == before + [Link(url, [Text(url)])] + Segments(line, spans[1..], b);
      assert UrlAt(line, a, url);
      assert LineNode(line, Link(url, [Text(url)]));
    }
  }

  /** Each node of a line is plain text or a link to a URL matched in that
      line whose visible text is that same URL. */
  lemma {:induction false} LineContentShape(line: String)
    ensures forall i | 0 <= i < |LineContent(line)| :: LineNode(line, LineContent(line)[i])
  {
    var spans := FindAll(Url, line, 0);
    FindAllValid(line, 0);
    if spans != [] {
      SegmentsShape(line, spans, 0);
    }
  }

  /** Counts the line-break nodes. */
  function CountBreaks(ns: seq<Node>): nat
  {
    if ns == [] then 0 else (if ns[0].tag == Some("br") then 1 else 0) + CountBreaks(ns[1..])
  }

  lemma {:induction false} CountBreaksAppend(xs: seq<Node>, ys: seq<Node>)
    ensures CountBreaks(xs + ys) == CountBreaks(xs) + CountBreaks(ys)
  {
    if xs != [] {
      CountBreaksAppend(xs[1..], ys);
      assert (xs + ys)[0] == xs[0];
      assert (xs + ys)[1..] == xs[1..] + ys;
    } else {
      assert xs + ys == ys;
    }
  }

  /** Line content holds no line break: only text nodes and links. */
  lemma {:induction false} LineContentHasNoBreak(line: String)
    ensures CountBreaks(LineContent(line)) == 0
  {
    LineContentShape(line);
    NoBreakAmong(LineContent(line));
  }

  lemma {:induction false} NoBreakAmong(ns: seq<Node>)
    requires forall i | 0 <= i < |ns| :: ns[i].tag != Some("br")
    ensures CountBreaks(ns) == 0
  {
    if ns != [] {
      NoBreakAmong(ns[1..]);
    }
  }

  lemma {:induction false} LineNodesFacts(raw: String)
    ensures CountBreaks(LineNodes(raw)) == 0
    ensures NodesText(LineNodes(raw)) == Trim(raw)
  {
    var line := Trim(raw);
    if line != [] {
      LineContentHasNoBreak(line);
      LineContentText(line);
    }
  }

  lemma {:induction false} LinesContentUnfold(lines: seq<String>)
    requires lines != []
    ensures |lines| == 1 ==> LinesContent(lines) == LineNodes(lines[0])
    ensures |lines| > 1 ==>
      LinesContent(lines) == LineNodes(lines[0]) + ([LineBreak()] + LinesContent(lines[1..]))
  {
    if |lines| == 1 {
      assert LinesContent(lines) == LineNodes(lines[0]) + [];
    }
  }

  /** `k` lines give exactly `k - 1` line breaks. */
  lemma {:induction false} LinesContentBreaks(lines: seq<String>)
    requires lines != []
    ensures CountBreaks(LinesContent(lines)) == |lines| - 1
  {
    LineNodesFacts(lines[0]);
    LinesContentUnfold(lines);
    if |lines| > 1 {
      LinesContentBreaks(lines[1..]);
      var tail := LinesContent(lines[1..]);
      CountBreaksAppend(LineNodes(lines[0]), [LineBreak()] + tail);
      CountBreaksAppend([LineBreak()], tail);
    }
  }

  /** The lines' nodes read back as the trimmed lines joined by newlines. */
  lemma {:induction false} LinesContentText(lines: seq<String>)
    requires lines != []
    ensures NodesText(LinesContent(lines)) == Join(TrimAll(lines), "\n")
  {
    LineNodesFacts(lines[0]);
    LinesContentUnfold(lines);
    if |lines| > 1 {
      LinesContentText(lines[1..]);
      assert TrimAll(lines) == [Trim(lines[0])] + TrimAll(lines[1..]);
      BreakJoinText(LineNodes(lines[0]), LinesContent(lines[1..]), Trim(lines[0]), TrimAll(lines[1..]));
    } else {
      assert TrimAll(lines) == [Trim(lines[0])];
    }
  }

  lemma {:induction false} BreakJoinText(first: seq<Node>, tail: seq<Node>, t: String, rest: seq<String>)
    requires |rest| >= 1
    requires NodesText(first) == t && NodesText(tail) == Join(rest, "\n")
    ensures NodesText(first + ([LineBreak()] + tail)) == Join([t] + rest, "\n")
  {
    NodesTextAppend(first, [LineBreak()] + tail);
    NodesTextAppend([LineBreak()], tail);
    assert NodesText([LineBreak()]) == "\n";
    JoinCons(t, rest, "\n");
  }

  function TrimAll(lines: seq<String>): (r: seq<String>)
    ensures |r| == |lines|
    ensures forall i | 0 <= i < |lines| :: r[i] == Trim(lines[i])
  {
    if lines == [] then [] else [Trim(lines[0])] + TrimAll(lines[1..])
  }

  /** A paragraph of `k` lines holds exactly `k - 1` line breaks and reads
      back as its lines, each trimmed, joined by newlines. */
  lemma {:induction false} ParagraphContentShape(paragraph: String)
    ensures CountBreaks(ParagraphContent(paragraph)) == |Split(paragraph, "\n")| - 1
    ensures NodesText(ParagraphContent(paragraph)) == Join(TrimAll(Split(paragraph, "\n")), "\n")
  {
    LinesContentBreaks(Split(paragraph, "\n"));
    LinesContentText(Split(paragraph, "\n"));
  }

  // ---------------------------------------------------------------------
  // The result serialises faithfully

  lemma {:induction false} LineNodeWellFormed(line: String, n: Node)
    requires LineNode(line, n)
    ensures WellFormed(n)
  {
    if !n.text.Some? {
      assert WellFormed(Text(n.attrs.value[0].1));
    }
  }

  lemma {:induction false} LineNodesWellFormed(raw: String)
    ensures forall i | 0 <= i < |LineNodes(raw)| :: WellFormed(LineNodes(raw)[i])
  {
    var line := Trim(raw);
    if line != [] {
      LineContentShape(line);
      forall i | 0 <= i < |LineContent(line)| ensures WellFormed(LineContent(line)[i]) {
        LineNodeWellFormed(line, LineContent(line)[i]);
      }
    }
  }

  lemma {:induction false} LinesContentWellFormed(lines: seq<String>)
    ensures forall i | 0 <= i < |LinesContent(lines)| :: WellFormed(LinesContent(lines)[i])
  {
    if lines != [] {
      LineNodesWellFormed(lines[0]);
      LinesContentUnfold(lines);
      if |lines| > 1 {
        LinesContentWellFormed(lines[1..]);
        assert WellFormed(LineBreak());
      }
    }
  }

  /** Every node the conversion produces is well formed, so its Telegraph
      JSON form reads back as the same node (`JsonRoundTrip`). */
  lemma {:induction false} ConvertedWellFormed(text: String)
    requires ConvertTextToNodes(text).Success?
    ensures forall i | 0 <= i < |ConvertTextToNodes(text).value| ::
      WellFormed(ConvertTextToNodes(text).value[i])
      && FromJson(ToJson(ConvertTextToNodes(text).value[i])) == Some(ConvertTextToNodes(text).value[i])
  {
    var ns := ConvertTextToNodes(text).value;
    var ps := Paragraphs(Split(text, "\n\n"));
    assert ns == ParagraphNodes(ps);
    ParagraphNodesAt(ps);
    forall i | 0 <= i < |ns| ensures WellFormed(ns[i]) && FromJson(ToJson(ns[i])) == Some(ns[i]) {
      LinesContentWellFormed(Split(ps[i], "\n"));
      assert WellFormed(ns[i]);
      JsonRoundTrip(ns[i]);
    }
  }
}

=== FILE: translation.dfy ===
/** `twitterx.translation.api`: the languages the bot translates into and
    the result of a translation. */
module Translation {
  import opened Wrappers
  import opened KText

  /** `Language`, in declaration order. */
  datatype Language = English | Ukrainian | Russian

  /** `Language.entries`. */
  const Languages: seq<Language> := [English, Ukrainian, Russian]

  /** `Language.iso`. */
  function Iso(l: Language): (code: String)
    ensures |code| == 2
  {
    match l
    case English => "en"
    case Ukrainian => "uk"
    case Russian => "ru"
  }

  /** The language whose ISO code is `code`, if any. */
  function LanguageOfIso(code: String): (l: Option<Language>)
    ensures l.Some? ==> Iso(l.value) == code
  {
    if code == "en" then Some(English)
    else if code == "uk" then Some(Ukrainian)
    else if code == "ru" then Some(Russian)
    else None
  }

  /** Every language is listed once, and each code names its language back. */
  lemma {:induction false} LanguagesListed(l: Language)
    ensures l in Languages
    ensures LanguageOfIso(Iso(l)) == Some(l)
  {
  }

  /** The codes are distinct. */
  lemma {:induction false} IsoInjective(a: Language, b: Language)
    ensures Iso(a) == Iso(b) <==> a == b
  {
  }

  /** `Translation`: the translated text, the target language and the
      source language as the translator reported it. */
  datatype Translation = Translation(text: String, to: Language, from: String)

  /** `Translation.isSameLanguage`: the reported source code names the
      target language. */
  predicate IsSameLanguage(t: Translation): (b: bool)
    ensures b <==> LanguageOfIso(t.from) == Some(t.to)
  {
    Iso(t.to) == t.from
  }

  /** A translation is into its own source language exactly when the
      reported source code names the target language; the text plays no
      part, and for a given source at most one target matches. */
  lemma {:induction false} SameLanguageOfCode(t: Translation, other: Translation)
    ensures IsSameLanguage(t) <==> LanguageOfIso(t.from) == Some(t.to)
    ensures other.to == t.to && other.from == t.from ==> (IsSameLanguage(other) <==> IsSameLanguage(t))
    ensures IsSameLanguage(t) && IsSameLanguage(other) && t.from == other.from ==> t.to == other.to
  {
  }
}

=== FILE: tweet_sender.dfy ===
/** `TweetSender`: how a thread of tweets becomes Telegram messages. The
    translator, the article service and the Telegram client are parameters;
    every call to Telegram is recorded as a `Post`, and the client answers
    a post with the id of the (first) message it created, or `None` on any
    failure. Chat actions and the one-second pauses are not modelled. */
module TweetSender {
  import opened Wrappers
  import opened KText
  import opened Translation
  import opened TwitterModels
  import opened Localization

  const MessageMaxLength: nat := 4096
  const CaptionMaxLength: nat := 1024

  /** A call to the Telegram client. */
  datatype Post =
    | SendMessage(chatId: int, text: String, replyTo: Option<int>)
    | SendPhoto(chatId: int, photo: String, caption: String, replyTo: Option<int>)
    | SendVideo(chatId: int, video: String, caption: String, replyTo: Option<int>)
    | SendMediaGroup(chatId: int, photos: seq<String>, videos: seq<String>, caption: String, replyTo: Option<int>)

  /** The text a post shows, as message or caption. */
  function PostText(p: Post): String {
    match p
    case SendMessage(_, text, _) => text
    case SendPhoto(_, _, caption, _) => caption
    case SendVideo(_, _, caption, _) => caption
    case SendMediaGroup(_, _, _, caption, _) => caption
  }

  /** The photos and then the videos a post attaches. */
  function PostMedia(p: Post): seq<String> {
    match p
    case SendMessage(_, _, _) => []
    case SendPhoto(_, photo, _, _) => [photo]
    case SendVideo(_, video, _, _) => [video]
    case SendMediaGroup(_, photos, videos, _, _) => photos + videos
  }

  /** The collaborators: the localization service (`getMessage`, which
      the application backs with `Localization.GetMessage`), the translator
      (`None` on failure), the article service (`None` on failure) and the
      Telegram client. */
  datatype Env = Env(
    message: (MessageKey, Language, seq<(String, String)>) -> String,
    translate: (String, Language) -> Option<Translation>,
    createArticle: String -> Option<String>,
    post: Post -> Option<int>)

  predicate HasMedia(t: Tweet) {
    |t.mediaUrls| > 0 || |t.videoUrls| > 0
  }

  /** The length limit of the text of a tweet's message. */
  function LimitOf(t: Tweet): (n: nat)
    ensures n == (if HasMedia(t) then CaptionMaxLength else MessageMaxLength)
  {
    if HasMedia(t) then CaptionMaxLength else MessageMaxLength
  }

  // ---------------------------------------------------------------------
  // Text

  /** The text of a message limited to `limit` characters (`sendTweet`,
      first half): the header and the content, or, when that is longer than
      the limit, the header and a link to an article holding the content,
      or, when the article cannot be created, the text cut to the limit
      with an ellipsis. The limit is the caption limit for a tweet with
      media and the message limit otherwise. */
  function Fit(env: Env, limit: nat, header: String, content: String): (r: String)
    requires limit >= 3
    ensures var full := header + "\n\n" + content;
      && (|full| <= limit ==> r == full)
      && (|full| > limit && env.createArticle(content).Some? ==>
            r == header + "\n\n" + env.createArticle(content).value)
      && (|full| > limit && env.createArticle(content).None? ==>
            |r| == limit && r == full[..limit - 3] + "...")
  {
    var full := header + "\n\n" + content;
    if |full| > limit then
      match env.createArticle(content)
      case Some(url) => header + "\n\n" + url
      case None => Take(full, limit - 3) + "..."
    else full
  }

  /** Unless an article link is used, the text always fits the limit, and
      it begins with the header when the header leaves room for the
      ellipsis. */
  lemma {:induction false} FitBounds(env: Env, limit: nat, header: String, content: String)
    requires limit >= 3
    ensures var full := header + "\n\n" + content;
      var r := Fit(env, limit, header, content);
      && (|full| <= limit || env.createArticle(content).None? ==> |r| <= limit)
      && (|header| <= limit - 3 ==> StartsWith(r, header))
  {
    var full := header + "\n\n" + content;
    var r := Fit(env, limit, header, content);
    if |header| <= limit - 3 {
      if |full| > limit && env.createArticle(content).None? {
        assert r[..|header|] == full[..limit - 3][..|header|];
        assert full[..|header|] == header;
      } else if |full| > limit {
        assert r == header + ("\n\n" + env.createArticle(content).value);
      } else {
        assert full == header + ("\n\n" + content);
      }
    }
  }

  /** The Telegram call for a tweet (`sendTweet`, second half): photos and
      videos together as one media group; a single photo or video on its
      own; several of one kind as a media group; no media as a text
      message. */
  function Dispatch(t: Tweet, chatId: int, text: String, replyTo: Option<int>): (p: Post)
    ensures p.chatId == chatId && p.replyTo == replyTo && PostText(p) == text
  {
    if |t.mediaUrls| > 0 && |t.videoUrls| > 0 then SendMediaGroup(chatId, t.mediaUrls, t.videoUrls, text, replyTo)
    else if |t.mediaUrls| > 0 then
      if |t.mediaUrls| == 1 then SendPhoto(chatId, t.mediaUrls[0], text, replyTo)
      else SendMediaGroup(chatId, t.mediaUrls, [], text, replyTo)
    else if |t.videoUrls| > 0 then
      if |t.videoUrls| == 1 then SendVideo(chatId, t.videoUrls[0], text, replyTo)
      else SendMediaGroup(chatId, [], t.videoUrls, text, replyTo)
    else SendMessage(chatId, text, replyTo)
  }

  /** Every photo and video of the tweet is attached, photos first, and
      the kind of call follows the media alone. */
  lemma {:induction false} DispatchKeepsMedia(t: Tweet, chatId: int, text: String, replyTo: Option<int>)
    ensures PostMedia(Dispatch(t, chatId, text, replyTo)) == t.mediaUrls + t.videoUrls
    ensures Dispatch(t, chatId, text, replyTo).SendMessage? <==> !HasMedia(t)
    ensures Dispatch(t, chatId, text, replyTo).SendPhoto? <==> |t.mediaUrls| == 1 && |t.videoUrls| == 0
    ensures Dispatch(t, chatId, text, replyTo).SendVideo? <==> |t.mediaUrls| == 0 && |t.videoUrls| == 1
  {
    if |t.videoUrls| == 0 {
      assert t.mediaUrls + t.videoUrls == t.mediaUrls;
    }
    if |t.mediaUrls| == 0 {
      assert t.mediaUrls + t.videoUrls == t.videoUrls;
    }
    if |t.mediaUrls| == 1 {
      assert t.mediaUrls == [t.mediaUrls[0]];
    }
    if |t.videoUrls| == 1 {
      assert t.videoUrls == [t.videoUrls[0]];
    }
  }

  /** `translateTweetContent`: empty content stays empty; a failed
      translation or one into the tweet's own language keeps the content;
      otherwise the translation, tagged with the target code, comes before
      the original, tagged with the source code. */
  function TranslateContent(env: Env, content: String, l: Language): (r: String)
    ensures EndsWith(r, content)
  {
    if content == [] then []
    else
      match env.translate(content, l)
      case None => content
      case Some(tr) =>
        if IsSameLanguage(tr) then content
        else
          var tag := "[" + Upper(Iso(tr.to)) + "] " + tr.text + "\n\n[" + Upper(tr.from) + "] ";
          assert (tag + content)[|tag|..] == content;
          tag + content
  }

  /** The content is shown untranslated exactly when it is empty, the
      translator fails, or the text is already in the target language. */
  lemma {:induction false} TranslateContentKept(env: Env, content: String, l: Language)
    ensures TranslateContent(env, content, l) == content <==>
      content == [] || env.translate(content, l).None? || IsSameLanguage(env.translate(content, l).value)
  {
    if content != [] && env.translate(content, l).Some? && !IsSameLanguage(env.translate(content, l).value) {
      TranslateContentLeads(env, content, l);
    }
  }

  /** Otherwise the translation leads, tagged with its target code, and
      the original follows after a blank line, tagged with its source
      code: `[TO] translation`, blank line, `[FROM] original`. */
  lemma {:induction false} TranslateContentLeads(env: Env, content: String, l: Language)
    requires content != [] && env.translate(content, l).Some? && !IsSameLanguage(env.translate(content, l).value)
    ensures var tr := env.translate(content, l).value;
      StartsWith(TranslateContent(env, content, l), "[" + Upper(Iso(tr.to)) + "] " + tr.text)
    ensures var tr := env.translate(content, l).value;
      TranslateContent(env, content, l)
      == "[" + Upper(Iso(tr.to)) + "] " + tr.text + "\n\n[" + Upper(tr.from) + "] " + content
    ensures |TranslateContent(env, content, l)| > |content|
  {
    var tr := env.translate(content, l).value;
    var head := "[" + Upper(Iso(tr.to)) + "] " + tr.text;
    var tail := "\n\n[" + Upper(tr.from) + "] " + content;
    assert TranslateContent(env, content, l) == head + tail;
  }

  // ---------------------------------------------------------------------
  // Headers

  /** `" by <from>"` when a requester is named. */
  function BySuffix(from: Option<String>): String {
    if from.Some? then " by " + from.value else []
  }

  /** The parameters of the `tweet.from` message, in the source's order. */
  function HeaderParameters(t: Tweet): seq<(String, String)> {
    [("username", RemovePrefix(t.username, "@")),
     ("fullName", t.fullName),
     ("url", TweetUrl(t)),
     ("userUrl", AccountUrl(AccountOf(t)))]
  }

  /** `formatTweetHeader`. */
  function FormatHeader(env: Env, t: Tweet, l: Language, from: Option<String>): (r: String)
    ensures from.Some? ==> EndsWith(r, " by " + from.value)
    ensures StartsWith(r, env.message(TweetFrom, l, HeaderParameters(t)))
  {
    var header := env.message(TweetFrom, l, HeaderParameters(t));
    assert (header + BySuffix(from))[..|header|] == header;
    assert from.Some? ==> (header + BySuffix(from))[|header|..] == " by " + from.value;
    header + BySuffix(from)
  }

  /** The parameters of the `tweet.retweet_by` message, in the source's
      order; the author's profile is linked on twitter.com. */
  function RetweetParameters(t: Tweet, who: Account): seq<(String, String)> {
    [("retweeterUrl", AccountUrl(who)),
     ("retweeter", RemovePrefix(who.username, "@")),
     ("username", RemovePrefix(t.username, "@")),
     ("userUrl", "https://twitter.com/" + RemovePrefix(t.username, "@")),
     ("tweetUrl", TweetUrl(t))]
  }

  /** The header of a retweet (`sendRetweetThread`). */
  function RetweetHeader(env: Env, t: Tweet, who: Account, l: Language, from: Option<String>): (r: String)
    ensures from.Some? ==> EndsWith(r, " by " + from.value)
    ensures StartsWith(r, env.message(TweetRetweetBy, l, RetweetParameters(t, who)))
  {
    var header := env.message(TweetRetweetBy, l, RetweetParameters(t, who));
    assert (header + BySuffix(from))[..|header|] == header;
    assert from.Some? ==> (header + BySuffix(from))[|header|..] == " by " + from.value;
    header + BySuffix(from)
  }

  /** Naming the requester only appends ` by <from>` to the plain header. */
  lemma {:induction false} HeaderWithRequester(env: Env, t: Tweet, who: Account, l: Language, from: String)
    ensures FormatHeader(env, t, l, Some(from)) == FormatHeader(env, t, l, None) + " by " + from
    ensures RetweetHeader(env, t, who, l, Some(from)) == RetweetHeader(env, t, who, l, None) + " by " + from
  {
    var h := env.message(TweetFrom, l, HeaderParameters(t));
    assert h + [] == h;
    var g := env.message(TweetRetweetBy, l, RetweetParameters(t, who));
    assert g + [] == g;
  }

  // ---------------------------------------------------------------------
  // Threads

  /** The text `sendSingleTweet` sends for one tweet. */
  function SingleText(env: Env, t: Tweet, l: Language, from: Option<String>): String {
    Fit(env, LimitOf(t), FormatHeader(env, t, l, from), TranslateContent(env, t.content, l))
  }

  /** The post that `sendSingleTweet` makes for one tweet. */
  function SinglePost(env: Env, t: Tweet, chatId: int, l: Language, replyTo: Option<int>, from: Option<String>): (p: Post)
    ensures p.chatId == chatId && p.replyTo == replyTo
    ensures PostMedia(p) == t.mediaUrls + t.videoUrls
  {
    var text := SingleText(env, t, l, from);
    DispatchKeepsMedia(t, chatId, text, replyTo);
    Dispatch(t, chatId, text, replyTo)
  }

  /** The posts a thread made and the message id it reports. */
  datatype Delivery = Delivery(posts: seq<Post>, messageId: Option<int>)

  /** Builds the post for one tweet from the message it answers and the
      requester to name. */
  type Maker = (Tweet, Option<int>, Option<String>) -> Post

  /** The post maker of `sendSingleTweet` for one chat and language. */
  function SinglePoster(env: Env, chatId: int, l: Language): Maker {
    (t: Tweet, replyTo: Option<int>, from: Option<String>) => SinglePost(env, t, chatId, l, replyTo, from)
  }

  /** The message the k-th post answers: `replyTo` for the first, the
      message the previous post created for the others. */
  function Answered(post: Post -> Option<int>, replyTo: Option<int>, d: Delivery, k: nat): Option<int>
    requires k <= |d.posts|
  {
    if k == 0 then replyTo else post(d.posts[k - 1])
  }

  /** Whom the k-th of `n` posts names as requester: only the last. */
  function RequesterAt(from: Option<String>, n: nat, k: nat): Option<String> {
    if k == n - 1 then from else None
  }

  /** The loop of `sendReplyThread`: each tweet answers the message of the
      one before, the first answers `replyTo`, and only the last names the
      requester; the id of the last message is reported. */
  function Chain(make: Maker, post: Post -> Option<int>, tweets: seq<Tweet>,
                 replyTo: Option<int>, from: Option<String>): (d: Delivery)
    ensures |d.posts| == |tweets|
    ensures tweets == [] ==> d.messageId == replyTo
    ensures tweets != [] ==> d.messageId == post(d.posts[|tweets| - 1])
    decreases |tweets|
  {
    if tweets == [] then Delivery([], replyTo)
    else
      var p := make(tweets[0], replyTo, RequesterAt(from, |tweets|, 0));
      var rest := Chain(make, post, tweets[1..], post(p), from);
      Delivery([p] + rest.posts, rest.messageId)
  }

  /** The k-th post is made for the k-th tweet, answering the message the
      previous post created (the first answers `replyTo`), with the
      requester named on the last post only. */
  predicate MadeInTurn(make: Maker, post: Post -> Option<int>, tweets: seq<Tweet>,
                       replyTo: Option<int>, from: Option<String>, d: Delivery)
  {
    && |d.posts| == |tweets|
    && forall k | 0 <= k < |tweets| ::
         d.posts[k] == make(tweets[k], Answered(post, replyTo, d, k), RequesterAt(from, |tweets|, k))
  }

  /** The chain makes its posts in turn. */
  lemma {:induction false} ChainPosts(make: Maker, post: Post -> Option<int>, tweets: seq<Tweet>,
                                      replyTo: Option<int>, from: Option<String>)
    ensures MadeInTurn(make, post, tweets, replyTo, from, Chain(make, post, tweets, replyTo, from))
    decreases |tweets|
  {
    if tweets != [] {
      var d := Chain(make, post, tweets, replyTo, from);
      var p := make(tweets[0], replyTo, RequesterAt(from, |tweets|, 0));
      var rest := Chain(make, post, tweets[1..], post(p), from);
      ChainPosts(make, post, tweets[1..], post(p), from);
      assert d.posts == [p] + rest.posts;
      forall k | 1 <= k < |tweets|
        ensures d.posts[k] == make(tweets[k], Answered(post, replyTo, d, k), RequesterAt(from, |tweets|, k))
      {
        assert d.posts[k] == rest.posts[k - 1] && tweets[k] == tweets[1..][k - 1];
        if k == 1 {
          assert d.posts[0] == p;
        } else {
          assert d.posts[k - 1] == rest.posts[k - 2];
        }
      }
    }
  }

  function Reversed<T>(s: seq<T>): (r: seq<T>)
    ensures |r| == |s|
    ensures forall i | 0 <= i < |s| :: r[i] == s[|s| - 1 - i]
  {
    if s == [] then [] else Reversed(s[1..]) + [s[0]]
  }

  /** The tweets of a reply thread in the order they are sent: the quoted
      tweet if any, then the parents from the root down, then the reply. */
  function ReplyOrder(quoted: Option<Tweet>, replies: seq<Tweet>, tweet: Tweet): (order: seq<Tweet>)
    ensures |order| == (if quoted.Some? then 1 else 0) + |replies| + 1
    ensures order[|order| - 1] == tweet
  {
    (if quoted.Some? then [quoted.value] else []) + Reversed(replies) + [tweet]
  }

  /** The quoted tweet leads, the root parent comes next (or first), and
      every parent comes after the one it replies to. */
  lemma {:induction false} ReplyOrderParents(quoted: Option<Tweet>, replies: seq<Tweet>, tweet: Tweet)
    ensures quoted.Some? ==> ReplyOrder(quoted, replies, tweet)[0] == quoted.value
    ensures var off := if quoted.Some? then 1 else 0;
      forall i | off <= i < off + |replies| :: ReplyOrder(quoted, replies, tweet)[i] == replies[|replies| - 1 - (i - off)]
  {
  }

  /** `sendTweetThread`. */
  function SendThread(env: Env, thread: TweetsThread, chatId: int, l: Language,
                      replyTo: Option<int>, from: Option<String>): (d: Delivery)
    ensures |d.posts| >= 1
    ensures d.messageId == env.post(d.posts[|d.posts| - 1])
  {
    match thread
    case Single(t) =>
      var p := SinglePost(env, t, chatId, l, replyTo, from);
      Delivery([p], env.post(p))
    case Reply(t, replies, quoted) =>
      Chain(SinglePoster(env, chatId, l), env.post, ReplyOrder(quoted, replies, t), replyTo, from)
    case QuoteThread(t, original) =>
      var first := SinglePost(env, original, chatId, l, replyTo, None);
      var second := SinglePost(env, t, chatId, l, env.post(first), from);
      Delivery([first, second], env.post(second))
    case RetweetThread(t, who) =>
      var p := RetweetPost(env, t, who, chatId, l, replyTo, from);
      Delivery([p], env.post(p))
  }

  /** The post of `sendRetweetThread`: the retweet header over the
      retweeted tweet's translated content. */
  function RetweetPost(env: Env, t: Tweet, who: Account, chatId: int, l: Language,
                       replyTo: Option<int>, from: Option<String>): (p: Post)
    ensures p.chatId == chatId && p.replyTo == replyTo
    ensures PostMedia(p) == t.mediaUrls + t.videoUrls
  {
    var text := Fit(env, LimitOf(t), RetweetHeader(env, t, who, l, from), TranslateContent(env, t.content, l));
    DispatchKeepsMedia(t, chatId, text, replyTo);
    Dispatch(t, chatId, text, replyTo)
  }

  /** The tweets a thread shows, in the order they are posted. */
  function ThreadTweets(thread: TweetsThread): seq<Tweet> {
    match thread
    case Single(t) => [t]
    case Reply(t, replies, quoted) => ReplyOrder(quoted, replies, t)
    case QuoteThread(t, original) => [original, t]
    case RetweetThread(t, _) => [t]
  }

  /** One post per tweet, in order, all to `chatId`, each carrying its
      tweet's media; the first answers `replyTo` and each later one the
      message the post before it created. */
  predicate PostsFollow(d: Delivery, ts: seq<Tweet>, replyTo: Option<int>, post: Post -> Option<int>, chatId: int) {
    && |d.posts| == |ts|
    && (forall k | 0 <= k < |d.posts| :: d.posts[k].replyTo == Answered(post, replyTo, d, k))
    && (forall k | 0 <= k < |d.posts| :: PostMedia(d.posts[k]) == ts[k].mediaUrls + ts[k].videoUrls)
    && (forall k | 0 <= k < |d.posts| :: d.posts[k].chatId == chatId)
  }

  /** A maker whose posts go to `chatId`, answer the message they are
      given and attach the tweet's media. */
  ghost predicate MakerKeeps(make: Maker, chatId: int) {
    forall t: Tweet, r: Option<int>, f: Option<String> ::
      make(t, r, f).chatId == chatId && make(t, r, f).replyTo == r
      && PostMedia(make(t, r, f)) == t.mediaUrls + t.videoUrls
  }

  lemma {:induction false} SinglePosterKeeps(env: Env, chatId: int, l: Language)
    ensures MakerKeeps(SinglePoster(env, chatId, l), chatId)
  {
    forall t: Tweet, r: Option<int>, f: Option<String>
      ensures SinglePoster(env, chatId, l)(t, r, f) == SinglePost(env, t, chatId, l, r, f)
    {
    }
  }

  /** Posts made in turn by such a maker answer each other in turn and
      carry their tweets' media. */
  lemma {:induction false} InTurnFollows(make: Maker, post: Post -> Option<int>, tweets: seq<Tweet>,
                      replyTo: Option<int>, from: Option<String>, d: Delivery, chatId: int)
    requires MadeInTurn(make, post, tweets, replyTo, from, d)
    requires MakerKeeps(make, chatId)
    ensures PostsFollow(d, tweets, replyTo, post, chatId)
  {
  }

  /** Outside retweets, the k-th post is the single-tweet post of the k-th
      tweet shown, answering the message of the post before it, and the
      requester is named in the last one only. */
  lemma {:induction false} SendThreadInTurn(env: Env, thread: TweetsThread, chatId: int, l: Language,
                         replyTo: Option<int>, from: Option<String>)
    requires !thread.RetweetThread?
    ensures MadeInTurn(SinglePoster(env, chatId, l), env.post, ThreadTweets(thread), replyTo, from,
                       SendThread(env, thread, chatId, l, replyTo, from))
  {
    var d := SendThread(env, thread, chatId, l, replyTo, from);
    var make := SinglePoster(env, chatId, l);
    match thread
    case Single(t) =>
      assert make(t, replyTo, from) == d.posts[0];
    case Reply(t, replies, quoted) =>
      ChainPosts(make, env.post, ReplyOrder(quoted, replies, t), replyTo, from);
    case QuoteThread(t, original) =>
      assert make(original, replyTo, None) == d.posts[0];
      assert make(t, env.post(d.posts[0]), from) == d.posts[1];
  }

  /** Every thread is sent as one post per tweet it shows, chained by
      replies. */
  lemma {:induction false} SendThreadPosts(env: Env, thread: TweetsThread, chatId: int, l: Language,
                        replyTo: Option<int>, from: Option<String>)
    ensures PostsFollow(SendThread(env, thread, chatId, l, replyTo, from), ThreadTweets(thread), replyTo, env.post, chatId)
  {
    var d := SendThread(env, thread, chatId, l, replyTo, from);
    if thread.RetweetThread? {
      RetweetThreadPosts(env, thread, chatId, l, replyTo, from);
    } else {
      SendThreadInTurn(env, thread, chatId, l, replyTo, from);
      SinglePosterKeeps(env, chatId, l);
      InTurnFollows(SinglePoster(env, chatId, l), env.post, ThreadTweets(thread), replyTo, from, d, chatId);
    }
  }

  lemma {:induction false} RetweetThreadPosts(env: Env, thread: TweetsThread, chatId: int, l: Language,
                           replyTo: Option<int>, from: Option<String>)
    requires thread.RetweetThread?
    ensures PostsFollow(SendThread(env, thread, chatId, l, replyTo, from), ThreadTweets(thread), replyTo, env.post, chatId)
  {
    var d := SendThread(env, thread, chatId, l, replyTo, from);
    var t := thread.tweet;
    var p := RetweetPost(env, t, thread.whoRetweeted, chatId, l, replyTo, from);
    assert d == Delivery([p], env.post(p));
    assert ThreadTweets(thread) == [t];
    OnePostFollows(d, t, replyTo, env.post, chatId);
  }

  lemma {:induction false} OnePostFollows(d: Delivery, t: Tweet, replyTo: Option<int>, post: Post -> Option<int>, chatId: int)
    requires |d.posts| == 1
    requires d.posts[0].replyTo == replyTo && d.posts[0].chatId == chatId
    requires PostMedia(d.posts[0]) == t.mediaUrls + t.videoUrls
    ensures PostsFollow(d, [t], replyTo, post, chatId)
  {
    assert Answered(post, replyTo, d, 0) == replyTo;
  }
}

=== FILE: twitter_models.dfy ===
/** The provider-independent tweet model (`twitterx.twitter.api`): tweets,
    accounts, threads and the errors the providers report. */
module TwitterModels {
  import opened Wrappers
  import opened KText

  /** `Tweet`. The creation time is not part of this model. */
  datatype Tweet = Tweet(
    id: String,
    username: String,
    fullName: String,
    content: String,
    mediaUrls: seq<String>,
    videoUrls: seq<String>,
    replyToTweetId: Option<String>,
    retweetOfTweetId: Option<String>,
    quoteTweetId: Option<String>,
    profileImageUrl: Option<String>,
    language: Option<String>,
    hashtags: seq<String>,
    mentions: seq<String>,
    urls: seq<String>)

  /** `TwitterAccount`. */
  datatype Account = Account(username: String, name: String)

  const XBase: String := "https://x.com/"

  /** `Tweet.tweetUrl`: on x.com, ending in `/status/` and the id. */
  function TweetUrl(t: Tweet): (url: String)
    ensures StartsWith(url, XBase) && EndsWith(url, "/status/" + t.id)
  {
    XBase + t.username + "/status/" + t.id
  }

  predicate IsReply(t: Tweet) { t.replyToTweetId.Some? }

  predicate IsQuote(t: Tweet) { t.quoteTweetId.Some? }

  predicate IsRetweet(t: Tweet) { t.retweetOfTweetId.Some? }

  /** `Tweet.account`: the author as an account. */
  function AccountOf(t: Tweet): (a: Account)
    ensures a.username == t.username && a.name == t.fullName
  {
    Account(t.username, t.fullName)
  }

  /** `TwitterAccount.url`: the user name can be read back after the
      x.com prefix. */
  function AccountUrl(a: Account): (url: String)
    ensures StartsWith(url, XBase) && RemovePrefix(url, XBase) == a.username
  {
    XBase + a.username
  }

  /** A tweet's address is its author's profile address followed by
      `/status/` and the tweet id. */
  lemma {:induction false} TweetUrlExtendsAccountUrl(t: Tweet)
    ensures TweetUrl(t) == AccountUrl(AccountOf(t)) + "/status/" + t.id
    ensures StartsWith(TweetUrl(t), AccountUrl(AccountOf(t)))
  {
    var u := TweetUrl(t);
    var a := AccountUrl(AccountOf(t));
    assert u == a + ("/status/" + t.id);
    assert u[..|a|] == a;
  }

  /** `TweetsThread`: the tweet a user asked for, together with the tweets
      needed to show it in context. */
  datatype TweetsThread =
    | Single(tweet: Tweet)
      /** `replies` runs from the direct parent up to the root. */
    | Reply(tweet: Tweet, replies: seq<Tweet>, quotedTweet: Option<Tweet>)
    | RetweetThread(tweet: Tweet, whoRetweeted: Account)
    | QuoteThread(tweet: Tweet, original: Tweet)

  /** `TwitterException`. Messages are not modelled; `Unexpected` stands for
      any other exception `runCatching` turns into a failure. */
  datatype TwitterError =
    | AccountNotFound(username: String)
    | TweetNotFound(tweetId: String)
    | PrivateTweet(tweetId: String)
    | RateLimitExceeded
    | ServiceUnavailable
    | Unknown
    | Unexpected

  /** ktor's `HttpStatusCode.isSuccess()`. */
  predicate IsSuccess(status: int) {
    200 <= status < 300
  }

  const NotFound: int := 404
  const Unauthorized: int := 401
  const TooManyRequests: int := 429
}

=== FILE: twitter_service.dfy ===
/** `TwitterServiceImpl.getTweetThread`: a tweet placed in its thread. The
    providers are parameters (`getTweet`, `getAccount`). The walk up the
    reply chain is bounded by `fuel`: the source follows parent links for as
    long as they lead on, and running out of fuel is reported as
    `Unexpected`. */
module TwitterService {
  import opened Wrappers
  import opened KText
  import opened TwitterModels

  type TweetSource = String -> Result<Tweet, TwitterError>
  type AccountSource = String -> Result<Account, TwitterError>

  /** The parents of a reply, starting with the tweet `id` and following
      `replyToTweetId` until a tweet that replies to nothing. */
  function ReplyChain(getTweet: TweetSource, id: String, fuel: nat): (r: Result<seq<Tweet>, TwitterError>)
    ensures r.Success? ==> 1 <= |r.value| <= fuel
    decreases fuel
  {
    if fuel == 0 then Failure(Unexpected)
    else
      match getTweet(id)
      case Failure(e) => Failure(e)
      case Success(parent) =>
        if parent.replyToTweetId.None? then Success([parent])
        else
          match ReplyChain(getTweet, parent.replyToTweetId.value, fuel - 1)
          case Failure(e) => Failure(e)
          case Success(rest) => Success([parent] + rest)
  }

  /** Each tweet of a chain is the parent the previous one names. */
  predicate Linked(getTweet: TweetSource, id: String, chain: seq<Tweet>) {
    && |chain| >= 1
    && getTweet(id) == Success(chain[0])
    && (forall k | 0 <= k < |chain| - 1 ::
          chain[k].replyToTweetId.Some? && getTweet(chain[k].replyToTweetId.value) == Success(chain[k + 1]))
    && chain[|chain| - 1].replyToTweetId.None?
  }

  /** A chain that was walked to its end starts at `id`, links each tweet
      to the parent it names, and ends at a tweet that replies to nothing. */
  lemma {:induction false} ReplyChainLinked(getTweet: TweetSource, id: String, fuel: nat)
    requires ReplyChain(getTweet, id, fuel).Success?
    ensures Linked(getTweet, id, ReplyChain(getTweet, id, fuel).value)
    decreases fuel
  {
    var chain := ReplyChain(getTweet, id, fuel).value;
    var parent := getTweet(id).value;
    if parent.replyToTweetId.Some? {
      var next := parent.replyToTweetId.value;
      ReplyChainLinked(getTweet, next, fuel - 1);
      var rest := ReplyChain(getTweet, next, fuel - 1).value;
      assert chain == [parent] + rest;
      forall k | 0 <= k < |chain| - 1
        ensures chain[k].replyToTweetId.Some? && getTweet(chain[k].replyToTweetId.value) == Success(chain[k + 1])
      {
        if k > 0 {
          assert chain[k] == rest[k - 1] && chain[k + 1] == rest[k];
        }
      }
    }
  }

  /** A chain that fails reports the failure of the first parent that
      could not be fetched, or runs out of fuel. */
  lemma {:induction false} ReplyChainFailure(getTweet: TweetSource, id: String, fuel: nat)
    requires ReplyChain(getTweet, id, fuel).Failure?
    ensures ReplyChain(getTweet, id, fuel).error == Unexpected
      || exists k: nat | k < fuel :: ChainFailsAt(getTweet, id, k, ReplyChain(getTweet, id, fuel).error)
    decreases fuel
  {
    if fuel > 0 && getTweet(id).Success? {
      var parent := getTweet(id).value;
      var next := parent.replyToTweetId.value;
      ReplyChainFailure(getTweet, next, fuel - 1);
      var e := ReplyChain(getTweet, id, fuel).error;
      assert ReplyChain(getTweet, next, fuel - 1).error == e;
      if e != Unexpected {
        var k: nat :| k < fuel - 1 && ChainFailsAt(getTweet, next, k, e);
        assert ChainFailsAt(getTweet, id, k + 1, e);
        assert exists j: nat | j < fuel :: ChainFailsAt(getTweet, id, j, e);
      }
    } else if fuel > 0 {
      var e := ReplyChain(getTweet, id, fuel).error;
      assert getTweet(id) == Failure(e);
      var first: nat := 0;
      assert first < fuel && ChainFailsAt(getTweet, id, first, e);
      assert exists j: nat | j < fuel :: ChainFailsAt(getTweet, id, j, e);
    } else {
      assert ReplyChain(getTweet, id, 0) == Failure(Unexpected);
    }
  }

  /** Following `k` parent links from `id` succeeds, and the next fetch
      fails with `e`. */
  predicate ChainFailsAt(getTweet: TweetSource, id: String, k: nat, e: TwitterError)
    decreases k
  {
    if k == 0 then getTweet(id) == Failure(e)
    else
      getTweet(id).Success? && getTweet(id).value.replyToTweetId.Some?
      && ChainFailsAt(getTweet, getTweet(id).value.replyToTweetId.value, k - 1, e)
  }

  /** More fuel never changes a walk that finished. */
  lemma {:induction false} ReplyChainFuel(getTweet: TweetSource, id: String, fuel: nat, more: nat)
    requires fuel <= more && ReplyChain(getTweet, id, fuel).Success?
    ensures ReplyChain(getTweet, id, more) == ReplyChain(getTweet, id, fuel)
    decreases fuel
  {
    var parent := getTweet(id).value;
    if parent.replyToTweetId.Some? {
      ReplyChainFuel(getTweet, parent.replyToTweetId.value, fuel - 1, more - 1);
    }
  }

  // ---------------------------------------------------------------------
  // getTweetThread

  /** The tweet quoted by the root of a reply chain, if it can be fetched. */
  function RootQuote(getTweet: TweetSource, replies: seq<Tweet>): (q: Option<Tweet>)
    requires |replies| >= 1
    ensures q.Some? <==>
      replies[|replies| - 1].quoteTweetId.Some? && getTweet(replies[|replies| - 1].quoteTweetId.value).Success?
    ensures q.Some? ==> getTweet(replies[|replies| - 1].quoteTweetId.value) == Success(q.value)
  {
    var last := replies[|replies| - 1];
    if last.quoteTweetId.Some? then getTweet(last.quoteTweetId.value).ToOption() else None
  }

  /** `getTweetThread`. */
  function GetTweetThread(username: String, tweetId: String,
                          getTweet: TweetSource, getAccount: AccountSource, fuel: nat)
    : (r: Result<TweetsThread, TwitterError>)
    ensures r.Success? ==> getTweet(tweetId) == Success(r.value.tweet)
    ensures getTweet(tweetId).Failure? ==> r == Failure(getTweet(tweetId).error)
  {
    match getTweet(tweetId)
    case Failure(e) => Failure(e)
    case Success(tweet) =>
      if tweet.username != username then
        match getAccount(username)
        case Failure(e) => Failure(e)
        case Success(account) => Success(RetweetThread(tweet, account))
      else if tweet.replyToTweetId.Some? then
        match ReplyChain(getTweet, tweet.replyToTweetId.value, fuel)
        case Failure(e) => Failure(e)
        case Success(replies) => Success(Reply(tweet, replies, RootQuote(getTweet, replies)))
      else if tweet.quoteTweetId.Some? then
        match getTweet(tweet.quoteTweetId.value)
        case Failure(e) => Failure(e)
        case Success(original) => Success(QuoteThread(tweet, original))
      else Success(Single(tweet))
  }

  /** The kind of thread follows from the fetched tweet alone: another
      author makes a retweet, checked first; then a reply id makes a reply
      thread, even when the tweet also quotes; then a quote id a quote
      thread; otherwise a single tweet. */
  lemma {:induction false} ThreadKind(username: String, tweetId: String,
                   getTweet: TweetSource, getAccount: AccountSource, fuel: nat)
    requires GetTweetThread(username, tweetId, getTweet, getAccount, fuel).Success?
    ensures var r := GetTweetThread(username, tweetId, getTweet, getAccount, fuel).value;
      var t := getTweet(tweetId).value;
      && (r.RetweetThread? <==> t.username != username)
      && (r.Reply? <==> t.username == username && IsReply(t))
      && (r.QuoteThread? <==> t.username == username && !IsReply(t) && IsQuote(t))
      && (r.Single? <==> t.username == username && !IsReply(t) && !IsQuote(t))
  {
  }

  /** The parts of each kind of thread: the account of the user who
      retweeted; the full parent chain and its root's quote; the quoted
      original. */
  lemma {:induction false} ThreadParts(username: String, tweetId: String,
                    getTweet: TweetSource, getAccount: AccountSource, fuel: nat)
    requires GetTweetThread(username, tweetId, getTweet, getAccount, fuel).Success?
    ensures var r := GetTweetThread(username, tweetId, getTweet, getAccount, fuel).value;
      && (r.RetweetThread? ==> getAccount(username) == Success(r.whoRetweeted))
      && (r.Reply? ==>
            Linked(getTweet, r.tweet.replyToTweetId.value, r.replies)
            && r.quotedTweet == RootQuote(getTweet, r.replies))
      && (r.QuoteThread? ==> getTweet(r.tweet.quoteTweetId.value) == Success(r.original))
  {
    var r := GetTweetThread(username, tweetId, getTweet, getAccount, fuel).value;
    if r.Reply? {
      ReplyChainLinked(getTweet, r.tweet.replyToTweetId.value, fuel);
    }
  }

  /** What fails a thread: the tweet itself, the retweeting account, any
      parent in the chain, or the quoted original of a quote thread. The
      root's quote of a reply chain never does. */
  lemma {:induction false} ThreadFailures(username: String, tweetId: String,
                       getTweet: TweetSource, getAccount: AccountSource, fuel: nat)
    requires getTweet(tweetId).Success?
    ensures var t := getTweet(tweetId).value;
      var r := GetTweetThread(username, tweetId, getTweet, getAccount, fuel);
      && (t.username != username ==> (r.Failure? <==> getAccount(username).Failure?))
      && (t.username == username && IsReply(t) ==>
            (r.Failure? <==> ReplyChain(getTweet, t.replyToTweetId.value, fuel).Failure?))
      && (t.username == username && !IsReply(t) && IsQuote(t) ==>
            (r.Failure? <==> getTweet(t.quoteTweetId.value).Failure?))
      && (t.username == username && !IsReply(t) && !IsQuote(t) ==> r.Success?)
  {
  }
}

=== FILE: update_converter.dfy ===
/** `TelegramUpdateConverter`: turns a raw Bot API update into one of the
    framework's updates, and reads the bot command a message starts with.
    Dereferencing a missing part of the raw update (a message without a
    sender, a callback without its message) and an entity span outside the
    text throw; both are `Failure`s here. */
module UpdateConverter {
  import opened Wrappers
  import opened KText
  import opened TelegramApi

  // ---------------------------------------------------------------------
  // raw Bot API objects

  /** `EntityType.BOTCOMMAND`. */
  const BotCommandType: String := "bot_command"

  /** A message entity: its type and the span of text it covers. */
  datatype Entity = Entity(kind: String, offset: int, length: int)

  datatype User = User(firstName: String)

  datatype RawMessage = RawMessage(
    messageId: int,
    chatId: int,
    text: Option<String>,
    from: Option<User>,
    entities: Option<seq<Entity>>)

  /** The message a callback button belongs to; the Bot API omits it when
      that message is no longer accessible. */
  datatype CallbackMessage = CallbackMessage(chatId: int, messageId: int)

  datatype RawCallbackQuery = RawCallbackQuery(id: String, data: Option<String>, message: Option<CallbackMessage>)

  datatype RawInlineQuery = RawInlineQuery(id: String, query: String)

  datatype RawUpdate = RawUpdate(
    updateId: int,
    message: Option<RawMessage>,
    inlineQuery: Option<RawInlineQuery>,
    callbackQuery: Option<RawCallbackQuery>)

  /** Why a conversion threw. */
  datatype ConvertError = NullReference | IndexOutOfBounds

  // ---------------------------------------------------------------------
  // the command of a message

  /** `String.substring(begin, end)`, which throws unless
      `0 <= begin <= end <= length`. */
  function Substring(s: String, begin: int, end: int): (r: Result<String, ConvertError>)
    ensures r.Success? <==> 0 <= begin <= end <= |s|
    ensures r.Success? ==> |r.value| == end - begin && s[begin..end] == r.value
  {
    if 0 <= begin <= end <= |s| then Success(s[begin..end]) else Failure(IndexOutOfBounds)
  }

  /** `entities.firstOrNull { it.type == BOTCOMMAND }`. */
  function FirstCommandEntity(es: seq<Entity>): (r: Option<Entity>)
    ensures r.Some? ==> exists k | 0 <= k < |es| :: es[k] == r.value && FirstCommandAt(es, k)
    ensures r.None? <==> forall k | 0 <= k < |es| :: es[k].kind != BotCommandType
  {
    var r := FirstCommandFrom(es, 0);
    if r.Some? then
      var k :| 0 <= k < |es| && es[k] == r.value && es[k].kind == BotCommandType &&
               forall j | 0 <= j < k :: es[j].kind != BotCommandType;
      assert FirstCommandAt(es, k);
      r
    else r
  }

  /** The first bot-command entity at or after position `i`. */
  function FirstCommandFrom(es: seq<Entity>, i: nat): (r: Option<Entity>)
    requires i <= |es|
    ensures r.Some? ==> exists k | i <= k < |es| :: es[k] == r.value && es[k].kind == BotCommandType &&
                          forall j | i <= j < k :: es[j].kind != BotCommandType
    ensures r.None? <==> forall k | i <= k < |es| :: es[k].kind != BotCommandType
    decreases |es| - i
  {
    if i == |es| then None
    else if es[i].kind == BotCommandType then Some(es[i])
    else FirstCommandFrom(es, i + 1)
  }

  predicate FirstCommandAt(es: seq<Entity>, k: int)
    requires 0 <= k < |es|
  {
    es[k].kind == BotCommandType && forall j | 0 <= j < k :: es[j].kind != BotCommandType
  }

  /** The command text of the entity, split on '@': `/cmd` names a command
      for any bot, `/cmd@bot` only when `bot` is this bot's username, and
      the command must also begin the message text. */
  function ParseCommandText(commandText: String, text: String, botName: String): (r: Option<Command>)
    ensures r.Some? ==> CommandValue(r.value) == Split(commandText, "@")[0] && StartsWith(text, CommandValue(r.value))
  {
    var parts := Split(commandText, "@");
    if !StartsWith(text, parts[0]) then None
    else if |parts| == 1 then FromValue(parts[0])
    else if |parts| == 2 then (if parts[1] == botName then FromValue(parts[0]) else None)
    else None
  }

  /** The text holds at least two '@'. */
  predicate TwoAts(s: String) {
    exists i, j | 0 <= i < j < |s| :: s[i] == '@' && s[j] == '@'
  }

  /** The three shapes of command text, each with what it yields. */
  lemma {:induction false} ParseCommandTextCases(commandText: String, text: String, botName: String, x: String, y: String)
    ensures '@' !in commandText ==>
      ParseCommandText(commandText, text, botName)
        == (if StartsWith(text, commandText) then FromValue(commandText) else None)
    ensures '@' !in x && '@' !in y && commandText == x + "@" + y ==>
      ParseCommandText(commandText, text, botName)
        == (if StartsWith(text, x) && y == botName then FromValue(x) else None)
    ensures TwoAts(commandText) ==> ParseCommandText(commandText, text, botName) == None
  {
    if '@' !in commandText {
      SplitWithoutAt(commandText);
    }
    if '@' !in x && '@' !in y && commandText == x + "@" + y {
      SplitOneAt(x, y);
    }
    if TwoAts(commandText) {
      SplitTwoAts(commandText);
    }
  }

  lemma {:induction false} NoAtNoOccurrence(s: String)
    requires '@' !in s
    ensures forall k :: !Occurs(s, "@", k)
  {
    forall k ensures !Occurs(s, "@", k) {
      if 0 <= k && k + 1 <= |s| {
        assert s[k..k + 1] == [s[k]];
      }
    }
  }

  lemma {:induction false} SplitWithoutAt(s: String)
    requires '@' !in s
    ensures Split(s, "@") == [s]
  {
    NoAtNoOccurrence(s);
    assert !Occurs(s, "@", IndexOf(s, "@", 0));
  }

  lemma {:induction false} SplitOneAt(x: String, y: String)
    requires '@' !in x && '@' !in y
    ensures Split(x + "@" + y, "@") == [x, y]
  {
    var s := x + "@" + y;
    forall j | 0 <= j < |x| ensures !Occurs(s, "@", j) {
      assert s[j] == x[j];
    }
    assert s[|x|..|x| + 1] == "@";
    IndexOfIs(s, "@", 0, |x|);
    assert s[..|x|] == x;
    assert s[|x| + 1..] == y;
    SplitWithoutAt(y);
  }

  /** After the first '@' of a text with two, another '@' remains. */
  lemma AtAfterFirst(s: String, i: int, j: int) returns (k: int)
    requires 0 <= i < j < |s| && s[i] == '@' && s[j] == '@'
    ensures k == IndexOf(s, "@", 0) && 0 <= k <= i
    ensures Contains(s[k + 1..], "@")
  {
    assert s[i..i + 1] == "@";
    assert Occurs(s, "@", i);
    k := IndexOf(s, "@", 0);
    var rest := s[k + 1..];
    assert rest[j - k - 1..j - k] == "@";
    assert Occurs(rest, "@", j - k - 1);
  }

  lemma {:induction false} SplitTwoAts(s: String)
    requires TwoAts(s)
    ensures |Split(s, "@")| >= 3
  {
    var i, j :| 0 <= i < j < |s| && s[i] == '@' && s[j] == '@';
    var k := AtAfterFirst(s, i, j);
    SplitUnfold(s, "@", k);
  }

  /** `getCommand`: no entities or no text gives no command, as does a
      message without a bot-command entity; an entity span outside the text
      throws; otherwise the covered text is parsed. */
  function GetCommand(m: RawMessage, botName: String): (r: Result<Option<Command>, ConvertError>)
    ensures m.entities.None? || m.text.None? ==> r == Success(None)
    ensures r.Failure? ==> r.error == IndexOutOfBounds
    ensures r == Success(None) || r.Failure? ||
      (m.entities.Some? && m.text.Some? && FirstCommandEntity(m.entities.value).Some? &&
       StartsWith(m.text.value, CommandValue(r.value.value)))
  {
    match (m.entities, m.text)
    case (Some(es), Some(text)) =>
      (match FirstCommandEntity(es)
       case None => Success(None)
       case Some(e) =>
         var commandText :- Substring(text, e.offset, e.offset + e.length);
         Success(ParseCommandText(commandText, text, botName)))
    case _ => Success(None)
  }

  /** A message whose first bot-command entity covers `/cmd` at the start
      of the text yields that command. */
  lemma {:induction false} GetCommandRecognises(c: Command, rest: String, botName: String, first: seq<Entity>)
    requires forall k | 0 <= k < |first| :: first[k].kind != BotCommandType
    ensures var value := CommandValue(c);
      GetCommand(RawMessage(0, 0, Some(value + rest), None,
                            Some(first + [Entity(BotCommandType, 0, |value|)])), botName)
        == Success(Some(c))
  {
    var value := CommandValue(c);
    var text := value + rest;
    var e := Entity(BotCommandType, 0, |value|);
    FirstCommandSkips(first, e);
    GetCommandPrefix(RawMessage(0, 0, Some(text), None, Some(first + [e])), botName, value, rest);
    assert ParseCommandText(value, text, botName) == Some(c) by {
      CommandValueHasNoAt(c);
      FromValueRoundTrip(c, value);
      assert StartsWith(text, value) by {
        assert text[..|value|] == value;
      }
      ParseCommandTextCases(value, text, botName, "", "");
    }
  }

  /** When the first bot-command entity covers a prefix of the text, the
      command is read from exactly that prefix. */
  lemma {:induction false} GetCommandPrefix(m: RawMessage, botName: String, commandText: String, rest: String)
    requires m.text == Some(commandText + rest) && m.entities.Some?
    requires FirstCommandEntity(m.entities.value) == Some(Entity(BotCommandType, 0, |commandText|))
    ensures GetCommand(m, botName) == Success(ParseCommandText(commandText, commandText + rest, botName))
  {
    var text := commandText + rest;
    assert text[0..|commandText|] == commandText;
  }

  /** A message whose first bot-command entity covers `/cmd@other` at the
      start of the text yields the command exactly when `other` is this
      bot's username. */
  lemma {:induction false} GetCommandAddressed(c: Command, rest: String, botName: String, other: String, first: seq<Entity>)
    requires forall k | 0 <= k < |first| :: first[k].kind != BotCommandType
    requires '@' !in other
    ensures var value := CommandValue(c);
      GetCommand(RawMessage(0, 0, Some(value + "@" + other + rest), None,
                            Some(first + [Entity(BotCommandType, 0, |value| + 1 + |other|)])), botName)
        == Success(if other == botName then Some(c) else None)
  {
    var value := CommandValue(c);
    var addressed := value + "@" + other;
    var e := Entity(BotCommandType, 0, |value| + 1 + |other|);
    FirstCommandSkips(first, e);
    var m := RawMessage(0, 0, Some(addressed + rest), None, Some(first + [e]));
    assert e == Entity(BotCommandType, 0, |addressed|);
    GetCommandPrefix(m, botName, addressed, rest);
    ParseAddressed(c, other, rest, botName);
    assert GetCommand(m, botName) == Success(if other == botName then Some(c) else None);
  }

  lemma {:induction false} ParseAddressed(c: Command, other: String, rest: String, botName: String)
    requires '@' !in other
    ensures ParseCommandText(CommandValue(c) + "@" + other, CommandValue(c) + "@" + other + rest, botName)
      == (if other == botName then Some(c) else None)
  {
    var value := CommandValue(c);
    var text := value + "@" + other + rest;
    CommandValueHasNoAt(c);
    FromValueRoundTrip(c, value);
    assert StartsWith(text, value) by {
      assert text[..|value|] == (value + "@" + other)[..|value|] == value;
    }
    ParseCommandTextCases(value + "@" + other, text, botName, value, other);
  }

  lemma {:induction false} FirstCommandSkips(first: seq<Entity>, e: Entity)
    requires forall k | 0 <= k < |first| :: first[k].kind != BotCommandType
    requires e.kind == BotCommandType
    ensures FirstCommandEntity(first + [e]) == Some(e)
  {
    var r := FirstCommandEntity(first + [e]);
    assert (first + [e])[|first|] == e;
    forall j | 0 <= j < |first| ensures (first + [e])[j].kind != BotCommandType {
      assert (first + [e])[j] == first[j];
    }
    var k :| 0 <= k < |first + [e]| && (first + [e])[k] == r.value && FirstCommandAt(first + [e], k);
    assert k == |first|;
  }

  lemma {:induction false} CommandValueHasNoAt(c: Command)
    ensures '@' !in CommandValue(c)
  {
  }

  // ---------------------------------------------------------------------
  // conversion

  /** `convert`: a message wins over an inline query, which wins over a
      callback query; an update with none of them converts to `None`. */
  function Convert(u: RawUpdate, botName: String): (r: Result<Option<Update>, ConvertError>)
    ensures u.message.Some? ==> r.Failure? || (r.value.Some? && r.value.value.MessageUpdate?)
    ensures u.message.None? && u.inlineQuery.Some? ==>
      r == Success(Some(InlineQueryUpdate(u.inlineQuery.value.id, u.inlineQuery.value.query, u.updateId)))
    ensures u.message.None? && u.inlineQuery.None? && u.callbackQuery.Some? ==>
      r.Failure? || (r.value.Some? && r.value.value.CallbackQueryUpdate?)
    ensures u.message.None? && u.inlineQuery.None? && u.callbackQuery.None? ==> r == Success(None)
  {
    if u.message.Some? then
      var m :- MessageUpdateOf(u.message.value, u.updateId, botName);
      Success(Some(m))
    else if u.inlineQuery.Some? then
      Success(Some(InlineQueryUpdate(u.inlineQuery.value.id, u.inlineQuery.value.query, u.updateId)))
    else if u.callbackQuery.Some? then
      var c :- CallbackUpdateOf(u.callbackQuery.value, u.updateId);
      Success(Some(c))
    else
      Success(None)
  }

  /** `toMessageTelegramUpdate`: missing text becomes ""; a message without
      a sender throws. */
  function MessageUpdateOf(m: RawMessage, updateId: int, botName: String): (r: Result<Update, ConvertError>)
    ensures r.Success? <==> m.from.Some? && GetCommand(m, botName).Success?
    ensures r.Success? ==>
      && r.value.MessageUpdate?
      && r.value.text == m.text.GetOr("")
      && r.value.messageId == m.messageId && r.value.chatId == m.chatId
      && r.value.command == GetCommand(m, botName).value
      && r.value.name == m.from.value.firstName && r.value.updateId == updateId
  {
    var command :- GetCommand(m, botName);
    if m.from.None? then Failure(NullReference)
    else Success(MessageUpdate(m.text.GetOr(""), m.messageId, m.chatId, command, m.from.value.firstName, updateId))
  }

  /** `toCallbackQueryTelegramUpdate`: missing data becomes ""; a callback
      whose message is gone throws. */
  function CallbackUpdateOf(q: RawCallbackQuery, updateId: int): (r: Result<Update, ConvertError>)
    ensures r.Success? <==> q.message.Some?
    ensures r.Success? ==> r.value == CallbackQueryUpdate(q.id, q.data.GetOr(""), q.message.value.chatId,
                                                          q.message.value.messageId, updateId)
    ensures r.Failure? ==> r.error == NullReference
  {
    if q.message.None? then Failure(NullReference)
    else Success(CallbackQueryUpdate(q.id, q.data.GetOr(""), q.message.value.chatId, q.message.value.messageId, updateId))
  }

  /** A plain text message with a sender converts, carries its text (or ""
      when there is none) and no command. */
  lemma {:induction false} PlainMessageConverts(u: RawUpdate, botName: String)
    requires u.message.Some? && u.message.value.from.Some? && u.message.value.entities.None?
    ensures Convert(u, botName).Success?
    ensures Convert(u, botName).value == Some(MessageUpdate(u.message.value.text.GetOr(""), u.message.value.messageId,
      u.message.value.chatId, None, u.message.value.from.value.firstName, u.updateId))
  {
  }
}

=== FILE: wrappers.dfy ===
/** Failure-compatible wrappers used across the model.

    Kotlin code in the bot signals absence with `null` and failure with
    `kotlin.Result` or a thrown exception; the model writes both explicitly.
 */
module Wrappers {

  /** A value that may be absent (a Kotlin nullable). */
  datatype Option<+T> = None | Some(value: T) {

    predicate IsFailure() {
      None?
    }

    function PropagateFailure<U>(): Option<U>
      requires None?
    {
      None
    }

    function Extract(): T
      requires Some?
    {
      value
    }

    /** The Kotlin elvis operator `x ?: default`. */
    function GetOr(default: T): T {
      match this
      case Some(v) => v
      case None => default
    }
  }

  /** Either a value or an error (a Kotlin `Result` or a thrown exception). */
  datatype Result<+R, +E> = Success(value: R) | Failure(error: E) {

    predicate IsFailure() {
      Failure?
    }

    function PropagateFailure<U>(): Result<U, E>
      requires Failure?
    {
      Failure(error)
    }

    function Extract(): R
      requires Success?
    {
      value
    }

    /** `getOrNull()` of `kotlin.Result`. */
    function ToOption(): Option<R> {
      match this
      case Success(v) => Some(v)
      case Failure(_) => None
    }
  }
}

=== FILE: ytdlp_models.dfy ===
/** `YtDlpModels`: the downloader's configuration, the video information
    it reads, and the detection of a URL's platform.

    The three platform expressions are used with `containsMatchIn` and
    `IGNORE_CASE`; Kotlin's `Regex` adds `UNICODE_CASE` to it, so a text
    character matches a small pattern letter when lower-casing its
    upper-case form gives that letter: the ASCII capitals, and also the
    Kelvin sign (for `k`), dotted capital I and dotless small i (for `i`)
    and the long s (for `s`). `\w` is `[a-zA-Z0-9_]` and `.` is any character but a line terminator. A
    match anywhere is what counts, so each expression is written as the
    set of strings it needs to find at some position:

    - `https?://(?:www\.)?youtube\.com/shorts/[\w-]+`: one of four
      prefixes followed by at least one `[\w-]` character;
    - `https://.*\.tiktok\.com/.*`: `https://`, a run without line
      terminators, then `.tiktok.com/` (the trailing `.*` may be empty);
    - `https://www\.instagram\.com/reels?/[\w-]+`: one of two prefixes
      followed by at least one `[\w-]` character.
 */
module YtDlpModels {
  import opened Wrappers
  import opened KText
  import Patterns

  /** `YtDlpConfig`; durations in milliseconds. */
  datatype YtDlpConfig = YtDlpConfig(
    executablePath: String,
    outputFormat: String,
    maxFileSize: String,
    videoPath: String,
    timeoutMillis: nat,
    cleanupMillis: nat,
    cookiesFile: String)

  /** A configuration that gives only the two required values. */
  function DefaultConfig(executablePath: String, cookiesFile: String): (c: YtDlpConfig)
    ensures c.executablePath == executablePath && c.cookiesFile == cookiesFile
    ensures c.outputFormat == "mp4" && c.maxFileSize == "50M" && c.videoPath == ".tmp/videos"
    ensures c.timeoutMillis == 120000 && c.cleanupMillis == 300000
  {
    YtDlpConfig(executablePath, "mp4", "50M", ".tmp/videos", 2 * 60 * 1000, 5 * 60 * 1000, cookiesFile)
  }

  /** `YtDlpResult`: the outcome of a finished process. */
  datatype YtDlpResult = YtDlpResult(success: bool, exitCode: int, output: String, error: String)

  /** `YtDlpVideoInfo`; `duration` is in whole seconds. */
  datatype YtDlpVideoInfo = YtDlpVideoInfo(
    id: Option<String>,
    title: Option<String>,
    duration: Option<int>,
    uploader: Option<String>,
    format: Option<String>,
    filesize: Option<int>,
    ext: Option<String>,
    url: Option<String>,
    webpageUrl: Option<String>,
    extractor: Option<String>)

  /** `VideoPlatform`. */
  datatype VideoPlatform = YouTubeShorts | TikTok | InstagramReels | UnknownPlatform

  /** `VideoPlatform.name`. */
  function PlatformName(p: VideoPlatform): String {
    match p
    case YouTubeShorts => "YOUTUBE_SHORTS"
    case TikTok => "TIKTOK"
    case InstagramReels => "INSTAGRAM_REELS"
    case UnknownPlatform => "UNKNOWN"
  }

  // ---------------------------------------------------------------------
  // matching

  /** Case folding as `CASE_INSENSITIVE | UNICODE_CASE` applies it to a text
      character compared with a small ASCII pattern letter: lower case of
      upper case. Only the characters that land on an ASCII letter are
      listed; every other character folds to a non-ASCII one or to itself,
      and the patterns hold ASCII only. */
  function FoldChar(c: char): char {
    if 'A' <= c <= 'Z' then (c as int + 32) as char
    else if c == '\U{212A}' then 'k'
    else if c == '\U{0130}' || c == '\U{0131}' then 'i'
    else if c == '\U{017F}' then 's'
    else c
  }

  /** The characters that fold to a small ASCII letter are that letter, its
      capital, and the four non-ASCII characters that case mapping sends to
      `k`, `i` or `s`. */
  lemma FoldCharOnto(d: char, c: char)
    requires 'a' <= c <= 'z'
    ensures FoldChar(d) == c <==>
      d == c || d == UpperChar(c)
      || (c == 'k' && d == '\U{212A}')
      || (c == 'i' && (d == '\U{0130}' || d == '\U{0131}'))
      || (c == 's' && d == '\U{017F}')
  {
  }

  /** The lower-case literal `lit` occurs at `i`, ignoring case. */
  predicate LiteralAt(s: String, i: nat, lit: String) {
    i + |lit| <= |s| && forall k | 0 <= k < |lit| :: FoldChar(s[i + k]) == lit[k]
  }

  /** `[\w-]`. */
  predicate IsSlugChar(c: char) {
    Patterns.IsWordChar(c) || c == '-'
  }

  /** A line terminator, which `.` does not match. */
  predicate IsLineTerminator(c: char) {
    c == '\n' || c == '\r' || c == '\U{0085}' || c == '\U{2028}' || c == '\U{2029}'
  }

  /** A prefix followed by at least one `[\w-]` character at `i`. */
  predicate PrefixThenSlug(s: String, i: nat, prefix: String) {
    LiteralAt(s, i, prefix) && i + |prefix| < |s| && IsSlugChar(s[i + |prefix|])
  }

  const ShortsPrefixes: seq<String> := [
    "http://youtube.com/shorts/", "https://youtube.com/shorts/",
    "http://www.youtube.com/shorts/", "https://www.youtube.com/shorts/"]

  const ReelsPrefixes: seq<String> := [
    "https://www.instagram.com/reel/", "https://www.instagram.com/reels/"]

  /** `PlatformPattern`, in declaration order. */
  datatype PlatformPattern = ShortsPattern | TikTokPattern | ReelsPattern

  const PlatformPatterns: seq<PlatformPattern> := [ShortsPattern, TikTokPattern, ReelsPattern]

  /** `PlatformPattern.platform`. */
  function PatternPlatform(p: PlatformPattern): VideoPlatform {
    match p
    case ShortsPattern => YouTubeShorts
    case TikTokPattern => TikTok
    case ReelsPattern => InstagramReels
  }

  /** A TikTok match from `i` to the start `j` of `.tiktok.com/`. */
  predicate TikTokSpan(s: String, i: nat, j: nat) {
    i + 8 <= j && LiteralAt(s, i, "https://") && LiteralAt(s, j, ".tiktok.com/")
    && forall k | i + 8 <= k < j :: !IsLineTerminator(s[k])
  }

  /** `pattern.containsMatchIn(url)`. The shortest text any pattern finds
      is `https://.tiktok.com/`, so a shorter URL never matches. */
  predicate ContainsMatch(p: PlatformPattern, url: String): (b: bool)
    ensures b ==> |url| >= 20
  {
    MatchLength(p, url);
    match p
    case ShortsPattern =>
      exists i, k | 0 <= i <= |url| && 0 <= k < |ShortsPrefixes| :: PrefixThenSlug(url, i, ShortsPrefixes[k])
    case TikTokPattern =>
      exists i, j | 0 <= i <= j <= |url| :: TikTokSpan(url, i, j)
    case ReelsPattern =>
      exists i, k | 0 <= i <= |url| && 0 <= k < |ReelsPrefixes| :: PrefixThenSlug(url, i, ReelsPrefixes[k])
  }

  /** The step behind `ContainsMatch`'s contract: each literal a match
      starts with is long enough. */
  lemma {:induction false} MatchLength(p: PlatformPattern, url: String)
    ensures p.ShortsPattern? && (exists i, k | 0 <= i <= |url| && 0 <= k < |ShortsPrefixes| :: PrefixThenSlug(url, i, ShortsPrefixes[k]))
      ==> |url| >= 20
    ensures p.TikTokPattern? && (exists i, j | 0 <= i <= j <= |url| :: TikTokSpan(url, i, j)) ==> |url| >= 20
    ensures p.ReelsPattern? && (exists i, k | 0 <= i <= |url| && 0 <= k < |ReelsPrefixes| :: PrefixThenSlug(url, i, ReelsPrefixes[k]))
      ==> |url| >= 20
  {
    if p.ShortsPattern? && exists i, k | 0 <= i <= |url| && 0 <= k < |ShortsPrefixes| :: PrefixThenSlug(url, i, ShortsPrefixes[k]) {
      var i, k :| 0 <= i <= |url| && 0 <= k < |ShortsPrefixes| && PrefixThenSlug(url, i, ShortsPrefixes[k]);
      assert |ShortsPrefixes[k]| >= 26;
    }
    if p.ReelsPattern? && exists i, k | 0 <= i <= |url| && 0 <= k < |ReelsPrefixes| :: PrefixThenSlug(url, i, ReelsPrefixes[k]) {
      var i, k :| 0 <= i <= |url| && 0 <= k < |ReelsPrefixes| && PrefixThenSlug(url, i, ReelsPrefixes[k]);
      assert |ReelsPrefixes[k]| >= 31;
    }
  }

  /** Every pattern opens with an `http` scheme, so a match needs one
      somewhere in the URL. */
  lemma {:induction false} MatchNeedsHttp(p: PlatformPattern, url: String)
    requires ContainsMatch(p, url)
    ensures exists i | 0 <= i <= |url| :: LiteralAt(url, i, "http")
  {
    match p
    case ShortsPattern =>
      var i, k :| 0 <= i <= |url| && 0 <= k < |ShortsPrefixes| && PrefixThenSlug(url, i, ShortsPrefixes[k]);
      HttpOpens(url, i, ShortsPrefixes[k]);
    case TikTokPattern =>
      var i, j :| 0 <= i <= j <= |url| && TikTokSpan(url, i, j);
      HttpOpens(url, i, "https://");
    case ReelsPattern =>
      var i, k :| 0 <= i <= |url| && 0 <= k < |ReelsPrefixes| && PrefixThenSlug(url, i, ReelsPrefixes[k]);
      HttpOpens(url, i, ReelsPrefixes[k]);
  }

  /** A literal found at `i` that begins with `http` puts `http` at `i`. */
  lemma {:induction false} HttpOpens(url: String, i: nat, lit: String)
    requires LiteralAt(url, i, lit) && |lit| >= 4 && lit[..4] == "http"
    ensures LiteralAt(url, i, "http")
  {
    forall k | 0 <= k < 4 ensures FoldChar(url[i + k]) == "http"[k] {
      assert lit[k] == lit[..4][k];
    }
  }

  /** The index of the first pattern from `from` on that matches `url`. */
  function FirstMatching(patterns: seq<PlatformPattern>, url: String, from: nat): (r: Option<nat>)
    requires from <= |patterns|
    ensures r.Some? ==> from <= r.value < |patterns| && ContainsMatch(patterns[r.value], url)
    ensures forall k | from <= k < (if r.Some? then r.value else |patterns|) :: !ContainsMatch(patterns[k], url)
    decreases |patterns| - from
  {
    if from == |patterns| then None
    else if ContainsMatch(patterns[from], url) then Some(from)
    else FirstMatching(patterns, url, from + 1)
  }

  /** `PlatformDetector.detectPlatform`: the platform of the first pattern,
      in declaration order, that occurs in the URL. */
  function DetectPlatform(url: String): (r: VideoPlatform)
    ensures r == UnknownPlatform <==> forall p :: !ContainsMatch(p, url)
    ensures r != UnknownPlatform ==> exists p :: PatternPlatform(p) == r && ContainsMatch(p, url)
  {
    PatternsListed();
    match FirstMatching(PlatformPatterns, url, 0)
    case Some(k) => PatternPlatform(PlatformPatterns[k])
    case None => UnknownPlatform
  }

  /** `PlatformDetector.isSupported`: some pattern occurs in the URL. */
  predicate IsSupported(url: String): (b: bool)
    ensures b <==> exists p :: ContainsMatch(p, url)
  {
    DetectPlatform(url) != UnknownPlatform
  }

  /** Every pattern is in the list `DetectPlatform` walks. */
  lemma {:induction false} PatternsListed()
    ensures forall p :: p in PlatformPatterns
  {
    forall p ensures p in PlatformPatterns {
      assert p == PlatformPatterns[if p.ShortsPattern? then 0 else if p.TikTokPattern? then 1 else 2];
    }
  }

  /** Each pattern stands for its own known platform. */
  lemma {:induction false} PatternPlatformsDistinct(a: PlatformPattern, b: PlatformPattern)
    ensures PatternPlatform(a) != UnknownPlatform
    ensures PatternPlatform(a) == PatternPlatform(b) <==> a == b
    ensures a in PlatformPatterns
  {
  }

  /** The platform found is that of a pattern occurring in the URL with no
      earlier pattern occurring; no pattern occurring means unknown. */
  lemma {:induction false} DetectPlatformFirst(url: String)
    ensures DetectPlatform(url) == UnknownPlatform <==> forall k | 0 <= k < |PlatformPatterns| :: !ContainsMatch(PlatformPatterns[k], url)
    ensures DetectPlatform(url) == YouTubeShorts <==> ContainsMatch(ShortsPattern, url)
    ensures DetectPlatform(url) == TikTok <==> !ContainsMatch(ShortsPattern, url) && ContainsMatch(TikTokPattern, url)
    ensures DetectPlatform(url) == InstagramReels <==>
      !ContainsMatch(ShortsPattern, url) && !ContainsMatch(TikTokPattern, url) && ContainsMatch(ReelsPattern, url)
    ensures IsSupported(url) <==> exists k | 0 <= k < |PlatformPatterns| :: ContainsMatch(PlatformPatterns[k], url)
  {
    var r := FirstMatching(PlatformPatterns, url, 0);
    if r.Some? {
      assert ContainsMatch(PlatformPatterns[r.value], url);
    }
  }

  /** A literal written in `u` (in any case, with any of the characters
      that fold onto its letters) is found where `u` stands. */
  lemma {:induction false} LiteralIn(a: String, u: String, lit: String, b: String)
    requires |u| == |lit| && forall k | 0 <= k < |lit| :: FoldChar(u[k]) == lit[k]
    ensures LiteralAt(a + u + b, |a|, lit)
  {
    var s := a + u + b;
    forall k | 0 <= k < |lit| ensures FoldChar(s[|a| + k]) == lit[k] {
      assert s[|a| + k] == u[k];
    }
  }

  /** A text holding a Shorts prefix and a `[\w-]` character matches. */
  lemma {:induction false} ShortsIn(a: String, k: nat, id: String)
    requires k < |ShortsPrefixes| && |id| > 0 && IsSlugChar(id[0])
    ensures ContainsMatch(ShortsPattern, a + ShortsPrefixes[k] + id)
  {
    var s := a + ShortsPrefixes[k] + id;
    ShortsPrefixFolded(k);
    LiteralIn(a, ShortsPrefixes[k], ShortsPrefixes[k], id);
    assert s[|a| + |ShortsPrefixes[k]|] == id[0];
    assert PrefixThenSlug(s, |a|, ShortsPrefixes[k]);
  }

  /** Every Shorts prefix is written in lower case. */
  lemma {:induction false} ShortsPrefixFolded(k: nat)
    requires k < |ShortsPrefixes|
    ensures forall j | 0 <= j < |ShortsPrefixes[k]| :: FoldChar(ShortsPrefixes[k][j]) == ShortsPrefixes[k][j]
  {
    var p := ShortsPrefixes[k];
    if k == 0 {
      assert p == "http://youtube.com/shorts/";
    } else if k == 1 {
      assert p == "https://youtube.com/shorts/";
    } else if k == 2 {
      assert p == "http://www.youtube.com/shorts/";
    } else {
      assert p == "https://www.youtube.com/shorts/";
    }
  }

  /** A text holding `https://`, a host part without line terminators and
      `.tiktok.com/` matches. */
  lemma {:induction false} TikTokIn(a: String, host: String, rest: String)
    requires forall k | 0 <= k < |host| :: !IsLineTerminator(host[k])
    ensures ContainsMatch(TikTokPattern, a + "https://" + host + ".tiktok.com/" + rest)
  {
    var s := a + "https://" + host + ".tiktok.com/" + rest;
    LiteralIn(a, "https://", "https://", host + ".tiktok.com/" + rest);
    assert s == a + "https://" + (host + ".tiktok.com/" + rest);
    LiteralIn(a + "https://" + host, ".tiktok.com/", ".tiktok.com/", rest);
    forall k | |a| + 8 <= k < |a| + 8 + |host| ensures !IsLineTerminator(s[k]) {
      assert s[k] == host[k - |a| - 8];
    }
    assert TikTokSpan(s, |a|, |a| + 8 + |host|);
  }

  /** A text holding a reels prefix and a `[\w-]` character matches. */
  lemma {:induction false} ReelsIn(a: String, k: nat, id: String)
    requires k < |ReelsPrefixes| && |id| > 0 && IsSlugChar(id[0])
    ensures ContainsMatch(ReelsPattern, a + ReelsPrefixes[k] + id)
  {
    var s := a + ReelsPrefixes[k] + id;
    LiteralIn(a, ReelsPrefixes[k], ReelsPrefixes[k], id);
    assert s[|a| + |ReelsPrefixes[k]|] == id[0];
    assert PrefixThenSlug(s, |a|, ReelsPrefixes[k]);
  }

  /** A literal holding a letter that no character of the text folds onto
      occurs nowhere in it. */
  lemma {:induction false} LacksLetter(s: String, c: char, lit: String, m: nat)
    requires m < |lit| && lit[m] == c
    requires forall j | 0 <= j < |s| :: FoldChar(s[j]) != c
    ensures forall i: nat :: !LiteralAt(s, i, lit)
  {
    forall i: nat ensures !LiteralAt(s, i, lit) {
      if i + |lit| <= |s| {
        assert FoldChar(s[i + m]) != lit[m];
      }
    }
  }

  /** No character of `s` folds onto the small letter `c` when `s` holds
      neither `c`, its capital, nor any of `others`, the non-ASCII
      characters folding onto `c`. */
  lemma {:induction false} NoFoldOnto(s: String, c: char, others: set<char>)
    requires 'a' <= c <= 'z'
    requires forall d :: FoldChar(d) == c ==> d == c || d == UpperChar(c) || d in others
    requires c !in s && UpperChar(c) !in s
    requires forall d | d in others :: d !in s
    ensures forall j | 0 <= j < |s| :: FoldChar(s[j]) != c
  {
    forall j | 0 <= j < |s| ensures FoldChar(s[j]) != c {
      assert s[j] in s;
    }
  }

  /** Without a `y` no Shorts link, without a `k` (or a Kelvin sign) no
      TikTok link, and without a `g` no reels link can occur. */
  lemma {:induction false} NoMatchWithout(s: String)
    ensures 'y' !in s && 'Y' !in s ==> !ContainsMatch(ShortsPattern, s)
    ensures 'k' !in s && 'K' !in s && '\U{212A}' !in s ==> !ContainsMatch(TikTokPattern, s)
    ensures 'g' !in s && 'G' !in s ==> !ContainsMatch(ReelsPattern, s)
  {
    if 'y' !in s && 'Y' !in s {
      forall d | FoldChar(d) == 'y' ensures d == 'y' || d == UpperChar('y') || d in {} {
        FoldCharOnto(d, 'y');
      }
      NoFoldOnto(s, 'y', {});
      forall k | 0 <= k < |ShortsPrefixes| ensures forall i: nat :: !LiteralAt(s, i, ShortsPrefixes[k]) {
        var m := if k % 2 == 0 then 7 else 8;
        var m' := if k < 2 then m else m + 4;
        LacksLetter(s, 'y', ShortsPrefixes[k], m');
      }
    }
    if 'k' !in s && 'K' !in s && '\U{212A}' !in s {
      forall d | FoldChar(d) == 'k' ensures d == 'k' || d == UpperChar('k') || d in {'\U{212A}'} {
        FoldCharOnto(d, 'k');
      }
      NoFoldOnto(s, 'k', {'\U{212A}'});
      LacksLetter(s, 'k', ".tiktok.com/", 3);
    }
    if 'g' !in s && 'G' !in s {
      forall d | FoldChar(d) == 'g' ensures d == 'g' || d == UpperChar('g') || d in {} {
        FoldCharOnto(d, 'g');
      }
      NoFoldOnto(s, 'g', {});
      forall k | 0 <= k < |ReelsPrefixes| ensures forall i: nat :: !LiteralAt(s, i, ReelsPrefixes[k]) {
        LacksLetter(s, 'g', ReelsPrefixes[k], 17);
      }
    }
  }

  /** A Shorts link is detected as Shorts, whatever follows it. */
  lemma {:induction false} ShortsDetected(a: String, k: nat, id: String)
    requires k < |ShortsPrefixes| && |id| > 0 && IsSlugChar(id[0])
    ensures DetectPlatform(a + ShortsPrefixes[k] + id) == YouTubeShorts
  {
    ShortsIn(a, k, id);
    DetectPlatformFirst(a + ShortsPrefixes[k] + id);
  }

  /** Letter case does not matter: an upper-case Shorts link matches. */
  lemma {:induction false} ShortsUpperCase(id: String)
    requires |id| > 0 && IsSlugChar(id[0])
    ensures ContainsMatch(ShortsPattern, "HTTPS://WWW.YOUTUBE.COM/SHORTS/" + id)
  {
    var upper := "HTTPS://WWW.YOUTUBE.COM/SHORTS/" + id;
    LiteralIn([], "HTTPS://WWW.YOUTUBE.COM/SHORTS/", ShortsPrefixes[3], id);
    assert [] + "HTTPS://WWW.YOUTUBE.COM/SHORTS/" + id == upper;
    assert upper[31] == id[0];
    assert PrefixThenSlug(upper, 0, ShortsPrefixes[3]);
  }

  /** Unicode case folding reaches past ASCII: a TikTok domain spelled
      with Kelvin signs in place of its `k`s still matches. */
  lemma {:induction false} TikTokKelvinSign(host: String, rest: String)
    requires forall k | 0 <= k < |host| :: !IsLineTerminator(host[k])
    ensures ContainsMatch(TikTokPattern, "https://" + host + ".ti\U{212A}to\U{212A}.com/" + rest)
  {
    var u := ".ti\U{212A}to\U{212A}.com/";
    var s := "https://" + host + u + rest;
    LiteralIn([], "https://", "https://", host + u + rest);
    assert [] + "https://" + (host + u + rest) == s;
    LiteralIn("https://" + host, u, ".tiktok.com/", rest);
    forall k | 8 <= k < 8 + |host| ensures !IsLineTerminator(s[k]) {
      assert s[k] == host[k - 8];
    }
    assert TikTokSpan(s, 0, 8 + |host|);
  }

  /** A Shorts link that comes after a TikTok link in the same text is
      still detected as Shorts: the patterns are tried in order, not
      positions. */
  lemma {:induction false} ShortsBeforeTikTok(host: String, id: String)
    requires forall k | 0 <= k < |host| :: !IsLineTerminator(host[k])
    requires |id| > 0 && IsSlugChar(id[0])
    ensures var url := "https://" + host + ".tiktok.com/" + " " + ShortsPrefixes[1] + id;
      ContainsMatch(TikTokPattern, url) && DetectPlatform(url) == YouTubeShorts
  {
    TikTokAhead(host, ShortsPrefixes[1], id);
    ShortsDetected("https://" + host + ".tiktok.com/" + " ", 1, id);
  }

  /** A TikTok link followed by a space and anything else matches. */
  lemma {:induction false} TikTokAhead(host: String, mid: String, rest: String)
    requires forall k | 0 <= k < |host| :: !IsLineTerminator(host[k])
    ensures ContainsMatch(TikTokPattern, "https://" + host + ".tiktok.com/" + " " + mid + rest)
  {
    TikTokIn([], host, " " + mid + rest);
    Regroup("https://", host, ".tiktok.com/", " ", mid, rest);
  }

  /** Concatenation regrouped, with the literals of a link kept whole. */
  lemma {:induction false} Regroup(h: String, host: String, t: String, a: String, b: String, c: String)
    ensures [] + h + host + t + (a + b + c) == h + host + t + a + b + c
  {
  }

  /** A TikTok link with no `y` in it is detected as TikTok. */
  lemma {:induction false} TikTokDetected(host: String, rest: String)
    requires forall k | 0 <= k < |host| :: !IsLineTerminator(host[k])
    requires 'y' !in host + rest && 'Y' !in host + rest
    ensures DetectPlatform("https://" + host + ".tiktok.com/" + rest) == TikTok
  {
    var t := "https://" + host + ".tiktok.com/" + rest;
    TikTokIn([], host, rest);
    assert [] + "https://" + host + ".tiktok.com/" + rest == t;
    AbsentFromTikTok(host, rest, 'y');
    AbsentFromTikTok(host, rest, 'Y');
    NoMatchWithout(t);
    DetectPlatformFirst(t);
  }

  /** A `y` absent from the host and the rest is absent from the link. */
  lemma {:induction false} AbsentFromTikTok(host: String, rest: String, c: char)
    requires (c == 'y' || c == 'Y') && c !in host + rest
    ensures c !in "https://" + host + ".tiktok.com/" + rest
  {
    assert c !in host by {
      forall j | 0 <= j < |host| ensures host[j] != c {
        assert (host + rest)[j] == host[j];
      }
    }
    assert c !in rest by {
      forall j | 0 <= j < |rest| ensures rest[j] != c {
        assert (host + rest)[|host| + j] == rest[j];
      }
    }
    var scheme := "https://";
    var domain := ".tiktok.com/";
    assert c !in scheme by {
      forall j | 0 <= j < |scheme| ensures scheme[j] != c { }
    }
    assert c !in domain by {
      forall j | 0 <= j < |domain| ensures domain[j] != c { }
    }
    AbsentFromConcat(scheme, host, c);
    AbsentFromConcat(scheme + host, domain, c);
    AbsentFromConcat(scheme + host + domain, rest, c);
  }

  /** A character in neither part is not in their concatenation. */
  lemma {:induction false} AbsentFromConcat(a: String, b: String, c: char)
    requires c !in a && c !in b
    ensures c !in a + b
  {
    forall j | 0 <= j < |a + b| ensures (a + b)[j] != c {
      if j < |a| {
        assert (a + b)[j] == a[j] && a[j] in a;
      } else {
        assert (a + b)[j] == b[j - |a|] && b[j - |a|] in b;
      }
    }
  }

  /** The reels prefixes hold no `y` and no `k`, in either case, and no
      Kelvin sign. */
  lemma {:induction false} ReelsPrefixLacks(k: nat, c: char)
    requires k < |ReelsPrefixes| && (c == 'y' || c == 'Y' || c == 'k' || c == 'K' || c == '\U{212A}')
    ensures c !in ReelsPrefixes[k]
  {
    var p := ReelsPrefixes[k];
    forall j | 0 <= j < |p| ensures p[j] != c {
    }
  }

  /** A reels link whose id holds no `y`, no `k` and no Kelvin sign (any of
      which could spell a TikTok or Shorts link further on) is detected as
      reels. */
  lemma {:induction false} ReelsDetected(k: nat, id: String)
    requires k < |ReelsPrefixes| && |id| > 0 && IsSlugChar(id[0])
    requires 'y' !in id && 'Y' !in id && 'k' !in id && 'K' !in id && '\U{212A}' !in id
    ensures DetectPlatform(ReelsPrefixes[k] + id) == InstagramReels
  {
    var r := ReelsPrefixes[k] + id;
    ReelsIn([], k, id);
    assert [] + ReelsPrefixes[k] + id == r;
    var p := ReelsPrefixes[k];
    ReelsPrefixLacks(k, 'y');
    ReelsPrefixLacks(k, 'Y');
    ReelsPrefixLacks(k, 'k');
    ReelsPrefixLacks(k, 'K');
    ReelsPrefixLacks(k, '\U{212A}');
    AbsentFromConcat(p, id, '\U{212A}');
    AbsentFromConcat(p, id, 'y');
    AbsentFromConcat(p, id, 'Y');
    AbsentFromConcat(p, id, 'k');
    AbsentFromConcat(p, id, 'K');
    NoMatchWithout(r);
    DetectPlatformFirst(r);
  }
}

=== FILE: ytdlp_service.dfy ===
/** `YtDlpVideoService`: downloading a short video with the yt-dlp
    program. The processes it starts, the file system and the random file
    name are parameters: a process is given by its outcome for the command
    it is run with, and the download step reports the file it left. */
module YtDlpService {
  import opened Wrappers
  import opened KText
  import opened YtDlpModels

  const BytesPerKb: int := 1024
  const BytesPerMb: int := BytesPerKb * 1024
  const BytesPerGb: int := BytesPerMb * 1024
  const CommandNotFoundExitCode: int := 127

  // ---------------------------------------------------------------------
  // sizes

  /** `endsWith(letter, ignoreCase = true)` for an upper-case ASCII letter.
      (The Kelvin sign also ends a string ending in `K` ignoring case, but
      such a string is not a number in any branch, so it is left as the
      plain case.) */
  predicate EndsWithLetter(s: String, letter: char)
    requires 'A' <= letter <= 'Z'
  {
    |s| > 0 && (s[|s| - 1] == letter || s[|s| - 1] == LowerChar(letter))
  }

  /** A number times a unit, wrapped to a `Long` as the JVM multiplies. */
  function Scaled(digits: String, unit: int): (r: Option<int>)
    ensures r.Some? <==> ParseLong(digits).Some?
    ensures r.Some? ==> r.value == WrapLong(ParseLong(digits).value * unit)
  {
    match ParseLong(digits)
    case None => None
    case Some(n) => Some(WrapLong(n * unit))
  }

  /** `String.toBytes`: a count of bytes, kilobytes, megabytes or gigabytes
      by its last letter; `None` is the `NumberFormatException` of `toLong`.
      Both case variants of the suffix are removed, upper first. */
  function ToBytes(s: String): (r: Option<int>)
    ensures r.Some? ==> LongMin <= r.value <= LongMax
  {
    if EndsWithLetter(s, 'G') then Scaled(RemoveSuffix(RemoveSuffix(s, "G"), "g"), BytesPerGb)
    else if EndsWithLetter(s, 'M') then Scaled(RemoveSuffix(RemoveSuffix(s, "M"), "m"), BytesPerMb)
    else if EndsWithLetter(s, 'K') then Scaled(RemoveSuffix(RemoveSuffix(s, "K"), "k"), BytesPerKb)
    else ParseLong(s)
  }

  /** A product that fits in a `Long` is not changed by wrapping. */
  lemma {:induction false} WrapLongFits(x: int)
    requires LongMin <= x <= LongMax
    ensures WrapLong(x) == x
  {
  }

  /** The last character of a number's text is a digit. */
  lemma {:induction false} IntToStringEndsInDigit(n: int)
    ensures IsDigit(IntToString(n)[|IntToString(n)| - 1])
  {
    var d := NatToString(if n < 0 then -n else n);
    assert d[|d| - 1] in d;
  }

  /** Reading a number's text gives the number. */
  lemma {:induction false} ToBytesOfNumber(n: int)
    requires LongMin <= n <= LongMax
    ensures ToBytes(IntToString(n)) == Some(n)
  {
    IntToStringEndsInDigit(n);
    ParseLongRoundTrip(n);
  }

  /** Reading a number followed by a unit letter of either case gives the
      number times the unit, wrapped to a `Long`. */
  lemma {:induction false} ToBytesOfUnit(n: int, letter: char)
    requires LongMin <= n <= LongMax
    requires letter == 'K' || letter == 'M' || letter == 'G'
    ensures var unit := if letter == 'K' then BytesPerKb else if letter == 'M' then BytesPerMb else BytesPerGb;
      ToBytes(IntToString(n) + [letter]) == ToBytes(IntToString(n) + [LowerChar(letter)]) == Some(WrapLong(n * unit))
  {
    var d := IntToString(n);
    var unit := if letter == 'K' then BytesPerKb else if letter == 'M' then BytesPerMb else BytesPerGb;
    IntToStringEndsInDigit(n);
    ParseLongRoundTrip(n);
    ToBytesWithSuffix(d, letter, letter, unit);
    ToBytesWithSuffix(d, LowerChar(letter), letter, unit);
  }

  /** A number's text followed by either case of a unit letter is read as
      that number scaled by the unit. */
  lemma {:induction false} ToBytesWithSuffix(d: String, c: char, letter: char, unit: int)
    requires |d| > 0 && IsDigit(d[|d| - 1])
    requires c == letter || c == LowerChar(letter)
    requires || (letter == 'G' && unit == BytesPerGb)
             || (letter == 'M' && unit == BytesPerMb)
             || (letter == 'K' && unit == BytesPerKb)
    ensures ToBytes(d + [c]) == Scaled(d, unit)
  {
    var s := d + [c];
    assert s[|s| - 1] == c;
    UnitSuffix(d, letter, [letter], [LowerChar(letter)]);
    if letter == 'G' {
      assert EndsWithLetter(s, 'G');
    } else if letter == 'M' {
      assert !EndsWithLetter(s, 'G') && EndsWithLetter(s, 'M');
    } else {
      assert !EndsWithLetter(s, 'G') && !EndsWithLetter(s, 'M') && EndsWithLetter(s, 'K');
    }
  }

  /** Removing either case of a unit letter from a number followed by it
      gives the number back. */
  lemma {:induction false} UnitSuffix(d: String, letter: char, upper: String, lower: String)
    requires 'A' <= letter <= 'Z' && upper == [letter] && lower == [LowerChar(letter)]
    requires |d| > 0 && IsDigit(d[|d| - 1])
    ensures RemoveSuffix(RemoveSuffix(d + upper, upper), lower) == d
    ensures RemoveSuffix(RemoveSuffix(d + lower, upper), lower) == d
  {
    assert (d + upper)[..|d + upper| - 1] == d;
    assert (d + lower)[..|d + lower| - 1] == d;
    assert !EndsWith(d, lower) by {
      assert d[|d| - 1] != LowerChar(letter);
    }
  }

  /** The default limit of 50M is 50 MiB, and the unit letters are tried
      from the end: `5gG` is read as 5 GiB. */
  lemma {:induction false} ToBytesDefaults()
    ensures ToBytes("50M") == Some(50 * 1024 * 1024)
    ensures ToBytes("5gG") == Some(5 * 1024 * 1024 * 1024)
  {
    assert RemoveSuffix(RemoveSuffix("50M", "M"), "m") == "50";
    assert ParseLong("50") == Some(50) by {
      assert DigitsValue("50") == DigitsValue("5") * 10 + 0;
    }
    assert RemoveSuffix(RemoveSuffix("5gG", "G"), "g") == "5";
    assert ParseLong("5") == Some(5);
  }

  // ---------------------------------------------------------------------
  // errors and processes

  /** Why the installation check failed. */
  datatype InstallFailure =
    | ExecutableNotFound
    | VersionCheckFailed(error: String)
    | CheckRaised(cause: String)

  /** `VideoException`, with `NumberFormat` for a size that is not a number
      and `ProcessFailed` for a process that could not be started. */
  datatype VideoError =
    | UnsupportedVideoUrl(url: String)
    | VideoProcessing(message: String)
    | VideoFileTooLarge(size: int, maxSize: int)
    | VideoProcessingTimeout(timeoutMillis: nat)
    | CookiesFileNotFound(cookiesFile: String)
    | YtDlpNotInstalled(executablePath: String, reason: InstallFailure)
    | UnsupportedPlatform(platform: String)
    | NumberFormat(input: String)
    | ProcessFailed(message: String)

  /** What running a command comes to: it could not start, it outran the
      timeout, or it finished with an exit code and its two streams. */
  datatype ProcessOutcome =
    | StartFailed(message: String)
    | TimedOut
    | Finished(exitCode: int, output: String, error: String)

  /** The processes of the world the service runs in. */
  type Runner = seq<String> -> ProcessOutcome

  /** `YtDlpProcessExecutor.execute`. */
  function Execute(config: YtDlpConfig, outcome: ProcessOutcome): (r: Result<YtDlpResult, VideoError>)
    ensures r.Success? <==> outcome.Finished?
    ensures r.Success? ==> r.value.exitCode == outcome.exitCode && (r.value.success <==> outcome.exitCode == 0)
  {
    match outcome
    case StartFailed(message) => Failure(ProcessFailed(message))
    case TimedOut => Failure(VideoProcessingTimeout(config.timeoutMillis))
    case Finished(code, output, error) => Success(YtDlpResult(code == 0, code, output, error))
  }

  // ---------------------------------------------------------------------
  // commands

  const ShortsFormat: String := "bestvideo[height<=1080]+bestaudio"
  const SortOrder: String := "proto,ext:mp4:m4a,res,br"

  /** The arguments that choose formats for a platform. */
  function FormatArguments(platform: VideoPlatform): (r: Option<seq<String>>)
    ensures r.None? <==> platform == UnknownPlatform
  {
    match platform
    case YouTubeShorts => Some(["--format", ShortsFormat, "-S", SortOrder])
    case TikTok => Some(["-S", SortOrder])
    case InstagramReels => Some(["-S", SortOrder])
    case UnknownPlatform => None
  }

  /** `buildDownloadCommand`. */
  function DownloadCommand(config: YtDlpConfig, url: String, outputPath: String): (r: Result<seq<String>, VideoError>)
    ensures r.Failure? <==> DetectPlatform(url) == UnknownPlatform
  {
    match FormatArguments(DetectPlatform(url))
    case None => Failure(UnsupportedPlatform("Unsupported platform: " + PlatformName(UnknownPlatform) + " for URL: " + url))
    case Some(formats) =>
      Success([config.executablePath, "--output", outputPath] + formats
              + ["--max-filesize", config.maxFileSize, "--cookies", config.cookiesFile, url])
  }

  /** `buildInfoCommand`. */
  function InfoCommand(config: YtDlpConfig, url: String): (r: seq<String>)
    ensures |r| == 6 && r[0] == config.executablePath && r[|r| - 1] == url
  {
    [config.executablePath, "--dump-json", "--no-download", "--cookies", config.cookiesFile, url]
  }

  /** The command that asks for the version. */
  function VersionCommand(config: YtDlpConfig): seq<String> {
    [config.executablePath, "--version"]
  }

  /** A download command starts with the program and the output file and
      ends with the size limit, the cookies and the URL; only a Shorts link
      asks for a format. The information command shares its start and its
      end, and neither names an output file or asks for a download in the
      other's place. */
  lemma {:induction false} CommandShapes(config: YtDlpConfig, url: String, outputPath: String)
    ensures var r := DownloadCommand(config, url, outputPath);
      r.Success? ==>
        && |r.value| >= 10
        && r.value[..3] == [config.executablePath, "--output", outputPath]
        && r.value[|r.value| - 5..] == ["--max-filesize", config.maxFileSize, "--cookies", config.cookiesFile, url]
        && ("--format" in r.value[3..|r.value| - 5] <==> DetectPlatform(url) == YouTubeShorts)
    ensures DownloadCommand(config, url, outputPath).Failure? ==>
      DownloadCommand(config, url, outputPath).error.UnsupportedPlatform?
    ensures var info := InfoCommand(config, url);
      info[..1] == [config.executablePath] && info[|info| - 3..] == ["--cookies", config.cookiesFile, url]
      && info[1..3] == ["--dump-json", "--no-download"]
  {
    var r := DownloadCommand(config, url, outputPath);
    if r.Success? {
      var formats := FormatArguments(DetectPlatform(url)).value;
      assert r.value[3..|r.value| - 5] == formats;
      if DetectPlatform(url) != YouTubeShorts {
        assert formats == ["-S", SortOrder];
        assert "--format" != "-S" && "--format" != SortOrder;
      } else {
        assert formats[0] == "--format";
      }
    }
  }

  // ---------------------------------------------------------------------
  // installation check

  /** `checkYtDlpInstallation`: the trimmed version the program prints, or
      the reason it is not usable. */
  function CheckInstallation(config: YtDlpConfig, outcome: ProcessOutcome): (r: Result<String, VideoError>)
    ensures r.Success? <==> outcome.Finished? && outcome.exitCode == 0
    ensures r.Failure? ==> r.error.YtDlpNotInstalled? && r.error.executablePath == config.executablePath
  {
    match outcome
    case StartFailed(message) => Failure(YtDlpNotInstalled(config.executablePath, CheckRaised(message)))
    case TimedOut => Failure(YtDlpNotInstalled(config.executablePath, CheckRaised("timeout")))
    case Finished(code, output, error) =>
      if code != 0 then
        var reason :=
          if Contains(error, "command not found") || Contains(error, "is not recognized")
             || code == CommandNotFoundExitCode
          then ExecutableNotFound
          else VersionCheckFailed(error);
        Failure(YtDlpNotInstalled(config.executablePath, reason))
      else Success(Trim(output))
  }

  /** A finished check that fails reports the program missing exactly when
      its error text says so or it exits with 127; otherwise it carries
      the error text. */
  lemma {:induction false} CheckInstallationReasons(config: YtDlpConfig, code: int, output: String, error: String)
    requires code != 0
    ensures var r := CheckInstallation(config, Finished(code, output, error));
      r.Failure? && r.error.YtDlpNotInstalled? &&
      (r.error.reason == ExecutableNotFound <==>
        Contains(error, "command not found") || Contains(error, "is not recognized") || code == 127) &&
      (r.error.reason != ExecutableNotFound ==> r.error.reason == VersionCheckFailed(error))
  {
  }

  /** `ensureYtDlpInstalled`: the check runs only while none has succeeded;
      the commands run and whether a check has now succeeded come back
      with the outcome. */
  datatype Ensured = Ensured(result: Result<(), VideoError>, commands: seq<seq<String>>, checked: bool)

  function EnsureInstalled(config: YtDlpConfig, run: Runner, checked: bool): (e: Ensured)
    ensures checked ==> e == Ensured(Success(()), [], true)
    ensures !checked ==> e.commands == [VersionCommand(config)]
    ensures e.checked <==> e.result.Success?
  {
    if checked then Ensured(Success(()), [], true)
    else
      match CheckInstallation(config, run(VersionCommand(config)))
      case Success(_) => Ensured(Success(()), [VersionCommand(config)], true)
      case Failure(err) => Ensured(Failure(err), [VersionCommand(config)], false)
  }

  // ---------------------------------------------------------------------
  // video information

  /** `createFallbackVideoInfo`: only a title, the configured format and the
      platform's name in lower case are known. */
  function FallbackInfo(config: YtDlpConfig, url: String): (info: YtDlpVideoInfo)
    ensures info.title == Some("Unknown") && info.format == Some(config.outputFormat)
    ensures info.extractor == Some(Lower(PlatformName(DetectPlatform(url))))
    ensures info.filesize.None? && info.duration.None?
  {
    YtDlpVideoInfo(None, Some("Unknown"), None, None, Some(config.outputFormat), None, None, None, None,
                   Some(Lower(PlatformName(DetectPlatform(url)))))
  }

  /** `getVideoInfo` once installation is known: the information printed by
      the program, or the fallback when the program fails or prints
      something that does not decode; a process that does not finish is a
      failure. */
  function GetVideoInfo(config: YtDlpConfig, decode: String -> Option<YtDlpVideoInfo>, outcome: ProcessOutcome, url: String)
    : (r: Result<YtDlpVideoInfo, VideoError>)
    ensures r.Success? <==> outcome.Finished?
    ensures outcome.Finished? && (outcome.exitCode != 0 || decode(outcome.output).None?) ==>
      r == Success(FallbackInfo(config, url))
    ensures outcome.Finished? && outcome.exitCode == 0 && decode(outcome.output).Some? ==>
      r == Success(decode(outcome.output).value)
  {
    match Execute(config, outcome)
    case Failure(err) => Failure(err)
    case Success(result) =>
      if !result.success then Success(FallbackInfo(config, url))
      else
        match decode(result.output)
        case None => Success(FallbackInfo(config, url))
        case Some(info) => Success(info)
  }

  /** `validateFileSize`: a known size larger than the configured maximum
      is refused, and so is a maximum that is not a number; an unknown size
      always passes, without reading the maximum. */
  function ValidateFileSize(filesize: Option<int>, maxFileSize: String): (r: Option<VideoError>)
    ensures filesize.None? ==> r.None?
    ensures r.None? <==> filesize.None? || (ToBytes(maxFileSize).Some? && filesize.value <= ToBytes(maxFileSize).value)
  {
    match filesize
    case None => None
    case Some(size) =>
      match ToBytes(maxFileSize)
      case None => Some(NumberFormat(maxFileSize))
      case Some(maxBytes) => if size > maxBytes then Some(VideoFileTooLarge(size, maxBytes)) else None
  }

  /** Under the default maximum, a size passes exactly when it is at most
      50 MiB. */
  lemma {:induction false} ValidateDefaultSize(executablePath: String, cookiesFile: String, size: int)
    ensures ValidateFileSize(Some(size), DefaultConfig(executablePath, cookiesFile).maxFileSize).None?
        <==> size <= 50 * 1024 * 1024
    ensures size > 50 * 1024 * 1024 ==>
      ValidateFileSize(Some(size), DefaultConfig(executablePath, cookiesFile).maxFileSize)
        == Some(VideoFileTooLarge(size, 50 * 1024 * 1024))
  {
    ToBytesDefaults();
  }

  // ---------------------------------------------------------------------
  // downloadVideo

  /** What the world answers during one download: the processes, the JSON
      decoder for the information, whether the cookies file exists, the
      random file name, and the length of the file the download left, if
      it left one. */
  datatype World = World(
    run: Runner,
    decodeInfo: String -> Option<YtDlpVideoInfo>,
    cookiesExist: bool,
    fileName: String,
    fileLength: Option<int>)

  /** `VideoMetadata`. */
  datatype VideoMetadata = VideoMetadata(
    title: Option<String>, durationSeconds: Option<int>, format: Option<String>,
    size: Option<int>, platform: VideoPlatform)

  /** `VideoDownloadResult`. */
  datatype VideoDownloadResult = VideoDownloadResult(file: String, metadata: VideoMetadata, timeToLiveMillis: nat)

  /** The outcome of a download, the commands it ran in order, and whether
      an installation check has succeeded by its end. */
  datatype Download = Download(result: Result<VideoDownloadResult, VideoError>, commands: seq<seq<String>>, checked: bool)

  /** `createVideoFile`: a random name with the output format's extension,
      in the video folder. */
  function VideoFile(config: YtDlpConfig, name: String): (path: String)
    ensures EndsWith(path, "." + config.outputFormat)
  {
    var path := config.videoPath + "/" + name + "." + config.outputFormat;
    assert path == (config.videoPath + "/" + name) + ("." + config.outputFormat);
    path
  }

  /** The steps after the information is known: the size check, the
      download itself and the file it should leave. */
  function Fetch(config: YtDlpConfig, w: World, url: String, file: String, info: YtDlpVideoInfo)
    : (r: (Result<VideoDownloadResult, VideoError>, seq<seq<String>>))
    ensures r.0.Success? ==> r.0.value.file == file && r.0.value.metadata.platform == DetectPlatform(url)
  {
    match ValidateFileSize(info.filesize, config.maxFileSize)
    case Some(err) => (Failure(err), [])
    case None =>
      match DownloadCommand(config, url, file)
      case Failure(err) => (Failure(err), [])
      case Success(command) =>
        match Execute(config, w.run(command))
        case Failure(err) => (Failure(err), [command])
        case Success(result) =>
          if !result.success then
            (Failure(VideoProcessing("yt-dlp download failed: " + result.error)), [command])
          else if w.fileLength.None? then
            (Failure(VideoProcessing("Video file not created after download")), [command])
          else
            var metadata := VideoMetadata(info.title, info.duration, info.format, w.fileLength, DetectPlatform(url));
            (Success(VideoDownloadResult(file, metadata, config.cleanupMillis)), [command])
  }

  /** `downloadVideo`. */
  function DownloadVideo(config: YtDlpConfig, checked: bool, w: World, url: String): (d: Download)
    ensures !IsSupported(url) ==> d == Download(Failure(UnsupportedVideoUrl(url)), [], checked)
  {
    if !IsSupported(url) then Download(Failure(UnsupportedVideoUrl(url)), [], checked)
    else
      var ensured := EnsureInstalled(config, w.run, checked);
      if ensured.result.Failure? then Download(Failure(ensured.result.error), ensured.commands, ensured.checked)
      else if !w.cookiesExist then
        Download(Failure(CookiesFileNotFound(config.cookiesFile)), ensured.commands, true)
      else
        var file := VideoFile(config, w.fileName);
        var info := InfoCommand(config, url);
        match GetVideoInfo(config, w.decodeInfo, w.run(info), url)
        case Failure(err) => Download(Failure(err), ensured.commands + [info], true)
        case Success(videoInfo) =>
          var fetched := Fetch(config, w, url, file, videoInfo);
          Download(fetched.0, ensured.commands + [info] + fetched.1, true)
  }

  /** An unsupported link fails before any process runs; a supported one
      runs the version check first unless a check has already succeeded,
      and a failed check ends the download with nothing else run. */
  lemma {:induction false} DownloadChecksFirst(config: YtDlpConfig, checked: bool, w: World, url: String)
    ensures var d := DownloadVideo(config, checked, w, url);
      !IsSupported(url) ==> d.result == Failure(UnsupportedVideoUrl(url)) && d.commands == [] && d.checked == checked
    ensures var d := DownloadVideo(config, checked, w, url);
      IsSupported(url) && !checked ==> |d.commands| > 0 && d.commands[0] == VersionCommand(config)
    ensures var d := DownloadVideo(config, checked, w, url);
      checked ==> d.checked && forall k | 0 <= k < |d.commands| :: d.commands[k] != VersionCommand(config)
    ensures var d := DownloadVideo(config, checked, w, url);
      IsSupported(url) && !checked && CheckInstallation(config, w.run(VersionCommand(config))).Failure? ==>
        d.result.Failure? && d.result.error.YtDlpNotInstalled? && d.commands == [VersionCommand(config)] && !d.checked
  {
    var d := DownloadVideo(config, checked, w, url);
    if IsSupported(url) && checked {
      forall k | 0 <= k < |d.commands| ensures d.commands[k] != VersionCommand(config) {
        DownloadCommandsAfterCheck(config, w, url, k);
      }
    }
  }

  /** After a succeeded check, every command run is the information
      command or a download command, neither of which is two words long. */
  lemma {:induction false} DownloadCommandsAfterCheck(config: YtDlpConfig, w: World, url: String, k: nat)
    requires IsSupported(url)
    requires k < |DownloadVideo(config, true, w, url).commands|
    ensures |DownloadVideo(config, true, w, url).commands[k]| > 2
  {
    var d := DownloadVideo(config, true, w, url);
    var info := InfoCommand(config, url);
    if w.cookiesExist {
      var file := VideoFile(config, w.fileName);
      match GetVideoInfo(config, w.decodeInfo, w.run(info), url)
      case Failure(_) =>
        assert d.commands == [info];
      case Success(videoInfo) =>
        var fetched := Fetch(config, w, url, file, videoInfo);
        assert d.commands == [info] + fetched.1;
        if k > 0 {
          FetchCommands(config, w, url, file, videoInfo);
          assert d.commands[k] == fetched.1[k - 1];
        }
    }
  }

  /** The commands `Fetch` runs are the download command, or none. */
  lemma {:induction false} FetchCommands(config: YtDlpConfig, w: World, url: String, file: String, info: YtDlpVideoInfo)
    ensures var f := Fetch(config, w, url, file, info);
      f.1 == [] || (DownloadCommand(config, url, file).Success? && f.1 == [DownloadCommand(config, url, file).value])
    ensures DownloadCommand(config, url, file).Success? ==> |DownloadCommand(config, url, file).value| >= 10
  {
    CommandShapes(config, url, file);
  }

  /** A download that succeeds has run the information command and then
      the download command last, for the link's own known platform, kept a
      known size within the limit, and hands over the file the random name
      gave, to be removed after the cleanup delay. */
  lemma {:induction false} DownloadSucceeds(config: YtDlpConfig, checked: bool, w: World, url: String)
    requires DownloadVideo(config, checked, w, url).result.Success?
    ensures var d := DownloadVideo(config, checked, w, url);
      var r := d.result.value;
      && IsSupported(url) && w.cookiesExist && d.checked
      && r.metadata.platform == DetectPlatform(url) && r.metadata.platform != UnknownPlatform
      && r.file == VideoFile(config, w.fileName)
      && r.timeToLiveMillis == config.cleanupMillis
      && r.metadata.size == w.fileLength && w.fileLength.Some?
      && |d.commands| >= 2
      && d.commands[|d.commands| - 2] == InfoCommand(config, url)
      && d.commands[|d.commands| - 1] == DownloadCommand(config, url, r.file).value
  {
    var d := DownloadVideo(config, checked, w, url);
    var ensured := EnsureInstalled(config, w.run, checked);
    var file := VideoFile(config, w.fileName);
    var info := InfoCommand(config, url);
    var videoInfo := GetVideoInfo(config, w.decodeInfo, w.run(info), url).value;
    var fetched := Fetch(config, w, url, file, videoInfo);
    assert d.result == fetched.0;
    assert fetched.1 == [DownloadCommand(config, url, file).value];
    assert d.commands == ensured.commands + [info] + fetched.1;
  }

  /** A download whose information reports a size above the limit fails
      with that size and runs no download command. */
  lemma {:induction false} DownloadTooLarge(config: YtDlpConfig, checked: bool, w: World, url: String, size: int, maxBytes: int)
    requires IsSupported(url) && (checked || CheckInstallation(config, w.run(VersionCommand(config))).Success?)
    requires w.cookiesExist
    requires GetVideoInfo(config, w.decodeInfo, w.run(InfoCommand(config, url)), url).Success?
    requires GetVideoInfo(config, w.decodeInfo, w.run(InfoCommand(config, url)), url).value.filesize == Some(size)
    requires ToBytes(config.maxFileSize) == Some(maxBytes) && size > maxBytes
    ensures var d := DownloadVideo(config, checked, w, url);
      d.result == Failure(VideoFileTooLarge(size, maxBytes))
      && d.commands[|d.commands| - 1] == InfoCommand(config, url)
  {
  }
}
